=== FILE: README.md ===
# Clinic scheduler core, modelled in Dafny

This project models the rule-bearing core of a dental clinic's scheduling
application: who may open which page or action, whether an assistant is
free for an appointment, how assistants are allocated to the FIRST, SECOND
and Third slots of an appointment, the operations on the schedule table,
the profile lookup maps, pending duties, appointment reminders, the save
manager's version and conflict rules, and the helpers of the profile forms.
Each module carries the contracts and lemmas that state what the code
promises.

The modules follow the source files:

| module | file | models |
|---|---|---|
| `Rbac` | `rbac.dfy` | `security/rbac.py`: the function catalog, role defaults, stored role and user configurations, effective permissions, `has_access`, navigation filtering |
| `RbacRepo` | `rbac_repo.dfy` | `data/rbac_repo.py`: the role and user permission rows, over an abstract store |
| `Utils` | `utils.dfy` | `services/utils.py`: clock-time reading and formatting, blank tests, name keys, order-preserving de-duplication |
| `Availability` | `availability.dfy` | `services/availability.py`: an assistant's appointments, time blocks, punch gating, the availability verdict and status, the stored form of time blocks |
| `Allocation` | `allocation.dfy` | `services/allocation_engine.py`: the rules file, candidate precedence, candidate selection, slot filling, the pass over the whole schedule |
| `ScheduleOps` | `schedule_ops.dfy` | `services/schedule_ops.py`: column completion, row ids, filters, status transitions, loads, assistant removal, workload summary |
| `ProfilesCache` | `profiles_cache.dfy` | `services/profiles_cache.py`: weekday parsing, active names, department fallbacks, per-department lists, weekly-off map |
| `DutyService` | `duty.dfy` | `services/duty_service.py`: pending weekly and monthly duties, the countdown text, date reading |
| `Reminders` | `reminders.dfy` | `services/reminder_service.py`: the 15-minute due window, dismiss and snooze |
| `SaveManager` | `save.dfy` | `state/save_manager.py`: `queue_unsaved`, `save_now`, `maybe_save` and `_safe_int` |
| `ProfileForm` | `profile_form.dfy` | `components/profile_form.py`: `_idx_of`, `_parse_weekly_off_list`, the row builders |
| `Constants` | `constants.dfy` | `config/constants.py`: statuses, schedule columns, weekday names, departments, the navigation tree and role navigation |
| `Calendar` | `calendar.dfy` | the parts of Python's `datetime.date` the services use: ordinals, weekdays, `replace(day=1)`, `strptime("%Y-%m-%d")` |
| `Frames`, `Json`, `Strings`, `Seqs`, `Wrappers` | | the schedule table as columns and rows of cell texts, the values `json.load` returns, Python's string operations, sequence vocabulary, `Option` |

Conventions of the model:

- A table cell is its text rendering `str(value)`. A missing value reads as `"None"` or `"nan"`, as pandas renders it.
- Clock times are minutes of the day. Instants are whole seconds.
- Everything the code reads from outside is a parameter: the current time, new UUIDs, the rules file, the profile tables, the punch records, the content hash and what the database calls return.
- The database client behind the permission tables is a pair of maps plus flags saying whether a client is configured and whether its calls succeed.
- `safe_int` in `services/utils.py:125-129` is the same function as `_safe_int` in `state/save_manager.py`, and `SaveManager.SafeInt` models both. `_safe_int` in `components/profile_form.py:283-287` agrees with them on everything the model reads. It catches only `ValueError` and `TypeError`, so on text such as `"inf"` it raises `OverflowError` where the other two give the default; `inf` is not modelled.

## Model

| member | source | states |
|---|---|---|
| Utils.MinutesOf | services/utils.py:20 | a clock time's minute count `hour*60+minute` is below 1440 |
| Utils.FromMinutes | services/utils.py:71 | `time(mins // 60, mins % 60)` is the time whose minute count is `mins` |
| Utils.FromMinutesOf | services/utils.py:69-71 | turning a time into minutes and back gives the same time |
| Utils.WholeMinutes | services/utils.py:35-42 | the numeric fallback on an integral value: any result is a minute count below 1440 |
| Utils.TextNumberMinutes | services/utils.py:35-42 | the numeric fallback on text (`float(s)`): any result is below 1440 |
| Utils.TimeToMinutes | services/utils.py:15-45 | `time_to_minutes`: `None` and blank text give `None`; any result is below 1440 |
| Utils.CoerceToTime | services/utils.py:48-74 | `coerce_to_time_obj`: `None` and blank text give `None` |
| Utils.CoerceAgreesWithMinutes | services/utils.py:15-74 | a value coerces to a time exactly when `time_to_minutes` gives a count, and the time has that count |
| Utils.DigitsHaveNoColon | services/utils.py:28 | digit text holds no `':'`, so the split leaves it whole |
| Utils.SplitClock | services/utils.py:28-30 | splitting `"H:M..."` at `':'` gives at least two parts, `H` and `M` |
| Utils.ClockTextOf | services/utils.py:28-32 | `"H:M..."` with `H < 24` and `M < 60` reads as the time `H:M` |
| Utils.ClockTrimmed | services/utils.py:24 | stripping `"H:M..."` that ends in a non-space leaves it unchanged |
| Utils.TrimmedClockText | services/utils.py:23-32 | stripped clock text is the same time for `time_to_minutes` and `coerce_to_time_obj` |
| Utils.ClockTextMinutes | services/utils.py:23-32 | `"H:M"` text, with any further `":..."` fields, reads as `H*60+M` minutes |
| Utils.ClockTextTime | services/utils.py:56-65 | the same text coerces to the time `H:M` |
| Utils.TimeToHhmm | services/utils.py:77-80 | `time_to_hhmm`: `""` exactly for `None`, otherwise five characters with `':'` in the middle |
| Utils.HhmmRoundTrip | services/utils.py:48-80 | rendering a time as `"HH:MM"` and reading it back gives the time, and its minute count |
| Utils.TimeTo12h | services/utils.py:83-86 | `time_to_12h`: `""` exactly for `None` |
| Utils.TwelveHourCases | services/utils.py:87-93 | hour 0 is `12:MM AM`, 1-11 `h:MM AM`, 12 `12:MM PM`, 13-23 `(h-12):MM PM` |
| Utils.BlankCases | services/utils.py:96-106 | `is_blank`: all-space text, `"None"`, `"nan"` and `"NaT"` are blank; non-blank text has a non-empty stripped form |
| Utils.NormName | services/utils.py:109-111 | `norm_name`: the key is stripped and has no lower-case letter |
| Utils.NormNameWithoutTitle | services/utils.py:109-111 | a name whose key holds neither `"DR."` nor `"DR "` keeps the plain stripped upper-case key |
| Utils.NormNameDropsTitle | services/utils.py:109-111 | a `"DR. "` title in front of a non-blank, title-free key is removed again, giving that key |
| Utils.UniquePreserveOrder | services/utils.py:114-122 | `unique_preserve_order`: a subsequence of the items with non-blank, pairwise distinct keys, covering every non-blank key of the input |
| Utils.UniqueKeepsFirst | services/utils.py:117-121 | the first item with a given non-blank key is kept |
| Utils.IstClock | services/utils.py:8-12 | the IST wall-clock minute of an instant is the one whose sixty seconds contain the instant's second of the IST day (UTC plus 5:30) |
| Utils.IstClockDaily | services/utils.py:8-12 | the IST clock reads the same one day later |
| Utils.IstClockMinuteStep | services/utils.py:8-12 | sixty seconds later the IST clock shows the next minute, wrapping from 23:59 to 00:00 |
| Utils.IstClockOfUtcMidnight | services/utils.py:8-12 | UTC midnight of any day reads 05:30 in IST |
| Utils.ParseIsoTs | services/utils.py:132-142 | `parse_iso_ts`: empty text gives `None`, and any instant returned is the ISO reader's reading of some stripped text |
| Utils.ParseIsoTsStrips | services/utils.py:132-137 | surrounding whitespace does not change the parse of text that is not blank |
| Utils.ParseIsoTsSameStripped | services/utils.py:132-137 | two non-empty texts that strip to the same text parse alike |
| Utils.ParseIsoTsOfSpaces | services/utils.py:132-137 | a non-empty text of spaces only is not treated as empty: it reaches the ISO reader as the empty text |
| RbacRepo.Clean | data/rbac_repo.py:40 | the list coercion keeps no blank entry and strips every kept one, and never grows the list |
| RbacRepo.CleanAppend | data/rbac_repo.py:40 | the coercion works entry by entry: it distributes over concatenation |
| RbacRepo.CleanOfClean | data/rbac_repo.py:40 | an already stripped list without blanks is kept as it is |
| RbacRepo.CleanIdempotent | data/rbac_repo.py:53 | coercing a coerced list changes nothing |
| RbacRepo.CleanMembers | data/rbac_repo.py:40 | the kept entries are exactly the non-empty stripped forms of the inputs |
| RbacRepo.GetRolePermissions | data/rbac_repo.py:20-42 | `get_role_permissions`: a list exactly when a working client holds a row for the stripped role whose field is a list, and then that list coerced |
| RbacRepo.SetRolePermissions | data/rbac_repo.py:45-58 | `set_role_permissions`: succeeds exactly with a working client, then stores the coerced list under the stripped role; on failure the store is unchanged; users are never touched |
| RbacRepo.RoleReadAfterWrite | data/rbac_repo.py:20-58 | reading a role after a successful write gives the coerced list written |
| RbacRepo.RoleWriteIsolated | data/rbac_repo.py:45-58 | writing one role leaves the reading of every other role unchanged |
| RbacRepo.GetUserOverride | data/rbac_repo.py:61-85 | `get_user_permissions_override`: with a client, a reachable store and a stored row whose `allowed_functions` is a list, that list stripped and without blanks; `(False, [])` without a client or a row, and no functions when the stored value is not a list; enabled exactly when the stored row says so |
| RbacRepo.SetUserOverride | data/rbac_repo.py:88-102 | `set_user_permissions_override`: succeeds exactly with a working client, then stores the flag and the coerced list under the stripped user id; roles are never touched |
| RbacRepo.UserReadAfterWrite | data/rbac_repo.py:61-102 | reading a user after a successful write gives the flag and the coerced list written |
| RbacRepo.UserWriteIsolated | data/rbac_repo.py:88-102 | writing one user's override leaves every other user's reading unchanged |
| Rbac.FunctionIdForPage | security/rbac.py:16-17 | a page id starts with `page::` and carries no surrounding space |
| Rbac.PageIdInjective | security/rbac.py:16-17 | for categories without a colon, two views share a page id only when their stripped category and view agree |
| Rbac.PageItemsComplete | security/rbac.py:43-56 | every view of every category yields its page entry |
| Rbac.PageItemsSound | security/rbac.py:43-56 | each page entry comes from some view of the navigation |
| Rbac.CatalogOf | security/rbac.py:37-65 | `get_function_catalog`: pages then actions in registry order, with no id twice |
| Rbac.CatalogHasPage | security/rbac.py:43-56 | every navigation view's page id is in the catalog |
| Rbac.CatalogHasAction | security/rbac.py:59-63 | every registered action id is in the catalog |
| Rbac.CatalogSound | security/rbac.py:37-69 | the catalog holds nothing besides page ids of views and registered action ids |
| Rbac.CatalogHasKey | security/rbac.py:46-48 | skipping an id already seen never loses it: the catalog still has an entry with that id |
| Rbac.AllIdList | security/rbac.py:68-69 | `get_all_function_ids` listed in catalog order holds exactly the catalog's ids |
| Rbac.IdsListIdSet | security/rbac.py:68-69 | for any navigation and registry, the catalog's id listing and its id set agree |
| Rbac.Normalize | security/rbac.py:72-81 | `_normalize_allowed`: no duplicates, and an id is kept exactly when it is a non-empty, stripped input entry that is known |
| Rbac.NormalizeAppend | security/rbac.py:74-81 | insertion order survives: normalising more entries only appends the new known ids not seen before |
| Rbac.NormalizeIdempotent | security/rbac.py:72-81 | normalising twice gives the same list as once |
| Rbac.NormalizeAllowed | security/rbac.py:72-81 | against the real catalog: no duplicates, and only catalog ids that occur stripped in the input |
| Rbac.PageIdListMembers | security/rbac.py:84-89 | `_page_ids_from_role_nav`: the listing has exactly the role navigation's page ids |
| Rbac.PageIdListSet | security/rbac.py:84-89 | the set of the listing is that page-id set |
| Rbac.DefaultsFor | security/rbac.py:92-123 | `get_default_role_permissions`: admin gets the whole catalog; an unknown role gets nothing; assistant and frontdesk get their pages plus their fixed actions |
| Rbac.DefaultListCases | security/rbac.py:92-123 | the listing of the defaults covers the same cases |
| Rbac.RoleNavWithin | config/constants.py:89-107 | every view a role's navigation shows is a view of the full navigation |
| Rbac.RoleActionsRegistered | security/rbac.py:101-121 | every action a role gets by default is in the action registry |
| Rbac.DefaultsWithinCatalog | security/rbac.py:92-123 | no role's defaults go beyond the catalog |
| Rbac.ActionIdClean | security/rbac.py:21-34 | every registered action id is non-empty and has no surrounding space |
| Rbac.CatalogIdsClean | security/rbac.py:37-69 | every catalog id is non-empty and stripped, so normalising keeps it |
| Rbac.ConfigFor | security/rbac.py:126-135 | `get_role_permissions_config`: sorted with no repeats and within the catalog; admin gets the whole catalog; with no stored row, the defaults |
| Rbac.SaveConfigFor | security/rbac.py:138-143 | `save_role_permissions_config`: fails on a blank role and without a working store, and then changes nothing; never touches user overrides |
| Rbac.NormalizedIsClean | security/rbac.py:142-143 | the repository's coercion keeps a normalised list as it is |
| Rbac.SavedRoleReads | security/rbac.py:138-143 | after a successful save, the stored row reads back as the normalised list |
| Rbac.StoredConfig | security/rbac.py:132-135 | a non-admin role with a stored list is configured by that list, normalised and sorted |
| Rbac.RoleConfigRoundTrip | security/rbac.py:126-143 | saving a non-admin role then reading its configuration gives the saved list normalised and sorted |
| Rbac.AdminConfigFixed | security/rbac.py:129-130 | the admin configuration does not depend on the store |
| Rbac.RoleSpellingIrrelevant | security/rbac.py:94-98 | space around a role and its letter case change neither its configuration nor its defaults |
| Rbac.UserOverrideConfig | security/rbac.py:146-148 | `get_user_override_config`: the stored flag, and the stored catalog ids, sorted with no repeats |
| Rbac.CleanListNormalized | security/rbac.py:146-148 | normalising a stored list keeps exactly its known ids |
| Rbac.SaveUserOverrideConfig | security/rbac.py:151-153 | `save_user_override_config`: succeeds exactly with a working store, changes nothing when it fails, never touches roles |
| Rbac.UserConfigRoundTrip | security/rbac.py:146-153 | saving an override then reading it gives the flag and the list normalised and sorted |
| Rbac.ResolveFor | security/rbac.py:156-169 | `resolve_effective_permissions`: always within the catalog; admin gets everything; without a user or an enabled override, the role's configuration; with an enabled override, exactly its catalog ids |
| Rbac.OverrideIgnoresRole | security/rbac.py:166-168 | an enabled override makes every non-admin role resolve alike |
| Rbac.DisabledOverrideFallsBack | security/rbac.py:162-169 | a disabled or absent override resolves as if no user were given |
| Rbac.LoadMarkerInjective | security/rbac.py:174 | for roles without a colon, equal session markers mean the same normalised role and stripped user id |
| Rbac.LoadPermissionsForSession | security/rbac.py:172-177 | `load_permissions_for_session`: the session holds the permissions sorted with no repeats and the marker; the role in the session is untouched |
| Rbac.HasAccess | security/rbac.py:180-193 | `has_access`: true exactly for an admin session, for a blank id, or when the stripped id equals a stripped entry of the list consulted |
| Rbac.AccessOfCleanList | security/rbac.py:189-193 | against stripped lists, access is plain membership |
| Rbac.SessionAccess | security/rbac.py:172-193 | after loading, a non-admin session has access to a non-blank id exactly when the id is among the resolved permissions |
| Rbac.FilterNav | security/rbac.py:209-214 | no category is kept without a view |
| Rbac.FilterNavMembers | security/rbac.py:209-214 | a view is kept under its category exactly when the navigation has it there and the test accepts it |
| Rbac.FilterNavEntries | security/rbac.py:209-214 | every category kept comes from the navigation, with its views filtered in order |
| Rbac.NavigationFor | security/rbac.py:204-214 | `get_allowed_navigation`: admin sees the full navigation; otherwise no empty category |
| Rbac.NavigationShowsAccessible | security/rbac.py:204-214 | for a non-admin role, a view is shown exactly when the navigation has it and the session may open its page |
| Availability.RowAppt | services/availability.py:20-38 | a row gives an appointment exactly when one of FIRST, SECOND, Third names the assistant and the status mentions no terminal status; it is tagged with the first such slot |
| Availability.ScheduleMembers | services/availability.py:14-39 | the schedule holds exactly the appointments that some row contributes |
| Availability.GetAssistantSchedule | services/availability.py:14-17 | `get_assistant_schedule`: empty for a blank name or an empty frame, and at most one entry per row |
| Availability.ScheduleRows | services/availability.py:20-38 | the contributing row indices are in range and strictly increasing |
| Availability.ScheduleInOrder | services/availability.py:14-38 | the k-th entry is the appointment of the k-th contributing row, and a row contributes exactly when it yields an appointment: row order kept, one entry per such row |
| Availability.BlockTimes | services/availability.py:50-59 | a block counts only for today's date and the stripped, upper-cased assistant, with both times parsed to minutes of the day |
| Availability.WrapEnd | services/availability.py:60-61 | the end keeps its clock minute, on the start's day or the next; an end not before the start is unchanged; for clock times the result lies within a day from the start |
| Availability.WrapEndUnique | services/availability.py:60-61 | for clock times, the wrapped end is the only minute with the end's clock reading in the day that follows the start |
| Availability.IsBlockedByTimeBlock | services/availability.py:42-64 | `is_blocked_by_time_block`: the first block of the day that overlaps the interval decides, and its reason is reported after `Blocked: ` |
| Availability.BlockedIffSomeBlock | services/availability.py:49-64 | the interval is blocked exactly when some block of the day for the assistant overlaps it |
| Availability.IsBlockedByTimeBlockPoint | services/availability.py:67-87 | `is_blocked_by_time_block_point`: the first block of the day whose span, as written, contains the clock time decides, with its bare reason |
| Availability.PointCheckIgnoresWrappedBlock | services/availability.py:83-85 | the point check never wraps: a block written across midnight contains no clock time |
| Availability.Prefix | services/availability.py:115 | `s[:5]` keeps at most the first five characters |
| Availability.PunchRefusal | services/availability.py:106-115 | without punch data nothing is refused; with it, the assistant passes exactly when punched in and not out |
| Availability.ScheduleVerdict | services/availability.py:133-146 | the first appointment, not excluded, that overlaps the interval refuses it with a message naming it; otherwise available |
| Availability.IsAssistantAvailable | services/availability.py:90-146 | `is_assistant_available`: an empty name is refused (a name of spaces only goes on to the checks); a punch refusal refuses; unparsable times pass; otherwise available exactly when no block and no appointment outside the excluded row overlaps |
| Availability.FirstIndexNone | services/availability.py:133-146 | the scan reaches its end exactly when no element matches |
| Availability.GetAssistantStatus | services/availability.py:149-198 | `get_assistant_status`: one of BLOCKED, BUSY or FREE with the given department; FREE exactly when punched in and not out, not in a block at that time, and no appointment is live then |
| Availability.LastIndex | services/availability.py:213-216 | finds the last name with a key, or reports that none has it |
| Availability.ByKey | services/availability.py:213-216 | a dict comprehension has one entry per key, holding the value of the last name with that key |
| Availability.GetAllAssistantStatuses | services/availability.py:201-216 | `get_all_assistant_statuses`: keyed by every upper-cased name listed, each key holding the status of its last spelling |
| Availability.ReasonOr | services/availability.py:254 | a missing or blank reason becomes `"Backend Work"`; any other reason is kept, stripped |
| Availability.SerializeBlock | services/availability.py:223-231 | a stored block has a reason and its two times as text |
| Availability.SerializeTimeBlocks | services/availability.py:219-234 | `serialize_time_blocks`: one stored entry per block, in order |
| Availability.DeserializeEntry | services/availability.py:250-259 | an entry is kept exactly when it is a dict with a non-blank assistant and date and two times that convert; the block then holds the upper-cased stripped assistant, the stripped date, the reason or its default, and the two converted times |
| Availability.DeserializeEntries | services/availability.py:248-260 | reading back never adds entries, and every block read back is normalised |
| Availability.DeserializeEntriesMembers | services/availability.py:248-260 | a block is read back exactly when some stored entry reads as it |
| Availability.DeserializeEntriesAppend | services/availability.py:248-260 | the stored order is kept: the blocks of two runs of entries are those of the first run followed by those of the second |
| Availability.DeserializeEntriesOne | services/availability.py:249-259 | a single entry reads back as its one block when it converts, and as nothing otherwise |
| Availability.DeserializeTimeBlocks | services/availability.py:237-260 | `deserialize_time_blocks`: nothing unless the stored value is a list, and otherwise the entries read back one by one; every block is normalised |
| Availability.BlockRoundTrip | services/availability.py:219-260 | a normalised block is read back as itself after being stored |
| Availability.TimeBlocksRoundTrip | services/availability.py:219-260 | normalised blocks survive `serialize_time_blocks` followed by `deserialize_time_blocks` |
| Availability.StoredEntries | services/availability.py:219-234 | each stored entry is the serialised block at the same position |
| Availability.EntriesRoundTrip | services/availability.py:248-260 | reading back the stored entries of normalised blocks gives those blocks |
| Allocation.Flag | services/allocation_engine.py:35-38 | `_bool`: a boolean is read as it is; a missing or null entry is off; any other value is on exactly when its text, lower-cased, is `1`, `true`, `yes` or `on` |
| Allocation.FlagExamples | services/allocation_engine.py:35-38 | illustrations of `_bool` on sample values: letter case does not matter, surrounding spaces do, `1` is on and `0` and `2` are off |
| Allocation.GlobalSection | services/allocation_engine.py:32-34 | the `global` section is used only when it is a dict, and is empty otherwise |
| Allocation.GetGlobalCfg | services/allocation_engine.py:31-43 | `_get_global_cfg`: each of the three switches is `_bool` of its entry in the `global` section; all off without a `global` dict, and a switch is on only when its entry is present |
| Allocation.GlobalCfgOfBools | services/allocation_engine.py:31-43 | booleans given for all three switches are read back as they are |
| Allocation.GlobalCfgOfText | services/allocation_engine.py:31-43 | a switch given as text is on exactly when its lower-cased text is one of the four words, and the switches not given are off |
| Allocation.DeptSection | services/allocation_engine.py:46-52 | `_get_dept_cfg`: the first department whose stripped, upper-cased key matches decides, giving its value when that is a dict and `{}` otherwise; no match gives `{}` |
| Allocation.NameOf | services/allocation_engine.py:94 | a name kept from a list is non-empty, stripped and upper-cased |
| Allocation.Comprehend | services/allocation_engine.py:94 | the names comprehension fails exactly where iterating fails, and keeps exactly the non-blank names of the list, normalised |
| Allocation.Listed | services/allocation_engine.py:101 | the names of a matching entry are all normalised names |
| Allocation.OverrideNames | services/allocation_engine.py:86-96 | a time override yields names only when it is a dict |
| Allocation.OverrideWindow | services/allocation_engine.py:89-93 | an override fires only when both bounds convert, the start is inside `[start_hour, end_hour)`, and names are given |
| Allocation.OverrideDefaultWindow | services/allocation_engine.py:89-94 | an override with no bounds covers the whole day |
| Allocation.OverrideHit | services/allocation_engine.py:85-96 | some override fires exactly when one of them does, and then the first that fires gives the names |
| Allocation.EntryHit | services/allocation_engine.py:98-106 | a keyed entry decides exactly when one matches with names, and then the first such entry gives the names |
| Allocation.RuleCandidates | services/allocation_engine.py:81-109 | `_rule_candidates`: only normalised names, and none for a rule that is not a dict |
| Allocation.OverridePrecedence | services/allocation_engine.py:84-96 | a firing time override decides the candidates whoever the doctor and the FIRST assistant are |
| Allocation.DoctorPrecedence | services/allocation_engine.py:97-101 | without a firing override, a matching doctor entry decides whoever is in FIRST |
| Allocation.EmptyRuleNoCandidates | services/allocation_engine.py:107-109 | a rule with none of the four fields gives no candidates |
| Allocation.Options | services/allocation_engine.py:127 | the fallback options are exactly the available assistants not yet placed |
| Allocation.SelectCandidate | services/allocation_engine.py:112-131 | `_select_candidate`: the first candidate not placed and available is taken; with candidates but none usable, nobody; without candidates, the first option, or the least loaded (first among equals) under load balancing |
| Allocation.SelectedIsFresh | services/allocation_engine.py:120-131 | whoever is chosen is available and not already placed |
| Allocation.FreeSet | services/allocation_engine.py:55-78 | `_get_free_set`: exactly the keys of listed assistants with no appointment live at the clock minute |
| Allocation.OngoingNotFree | services/allocation_engine.py:66-68 | an assistant on an appointment marked ongoing is never free |
| Allocation.GetAvailable | services/allocation_engine.py:169-182 | the order and the map hold the same keys, each mapping to an assistant with that key |
| Allocation.GetAvailableSound | services/allocation_engine.py:170-183 | every key listed is free and belongs to a listed assistant who passes the availability test |
| Allocation.GetAvailableComplete | services/allocation_engine.py:170-183 | every listed assistant who is free and passes the test is listed |
| Allocation.GetAvailableOrder | services/allocation_engine.py:169-182 | the order is the key of each free assistant who passes the test, one per listing entry and in listing order |
| Allocation.GetAvailableInOrder | services/allocation_engine.py:169-182 | the order has one key per passing entry of the listing: its `k`-th key is that of the `k`-th passing entry, and every passing entry is counted |
| Allocation.ChooseFresh | services/allocation_engine.py:199-201 | the slot's choice, department first and then everybody under fallback, is new and comes from a pool |
| Allocation.Fill | services/allocation_engine.py:194-204 | the role loop keeps three slots; slots before the current role are untouched; a filled slot stays filled, and stays as it was under only-fill-empty; a changed slot is filled |
| Allocation.FillKeeps | services/allocation_engine.py:194-204 | earlier slots stay; a filled slot stays filled, and unchanged under only-fill-empty; a changed slot holds a pool member |
| Allocation.FreshStep | services/allocation_engine.py:202-204 | placing one new assistant and recording their key keeps every later placement new |
| Allocation.FillFresh | services/allocation_engine.py:192-204 | every assistant the loop places is new to the appointment and shares no key with another filled slot |
| Allocation.Base | services/allocation_engine.py:147-151 | a slot passed in is `""` exactly when blank, and its stripped text otherwise |
| Allocation.KeysOf | services/allocation_engine.py:192 | the keys already placed include every filled slot's key |
| Allocation.BuildPools | services/allocation_engine.py:161-191 | the pools follow the switches from the rules file, the loads are counted only under load balancing, and everybody in a pool is free and available |
| Allocation.MakePools | services/allocation_engine.py:185-191 | the department's and everybody's pools, with the switches and loads given; everybody in them passes the test |
| Allocation.PickerFor | services/allocation_engine.py:197-201 | the per-slot choice never repeats a key and draws only from the pools |
| Allocation.SlotsFrom | services/allocation_engine.py:192-206 | filled slots stay filled, unchanged under only-fill-empty; a changed slot holds a new, unshared pool member |
| Allocation.AllocateForSlot | services/allocation_engine.py:134-206 | `allocate_for_slot`: no doctor or unparsable times give the slots passed in; otherwise filled slots stay filled, unchanged under only-fill-empty, and a changed slot holds a free, available assistant new to the appointment and in no other slot |
| Allocation.CurrentOf | services/allocation_engine.py:229 | the slot values handed on are the row's slot cells |
| Allocation.SetSlots | services/allocation_engine.py:238-245 | only the chosen slot cells change, to their new values |
| Allocation.SlotColumnsDistinct | services/allocation_engine.py:194 | the three slot columns are distinct |
| Allocation.WriteRowCells | services/allocation_engine.py:238-245 | a slot cell holds the allocated value exactly when it is written; every other cell is untouched |
| Allocation.WrittenDiffersFromBase | services/allocation_engine.py:241-243 | a written value always differs from the slot's value passed in |
| Allocation.KeptKeyListed | services/allocation_engine.py:192-204 | a kept non-blank slot's key is among the keys already placed (the keys `auto_allocate_all` writes at line 229) |
| Allocation.ChangedIffWritten | services/allocation_engine.py:238-245 | a slot cell changes exactly when it is written |
| Allocation.ChangedIsUnshared | services/allocation_engine.py:238-245 | a slot that changed names, by key, nobody named in another slot (the names chosen at lines 192-204) |
| Allocation.WritesCounted | services/allocation_engine.py:245 | the count of writes is the number of changed slot cells |
| Allocation.WriteRowOutcome | services/allocation_engine.py:238-245 | writing one allocation only changes slot cells, each to a valid new value, keeps filled slots under only-fill-empty, and shares no key |
| Allocation.BaseWritesNothing | services/allocation_engine.py:238-245 | writing back the values passed in changes nothing |
| Allocation.AllocateRow | services/allocation_engine.py:219-245 | a skipped row (no doctor, bad times, or no empty slot under only-fill-empty) is untouched; otherwise the outcome holds and the count is the changed cells |
| Allocation.ProgressStep | services/allocation_engine.py:218-245 | processing one more row extends what holds of the rows done |
| Allocation.ProgressDone | services/allocation_engine.py:218-246 | after all rows: same columns and rows, skipped rows untouched, every row's outcome holds, and the count is the total of changed cells |
| Allocation.AutoAllocateAll | services/allocation_engine.py:209-246 | `auto_allocate_all`: the same columns and number of rows, skipped rows untouched, each row changed only in its slot cells with valid unshared values, and the count is exactly the number of changed cells |
| Json.LoadConfig | services/allocation_engine.py:19-28 | `_load_alloc_config`: a readable rules file holding an object is that object; a missing or unreadable file, or any other document, gives `{}` |
| ScheduleOps.AddMissing | services/schedule_ops.py:14-16 | each missing column is appended once, in order, filled with `""`; existing columns keep their order and cells; a frame with every column is unchanged |
| ScheduleOps.ExtendCompletes | services/schedule_ops.py:14-16 | appending the lacking columns completes the frame |
| ScheduleOps.EnsureScheduleColumns | services/schedule_ops.py:13-17 | `ensure_schedule_columns`: every schedule column is present and nothing already there changes |
| ScheduleOps.EnsureColumnsIdempotent | services/schedule_ops.py:13-17 | completing the columns twice is completing them once |
| ScheduleOps.AssignIds | services/schedule_ops.py:26 | the selected rows take the fresh ids in row order; the other rows stay |
| ScheduleOps.SlotsInRange | services/schedule_ops.py:26 | a later selected row takes a later fresh id |
| ScheduleOps.WithIdColumn | services/schedule_ops.py:22-23 | the id column is added, empty, only when absent |
| ScheduleOps.EnsureRowIdsWith | services/schedule_ops.py:20-27 | the id column is present afterwards and no row is added or lost |
| ScheduleOps.MaskIsReplaced | services/schedule_ops.py:24-26 | a row is selected by the mask exactly when its id is replaced |
| ScheduleOps.RowIdsFilled | services/schedule_ops.py:24-26 | afterwards no id reads as missing; kept rows are unchanged; replaced rows take a fresh id |
| ScheduleOps.RowIdsKeepCells | services/schedule_ops.py:20-27 | only the id cell of a row changes |
| ScheduleOps.RowIdsDistinct | services/schedule_ops.py:26 | distinct fresh ids make the replaced ids pairwise distinct |
| ScheduleOps.EnsureRowIds | services/schedule_ops.py:20-27 | `ensure_row_ids` as written: afterwards no id is `""`, `nan`, `none` or `NaT` once stripped; other rows are unchanged; replaced ids are distinct |
| ScheduleOps.NoneIdSurvives | services/schedule_ops.py:24 | an id cell holding `None` reads as `"None"`, escapes the test, and the row keeps a blank id |
| ScheduleOps.EnsureRowIdsIntended | services/schedule_ops.py:20-27 | with the shared blank test, every row ends with an id that is blank in no spelling; other rows are unchanged; replaced ids are distinct |
| Frames.Select | services/schedule_ops.py:58 | boolean-mask selection keeps every column and exactly the rows passing the test, in order and each as often as in the frame |
| ScheduleOps.FilterByColumn | services/schedule_ops.py:76-86 | the rows kept, in order and each as often as in the frame, are exactly those whose cell matches after stripping and upper-casing; none when the column is absent |
| ScheduleOps.FilterByOp | services/schedule_ops.py:76-79 | `filter_by_op`: exactly the rows of that chair, in order and each as often as in the frame; none without an OP column |
| ScheduleOps.FilterByDoctor | services/schedule_ops.py:82-86 | `filter_by_doctor`: the rows of that doctor by `DR.`, else by `Doctor`, in order and each as often as in the frame; none with neither column |
| ScheduleOps.FilterByColumnIdempotent | services/schedule_ops.py:76-86 | filtering twice by the same value is filtering once |
| ScheduleOps.FilterOngoing | services/schedule_ops.py:30-58 | `filter_ongoing`: exactly the rows running by their times at the clock minute or whose status says ongoing, in order and each as often as in the frame |
| ScheduleOps.FilterUpcoming | services/schedule_ops.py:61-73 | `filter_upcoming`: exactly the rows starting after the clock minute and within the window whose status is not terminal, in order and each as often as in the frame; none without a STATUS column |
| ScheduleOps.UpcomingNotOngoingByTime | services/schedule_ops.py:41-73 | an upcoming row is never running by its times at the same minute |
| ScheduleOps.TouchedColumns | services/schedule_ops.py:99-104 | a status change writes each column at most once |
| ScheduleOps.Writes | services/schedule_ops.py:99-104 | the status and change time are always written; the start time for a starting status, the end time for a terminal one |
| ScheduleOps.UpdateStatus | services/schedule_ops.py:89-105 | `update_status`: no id column or no matching row changes nothing; matching rows take the status and the stamps; every other cell keeps its value |
| ScheduleOps.RowSlotKeys | services/schedule_ops.py:120-124 | only non-empty slot keys are counted |
| ScheduleOps.LoadKeys | services/schedule_ops.py:112-124 | only non-empty keys are counted |
| ScheduleOps.GetAssistantLoads | services/schedule_ops.py:108-125 | `get_assistant_loads`: empty for an empty frame; a key is present exactly when it fills a slot of a counted row, with the number of such slots |
| ScheduleOps.AbsentKeyNotLoaded | services/schedule_ops.py:120-124 | a key in no slot has no load |
| ScheduleOps.ClearRow | services/schedule_ops.py:134-140 | exactly the slots naming the assistant become empty; every other cell stays |
| ScheduleOps.RemoveAssistantFromSchedule | services/schedule_ops.py:128-141 | `remove_assistant_from_schedule`: nothing exactly for an empty frame or when no slot names the assistant; otherwise those slots are emptied, nothing else changes, and no slot names them any more |
| ScheduleOps.RemovedNotLoaded | services/schedule_ops.py:108-141 | after removal the assistant has no load |
| ScheduleOps.CountWork | services/schedule_ops.py:149-157 | the total is the sum of the three role counts and at most the number of rows |
| ScheduleOps.TotalCountsRows | services/schedule_ops.py:149-157 | the total counts the active rows naming the assistant in any slot, each row once |
| ScheduleOps.ComputeWorkloadSummary | services/schedule_ops.py:144-159 | `compute_workload_summary`: one entry per assistant, in order, each total being the sum of its role counts |
| ScheduleOps.SummaryTotals | services/schedule_ops.py:144-159 | each total counts the active rows naming that assistant |
| ProfilesCache.DayOf | services/profiles_cache.py:28-39 | a part gives a weekday 0 to 6: a day name or abbreviation in any case, else a whole number in range |
| ProfilesCache.ParseWeeklyOffDays | services/profiles_cache.py:13-40 | `_parse_weekly_off_days`: nothing for a blank cell; otherwise exactly the weekdays some comma-separated part names, all in 0 to 6 |
| ProfilesCache.DayOfName | services/profiles_cache.py:14-22 | every full weekday name reads back as its index |
| ProfilesCache.EarlyDayName | services/profiles_cache.py:15-17 | Monday to Wednesday read back as their index |
| ProfilesCache.MidDayName | services/profiles_cache.py:18-19 | Thursday and Friday read back as their index |
| ProfilesCache.LateDayName | services/profiles_cache.py:20-21 | Saturday and Sunday read back as their index |
| ProfilesCache.NameAt | services/profiles_cache.py:28-32 | a letters-only name whose upper case is a key of the weekday map reads back as that key's day |
| ProfilesCache.NamesOfDays | services/profiles_cache.py:14-22 | each weekday written as its name |
| ProfilesCache.WeeklyOffRoundTrip | services/profiles_cache.py:13-40 | weekdays written as their names joined by commas parse back to the same weekdays, in order |
| ProfilesCache.MapFirst | services/profiles_cache.py:72-79 | each non-blank key not yet mapped gets the department; keys already mapped keep theirs |
| ProfilesCache.ConfigNameMapKeys | services/profiles_cache.py:66-79 | a name is in the config map exactly when some department entry lists it |
| ProfilesCache.ConfigNameMapFirst | services/profiles_cache.py:72-79 | the first department listing a name decides its department |
| ProfilesCache.DeptList | services/profiles_cache.py:64-69 | `dept_list`: no department twice, and exactly the non-blank upper-cased department keys |
| ProfilesCache.ListedSnoc | services/profiles_cache.py:66-69 | one more entry adds its key, when not blank, to the keys listed |
| ProfilesCache.DeptKeys | services/profiles_cache.py:67 | each entry's department key, stripped and upper-cased |
| ProfilesCache.DeptListIsDedup | services/profiles_cache.py:64-69 | the department list is the non-blank keys de-duplicated in first-seen order |
| ProfilesCache.DeptStep | services/profiles_cache.py:66-69 | one more entry extends the list by its key when new |
| ProfilesCache.DeptKeysStep | services/profiles_cache.py:66-67 | one more entry appends its key |
| ProfilesCache.DeptSnoc | services/profiles_cache.py:68-69 | a key is appended only when non-blank and new, so the list stays duplicate-free |
| ProfilesCache.DefaultDeptList | services/profiles_cache.py:81-85 | the fallback loop yields the default departments as declared, already upper-case and distinct |
| ProfilesCache.DeptFallbacks | services/profiles_cache.py:103-138 | a department comes from the row, else the config map, else `SHARED` for assistants and `""` for doctors; an assistant's is never blank |
| ProfilesCache.NameList | services/profiles_cache.py:93-134 | the names listed are exactly those of rows with a non-blank name and a blank or ACTIVE status, none blank |
| ProfilesCache.KeyedMapKeys | services/profiles_cache.py:108-139 | a key is in a per-name map exactly when a kept row has it |
| ProfilesCache.KeyedMapLast | services/profiles_cache.py:108-139 | the last kept row with a key decides its value |
| ProfilesCache.ByDeptMembers | services/profiles_cache.py:109-111 | `assistants_by_dept`: the departments of kept rows, each listing exactly its kept names, each once |
| ProfilesCache.AddOff | services/profiles_cache.py:118-119 | a name is added under exactly the days given, keeping every weekday present |
| ProfilesCache.OffDays | services/profiles_cache.py:118 | a row's weekly-off days are weekdays 0 to 6 |
| ProfilesCache.OffMap | services/profiles_cache.py:91-121 | the weekly-off table has exactly the weekdays 0 to 6 |
| ProfilesCache.OffMapMembers | services/profiles_cache.py:117-121 | a name is under a weekday exactly when a kept row of that name names it |
| ProfilesCache.BuildProfilesCache | services/profiles_cache.py:55-150 | `build_profiles_cache`: the weekly-off table covers 0 to 6; the department list is non-empty and duplicate-free, that of the rules file or else the defaults |
| ProfilesCache.CacheNames | services/profiles_cache.py:93-134 | the assistant and doctor lists hold exactly the kept rows' names, and never a blank |
| ProfilesCache.ExcludedRowsIgnored | services/profiles_cache.py:95-133 | every key of the department and preference maps belongs to a kept row |
| ProfilesCache.AssistantDeptFromRow | services/profiles_cache.py:102-116 | an assistant's department and preferences come from the last kept row of that name |
| ProfilesCache.DoctorDeptFromRow | services/profiles_cache.py:135-139 | a doctor's department comes from the last kept row of that name |
| ProfilesCache.ByDeptSound | services/profiles_cache.py:109-111 | each department list is duplicate-free and holds listed assistants only |
| ProfilesCache.WeeklyOffSound | services/profiles_cache.py:117-121 | the weekly-off table lists kept assistants only, under the weekdays their rows name |
| ProfilesCache.GetDepartmentForAssistant | services/profiles_cache.py:180-182 | `get_department_for_assistant`: the recorded department of the name's key, `SHARED` when unknown |
| ProfilesCache.GetDepartmentForDoctor | services/profiles_cache.py:185-187 | `get_department_for_doctor`: the recorded department, `""` when unknown |
| ProfilesCache.UnknownNames | services/profiles_cache.py:180-187 | a name with no kept row gets `SHARED` as an assistant and `""` as a doctor |
| ProfilesCache.RenderAll | services/profiles_cache.py:202-204 | each listed name as its text |
| ProfilesCache.GetAssistantsForDepartment | services/profiles_cache.py:190-207 | `get_assistants_for_department`: the department's own list when non-empty; else the first matching rules entry's assistants, de-duplicated; else everybody |
| ProfilesCache.DepartmentWithAssistants | services/profiles_cache.py:190-195 | a department with kept assistants gives exactly their names, whatever the rules file says |
| DutyService.ParseDate | services/duty_service.py:55-64 | `_parse_date`: nothing for `None`; a date is itself; text is read as `%Y-%m-%d` from its stripped start, so it needs at least eight characters |
| DutyService.ParseDateOfStamp | services/duty_service.py:62 | a stored timestamp's date part reads back as that date |
| DutyService.DoneSets | services/duty_service.py:16-27 | a duty id is done this week (this month) exactly when some run marked done, with a readable date, falls on or after the week's (month's) first day |
| DutyService.ComputePendingDuties | services/duty_service.py:9-36 | `compute_pending_duties`: the weekly list holds, in order and with repeats, exactly the weekly assignments not done this week; the monthly list likewise for the month |
| DutyService.DoneSetsMeaning | services/duty_service.py:14-27 | the done sets are taken from the Monday of this week and the first of this month |
| DutyService.PendingDisjoint | services/duty_service.py:32-35 | no assignment is pending in both lists |
| DutyService.DoneTodayClears | services/duty_service.py:19-35 | a run marked done today clears its duty from both lists |
| DutyService.MoreRunsFewerPending | services/duty_service.py:18-35 | recording more runs never makes an assignment pending |
| DutyService.FormatRemainingTime | services/duty_service.py:39-52 | `format_remaining_time`: `""` for a missing, empty or unreadable due time; `00:00` once due |
| DutyService.RemainingTimeParts | services/duty_service.py:46-52 | before the due time the text is `MM:SS`, whose two parts give back the seconds left, the seconds below 60 |
| Reminders.DueIff | services/reminder_service.py:21-47 | a row is due exactly when its status is not terminal, it is not dismissed or snoozed past now, and it starts 0 to 15 minutes from now; the reminder carries those minutes, the stripped row id and the status |
| Reminders.GetDueReminders | services/reminder_service.py:14-48 | `get_due_reminders`: none for an empty frame; each reminder is 0 to 15 minutes away and not terminal; exactly the reminders of the due rows |
| Reminders.DueRows | services/reminder_service.py:14-48 | the positions of the due rows lie inside the frame and increase |
| Reminders.DueRemindersInOrder | services/reminder_service.py:14-48 | one reminder per due row, in schedule order: as many reminders as due rows, the `k`-th reminder read from the `k`-th due row, and every due row among them |
| Reminders.MarkRows | services/reminder_service.py:52-56 | without an id column nothing changes; rows whose id equals exactly get the value; other rows gain the new column as missing |
| Reminders.DismissReminder | services/reminder_service.py:51-57 | `dismiss_reminder`: matching rows get the dismissed flag `1`; every other cell is kept |
| Reminders.DismissedNeverDue | services/reminder_service.py:25-57 | a dismissed row is never due again, at any instant |
| Reminders.MissingFlagKeepsDue | services/reminder_service.py:25-56 | a row that gains the dismissed column as missing is due as before |
| Reminders.DueReads | services/reminder_service.py:21-47 | whether a row is due, and its reminder, depend only on its status, flags, start and displayed cells |
| Reminders.SameStart | services/reminder_service.py:33-37 | rows with the same start cell are the same number of minutes away |
| Reminders.DismissKeepsOthers | services/reminder_service.py:51-57 | dismissing one row leaves every other row's reminder as it was |
| Reminders.SnoozeReminder | services/reminder_service.py:60-67 | `snooze_reminder`: matching rows get the snooze time `now` plus the minutes; every other cell is kept |
| Reminders.SnoozedNotDueBefore | services/reminder_service.py:28-67 | a snoozed row is not due at any instant before its snooze time, when that time reads back as written |
| SaveManager.WholeOfDecimal | state/save_manager.py:154 | `int(float(t))` of decimal text reads something only from non-empty text |
| SaveManager.UnsignedDecimal | state/save_manager.py:154 | the whole part of unsigned decimal text needs at least one character |
| SaveManager.SafeInt | state/save_manager.py:152-156 | `_safe_int`: `None` gives the default; a whole number is itself |
| SaveManager.SafeIntOpt | state/save_manager.py:152-156 | `_safe_int(value, None)` agrees with `_safe_int` under every default: a number when one is read, the default otherwise (as line 71 calls it) |
| SaveManager.NoPointInDigits | state/save_manager.py:154 | a run of digits has no decimal point |
| SaveManager.UnsignedOfDigits | state/save_manager.py:154 | a run of digits reads as its value |
| SaveManager.WholeOfDigits | state/save_manager.py:154 | a run of digits converts to its value |
| SaveManager.WholeOfNegative | state/save_manager.py:154 | a minus sign before digits gives the negated value |
| SaveManager.SafeIntOfText | state/save_manager.py:152-156 | any whole number written as text reads back as itself |
| SaveManager.SafeIntTruncates | state/save_manager.py:154 | an instance of `SafeIntCutsFraction`: `-3.7` reads as -3 |
| SaveManager.SafeIntOfWholeFloat | state/save_manager.py:154 | an instance of `SafeIntCutsFraction`: a stored `12.0` reads as 12 |
| SaveManager.SafeIntCutsFraction | state/save_manager.py:152-156 | for any digits `d` and `f`, `d.f` reads as the value of `d` and `-d.f` as its negation: the fraction is cut off toward zero |
| SaveManager.NextVersion | state/save_manager.py:92-97 | the new version is above the loaded, remote and local versions and exactly one past the largest of them |
| SaveManager.LocalVersion | state/save_manager.py:70-73 | the local version is the frame's own when readable, else the loaded version when one is known, else none |
| SaveManager.SaveNow | state/save_manager.py:58-115 | `save_now`: refused with nothing changed while a save runs; otherwise the saving flag is cleared on every path; only a successful store call changes the saved hash and loaded version; the frame written is the caller's frame with its metadata updated |
| SaveManager.ConflictBlocks | state/save_manager.py:76-86 | with the checks on and the remote and loaded versions known and different, the save fails, records the conflict and writes nothing |
| SaveManager.UnchangedSkips | state/save_manager.py:88-90 | a frame whose hash was the last saved is reported saved without a write, unless a conflict blocks it first |
| SaveManager.WrittenVersionAbove | state/save_manager.py:92-101 | a written frame carries a version above the loaded, remote and local versions and one past the largest |
| SaveManager.WriteBookkeeping | state/save_manager.py:101-110 | a write succeeds exactly when the store says so; then the hash and version are recorded and the conflict cleared; on failure none of these change |
| SaveManager.VersionsIncrease | state/save_manager.py:92-106 | every successful write raises the loaded version |
| SaveManager.SecondSaveIsNoop | state/save_manager.py:76-106 | saving the same frame again right after a successful write, with the store reporting that version, succeeds without writing |
| SaveManager.QueueUnsaved | state/save_manager.py:48-55 | `queue_unsaved`: the frame is queued, its counter goes up by one, the pending flag and reason are set, and nothing else in the session changes |
| SaveManager.MaybeSave | state/save_manager.py:118-149 | `maybe_save`: while a save runs, or when an unforced call finds auto-save off or the debounce window open, the frame is queued and reported saved; a failed save stays queued; a save that ran and succeeded empties the queue, and a forced one also clears the reason; the saving flag ends cleared |
| SaveManager.MaybeSaveAgrees | state/save_manager.py:123-145 | when it saves, `maybe_save` reports and writes exactly what `save_now` does |
| ProfileForm.IdxOf | components/profile_form.py:275-280 | `_idx_of`: the first option equal to the value up to case and surrounding whitespace, with no earlier match; 0 when none matches; always a valid index of a non-empty option list |
| ProfileForm.TitleShape | components/profile_form.py:294 | `str.title` only changes the case of letters and keeps the length and every other character |
| ProfileForm.TitleTwice | components/profile_form.py:294 | `str.title` is idempotent |
| ProfileForm.ParseWeeklyOffList | components/profile_form.py:290-295 | `_parse_weekly_off_list`: missing, blank or `nan` text gives no days; every parsed entry is non-empty, stripped, free of `,` and `;`, and title-cased |
| ProfileForm.ParseSeparators | components/profile_form.py:290-295 | `;` and `,` separate alike: day names joined by either read back as the title-cased non-blank names, in order |
| ProfileForm.TokenOf | components/profile_form.py:294 | a non-blank part without separators, stripped and title-cased, is a well-formed entry |
| ProfileForm.ReplaceJoin | components/profile_form.py:294 | replacing `;` by `,` in a `;`-join of parts without `;` gives their `,`-join (the join of line 239) |
| ProfileForm.SplitKeepsAbsent | components/profile_form.py:294 | splitting never brings into a part a character the text lacks |
| ProfileForm.NanIsNotTitled | components/profile_form.py:292-294 | a parsed entry `Nan` differs from the missing marker `nan` |
| ProfileForm.JoinOfTokens | components/profile_form.py:290-292 | the `;`-join of well-formed entries is stripped, neither blank nor `nan`, and splits back into the entries once `;` becomes `,` |
| ProfileForm.TokensReadBack | components/profile_form.py:292 | stripping and title-casing leaves each well-formed entry as it is |
| ProfileForm.ParseJoin | components/profile_form.py:290-295 | reading back the `;`-join a row stores gives the well-formed entries it was built from (the join of line 239) |
| ProfileForm.ParseIdempotent | components/profile_form.py:290-295 | loading a weekly-off field and saving it back unchanged keeps what the form reads (the edit form reads the field at lines 89-90 and joins it back at line 117) |
| ProfileForm.WeekdayToken | config/constants.py:78 | every weekday name is a well-formed weekly-off entry |
| ProfileForm.WeekdaysRoundTrip | components/profile_form.py:290-295 | any choice of weekday names survives the row's `;`-join and the parse that reads it back (the days chosen at lines 32-37 and joined at line 239) |
| ProfileForm.PickId | components/profile_form.py:231 | `profile_id or uuid4()`: a supplied non-empty id is kept, otherwise the new id is used (line 256 is the same for doctors) |
| ProfileForm.BuildAssistantRow | components/profile_form.py:225-247 | `_build_assistant_row`: an assistant row that can take every slot, has no specialisation or registration number, keeps the given fields, and whose weekly-off text reads back as the chosen days |
| ProfileForm.BuildDoctorRow | components/profile_form.py:250-272 | `_build_doctor_row`: a `Doctor` row that takes no assistant slot, with no experience and no weekly-off days, keeping the given fields |
| Calendar.OrdinalOrder | services/duty_service.py:24-26 | comparing two dates, as `r_date >= week_start` does, is comparing their day numbers, in both directions |
| Calendar.SubDays | services/duty_service.py:14 | stepping back `k` days lowers the day number by exactly `k` |
| Calendar.WeekStart | services/duty_service.py:14 | `today - timedelta(days=today.weekday())` is a Monday, `weekday()` days before today |
| Calendar.MonthStart | services/duty_service.py:15 | `today.replace(day=1)` is the first day of today's month |
| Calendar.MonthStartOrder | services/duty_service.py:15-26 | a date is on or after the start of the month exactly when it lies in this month or a later one |
| Calendar.ParseIsoDate | services/duty_service.py:62 | `strptime(..., "%Y-%m-%d")` accepts only text of 8 to 10 characters with `-` after a four-digit year, and only valid dates |
| Calendar.ParseIsoText | services/duty_service.py:62 | reading the ISO text of any date gives the date back |

## Left out

- Streamlit rendering: the form widgets of `components/profile_form.py`, `require_access` (which shows an error and stops the page), toasts and error banners of the save manager. Only the logic behind them is modelled.
- Caching: `get_profiles_cache` and the accessors `get_all_assistants` and `get_all_doctors` read a session-cached `build_profiles_cache` result. The model works on that result directly.
- Floating point: JSON numbers are whole numbers. An override hour bound is read only when it is a whole number. Fractional hours and workload displays are not modelled.
- Utils.TimeToMinutes: the numeric fallback reads only text `int()` accepts. Text that only `float()` accepts, such as `"9.5"`, gives nothing in the model.
- Utils.TimeToMinutes: `datetime` and pandas `Timestamp` cells are not modelled. Cells are read through their text.
- SaveManager.SafeInt: reads decimal text with an optional sign and fraction. Exponents, `inf`, `nan` and the precision limits of `float` are not modelled.
- Strings.Trim: strips ASCII whitespace and a few other spaces. The remaining Unicode whitespace is not stripped. Case mapping and `str.title` cover ASCII letters only.
- Unicode digits are not accepted as digits.
- DutyService.FormatRemainingTime: the remaining time is whole seconds. Sub-second remainders are not modelled.
- `datetime.fromisoformat` and `isoformat` are parameters (`fromIso`, `toIso`). Their own parsing and rendering are not part of this model.
- `_get_meta` and `_set_meta` are modelled as reading and replacing the frame's metadata. The exceptions they swallow are not modelled.
- `sync_time_blocks_from_meta` is not modelled. It copies the stored blocks into the session. The stored form and its round trip are modelled in `Availability`.
- Store calls that raise are modelled only for `save_schedule`, which is the store outcome `stored` in the model. The permission tables model a failing call as a read of nothing.
- SaveManager.MaybeSave: the debounce test is the boolean parameter `withinDebounce`. The wall-clock arithmetic behind it is left out.
- ScheduleOps.FilterOngoing: the result omits the computed columns `In_min`, `Out_min` and `Is_Ongoing`. These are recomputed rather than reused when the frame already has them. A frame without an `In Time` or `Out Time` column makes the source fail with a KeyError (services/schedule_ops.py:39-40); the model requires both columns and does not model that failure.
- ScheduleOps.FilterUpcoming: the result omits the computed columns `In_min`, `Out_min` and `Is_Ongoing`. These are recomputed rather than reused when the frame already has them. A frame without an `In Time` or `Out Time` column makes the source fail with a KeyError (services/schedule_ops.py:39-40); the model requires both columns and does not model that failure.
- Allocation.RuleCandidates: in some rules the source raises. This happens when `time_override` is truthy but not iterable, when `when_doctor_is` or `when_first_is` is truthy but not a dict, or when the chosen names or `default` cannot be iterated. The model reads each such part as empty and goes on.
- Allocation.OverrideHit: a truthy `time_override` that cannot be iterated raises in the source. The model sees no overrides. An override whose own fields fail is skipped, as in the source.
- Allocation.EntryHit: a truthy `when_doctor_is` or `when_first_is` that is not a dict raises in the source at `.items()`. The model sees no entries.
- Allocation.Listed: the names of a matching `when_doctor_is`, `when_first_is` or `default` entry that cannot be iterated raise in the source. The model gives no names.
- ProfilesCache.BuildProfilesCache: a `departments` value that is null, a list or a string, or a department's `doctors` or `assistants` that is truthy but not iterable, raises in the source. The model reads it as empty.
- Utils.TimeToMinutes: digits grouped with underscores, such as `"1_000"`, are accepted by `int()` but give nothing in the model.
- SaveManager.SafeInt: digits grouped with underscores, such as `"1_0"`, are accepted by `float()` but give the default in the model.
- Hashing: `compute_schedule_hash` is the parameter `hashOf`.
- New UUIDs are parameters: a supply of fresh ids, or the single `newId` of the profile rows.
- Json.Member: a JSON object that repeats a key reads as its first entry under that key, whereas `json.load` keeps the last; a file written by `json.dump` from a dict never repeats a key.

## Findings

| source | as written | input that shows it | evidently intended | confidence | as-written member | corrected member |
|---|---|---|---|---|---|---|
| services/schedule_ops.py:24 | a row id is replaced only when its stripped text is exactly `""`, `"nan"`, `"none"` or `"NaT"` | a `REMINDER_ROW_ID` cell holding `None`, which renders as `"None"` and so keeps a missing id | every row whose id is blank in the sense of `is_blank` (any case of `none`, `nan`, `nat`) gets a fresh id | not executed | ScheduleOps.NoneIdSurvives | ScheduleOps.EnsureRowIdsIntended |

=== FILE: allocation.dfy ===
/**
 * The auto-allocation engine: which assistants the rules file and the
 * current schedule put into the FIRST, SECOND and Third slots of an
 * appointment, and the pass that fills every appointment of a schedule.
 *
 * The rules file is a parameter (`rulesFile`, as in the profiles cache),
 * and so are the clock minute used for the free test, the punch records,
 * the time blocks and today's date.
 */
module Allocation {
  import opened Wrappers
  import opened Strings
  import opened Utils
  import opened Constants
  import opened Frames
  import opened Json
  import Seqs
  import Availability
  import ScheduleOps
  import ProfilesCache

  // ---------------------------------------------------------------------------
  // Global switches
  // ---------------------------------------------------------------------------

  /** The texts (lower-cased, not stripped) that switch a setting on. */
  const TrueWords: set<string> := {"1", "true", "yes", "on"}

  /** A switch read from the `global` section: a boolean as it is, a missing
      or `null` entry off, any other value on when its text, lower-cased, is
      one of `TrueWords`. */
  function Flag(v: Option<Value>): (r: bool)
    ensures v.None? || v == Some(JNull) ==> !r
    ensures v.Some? && v.value.JBool? ==> r == v.value.b
    ensures v.Some? && !v.value.JNull? && !v.value.JBool? ==> (r <==> Lower(Render(v.value)) in TrueWords)
  {
    match v
    case None => false
    case Some(JNull) => false
    case Some(JBool(b)) => b
    case Some(x) => Lower(Render(x)) in TrueWords
  }

  /** Illustrations of `Flag` on typical values: case does not matter,
      surrounding spaces do, and only the four words (or 1) are on. */
  lemma FlagExamples()
    ensures !Flag(None) && !Flag(Some(JNull))
    ensures Flag(Some(JBool(true))) && !Flag(Some(JBool(false)))
    ensures Flag(Some(JInt(1))) && !Flag(Some(JInt(0))) && !Flag(Some(JInt(2)))
    ensures Flag(Some(JStr("On"))) && Flag(Some(JStr("TRUE"))) && Flag(Some(JStr("yes")))
    ensures !Flag(Some(JStr(" yes"))) && !Flag(Some(JStr("no"))) && !Flag(Some(JStr("")))
  {
    assert Render(JInt(1)) == "1" && Render(JInt(0)) == "0" && Render(JInt(2)) == "2";
    assert Lower("1") == "1" && Lower("0") == "0" && Lower("2") == "2";
    assert Lower("On") == "on";
    assert Lower("TRUE") == "true";
    assert Lower("yes") == "yes";
    assert Lower(" yes") == " yes";
    assert Lower("no") == "no";
  }

  datatype GlobalCfg = GlobalCfg(crossDepartmentFallback: bool, useProfileRoleFlags: bool, loadBalance: bool)

  /** `config["global"]` when it is a dict, `{}` otherwise. */
  function GlobalSection(config: Value): (g: Value)
    ensures g.JObject?
    ensures Member(config, "global").Some? && Member(config, "global").value.JObject? ==>
      g == Member(config, "global").value
  {
    var g := GetOr(config, "global", JObject([]));
    if g.JObject? then g else JObject([])
  }

  /** `_get_global_cfg`: the three switches of the `global` section. */
  function GetGlobalCfg(config: Value): (r: GlobalCfg)
    ensures (Member(config, "global").None? || !Member(config, "global").value.JObject?) ==>
      r == GlobalCfg(false, false, false)
    ensures r.crossDepartmentFallback == Flag(Member(GlobalSection(config), "cross_department_fallback"))
    ensures r.useProfileRoleFlags == Flag(Member(GlobalSection(config), "use_profile_role_flags"))
    ensures r.loadBalance == Flag(Member(GlobalSection(config), "load_balance"))
    ensures r.crossDepartmentFallback ==> Member(GlobalSection(config), "cross_department_fallback").Some?
    ensures r.useProfileRoleFlags ==> Member(GlobalSection(config), "use_profile_role_flags").Some?
    ensures r.loadBalance ==> Member(GlobalSection(config), "load_balance").Some?
  {
    var g := GlobalSection(config);
    GlobalCfg(
      Flag(Member(g, "cross_department_fallback")),
      Flag(Member(g, "use_profile_role_flags")),
      Flag(Member(g, "load_balance")))
  }

  /** Booleans in the `global` section are read as they are. */
  lemma GlobalCfgOfBools(a: bool, b: bool, c: bool)
    ensures GetGlobalCfg(JObject([("global", JObject([
      ("cross_department_fallback", JBool(a)), ("use_profile_role_flags", JBool(b)),
      ("load_balance", JBool(c))]))])) == GlobalCfg(a, b, c)
  {
    var ms := [("cross_department_fallback", JBool(a)), ("use_profile_role_flags", JBool(b)),
      ("load_balance", JBool(c))];
    MemberAt([("global", JObject(ms))], 0, "global");
    MemberAt(ms, 0, "cross_department_fallback");
    MemberAt(ms, 1, "use_profile_role_flags");
    MemberAt(ms, 2, "load_balance");
  }

  /** A text switch is on exactly when its lower-cased text is one of the
      four words; the switches not given stay off. */
  lemma GlobalCfgOfText(t: string)
    ensures GetGlobalCfg(JObject([("global", JObject([("load_balance", JStr(t))]))]))
      == GlobalCfg(false, false, Lower(t) in TrueWords)
  {
    var g := JObject([("load_balance", JStr(t))]);
    var config := JObject([("global", g)]);
    assert Member(config, "global") == Some(g) by {
      assert Members(config)[0].0 == "global";
    }
    assert Member(g, "load_balance") == Some(JStr(t)) by {
      assert Members(g)[0].0 == "load_balance";
    }
    assert Member(g, "cross_department_fallback").None? by {
      assert Members(g)[0].0 != "cross_department_fallback";
    }
    assert Member(g, "use_profile_role_flags").None? by {
      assert Members(g)[0].0 != "use_profile_role_flags";
    }
  }

  // ---------------------------------------------------------------------------
  // The department section
  // ---------------------------------------------------------------------------

  /** A department key names the department, both stripped and upper-cased. */
  predicate SameDept(k: string, department: string) {
    Key(k) == Key(department)
  }

  function DeptEntryIs(department: string): ((string, Value)) -> bool {
    (e: (string, Value)) => SameDept(e.0, department)
  }

  /** `_get_dept_cfg`: the value of the first entry of `departments` whose
      key matches the department when it is a dict, `{}` when that value is
      not a dict or no entry matches. */
  function DeptSection(department: string, config: Value): (r: Value)
    ensures r.JObject?
    ensures (forall j :: 0 <= j < |ProfilesCache.DeptEntries(config)| ==> !SameDept(ProfilesCache.DeptEntries(config)[j].0, department)) ==>
      r == JObject([])
    ensures forall j :: (0 <= j < |ProfilesCache.DeptEntries(config)| && SameDept(ProfilesCache.DeptEntries(config)[j].0, department)
        && forall l :: 0 <= l < j ==> !SameDept(ProfilesCache.DeptEntries(config)[l].0, department)) ==>
      r == if ProfilesCache.DeptEntries(config)[j].1.JObject? then ProfilesCache.DeptEntries(config)[j].1 else JObject([])
  {
    var es := ProfilesCache.DeptEntries(config);
    var p := DeptEntryIs(department);
    var k := Seqs.FirstIndex(es, p);
    assert forall j :: 0 <= j < |es| ==> (p(es[j]) <==> SameDept(es[j].0, department));
    if k < |es| && es[k].1.JObject? then es[k].1 else JObject([])
  }

  // ---------------------------------------------------------------------------
  // Candidate lists
  // ---------------------------------------------------------------------------

  /** A candidate name: non-empty, stripped and upper-case. */
  predicate IsName(t: string) {
    t != "" && Key(t) == t
  }

  /** One element of a names list: its text, stripped and upper-cased,
      unless that is empty. */
  function NameOf(n: Value): (r: Option<string>)
    ensures r.Some? ==> IsName(r.value)
  {
    var t := Key(Render(n));
    KeyOfKey(Render(n));
    if t != "" then Some(t) else None
  }

  /** `[str(n).strip().upper() for n in names if str(n).strip()]`; `None`
      where iterating the value raises. */
  function Comprehend(v: Value): (r: Option<seq<string>>)
    ensures r.None? <==> Iterate(v).None?
    ensures r.Some? ==> forall k :: 0 <= k < |r.value| ==> IsName(r.value[k])
    ensures r.Some? ==> forall t :: t in r.value <==>
      exists i :: 0 <= i < |Iterate(v).value| && NameOf(Iterate(v).value[i]) == Some(t)
  {
    match Iterate(v)
    case None => None
    case Some(xs) =>
      var r := Seqs.FilterMap(xs, NameOf);
      assert forall t :: t in r <==> exists i :: 0 <= i < |xs| && NameOf(xs[i]) == Some(t) by {
        forall t ensures t in r <==> exists i :: 0 <= i < |xs| && NameOf(xs[i]) == Some(t) {
          Seqs.FilterMapMembers(xs, NameOf, t);
        }
      }
      assert forall k :: 0 <= k < |r| ==> IsName(r[k]) by {
        forall k | 0 <= k < |r| ensures IsName(r[k]) {
          assert r[k] in r;
        }
      }
      Some(r)
  }

  /** The names of a matching entry; `[]` where the comprehension raises. */
  function Listed(v: Value): (r: seq<string>)
    ensures forall k :: 0 <= k < |r| ==> IsName(r[k])
  {
    Comprehend(v).GetOr([])
  }

  /** `float(x)` of an hour bound, for the whole-number bounds. */
  function HourBound(v: Value): Option<int> {
    match v
    case JInt(n) => Some(n)
    case JBool(b) => Some(if b then 1 else 0)
    case JStr(s) => ParseInt(s)
    case _ => None
  }

  /** The names a time override yields for an appointment starting
      `apptMin` minutes after midnight: `None` when the entry is not a dict,
      a bound does not convert, the start hour is outside
      `[start_hour, end_hour)`, the names are empty, or listing them raises. */
  function OverrideNames(o: Value, apptMin: int): (r: Option<seq<string>>)
    ensures r.Some? ==> o.JObject?
    ensures r.Some? ==> forall k :: 0 <= k < |r.value| ==> IsName(r.value[k])
  {
    if !o.JObject? then None
    else
      match (HourBound(GetOr(o, "start_hour", JInt(0))), HourBound(GetOr(o, "end_hour", JInt(24))))
      case (Some(s), Some(e)) =>
        var names := OrElse(GetOr(o, "names", JList([])), JList([]));
        if 60 * s <= apptMin < 60 * e && Truthy(names) then Comprehend(names) else None
      case _ => None
  }

  /** An override fires only inside its hour window, and with names given. */
  lemma OverrideWindow(o: Value, apptMin: int)
    requires OverrideNames(o, apptMin).Some?
    ensures HourBound(GetOr(o, "start_hour", JInt(0))).Some? && HourBound(GetOr(o, "end_hour", JInt(24))).Some?
    ensures 60 * HourBound(GetOr(o, "start_hour", JInt(0))).value <= apptMin
    ensures apptMin < 60 * HourBound(GetOr(o, "end_hour", JInt(24))).value
    ensures Truthy(GetOr(o, "names", JList([])))
  {
  }

  /** With no bounds given the window is the whole day. */
  lemma OverrideDefaultWindow(names: Value, apptMin: int)
    requires 0 <= apptMin < 24 * 60
    requires Truthy(names) && Iterate(names).Some?
    ensures OverrideNames(JObject([("names", names)]), apptMin) == Comprehend(names)
  {
    var o := JObject([("names", names)]);
    assert Member(o, "start_hour").None?;
    assert Member(o, "end_hour").None?;
    assert Member(o, "names") == Some(names);
  }

  function Fires(apptMin: int): Value -> bool {
    (o: Value) => OverrideNames(o, apptMin).Some?
  }

  /** What `for o in (v or [])` visits; a value that cannot be iterated
      gives nothing. */
  function Listing(v: Value): seq<Value> {
    match Iterate(OrElse(v, JList([])))
    case Some(xs) => xs
    case None => []
  }

  function Overrides(rule: Value): seq<Value> {
    Listing(GetOr(rule, "time_override", JList([])))
  }

  /** The names of the first override that fires. */
  function OverrideHit(rule: Value, apptMin: int): (r: Option<seq<string>>)
    ensures r.Some? <==> exists i :: 0 <= i < |Overrides(rule)| && Fires(apptMin)(Overrides(rule)[i])
    ensures r.Some? ==> exists i :: (0 <= i < |Overrides(rule)|
      && OverrideNames(Overrides(rule)[i], apptMin) == r
      && forall l :: 0 <= l < i ==> !Fires(apptMin)(Overrides(rule)[l]))
  {
    var os := Overrides(rule);
    var i := Seqs.FirstIndex(os, Fires(apptMin));
    if i < |os| then OverrideNames(os[i], apptMin) else None
  }

  function NamesFor(want: string): ((string, Value)) -> bool {
    (e: (string, Value)) => Key(e.0) == want && Truthy(e.1)
  }

  /** The names of the first entry of `rule[field]` whose key matches `want`
      and whose names are not empty. */
  function EntryHit(rule: Value, field: string, want: string): (r: Option<seq<string>>)
    ensures var es := Members(GetOr(rule, field, JObject([])));
      r.Some? <==> exists j :: 0 <= j < |es| && Key(es[j].0) == want && Truthy(es[j].1)
    ensures var es := Members(GetOr(rule, field, JObject([])));
      r.Some? ==> exists j :: (0 <= j < |es| && Key(es[j].0) == want && r.value == Listed(es[j].1)
        && forall l :: 0 <= l < j ==> !(Key(es[l].0) == want && Truthy(es[l].1)))
  {
    var es := Members(GetOr(rule, field, JObject([])));
    var j := Seqs.FirstIndex(es, NamesFor(want));
    if j < |es| then Some(Listed(es[j].1)) else None
  }

  /** `_rule_candidates`: the first firing time override, else the first
      `when_doctor_is` entry for the doctor, else the first `when_first_is`
      entry for the assistant already in FIRST, else the default list. */
  function RuleCandidates(rule: Value, doctor: string, apptMin: int, firstAssigned: string): (r: seq<string>)
    ensures forall k :: 0 <= k < |r| ==> IsName(r[k])
    ensures !rule.JObject? ==> r == []
  {
    if !rule.JObject? then []
    else
      match OverrideHit(rule, apptMin)
      case Some(names) => names
      case None =>
        match EntryHit(rule, "when_doctor_is", NormName(doctor))
        case Some(names) => names
        case None =>
          match EntryHit(rule, "when_first_is", Key(firstAssigned))
          case Some(names) => names
          case None => Listed(GetOr(rule, "default", JList([])))
  }

  /** A firing time override decides the list whoever the doctor and the
      FIRST assistant are. */
  lemma OverridePrecedence(rule: Value, apptMin: int, doctor: string, doctor': string, first: string, first': string)
    requires rule.JObject?
    requires exists i :: 0 <= i < |Overrides(rule)| && Fires(apptMin)(Overrides(rule)[i])
    ensures RuleCandidates(rule, doctor, apptMin, first) == RuleCandidates(rule, doctor', apptMin, first')
    ensures RuleCandidates(rule, doctor, apptMin, first) == OverrideHit(rule, apptMin).value
  {
  }

  /** Without a firing override, a doctor entry decides the list whoever the
      FIRST assistant is. */
  lemma DoctorPrecedence(rule: Value, apptMin: int, doctor: string, first: string, first': string)
    requires rule.JObject?
    requires OverrideHit(rule, apptMin).None?
    requires EntryHit(rule, "when_doctor_is", NormName(doctor)).Some?
    ensures RuleCandidates(rule, doctor, apptMin, first) == RuleCandidates(rule, doctor, apptMin, first')
  {
  }

  /** A rule with none of the four fields yields no candidates. */
  lemma EmptyRuleNoCandidates(doctor: string, apptMin: int, first: string)
    ensures RuleCandidates(JObject([]), doctor, apptMin, first) == []
  {
    var rule := JObject([]);
    assert Overrides(rule) == [];
    assert Iterate(JList([])) == Some([]);
    assert Seqs.FilterMap([], NameOf) == [];
  }

  // ---------------------------------------------------------------------------
  // Choosing one assistant
  // ---------------------------------------------------------------------------

  function Qualifies(amap: map<string, string>, already: set<string>): string -> bool {
    (c: string) => c !in already && c in amap
  }

  /** The available assistants, in order, not yet placed in the slot. */
  function Options(order: seq<string>, already: set<string>): (r: seq<string>)
    ensures forall n :: n in r <==> n in order && Upper(n) !in already
  {
    Seqs.Filter(order, (n: string) => Upper(n) !in already)
  }

  /** `load_map.get(n.upper(), 0)`. */
  function LoadOf(loads: map<string, nat>): string -> int {
    (n: string) => if Upper(n) in loads then loads[Upper(n)] else 0
  }

  /** `_select_candidate`: the first candidate not already placed that is
      available (as the profile name), else, when there are no candidates at
      all, the first available assistant not already placed, taking the
      least loaded one under load balancing; `""` when nothing qualifies. */
  function SelectCandidate(cands: seq<string>, amap: map<string, string>, order: seq<string>,
                           already: set<string>, loadBalance: bool, loads: map<string, nat>): (r: string)
    ensures var k := Seqs.FirstIndex(cands, Qualifies(amap, already));
      k < |cands| ==> r == amap[cands[k]]
    ensures cands != [] && (forall c :: c in cands ==> c in already || c !in amap) ==> r == ""
    ensures cands == [] && Options(order, already) == [] ==> r == ""
    ensures cands == [] && Options(order, already) != [] ==> r in order && Upper(r) !in already
    ensures cands == [] && Options(order, already) != [] && loadBalance ==>
      r == Seqs.FirstMin(Options(order, already), LoadOf(loads))
      && forall n :: n in order && Upper(n) !in already ==> LoadOf(loads)(r) <= LoadOf(loads)(n)
    ensures cands == [] && Options(order, already) != [] && !loadBalance ==> r == Options(order, already)[0]
  {
    var k := Seqs.FirstIndex(cands, Qualifies(amap, already));
    if k < |cands| then amap[cands[k]]
    else if cands != [] then ""
    else
      var options := Options(order, already);
      if options == [] then ""
      else if loadBalance then
        Seqs.SortByKeyHead(options, LoadOf(loads));
        Seqs.SortByKey(options, LoadOf(loads))[0]
      else
        assert options[0] in options;
        options[0]
  }

  /** What every availability listing satisfies: its map is keyed by the
      stripped, upper-cased profile name and its order lists those keys. */
  ghost predicate AvailSound(amap: map<string, string>, order: seq<string>) {
    (forall u :: u in amap ==> Key(amap[u]) == u)
    && (forall n :: n in order ==> n in amap && Key(n) == n)
  }

  /** A chosen assistant is available and not already in another slot. */
  lemma {:induction false} SelectedIsFresh(cands: seq<string>, amap: map<string, string>, order: seq<string>,
                                           already: set<string>, loadBalance: bool, loads: map<string, nat>)
    requires AvailSound(amap, order)
    ensures var r := SelectCandidate(cands, amap, order, already, loadBalance, loads);
      r != "" ==> Key(r) !in already && Key(r) in amap
  {
    var r := SelectCandidate(cands, amap, order, already, loadBalance, loads);
    var k := Seqs.FirstIndex(cands, Qualifies(amap, already));
    if r != "" {
      if k < |cands| {
        assert Key(r) == cands[k];
      } else {
        assert cands == [];
        assert r in order && Upper(r) !in already;
        KeyFacts(r);
        UpperOfNoLower(r);
      }
    }
  }

  // ---------------------------------------------------------------------------
  // Who is free and available
  // ---------------------------------------------------------------------------

  /** The free test of one appointment at clock minute `nowMin`: busy when its
      status reads ongoing, or when both times parse and the minute lies
      between them (ends included, no wrap past midnight). */
  function Busy(nowMin: int): Availability.Appt -> bool {
    (a: Availability.Appt) =>
      var s := Upper(a.status);
      Contains(s, "ON GOING") || Contains(s, "ONGOING")
      || match (CoerceToTime(a.inTime), CoerceToTime(a.outTime))
         case (Some(i), Some(o)) => MinutesOf(i) <= nowMin <= MinutesOf(o)
         case _ => false
  }

  /** None of the assistant's appointments makes them busy at `nowMin`. */
  predicate IsFree(f: Frame, nowMin: int, u: string) {
    forall a :: a in Availability.GetAssistantSchedule(u, f) ==> !Busy(nowMin)(a)
  }

  /** `_get_free_set`: the keys of the assistants not busy at `nowMin`. */
  function FreeSet(f: Frame, all: seq<string>, nowMin: int): (r: set<string>)
    ensures forall u :: u in r <==> (exists a :: a in all && Key(a) == u) && IsFree(f, nowMin, u)
  {
    set a | a in all && IsFree(f, nowMin, Key(a)) :: Key(a)
  }

  /** An assistant with an appointment marked ongoing is never free. */
  lemma OngoingNotFree(f: Frame, all: seq<string>, nowMin: int, u: string, a: Availability.Appt)
    requires a in Availability.GetAssistantSchedule(u, f)
    requires Contains(Upper(a.status), "ONGOING")
    ensures u !in FreeSet(f, all, nowMin)
  {
    assert Busy(nowMin)(a);
  }

  /** The assistants available for a slot, in listing order by key, and the
      profile name behind each key. */
  datatype Avail = Avail(order: seq<string>, amap: map<string, string>)

  /** `get_available`: the listed assistants whose key is free and who pass
      `ok`, the availability test. */
  function GetAvailable(assts: seq<string>, free: set<string>, ok: string -> bool): (r: Avail)
    ensures forall n :: n in r.order ==> n in r.amap && Key(n) == n
    ensures forall u :: u in r.amap ==> u in r.order && Key(r.amap[u]) == u
    decreases |assts|
  {
    if |assts| == 0 then Avail([], map[])
    else
      var r := GetAvailable(Seqs.Init(assts), free, ok);
      var a := Seqs.Last(assts);
      var u := Key(a);
      KeyOfKey(a);
      assert assts == Seqs.Init(assts) + [a];
      if u in free && ok(a) then Avail(r.order + [u], r.amap[u := a]) else r
  }

  /** Every key in the listing is free and maps to a listed assistant who
      passes the test. */
  lemma {:induction false} GetAvailableSound(assts: seq<string>, free: set<string>, ok: string -> bool, u: string)
    requires u in GetAvailable(assts, free, ok).amap
    ensures var a := GetAvailable(assts, free, ok).amap[u];
      a in assts && u in free && ok(a)
    decreases |assts|
  {
    var init := Seqs.Init(assts);
    var a := Seqs.Last(assts);
    var r0 := GetAvailable(init, free, ok);
    var hit := Key(a) in free && ok(a);
    var m := GetAvailable(assts, free, ok).amap;
    assert m == if hit then r0.amap[Key(a) := a] else r0.amap;
    if hit && Key(a) == u {
      assert m[u] == a == assts[|assts| - 1];
    } else {
      GetAvailableSound(init, free, ok, u);
      assert m[u] == r0.amap[u];
      var k :| 0 <= k < |init| && init[k] == m[u];
      assert assts[k] == m[u];
    }
  }

  /** Every listed assistant who is free and passes the test is in the
      listing under their key. */
  lemma {:induction false} GetAvailableComplete(assts: seq<string>, free: set<string>, ok: string -> bool, a: string)
    requires a in assts && Key(a) in free && ok(a)
    ensures Key(a) in GetAvailable(assts, free, ok).amap
    decreases |assts|
  {
    var init := Seqs.Init(assts);
    var last := Seqs.Last(assts);
    assert assts == init + [last];
    if a != last {
      GetAvailableComplete(init, free, ok, a);
    }
  }

  /** One step of the `get_available` loop: the key of a free assistant who
      passes the test, nothing otherwise. */
  function Passing(free: set<string>, ok: string -> bool): string -> Option<string> {
    (a: string) => if Key(a) in free && ok(a) then Some(Key(a)) else None
  }

  /** The listing order is the keys of the passing assistants, one per
      listing entry and in listing order. */
  lemma {:induction false} GetAvailableOrder(assts: seq<string>, free: set<string>, ok: string -> bool)
    ensures GetAvailable(assts, free, ok).order == Seqs.FilterMap(assts, Passing(free, ok))
    decreases |assts|
  {
    if |assts| > 0 {
      GetAvailableOrder(Seqs.Init(assts), free, ok);
    }
  }

  /** The `k`-th key of the listing belongs to the `k`-th passing entry of
      `assts`, and every passing entry is counted. */
  lemma GetAvailableInOrder(assts: seq<string>, free: set<string>, ok: string -> bool)
    ensures var p := Seqs.Positions(assts, Passing(free, ok));
      var order := GetAvailable(assts, free, ok).order;
      |order| == |p|
      && (forall k :: 0 <= k < |p| ==> order[k] == Key(assts[p[k]]))
      && (forall i :: 0 <= i < |assts| ==> (i in p <==> Key(assts[i]) in free && ok(assts[i])))
  {
    GetAvailableOrder(assts, free, ok);
    Seqs.FilterMapPositions(assts, Passing(free, ok));
  }

  /** `is_assistant_available` as `get_available` calls it: no weekly-off
      set, so no weekday name either. */
  function AvailableFor(inTime: TimeInput, outTime: TimeInput, f: Frame, exclude: string, env: Env): string -> bool {
    (a: string) => Available(a, inTime, outTime, f, exclude, env)
  }

  predicate Available(a: string, inTime: TimeInput, outTime: TimeInput, f: Frame, exclude: string, env: Env) {
    Availability.IsAssistantAvailable(a, inTime, outTime, f, exclude, env.punches, env.blocks, {}, env.today, "").0
  }

  /** The inputs the engine reads besides the schedule: the rules file, the
      punch records and time blocks, today's date and the clock minute. */
  datatype Env = Env(
    rulesFile: Option<Value>,
    punches: Option<map<string, Availability.Punch>>,
    blocks: seq<Availability.Block>,
    today: string,
    nowMin: int)

  // ---------------------------------------------------------------------------
  // One appointment
  // ---------------------------------------------------------------------------

  /** The pools a slot draws from: the department's available assistants,
      everybody's (the same pools without cross-department fallback), and
      the load counts (none without load balancing). */
  datatype Pools = Pools(dept: Avail, all: Avail, cross: bool, loadBalance: bool, loads: map<string, nat>)

  ghost predicate PoolsSound(p: Pools) {
    AvailSound(p.dept.amap, p.dept.order) && AvailSound(p.all.amap, p.all.order)
  }

  /** The department pool first, then everybody's under cross-department
      fallback. */
  function Choose(p: Pools, cands: seq<string>, already: set<string>): string {
    var c := SelectCandidate(cands, p.dept.amap, p.dept.order, already, p.loadBalance, p.loads);
    if c == "" && p.cross then SelectCandidate(cands, p.all.amap, p.all.order, already, p.loadBalance, p.loads) else c
  }

  /** A chosen assistant is in a pool and in no other slot yet. */
  lemma ChooseFresh(p: Pools, cands: seq<string>, already: set<string>)
    requires PoolsSound(p)
    ensures var c := Choose(p, cands, already);
      c != "" ==> Key(c) !in already && (Key(c) in p.dept.amap || (p.cross && Key(c) in p.all.amap))
  {
    SelectedIsFresh(cands, p.dept.amap, p.dept.order, already, p.loadBalance, p.loads);
    SelectedIsFresh(cands, p.all.amap, p.all.order, already, p.loadBalance, p.loads);
  }

  /** The rule of slot `i` in the department's `allocation_rules`. */
  function RoleRule(rules: Value, i: nat): Value
    requires i < 3
  {
    GetOr(rules, SlotColumns[i], JObject([]))
  }

  /** How a slot is offered: `pick(i, first, already)` is the assistant
      chosen for slot `i` when FIRST holds `first` and `already` holds the
      keys placed so far, `""` for none. */
  type Picker = (nat, string, set<string>) -> string

  /** A picker never places a key already placed, and places only keys that
      pass `inPool`. */
  ghost predicate PickerSound(pick: Picker, inPool: string -> bool) {
    forall i, first, already :: pick(i, first, already) != "" ==>
      Key(pick(i, first, already)) !in already && inPool(Key(pick(i, first, already)))
  }

  /** The role loop of `allocate_for_slot` from slot `i` on: a slot kept
      under `onlyFillEmpty` is skipped, any other gets the chosen assistant
      when there is one; `already` holds the keys placed so far. */
  function Fill(pick: Picker, onlyFillEmpty: bool, result: seq<string>, already: set<string>, i: nat): (r: seq<string>)
    requires |result| == 3 && i <= 3
    ensures |r| == 3
    ensures forall j :: 0 <= j < i ==> r[j] == result[j]
    ensures forall j :: 0 <= j < 3 && result[j] != "" ==> r[j] != ""
    ensures onlyFillEmpty ==> forall j :: 0 <= j < 3 && result[j] != "" ==> r[j] == result[j]
    ensures forall j :: 0 <= j < 3 && r[j] != result[j] ==> r[j] != ""
    decreases 3 - i
  {
    if i == 3 then result
    else if onlyFillEmpty && result[i] != "" then Fill(pick, onlyFillEmpty, result, already, i + 1)
    else
      var chosen := pick(i, result[0], already);
      if chosen != "" then Fill(pick, onlyFillEmpty, result[i := chosen], already + {Key(chosen)}, i + 1)
      else Fill(pick, onlyFillEmpty, result, already, i + 1)
  }

  /** The slots before `i` stay; a filled slot stays filled, and stays as it
      is under `onlyFillEmpty`; a changed slot holds a pool member. */
  lemma {:induction false} FillKeeps(pick: Picker, inPool: string -> bool, onlyFillEmpty: bool,
                                     result: seq<string>, already: set<string>, i: nat)
    requires |result| == 3 && i <= 3
    requires PickerSound(pick, inPool)
    ensures var r := Fill(pick, onlyFillEmpty, result, already, i);
      (forall j :: 0 <= j < i ==> r[j] == result[j])
      && (forall j :: 0 <= j < 3 && result[j] != "" ==> r[j] != "")
      && (onlyFillEmpty ==> forall j :: 0 <= j < 3 && result[j] != "" ==> r[j] == result[j])
      && (forall j :: 0 <= j < 3 && r[j] != result[j] ==> r[j] != "" && inPool(Key(r[j])))
    decreases 3 - i
  {
    if i < 3 {
      if onlyFillEmpty && result[i] != "" {
        FillKeeps(pick, inPool, onlyFillEmpty, result, already, i + 1);
      } else {
        var chosen := pick(i, result[0], already);
        if chosen != "" {
          var next := result[i := chosen];
          FillKeeps(pick, inPool, onlyFillEmpty, next, already + {Key(chosen)}, i + 1);
          var r := Fill(pick, onlyFillEmpty, next, already + {Key(chosen)}, i + 1);
          assert r == Fill(pick, onlyFillEmpty, result, already, i);
          assert inPool(Key(chosen));
          forall j | 0 <= j < 3 && r[j] != result[j] ensures r[j] != "" && inPool(Key(r[j])) {
            if r[j] == next[j] {
              assert j == i;
            }
          }
        } else {
          FillKeeps(pick, inPool, onlyFillEmpty, result, already, i + 1);
        }
      }
    }
  }

  /** Every slot of `r` that differs from `result` holds a key not in
      `already` and shared with no other filled slot. */
  predicate FreshOver(result: seq<string>, r: seq<string>, already: set<string>)
    requires |result| == 3 && |r| == 3
  {
    forall j :: 0 <= j < 3 && r[j] != result[j] ==>
      Key(r[j]) !in already && forall l :: 0 <= l < 3 && l != j && r[l] != "" ==> Key(r[l]) != Key(r[j])
  }

  /** One step of the freshness argument: placing `chosen`, a key not yet
      placed, in slot `i` before the later slots are filled keeps every
      changed slot's key new and unshared. */
  lemma {:induction false} FreshStep(result: seq<string>, r: seq<string>, already: set<string>, i: nat, chosen: string)
    requires |result| == 3 && |r| == 3 && i < 3
    requires r[i] == chosen && chosen != "" && Key(chosen) !in already
    requires forall j :: 0 <= j < 3 && result[j] != "" ==> Key(result[j]) in already
    requires FreshOver(result[i := chosen], r, already + {Key(chosen)})
    ensures FreshOver(result, r, already)
  {
    var result' := result[i := chosen];
    forall j | 0 <= j < 3 && r[j] != result[j]
      ensures Key(r[j]) !in already && forall l :: 0 <= l < 3 && l != j && r[l] != "" ==> Key(r[l]) != Key(r[j])
    {
      if j != i {
        assert r[j] != result'[j];
      }
      forall l | 0 <= l < 3 && l != j && r[l] != "" ensures Key(r[l]) != Key(r[j]) {
        if j == i && r[l] == result'[l] {
          assert result'[l] == result[l];
        }
      }
    }
  }

  /** Every assistant the loop places is new: its key is not among the keys
      placed before, and no other filled slot shares it. */
  lemma {:induction false} FillFresh(pick: Picker, inPool: string -> bool, onlyFillEmpty: bool,
                                     result: seq<string>, already: set<string>, i: nat)
    requires |result| == 3 && i <= 3
    requires PickerSound(pick, inPool)
    requires forall j :: 0 <= j < 3 && result[j] != "" ==> Key(result[j]) in already
    ensures FreshOver(result, Fill(pick, onlyFillEmpty, result, already, i), already)
    decreases 3 - i
  {
    if i < 3 {
      if onlyFillEmpty && result[i] != "" {
        FillFresh(pick, inPool, onlyFillEmpty, result, already, i + 1);
        assert Fill(pick, onlyFillEmpty, result, already, i) == Fill(pick, onlyFillEmpty, result, already, i + 1);
      } else {
        var chosen := pick(i, result[0], already);
        if chosen != "" {
          var result' := result[i := chosen];
          var already' := already + {Key(chosen)};
          var r := Fill(pick, onlyFillEmpty, result', already', i + 1);
          assert r == Fill(pick, onlyFillEmpty, result, already, i);
          FillFresh(pick, inPool, onlyFillEmpty, result', already', i + 1);
          FillKeeps(pick, inPool, onlyFillEmpty, result', already', i + 1);
          FreshStep(result, r, already, i, chosen);
        } else {
          FillFresh(pick, inPool, onlyFillEmpty, result, already, i + 1);
          assert Fill(pick, onlyFillEmpty, result, already, i) == Fill(pick, onlyFillEmpty, result, already, i + 1);
        }
      }
    }
  }

  /** The slot values passed in: `""` for a blank or missing one, the
      stripped text otherwise. */
  function Base(current: map<string, string>): (b: seq<string>)
    ensures |b| == 3
    ensures forall j :: 0 <= j < 3 ==> (b[j] == "" <==> IsBlank(Get(current, SlotColumns[j])))
    ensures forall j :: 0 <= j < 3 && b[j] != "" ==> b[j] == Trim(Get(current, SlotColumns[j]))
  {
    var b := seq(3, j requires 0 <= j < 3 =>
      var v := Get(current, SlotColumns[j]);
      if IsBlank(v) then "" else Trim(v));
    assert forall j :: 0 <= j < 3 ==> (b[j] == "" <==> IsBlank(Get(current, SlotColumns[j]))) by {
      forall j | 0 <= j < 3 ensures b[j] == "" <==> IsBlank(Get(current, SlotColumns[j])) {
        BlankCases(Get(current, SlotColumns[j]));
      }
    }
    b
  }

  /** `{str(v).strip().upper() for v in result.values() if v}`. */
  function KeysOf(b: seq<string>): (r: set<string>)
    ensures forall j :: 0 <= j < |b| && b[j] != "" ==> Key(b[j]) in r
  {
    set j | 0 <= j < |b| && b[j] != "" :: Key(b[j])
  }

  /** The pools `allocate_for_slot` builds for an appointment: the
      department's assistants, and with cross-department fallback everybody,
      each kept when free at the clock minute and available for the
      appointment; the load counts only under load balancing. */
  method BuildPools(department: string, inTime: TimeInput, outTime: TimeInput, f: Frame, exclude: string,
                    env: Env, cache: ProfilesCache.Cache) returns (p: Pools)
    ensures PoolsSound(p)
    ensures p.cross == GetGlobalCfg(LoadConfig(env.rulesFile)).crossDepartmentFallback
    ensures p.loadBalance == GetGlobalCfg(LoadConfig(env.rulesFile)).loadBalance
    ensures p.loads == if p.loadBalance then ScheduleOps.GetAssistantLoads(f, exclude) else map[]
    ensures forall u :: InPools(p)(u) ==>
      u in FreeSet(f, cache.assistantsList, env.nowMin)
      && exists a :: Key(a) == u && AvailableFor(inTime, outTime, f, exclude, env)(a)
  {
    var g := GetGlobalCfg(LoadConfig(env.rulesFile));
    var free := FreeSet(f, cache.assistantsList, env.nowMin);
    var ok := AvailableFor(inTime, outTime, f, exclude, env);
    var deptList := ProfilesCache.GetAssistantsForDepartment(cache, env.rulesFile, department);
    var loads := if g.loadBalance then ScheduleOps.GetAssistantLoads(f, exclude) else map[];
    p := MakePools(deptList, cache.assistantsList, free, ok, g, loads);
  }

  /** The department's and everybody's available assistants. */
  method MakePools(deptList: seq<string>, all: seq<string>, free: set<string>, ok: string -> bool,
                   g: GlobalCfg, loads: map<string, nat>) returns (p: Pools)
    ensures PoolsSound(p)
    ensures p.cross == g.crossDepartmentFallback && p.loadBalance == g.loadBalance && p.loads == loads
    ensures forall u :: InPools(p)(u) ==> u in free && exists a :: Key(a) == u && ok(a)
  {
    var dept := GetAvailable(deptList, free, ok);
    var everybody := if g.crossDepartmentFallback then GetAvailable(all, free, ok) else dept;
    p := Pools(dept, everybody, g.crossDepartmentFallback, g.loadBalance, loads);
    forall u | InPools(p)(u) ensures u in free && exists a :: Key(a) == u && ok(a) {
      var lst := if u in dept.amap then deptList else all;
      var pool := if u in dept.amap then dept else everybody;
      GetAvailableSound(lst, free, ok, u);
      assert Key(pool.amap[u]) == u && ok(pool.amap[u]);
    }
  }

  function InPools(p: Pools): string -> bool {
    (u: string) => u in p.dept.amap || (p.cross && u in p.all.amap)
  }

  /** `_rule_candidates` followed by `_select_candidate` for each slot. */
  function PickerFor(rules: Value, doctor: string, apptMin: int, p: Pools): (pick: Picker)
    requires PoolsSound(p)
    ensures PickerSound(pick, InPools(p))
  {
    var pick: Picker := (i: nat, first: string, already: set<string>) =>
      if i < 3 then Choose(p, RuleCandidates(RoleRule(rules, i), doctor, apptMin, first), already) else "";
    assert PickerSound(pick, InPools(p)) by {
      forall i: nat, first: string, already: set<string> | pick(i, first, already) != ""
        ensures Key(pick(i, first, already)) !in already && InPools(p)(Key(pick(i, first, already)))
      {
        ChooseFresh(p, RuleCandidates(RoleRule(rules, i), doctor, apptMin, first), already);
      }
    }
    pick
  }

  /** The role loop over the slot values passed in, with their keys as the
      keys already placed. */
  function SlotsFrom(ghost inPool: string -> bool, pick: Picker, onlyFillEmpty: bool, base: seq<string>): (r: seq<string>)
    requires |base| == 3
    requires PickerSound(pick, inPool)
    ensures |r| == 3
    ensures forall j :: 0 <= j < 3 && base[j] != "" ==> r[j] != ""
    ensures onlyFillEmpty ==> forall j :: 0 <= j < 3 && base[j] != "" ==> r[j] == base[j]
    ensures forall j :: 0 <= j < 3 && r[j] != base[j] ==>
      r[j] != "" && Key(r[j]) !in KeysOf(base)
      && (forall l :: 0 <= l < 3 && l != j && r[l] != "" ==> Key(r[l]) != Key(r[j]))
      && inPool(Key(r[j]))
  {
    FillKeeps(pick, inPool, onlyFillEmpty, base, KeysOf(base), 0);
    FillFresh(pick, inPool, onlyFillEmpty, base, KeysOf(base), 0);
    Fill(pick, onlyFillEmpty, base, KeysOf(base), 0)
  }

  /** `allocate_for_slot`: the three slot values (FIRST, SECOND, Third) for
      an appointment of `doctor` in `department`.  The values passed in are
      returned unchanged when there is no doctor or a time does not parse;
      otherwise every slot not kept is offered to the rule's candidates,
      and whoever is placed is free, available and new to the appointment. */
  method AllocateForSlot(doctor: string, department: string, inTime: TimeInput, outTime: TimeInput, f: Frame,
                         exclude: string, current: map<string, string>, onlyFillEmpty: bool,
                         env: Env, cache: ProfilesCache.Cache) returns (r: seq<string>)
    ensures |r| == 3
    ensures doctor == "" || CoerceToTime(inTime).None? || CoerceToTime(outTime).None? ==> r == Base(current)
    ensures forall j :: 0 <= j < 3 && Base(current)[j] != "" ==> r[j] != ""
    ensures onlyFillEmpty ==> forall j :: 0 <= j < 3 && Base(current)[j] != "" ==> r[j] == Base(current)[j]
    ensures forall j :: 0 <= j < 3 && r[j] != Base(current)[j] ==>
      r[j] != "" && Key(r[j]) !in KeysOf(Base(current))
      && (forall l :: 0 <= l < 3 && l != j && r[l] != "" ==> Key(r[l]) != Key(r[j]))
    ensures forall j :: 0 <= j < 3 && r[j] != Base(current)[j] ==>
      Key(r[j]) in FreeSet(f, cache.assistantsList, env.nowMin)
      && exists a :: Key(a) == Key(r[j]) && AvailableFor(inTime, outTime, f, exclude, env)(a)
  {
    var base := Base(current);
    if doctor == "" || CoerceToTime(inTime).None? || CoerceToTime(outTime).None? {
      return base;
    }
    var apptMin := MinutesOf(CoerceToTime(inTime).value);
    var rules := GetOr(DeptSection(department, LoadConfig(env.rulesFile)), "allocation_rules", JObject([]));
    var p := BuildPools(department, inTime, outTime, f, exclude, env, cache);
    var pick := PickerFor(rules, doctor, apptMin, p);
    r := SlotsFrom(InPools(p), pick, onlyFillEmpty, base);
  }

  // ---------------------------------------------------------------------------
  // The whole schedule
  // ---------------------------------------------------------------------------

  /** `str(row.get("DR.", "") or row.get("Doctor", "")).strip()`: an empty
      or `None` DR. cell falls back to the Doctor cell. */
  function DoctorOf(row: Row): string {
    var dr := Get(row, "DR.");
    Trim(if dr == "" || dr == "None" then Get(row, "Doctor") else dr)
  }

  /** The slot values of a row, as handed to `allocate_for_slot`. */
  function CurrentOf(row: Row): (m: map<string, string>)
    ensures forall j :: 0 <= j < 3 ==> Get(m, SlotColumns[j]) == Get(row, SlotColumns[j])
  {
    map c | c in SlotColumns :: Get(row, c)
  }

  /** The rows `auto_allocate_all` passes over: no doctor, a time that does
      not parse, or (when only empty slots are filled) no empty slot. */
  predicate Skipped(row: Row, onlyFillEmpty: bool) {
    DoctorOf(row) == ""
    || CoerceToTime(TimeCell(row, "In Time")).None?
    || CoerceToTime(TimeCell(row, "Out Time")).None?
    || (onlyFillEmpty && forall j :: 0 <= j < 3 ==> !IsBlank(Get(row, SlotColumns[j])))
  }

  /** Slot `j` of the row is overwritten with the allocated value: the value
      is not blank, differs from the old one once both are stripped, and the
      frame has the column. */
  predicate Writes(row: Row, alloc: seq<string>, columns: seq<string>, j: nat)
    requires |alloc| == 3 && j < 3
  {
    !IsBlank(alloc[j]) && Trim(alloc[j]) != Trim(Get(row, SlotColumns[j])) && SlotColumns[j] in columns
  }

  /** The row with slot `j` set to `vals[j]` wherever `w[j]` holds. */
  function SetSlots(row: Row, vals: seq<string>, w: seq<bool>): (r: Row)
    requires |vals| == 3 && |w| == 3
    ensures forall c :: c !in SlotColumns ==> (c in r <==> c in row) && Get(r, c) == Get(row, c)
    ensures forall c :: c in row ==> c in r
    ensures forall j :: 0 <= j < 3 ==> Get(r, SlotColumns[j]) == if w[j] then vals[j] else Get(row, SlotColumns[j])
  {
    SlotColumnsDistinct();
    var r0 := if w[0] then row[SlotColumns[0] := vals[0]] else row;
    var r1 := if w[1] then r0[SlotColumns[1] := vals[1]] else r0;
    if w[2] then r1[SlotColumns[2] := vals[2]] else r1
  }

  /** The row after the three slot writes. */
  function WriteRow(row: Row, alloc: seq<string>, columns: seq<string>): Row
    requires |alloc| == 3
  {
    SetSlots(row, alloc, [Writes(row, alloc, columns, 0), Writes(row, alloc, columns, 1), Writes(row, alloc, columns, 2)])
  }

  function Ind(b: bool): nat {
    if b then 1 else 0
  }

  /** How many slot cells differ between two versions of a row. */
  function ChangedSlots(a: Row, b: Row): nat {
    Ind(Get(a, SlotColumns[0]) != Get(b, SlotColumns[0]))
    + Ind(Get(a, SlotColumns[1]) != Get(b, SlotColumns[1]))
    + Ind(Get(a, SlotColumns[2]) != Get(b, SlotColumns[2]))
  }

  /** How many slot cells differ between two versions of a schedule,
      row by row. */
  function TotalChanged(xs: seq<Row>, ys: seq<Row>): nat
    requires |xs| == |ys|
  {
    Seqs.SumPairs(xs, ys, |xs|, ChangedSlots)
  }

  /** What `allocate_for_slot` promises about its result relative to the
      slot values it was given, leaving out availability. */
  ghost predicate AllocSound(current: map<string, string>, onlyFillEmpty: bool, alloc: seq<string>) {
    var base := Base(current);
    |alloc| == 3
    && (onlyFillEmpty ==> forall j :: 0 <= j < 3 && base[j] != "" ==> alloc[j] == base[j])
    && (forall j :: 0 <= j < 3 && alloc[j] != base[j] ==>
         (alloc[j] != "" && Key(alloc[j]) !in KeysOf(base)
          && forall l :: 0 <= l < 3 && l != j && alloc[l] != "" ==> Key(alloc[l]) != Key(alloc[j])))
  }

  /** What one pass of the loop does to a row: only slot cells change,
      each to a value it may take; with `onlyFillEmpty` no filled slot is
      overwritten; and a slot that changed names nobody named in another
      slot. */
  ghost predicate RowOutcome(a: Row, b: Row, columns: seq<string>, onlyFillEmpty: bool) {
    OnlySlotsChange(a, b) && ChangesValid(a, b, columns)
    && (onlyFillEmpty ==> KeepsFilled(a, b)) && NoSharedSlot(a, b)
  }

  /** Every cell outside the slots is as it was, and no cell is dropped. */
  ghost predicate OnlySlotsChange(a: Row, b: Row) {
    (forall c :: c !in SlotColumns ==> (c in b <==> c in a) && Get(b, c) == Get(a, c))
    && (forall c :: c in a ==> c in b)
  }

  /** A slot cell that changed is a column of the frame and holds a
      non-blank value that differs from the old one once both are stripped. */
  ghost predicate ChangesValid(a: Row, b: Row, columns: seq<string>) {
    forall j :: 0 <= j < 3 && Get(b, SlotColumns[j]) != Get(a, SlotColumns[j]) ==>
      (SlotColumns[j] in columns && !IsBlank(Get(b, SlotColumns[j]))
       && Trim(Get(b, SlotColumns[j])) != Trim(Get(a, SlotColumns[j])))
  }

  /** No slot that held a value is overwritten. */
  ghost predicate KeepsFilled(a: Row, b: Row) {
    forall j :: 0 <= j < 3 && !IsBlank(Get(a, SlotColumns[j])) ==> Get(b, SlotColumns[j]) == Get(a, SlotColumns[j])
  }

  /** A slot that changed names, by key, nobody named in another slot. */
  ghost predicate NoSharedSlot(a: Row, b: Row) {
    forall j, l ::
      (0 <= j < 3 && 0 <= l < 3 && j != l && Get(b, SlotColumns[j]) != Get(a, SlotColumns[j])
       && !IsBlank(Get(b, SlotColumns[l]))) ==> Key(Get(b, SlotColumns[j])) != Key(Get(b, SlotColumns[l]))
  }

  lemma SlotColumnsDistinct()
    ensures forall j, l :: 0 <= j < 3 && 0 <= l < 3 && j != l ==> SlotColumns[j] != SlotColumns[l]
  {
    assert SlotColumns[0][0] != SlotColumns[1][0];
    assert SlotColumns[0][0] != SlotColumns[2][0];
    assert SlotColumns[1][0] != SlotColumns[2][0];
  }

  /** The cells of the written row: a slot holds the allocated value exactly
      when it is written, and every other cell is untouched. */
  lemma WriteRowCells(row: Row, alloc: seq<string>, columns: seq<string>)
    requires |alloc| == 3
    ensures forall c :: c !in SlotColumns ==>
      (c in WriteRow(row, alloc, columns) <==> c in row) && Get(WriteRow(row, alloc, columns), c) == Get(row, c)
    ensures forall c :: c in row ==> c in WriteRow(row, alloc, columns)
    ensures forall j :: 0 <= j < 3 ==>
      Get(WriteRow(row, alloc, columns), SlotColumns[j]) == if Writes(row, alloc, columns, j) then alloc[j] else Get(row, SlotColumns[j])
  {
    var w := [Writes(row, alloc, columns, 0), Writes(row, alloc, columns, 1), Writes(row, alloc, columns, 2)];
    assert forall j :: 0 <= j < 3 ==> w[j] == Writes(row, alloc, columns, j);
  }

  /** A written value is never the slot's own value passed in. */
  lemma WrittenDiffersFromBase(row: Row, alloc: seq<string>, columns: seq<string>, j: nat)
    requires |alloc| == 3 && j < 3 && Writes(row, alloc, columns, j)
    ensures alloc[j] != Base(CurrentOf(row))[j]
  {
    var prev := Get(row, SlotColumns[j]);
    BlankCases("");
    if !IsBlank(prev) {
      TrimIdempotent(prev);
    }
  }

  /** A kept non-blank slot value has its key among the keys passed in. */
  lemma KeptKeyListed(row: Row, j: nat)
    requires j < 3 && !IsBlank(Get(row, SlotColumns[j]))
    ensures Key(Get(row, SlotColumns[j])) in KeysOf(Base(CurrentOf(row)))
  {
    var prev := Get(row, SlotColumns[j]);
    TrimIdempotent(prev);
    assert Key(Trim(prev)) == Key(prev);
  }

  /** A slot cell changes exactly when it is written. */
  lemma ChangedIffWritten(row: Row, alloc: seq<string>, columns: seq<string>, j: nat)
    requires |alloc| == 3 && j < 3
    ensures Get(WriteRow(row, alloc, columns), SlotColumns[j]) != Get(row, SlotColumns[j]) <==> Writes(row, alloc, columns, j)
  {
    WriteRowCells(row, alloc, columns);
  }

  /** A slot that changed names nobody named in another slot. */
  lemma {:induction false} ChangedIsUnshared(row: Row, alloc: seq<string>, columns: seq<string>, onlyFillEmpty: bool, j: nat, l: nat)
    requires AllocSound(CurrentOf(row), onlyFillEmpty, alloc)
    requires j < 3 && l < 3 && j != l
    requires Get(WriteRow(row, alloc, columns), SlotColumns[j]) != Get(row, SlotColumns[j])
    requires !IsBlank(Get(WriteRow(row, alloc, columns), SlotColumns[l]))
    ensures Key(Get(WriteRow(row, alloc, columns), SlotColumns[j])) != Key(Get(WriteRow(row, alloc, columns), SlotColumns[l]))
  {
    WriteRowCells(row, alloc, columns);
    ChangedIffWritten(row, alloc, columns, j);
    WrittenDiffersFromBase(row, alloc, columns, j);
    if Writes(row, alloc, columns, l) {
      BlankCases("");
    } else {
      KeptKeyListed(row, l);
    }
  }

  /** The number of writes is the number of changed slot cells. */
  lemma WritesCounted(row: Row, alloc: seq<string>, columns: seq<string>)
    requires |alloc| == 3
    ensures ChangedSlots(row, WriteRow(row, alloc, columns)) ==
      Ind(Writes(row, alloc, columns, 0)) + Ind(Writes(row, alloc, columns, 1)) + Ind(Writes(row, alloc, columns, 2))
  {
    ChangedIffWritten(row, alloc, columns, 0);
    ChangedIffWritten(row, alloc, columns, 1);
    ChangedIffWritten(row, alloc, columns, 2);
  }

  /** One pass of the loop body over a row meets `RowOutcome`. */
  lemma {:induction false} WriteRowOutcome(row: Row, alloc: seq<string>, columns: seq<string>, onlyFillEmpty: bool)
    requires AllocSound(CurrentOf(row), onlyFillEmpty, alloc)
    ensures RowOutcome(row, WriteRow(row, alloc, columns), columns, onlyFillEmpty)
  {
    var b := WriteRow(row, alloc, columns);
    WriteRowCells(row, alloc, columns);
    assert OnlySlotsChange(row, b);
    assert ChangesValid(row, b, columns) by {
      forall j | 0 <= j < 3 && Get(b, SlotColumns[j]) != Get(row, SlotColumns[j])
        ensures SlotColumns[j] in columns && !IsBlank(Get(b, SlotColumns[j]))
          && Trim(Get(b, SlotColumns[j])) != Trim(Get(row, SlotColumns[j]))
      {
        ChangedIffWritten(row, alloc, columns, j);
      }
    }
    if onlyFillEmpty {
      forall j | 0 <= j < 3 && !IsBlank(Get(row, SlotColumns[j]))
        ensures Get(b, SlotColumns[j]) == Get(row, SlotColumns[j])
      {
        if Writes(row, alloc, columns, j) {
          WrittenDiffersFromBase(row, alloc, columns, j);
        }
      }
    }
    forall j: nat, l: nat | j < 3 && l < 3 && j != l && Get(b, SlotColumns[j]) != Get(row, SlotColumns[j])
        && !IsBlank(Get(b, SlotColumns[l]))
      ensures Key(Get(b, SlotColumns[j])) != Key(Get(b, SlotColumns[l]))
    {
      ChangedIsUnshared(row, alloc, columns, onlyFillEmpty, j, l);
    }
  }

  /** Writing back the slot values a row already holds changes nothing:
      skipping a row is the same as allocating it when `allocate_for_slot`
      returns the values it was given. */
  lemma BaseWritesNothing(row: Row, columns: seq<string>)
    ensures WriteRow(row, Base(CurrentOf(row)), columns) == row
  {
    var base := Base(CurrentOf(row));
    BlankCases("");
    forall j | 0 <= j < 3
      ensures !Writes(row, base, columns, j)
    {
      TrimIdempotent(Get(row, SlotColumns[j]));
    }
  }

  /** The loop body of `auto_allocate_all` for one row, against the
      schedule `g` as it stands: the row after the writes, and how many
      cells were written. */
  method AllocateRow(row: Row, g: Frame, onlyFillEmpty: bool, env: Env, cache: ProfilesCache.Cache)
    returns (next: Row, writes: nat)
    ensures Skipped(row, onlyFillEmpty) ==> next == row && writes == 0
    ensures RowDone(row, next, g.columns, onlyFillEmpty)
    ensures writes == ChangedSlots(row, next)
  {
    if Skipped(row, onlyFillEmpty) {
      assert RowOutcome(row, row, g.columns, onlyFillEmpty);
      return row, 0;
    }
    var doctor := DoctorOf(row);
    var exclude := Trim(Get(row, ScheduleOps.RowIdColumn));
    var department := ProfilesCache.GetDepartmentForDoctor(cache, doctor);
    var alloc := AllocateForSlot(doctor, department, TimeCell(row, "In Time"), TimeCell(row, "Out Time"),
                                 g, exclude, CurrentOf(row), onlyFillEmpty, env, cache);
    WriteRowOutcome(row, alloc, g.columns, onlyFillEmpty);
    WritesCounted(row, alloc, g.columns);
    next := WriteRow(row, alloc, g.columns);
    writes := Ind(Writes(row, alloc, g.columns, 0)) + Ind(Writes(row, alloc, g.columns, 1))
      + Ind(Writes(row, alloc, g.columns, 2));
  }

  /** What `auto_allocate_all` promises for one row: a skipped row is kept,
      and every row meets `RowOutcome`. */
  ghost predicate RowDone(a: Row, b: Row, columns: seq<string>, onlyFillEmpty: bool) {
    (Skipped(a, onlyFillEmpty) ==> b == a) && RowOutcome(a, b, columns, onlyFillEmpty)
  }

  /** The state of `auto_allocate_all` after the first `idx` rows: the
      schedule keeps its shape, the rows not yet reached are untouched, the
      ones passed over are done, and the count covers them. */
  ghost predicate Progress(f: Frame, g: Frame, idx: nat, changed: nat, onlyFillEmpty: bool) {
    idx <= |f.rows|
    && g.columns == f.columns && |g.rows| == |f.rows|
    && (forall i :: idx <= i < |f.rows| ==> g.rows[i] == f.rows[i])
    && (forall i {:trigger RowDone(f.rows[i], g.rows[i], f.columns, onlyFillEmpty)} ::
         0 <= i < idx ==> RowDone(f.rows[i], g.rows[i], f.columns, onlyFillEmpty))
    && changed == Seqs.SumPairs(f.rows, g.rows, idx, ChangedSlots)
  }

  /** Processing row `idx` extends the progress by one row. */
  lemma ProgressStep(f: Frame, g: Frame, idx: nat, changed: nat, onlyFillEmpty: bool, next: Row, writes: nat)
    requires Progress(f, g, idx, changed, onlyFillEmpty) && idx < |f.rows|
    requires RowDone(f.rows[idx], next, f.columns, onlyFillEmpty) && writes == ChangedSlots(f.rows[idx], next)
    ensures Progress(f, g.(rows := g.rows[idx := next]), idx + 1, changed + writes, onlyFillEmpty)
  {
    var rows := g.rows[idx := next];
    Seqs.SumPairsPrefix(f.rows, g.rows, rows, idx, ChangedSlots);
  }

  /** What the progress over all rows means for the result. */
  lemma ProgressDone(f: Frame, g: Frame, changed: nat, onlyFillEmpty: bool)
    requires Progress(f, g, |f.rows|, changed, onlyFillEmpty)
    ensures g.columns == f.columns && |g.rows| == |f.rows|
    ensures forall i :: 0 <= i < |f.rows| && Skipped(f.rows[i], onlyFillEmpty) ==> g.rows[i] == f.rows[i]
    ensures forall i :: 0 <= i < |f.rows| ==> RowOutcome(f.rows[i], g.rows[i], f.columns, onlyFillEmpty)
    ensures changed == TotalChanged(f.rows, g.rows)
  {
    forall i | 0 <= i < |f.rows|
      ensures (Skipped(f.rows[i], onlyFillEmpty) ==> g.rows[i] == f.rows[i])
        && RowOutcome(f.rows[i], g.rows[i], f.columns, onlyFillEmpty)
    {
      assert RowDone(f.rows[i], g.rows[i], f.columns, onlyFillEmpty);
    }
  }

  /** `auto_allocate_all`: every row in turn, against the schedule as updated
      by the rows before it, gets its slots allocated and the changed values
      written.  Skipped rows stay as they are; every row meets `RowOutcome`;
      the count of writes is the number of slot cells that differ from the
      input. */
  method AutoAllocateAll(f: Frame, onlyFillEmpty: bool, env: Env, cache: ProfilesCache.Cache)
    returns (g: Frame, changed: nat)
    ensures g.columns == f.columns && |g.rows| == |f.rows|
    ensures forall i :: 0 <= i < |f.rows| && Skipped(f.rows[i], onlyFillEmpty) ==> g.rows[i] == f.rows[i]
    ensures forall i :: 0 <= i < |f.rows| ==> RowOutcome(f.rows[i], g.rows[i], f.columns, onlyFillEmpty)
    ensures changed == TotalChanged(f.rows, g.rows)
  {
    g := f;
    changed := 0;
    var idx := 0;
    while idx < |f.rows|
      invariant Progress(f, g, idx, changed, onlyFillEmpty)
      decreases |f.rows| - idx
    {
      var next, writes := AllocateRow(f.rows[idx], g, onlyFillEmpty, env, cache);
      ProgressStep(f, g, idx, changed, onlyFillEmpty, next, writes);
      changed := changed + writes;
      g := g.(rows := g.rows[idx := next]);
      idx := idx + 1;
    }
    ProgressDone(f, g, changed, onlyFillEmpty);
  }
}

=== FILE: availability.dfy ===
/**
 * Assistant availability: the appointments an assistant is on, time blocks
 * (backend work and the like) over a day, punch-in gating, the availability
 * verdict for an interval, the live status at a clock time, and the stored
 * form of time blocks.
 *
 * Minutes are minutes of the day; an interval whose end is before its start
 * runs past midnight and has 1440 added to its end.
 */
module Availability {
  import opened Wrappers
  import opened Strings
  import opened Utils
  import opened Frames
  import Seqs
  import opened Constants

  // ---------------------------------------------------------------------------
  // An assistant's appointments
  // ---------------------------------------------------------------------------

  /** An entry of `get_assistant_schedule`. */
  datatype Appt = Appt(
    rowId: string,
    patient: string,
    inTime: TimeInput,
    outTime: TimeInput,
    doctor: string,
    op: string,
    role: string,
    status: string)

  /** The listing's terminal test: the status contains a terminal status. */
  predicate MentionsTerminal(status: string) {
    exists s :: s in TerminalStatuses && Contains(status, s)
  }

  /** The slot test of a row: the slot exists and names the assistant. */
  function SlotHolds(row: Row, who: string): string -> bool {
    col => col in row && Key(row[col]) == who
  }

  /** The appointment a row contributes for the assistant `who` (already
      stripped and upper-cased): tagged with the first slot naming them, and
      none when no slot does or the row's status mentions a terminal status. */
  function RowAppt(who: string, row: Row): (r: Option<Appt>)
    ensures r.Some? <==>
      (exists col :: col in SlotColumns && SlotHolds(row, who)(col)) && !MentionsTerminal(Key(Get(row, "STATUS")))
    ensures r.Some? ==> !MentionsTerminal(r.value.status)
    ensures r.Some? ==> exists k ::
      (0 <= k < |SlotColumns| && r.value.role == SlotColumns[k]
       && SlotHolds(row, who)(SlotColumns[k]) && forall j :: 0 <= j < k ==> !SlotHolds(row, who)(SlotColumns[j]))
  {
    var k := Seqs.FirstIndex(SlotColumns, SlotHolds(row, who));
    var status := Key(Get(row, "STATUS"));
    if k == |SlotColumns| then None
    else if MentionsTerminal(status) then None
    else Some(Appt(
      Get(row, "REMINDER_ROW_ID"),
      if "Patient Name" in row then row["Patient Name"] else "Unknown",
      TimeCell(row, "In Time"),
      TimeCell(row, "Out Time"),
      Get(row, "DR."),
      Get(row, "OP"),
      SlotColumns[k],
      status))
  }

  function ApptOf(who: string): Row -> Option<Appt> {
    row => RowAppt(who, row)
  }

  /** The listing holds exactly the appointments the rows contribute, in row
      order, at most one per row. */
  lemma {:induction false} ScheduleMembers(name: string, f: Frame, a: Appt)
    requires |name| > 0 && !IsEmpty(f)
    ensures a in GetAssistantSchedule(name, f) <==> exists i :: 0 <= i < |f.rows| && RowAppt(Key(name), f.rows[i]) == Some(a)
  {
    Seqs.FilterMapMembers(f.rows, ApptOf(Key(name)), a);
  }

  /** The rows that contribute to the listing, in increasing order. */
  function ScheduleRows(name: string, f: Frame): (r: seq<nat>)
    ensures forall k :: 0 <= k < |r| ==> r[k] < |f.rows|
    ensures forall k, l :: 0 <= k < l < |r| ==> r[k] < r[l]
  {
    Seqs.Positions(f.rows, ApptOf(Key(name)))
  }

  /** The k-th listed appointment is the one row `ScheduleRows(name, f)[k]`
      contributes, and a row is among those exactly when it contributes one:
      the listing keeps row order and takes one appointment from each row. */
  lemma {:induction false} ScheduleInOrder(name: string, f: Frame)
    requires |name| > 0 && !IsEmpty(f)
    ensures |GetAssistantSchedule(name, f)| == |ScheduleRows(name, f)|
    ensures forall k :: 0 <= k < |ScheduleRows(name, f)| ==>
      RowAppt(Key(name), f.rows[ScheduleRows(name, f)[k]]) == Some(GetAssistantSchedule(name, f)[k])
    ensures forall i :: 0 <= i < |f.rows| ==>
      (i in ScheduleRows(name, f) <==> RowAppt(Key(name), f.rows[i]).Some?)
  {
    Seqs.FilterMapPositions(f.rows, ApptOf(Key(name)));
  }

  /** `get_assistant_schedule`: nothing for an empty name or frame. */
  function GetAssistantSchedule(name: string, f: Frame): (r: seq<Appt>)
    ensures |name| == 0 || IsEmpty(f) ==> |r| == 0
    ensures |r| <= |f.rows|
  {
    if |name| == 0 || IsEmpty(f) then [] else Seqs.FilterMap(f.rows, ApptOf(Key(name)))
  }

  // ---------------------------------------------------------------------------
  // Time blocks
  // ---------------------------------------------------------------------------

  /** A time block as the callers hand it over: the text of its assistant and
      date (`""` when missing), its reason if present, and its two times. */
  datatype Block = Block(assistant: string, date: string, reason: Option<string>, start: TimeInput, end: TimeInput)

  /** The clock span of a block that applies to the assistant `who` on the day
      `today`, in minutes as written; none when the block is for another day
      or assistant or a time does not parse. */
  function BlockTimes(b: Block, who: string, today: string): (r: Option<(nat, nat)>)
    ensures r.Some? ==> r.value.0 < 1440 && r.value.1 < 1440
    ensures r.Some? ==> Trim(b.date) == today && Key(b.assistant) == who
  {
    if Trim(b.date) != today || Key(b.assistant) != who then None
    else match (CoerceToTime(b.start), CoerceToTime(b.end))
      case (Some(s), Some(e)) => Some((MinutesOf(s), MinutesOf(e)))
      case _ => None
  }

  /** The end of an interval, moved past midnight when before its start:
      the same clock minute, on the day the interval starts or the next, and
      for clock times no more than a day after the start. */
  function WrapEnd(start: nat, end: nat): (r: nat)
    ensures r == end || r == end + 1440
    ensures start <= end ==> r == end
    ensures start < 1440 && end < 1440 ==> start <= r < start + 1440
  {
    if end < start then end + 1440 else end
  }

  /** For clock times, `WrapEnd` is the only minute on the end's clock
      reading that lies within the day after the start. */
  lemma WrapEndUnique(start: nat, end: nat, x: int)
    requires start < 1440 && end < 1440
    requires x % 1440 == end && start <= x < start + 1440
    ensures x == WrapEnd(start, end)
  {
    var q := x / 1440;
    assert x == 1440 * q + end;
    assert 0 <= q <= 1;
  }

  /** Half-open intervals `[s1, e1)` and `[s2, e2)` share a minute. */
  predicate Overlaps(s1: int, e1: int, s2: int, e2: int) {
    !(e1 <= s2 || s1 >= e2)
  }

  /** The interval `[inMin, outMin)` runs into block `b`. */
  function IntervalHits(who: string, today: string, inMin: int, outMin: int): Block -> bool {
    (b: Block) => var t := BlockTimes(b, who, today);
      t.Some? && Overlaps(inMin, outMin, t.value.0, WrapEnd(t.value.0, t.value.1))
  }

  /** The text a block's reason contributes, with the default used when the
      block has none. */
  function ReasonText(reason: Option<string>, default: string): string {
    reason.GetOr(default)
  }

  /** `is_blocked_by_time_block`: the first block of the day for the
      assistant whose span (end wrapped past midnight) overlaps the interval
      decides, with its reason. */
  function IsBlockedByTimeBlock(who: string, inMin: int, outMin: int, blocks: seq<Block>, today: string): (r: (bool, string))
    ensures var k := Seqs.FirstIndex(blocks, IntervalHits(who, today, inMin, outMin));
      r == if k < |blocks| then (true, "Blocked: " + ReasonText(blocks[k].reason, "Blocked")) else (false, "")
    decreases |blocks|
  {
    if |blocks| == 0 then (false, "")
    else if IntervalHits(who, today, inMin, outMin)(blocks[0]) then
      (true, "Blocked: " + ReasonText(blocks[0].reason, "Blocked"))
    else
      var rest := IsBlockedByTimeBlock(who, inMin, outMin, blocks[1..], today);
      assert Seqs.FirstIndex(blocks, IntervalHits(who, today, inMin, outMin))
        == 1 + Seqs.FirstIndex(blocks[1..], IntervalHits(who, today, inMin, outMin));
      rest
  }

  /** The interval is blocked exactly when some block of the day for the
      assistant overlaps it. */
  lemma {:induction false} BlockedIffSomeBlock(who: string, inMin: int, outMin: int, blocks: seq<Block>, today: string)
    ensures IsBlockedByTimeBlock(who, inMin, outMin, blocks, today).0 <==>
      exists i :: 0 <= i < |blocks| && IntervalHits(who, today, inMin, outMin)(blocks[i])
  {
    var k := Seqs.FirstIndex(blocks, IntervalHits(who, today, inMin, outMin));
    if k < |blocks| {
      assert IntervalHits(who, today, inMin, outMin)(blocks[k]);
    }
  }

  /** The clock time `m` falls into block `b` (closed span, no wrap). */
  function PointHits(who: string, today: string, m: nat): Block -> bool {
    (b: Block) => var t := BlockTimes(b, who, today);
      t.Some? && t.value.0 <= m <= t.value.1
  }

  /** `is_blocked_by_time_block_point`: the first block of the day for the
      assistant whose span, as written, contains the clock time decides. */
  function IsBlockedByTimeBlockPoint(who: string, t: Time, blocks: seq<Block>, today: string): (r: (bool, string))
    ensures var k := Seqs.FirstIndex(blocks, PointHits(who, today, MinutesOf(t)));
      r == if k < |blocks| then (true, ReasonText(blocks[k].reason, "Blocked")) else (false, "")
    decreases |blocks|
  {
    if |blocks| == 0 then (false, "")
    else if PointHits(who, today, MinutesOf(t))(blocks[0]) then
      (true, ReasonText(blocks[0].reason, "Blocked"))
    else
      var rest := IsBlockedByTimeBlockPoint(who, t, blocks[1..], today);
      assert Seqs.FirstIndex(blocks, PointHits(who, today, MinutesOf(t)))
        == 1 + Seqs.FirstIndex(blocks[1..], PointHits(who, today, MinutesOf(t)));
      rest
  }

  /** A block written across midnight (end before start) never contains a
      clock time under the point check. */
  lemma {:induction false} PointCheckIgnoresWrappedBlock(who: string, today: string, m: nat, b: Block)
    requires BlockTimes(b, who, today).Some?
    requires BlockTimes(b, who, today).value.1 < BlockTimes(b, who, today).value.0
    ensures !PointHits(who, today, m)(b)
  {
  }

  // ---------------------------------------------------------------------------
  // Availability of an assistant over an interval
  // ---------------------------------------------------------------------------

  /** The punch record of an assistant: the texts of the punch-in and
      punch-out times, `""` when absent. */
  datatype Punch = Punch(punchIn: string, punchOut: string)

  function PunchOf(punches: map<string, Punch>, who: string): Punch {
    if who in punches then punches[who] else Punch("", "")
  }

  /** `s[:n]`. */
  function Prefix(s: string, n: nat): (r: string)
    ensures |r| == if |s| <= n then |s| else n
    ensures r == s[..|r|]
  {
    if |s| <= n then s else s[..n]
  }

  /** The punch gate: a refusal reason when punch data is given and the
      assistant is not punched in (on a weekly off or not) or has punched
      out. */
  function PunchRefusal(who: string, punches: Option<map<string, Punch>>, weeklyOff: set<string>, dayName: string): (r: Option<string>)
    ensures punches.None? ==> r.None?
    ensures punches.Some? ==> (r.None? <==>
      |PunchOf(punches.value, who).punchIn| > 0 && |PunchOf(punches.value, who).punchOut| == 0)
  {
    match punches
    case None => None
    case Some(m) =>
      var p := PunchOf(m, who);
      if |p.punchIn| == 0 then
        Some(if who in weeklyOff then "Weekly off (" + dayName + ")" else "Not punched in")
      else if |p.punchOut| > 0 then Some("Punched out at " + Prefix(p.punchOut, 5))
      else None
  }

  /** An appointment of the listing clashes with the interval: it is not the
      excluded row, both its times parse, and its span (end wrapped past
      midnight) overlaps. */
  function Clashes(inMin: int, outMin: int, excludeRowId: string): Appt -> bool {
    (a: Appt) =>
      !(|excludeRowId| > 0 && Trim(a.rowId) == Trim(excludeRowId))
      && match (CoerceToTime(a.inTime), CoerceToTime(a.outTime))
        case (Some(ai), Some(ao)) =>
          Overlaps(inMin, outMin, MinutesOf(ai), WrapEnd(MinutesOf(ai), MinutesOf(ao)))
        case _ => false
  }

  /** The message naming the clashing appointment. */
  function ClashMessage(a: Appt): string {
    "With " + a.patient + " (" + TimeToHhmm(CoerceToTime(a.inTime)) + "-" + TimeToHhmm(CoerceToTime(a.outTime)) + ")"
  }

  /** The verdict over an assistant's appointments: the first clash decides. */
  function ScheduleVerdict(appts: seq<Appt>, inMin: int, outMin: int, excludeRowId: string): (r: (bool, string))
    ensures var k := Seqs.FirstIndex(appts, Clashes(inMin, outMin, excludeRowId));
      r == if k < |appts| then (false, ClashMessage(appts[k])) else (true, "")
    decreases |appts|
  {
    if |appts| == 0 then (true, "")
    else if Clashes(inMin, outMin, excludeRowId)(appts[0]) then (false, ClashMessage(appts[0]))
    else
      var rest := ScheduleVerdict(appts[1..], inMin, outMin, excludeRowId);
      assert Seqs.FirstIndex(appts, Clashes(inMin, outMin, excludeRowId))
        == 1 + Seqs.FirstIndex(appts[1..], Clashes(inMin, outMin, excludeRowId));
      rest
  }

  /** The interval of the check, its end wrapped past midnight. */
  function CheckSpan(checkIn: TimeInput, checkOut: TimeInput): Option<(nat, nat)> {
    match (CoerceToTime(checkIn), CoerceToTime(checkOut))
    case (Some(i), Some(o)) => Some((MinutesOf(i), WrapEnd(MinutesOf(i), MinutesOf(o))))
    case _ => None
  }

  /** The time-block verdict, consulted only when blocks and a day are given. */
  function BlockVerdict(who: string, span: (nat, nat), blocks: seq<Block>, today: string): (bool, string) {
    if |blocks| > 0 && |today| > 0 then IsBlockedByTimeBlock(who, span.0, span.1, blocks, today) else (false, "")
  }

  /** `is_assistant_available`.  `excludeRowId`, `today` and `blocks` are
      `""`/`[]` when not given; `dayName` is today's weekday name. */
  function IsAssistantAvailable(
    name: string, checkIn: TimeInput, checkOut: TimeInput, f: Frame, excludeRowId: string,
    punches: Option<map<string, Punch>>, blocks: seq<Block>, weeklyOff: set<string>,
    today: string, dayName: string): (r: (bool, string))
    ensures |name| == 0 ==> r == (false, "No assistant specified")
    ensures |name| > 0 && PunchRefusal(Key(name), punches, weeklyOff, dayName).Some? ==> !r.0
    ensures (|name| > 0 && PunchRefusal(Key(name), punches, weeklyOff, dayName).None?
             && CheckSpan(checkIn, checkOut).None?) ==> r == (true, "")
    ensures (|name| > 0 && PunchRefusal(Key(name), punches, weeklyOff, dayName).None?
             && CheckSpan(checkIn, checkOut).Some?) ==>
      (r.0 <==>
        !BlockVerdict(Key(name), CheckSpan(checkIn, checkOut).value, blocks, today).0
        && forall a :: a in GetAssistantSchedule(Key(name), f) ==>
             !Clashes(CheckSpan(checkIn, checkOut).value.0, CheckSpan(checkIn, checkOut).value.1, excludeRowId)(a))
  {
    if |name| == 0 then (false, "No assistant specified")
    else
      var who := Key(name);
      match PunchRefusal(who, punches, weeklyOff, dayName)
      case Some(reason) => (false, reason)
      case None =>
        match CheckSpan(checkIn, checkOut)
        case None => (true, "")
        case Some(span) =>
          var blocked := BlockVerdict(who, span, blocks, today);
          if blocked.0 then (false, blocked.1)
          else
            var appts := GetAssistantSchedule(who, f);
            var v := ScheduleVerdict(appts, span.0, span.1, excludeRowId);
            FirstIndexNone(appts, Clashes(span.0, span.1, excludeRowId));
            v
  }

  /** No element passes exactly when the first match is past the end. */
  lemma {:induction false} FirstIndexNone<T>(xs: seq<T>, p: T -> bool)
    ensures Seqs.FirstIndex(xs, p) == |xs| <==> forall x :: x in xs ==> !p(x)
  {
    var k := Seqs.FirstIndex(xs, p);
    if k == |xs| {
      forall x | x in xs ensures !p(x) {
        var j :| 0 <= j < |xs| && xs[j] == x;
      }
    } else {
      assert xs[k] in xs;
    }
  }

  // ---------------------------------------------------------------------------
  // Live status
  // ---------------------------------------------------------------------------

  /** An entry of `get_assistant_status`. */
  datatype Status = Status(status: string, reason: string, department: string)

  /** The live test of an appointment at clock minute `m`: marked ongoing,
      marked arrived without both times, or its span (end wrapped) contains
      the minute. */
  function BusyAt(m: nat): Appt -> bool {
    (a: Appt) =>
      var s := Upper(a.status);
      var ai, ao := CoerceToTime(a.inTime), CoerceToTime(a.outTime);
      Contains(s, "ON GOING") || Contains(s, "ONGOING")
      || ((ai.None? || ao.None?) && Contains(s, "ARRIVED"))
      || (ai.Some? && ao.Some?
          && MinutesOf(ai.value) <= m <= WrapEnd(MinutesOf(ai.value), MinutesOf(ao.value)))
  }

  /** The weekly-off names of a weekday, stripped and upper-cased. */
  function OffSet(weeklyOffMap: map<int, seq<string>>, weekday: int): set<string> {
    var names := if weekday in weeklyOffMap then weeklyOffMap[weekday] else [];
    set n | n in names :: Key(n)
  }

  /** `get_assistant_status` at the clock time `now`; `dayName` is the
      weekday's name and `department` the assistant's department. */
  function GetAssistantStatus(
    assistant: string, f: Frame, punches: map<string, Punch>, blocks: seq<Block>, today: string,
    weekday: int, weeklyOffMap: map<int, seq<string>>, now: Time, dayName: string, department: string): (r: Status)
    ensures r.department == department
    ensures r.status in {"BLOCKED", "BUSY", "FREE"}
    ensures r.status == "FREE" <==>
      |PunchOf(punches, Key(assistant)).punchIn| > 0 && |PunchOf(punches, Key(assistant)).punchOut| == 0
      && !IsBlockedByTimeBlockPoint(Key(assistant), now, blocks, today).0
      && forall a :: a in GetAssistantSchedule(Key(assistant), f) ==> !BusyAt(MinutesOf(now))(a)
  {
    var who := Key(assistant);
    var p := PunchOf(punches, who);
    if |p.punchIn| == 0 then
      if who in OffSet(weeklyOffMap, weekday) then Status("BLOCKED", "Weekly off (" + dayName + ")", department)
      else Status("BLOCKED", "Not punched in", department)
    else if |p.punchOut| > 0 then Status("BLOCKED", "Punched out at " + Prefix(p.punchOut, 5), department)
    else
      var point := IsBlockedByTimeBlockPoint(who, now, blocks, today);
      if point.0 then Status("BLOCKED", point.1, department)
      else
        var appts := GetAssistantSchedule(who, f);
        var k := Seqs.FirstIndex(appts, BusyAt(MinutesOf(now)));
        FirstIndexNone(appts, BusyAt(MinutesOf(now)));
        if k < |appts| then Status("BUSY", "With " + appts[k].patient, department)
        else Status("FREE", "Available", department)
  }

  /** No later name in the list shares the `i`-th one's key. */
  predicate LastWithKey(names: seq<string>, key: string -> string, i: nat)
    requires i < |names|
  {
    forall j :: i < j < |names| ==> key(names[j]) != key(names[i])
  }

  /** The position of the last name with key `k`, or `-1` when none has it. */
  function LastIndex(names: seq<string>, key: string -> string, k: string): (r: int)
    ensures -1 <= r < |names|
    ensures r >= 0 ==> key(names[r]) == k && LastWithKey(names, key, r)
    ensures r < 0 ==> forall j :: 0 <= j < |names| ==> key(names[j]) != k
    decreases |names|
  {
    if |names| == 0 then -1
    else if key(Seqs.Last(names)) == k then |names| - 1
    else
      var r := LastIndex(Seqs.Init(names), key, k);
      assert forall j :: 0 <= j < |names| - 1 ==> Seqs.Init(names)[j] == names[j];
      r
  }

  /** A dict comprehension over names: one entry per key, holding the value
      of the last name with that key. */
  function ByKey<T>(names: seq<string>, key: string -> string, val: string -> T): (r: map<string, T>)
    ensures forall k :: k in r <==> exists i :: 0 <= i < |names| && key(names[i]) == k
    ensures forall i :: 0 <= i < |names| && LastWithKey(names, key, i) ==> r[key(names[i])] == val(names[i])
  {
    var keys := set i | 0 <= i < |names| :: key(names[i]);
    var r := map k | k in keys :: val(names[LastIndex(names, key, k)]);
    assert forall i :: 0 <= i < |names| && LastWithKey(names, key, i) ==> r[key(names[i])] == val(names[i]) by {
      forall i | 0 <= i < |names| && LastWithKey(names, key, i) ensures r[key(names[i])] == val(names[i]) {
        var l := LastIndex(names, key, key(names[i]));
        assert key(names[i]) in keys;
        if l < 0 {
          assert false;
        } else if l < i {
          assert false;
        } else if l > i {
          assert false;
        }
      }
    }
    r
  }

  /** The map key of `get_all_assistant_statuses`: upper-cased, not stripped. */
  function UpperKey(a: string): string { Upper(a) }

  /** `get_all_assistant_statuses` over a given list of assistants: keyed by
      the upper-cased name (not stripped), a later spelling of the same key
      replacing an earlier one; `deptOf` is the department lookup. */
  function GetAllAssistantStatuses(
    assistants: seq<string>, f: Frame, punches: map<string, Punch>, blocks: seq<Block>, today: string,
    weekday: int, weeklyOffMap: map<int, seq<string>>, now: Time, dayName: string,
    deptOf: string -> string): (r: map<string, Status>)
    ensures forall k :: k in r <==> exists i :: 0 <= i < |assistants| && Upper(assistants[i]) == k
    ensures forall i :: 0 <= i < |assistants| && LastWithKey(assistants, UpperKey, i) ==>
      r[Upper(assistants[i])]
      == GetAssistantStatus(assistants[i], f, punches, blocks, today, weekday, weeklyOffMap, now, dayName,
                            deptOf(Key(assistants[i])))
  {
    ByKey(assistants, UpperKey,
      a => GetAssistantStatus(a, f, punches, blocks, today, weekday, weeklyOffMap, now, dayName, deptOf(Key(a))))
  }

  // ---------------------------------------------------------------------------
  // Stored form of time blocks
  // ---------------------------------------------------------------------------

  /** A time block as `deserialize_time_blocks` returns it. */
  datatype TimeBlock = TimeBlock(assistant: string, date: string, reason: string, start: Time, end: Time)

  /** `str(reason).strip() or "Backend Work"`, a missing reason counting as
      `"Backend Work"`. */
  function ReasonOr(reason: Option<string>): (r: string)
    ensures reason.None? || |Trim(reason.value)| == 0 ==> r == "Backend Work"
    ensures reason.Some? && |Trim(reason.value)| > 0 ==> r == Trim(reason.value)
    ensures |r| > 0 && IsTrimmed(r)
  {
    TrimOfTrimmed("Backend Work");
    var t := Trim(reason.GetOr("Backend Work"));
    if |t| == 0 then "Backend Work" else t
  }

  /** One entry of `serialize_time_blocks`: normalised text fields and the
      times as `HH:MM` (`""` when a time does not parse). */
  function SerializeBlock(b: Block): (r: Block)
    ensures r.reason.Some? && |r.reason.value| > 0
    ensures r.start.Text? && r.end.Text?
  {
    Block(Key(b.assistant), Trim(b.date), Some(ReasonOr(b.reason)),
          Text(TimeToHhmm(CoerceToTime(b.start))), Text(TimeToHhmm(CoerceToTime(b.end))))
  }

  /** `serialize_time_blocks`. */
  function SerializeTimeBlocks(blocks: seq<Block>): (r: seq<Block>)
    ensures |r| == |blocks|
    ensures forall i :: 0 <= i < |r| ==> r[i] == SerializeBlock(blocks[i])
  {
    seq(|blocks|, i requires 0 <= i < |blocks| => SerializeBlock(blocks[i]))
  }

  /** A stored time-block value: `None` or `""`, something that is not a
      list (a string that does not decode as JSON included), or a list. */
  datatype BlocksValue = NoBlocks | NotAList | Listed(entries: seq<Entry>)

  /** A list element: an object or anything else. */
  datatype Entry = NotAnObject | Object(b: Block)

  /** One element of `deserialize_time_blocks`: kept exactly when it is an
      object with a non-blank assistant, a non-blank date and two readable
      times, and then read with the assistant stripped and upper-cased, the
      date stripped and the reason defaulted. */
  function DeserializeEntry(e: Entry): (r: Option<TimeBlock>)
    ensures r.Some? <==>
      e.Object? && |Key(e.b.assistant)| > 0 && |Trim(e.b.date)| > 0
      && CoerceToTime(e.b.start).Some? && CoerceToTime(e.b.end).Some?
    ensures r.Some? ==>
      r.value.assistant == Key(e.b.assistant) && r.value.date == Trim(e.b.date)
      && r.value.reason == ReasonOr(e.b.reason)
      && Some(r.value.start) == CoerceToTime(e.b.start) && Some(r.value.end) == CoerceToTime(e.b.end)
    ensures r.Some? ==> Normalised(r.value)
  {
    match e
    case NotAnObject => None
    case Object(b) =>
      var a := Key(b.assistant);
      var d := Trim(b.date);
      KeyFacts(b.assistant);
      match (CoerceToTime(b.start), CoerceToTime(b.end))
      case (Some(s), Some(t)) =>
        if |a| == 0 || |d| == 0 then None else Some(TimeBlock(a, d, ReasonOr(b.reason), s, t))
      case _ => None
  }

  /** The blocks read from the elements of a stored list, in list order. */
  function DeserializeEntries(es: seq<Entry>): (r: seq<TimeBlock>)
    ensures |r| <= |es|
    ensures forall k :: 0 <= k < |r| ==> Normalised(r[k])
  {
    var r := Seqs.FilterMap(es, DeserializeEntry);
    forall k | 0 <= k < |r| ensures Normalised(r[k]) {
      Seqs.FilterMapMembers(es, DeserializeEntry, r[k]);
    }
    r
  }

  /** A block is read back exactly when some element of the list reads as it. */
  lemma DeserializeEntriesMembers(es: seq<Entry>, tb: TimeBlock)
    ensures tb in DeserializeEntries(es) <==> exists i :: 0 <= i < |es| && DeserializeEntry(es[i]) == Some(tb)
  {
    Seqs.FilterMapMembers(es, DeserializeEntry, tb);
  }

  /** Reading works element by element and keeps the list order: the blocks
      of a concatenation are the blocks of each part, one after the other. */
  lemma DeserializeEntriesAppend(a: seq<Entry>, b: seq<Entry>)
    ensures DeserializeEntries(a + b) == DeserializeEntries(a) + DeserializeEntries(b)
  {
    Seqs.FilterMapAppend(a, b, DeserializeEntry);
  }

  /** A one-element list gives its block when the element is kept, else nothing. */
  lemma DeserializeEntriesOne(e: Entry)
    ensures DeserializeEntry(e).Some? ==> DeserializeEntries([e]) == [DeserializeEntry(e).value]
    ensures DeserializeEntry(e).None? ==> DeserializeEntries([e]) == []
  {
    assert Seqs.Init([e]) == [] && Seqs.Last([e]) == e;
  }

  /** `deserialize_time_blocks`: nothing unless the value is a list; from a
      list, the blocks its elements read as, in order, every one in its
      stored form. */
  function DeserializeTimeBlocks(v: BlocksValue): (r: seq<TimeBlock>)
    ensures !v.Listed? ==> r == []
    ensures v.Listed? ==> r == DeserializeEntries(v.entries)
    ensures forall i :: 0 <= i < |r| ==> Normalised(r[i])
  {
    match v
    case Listed(es) => DeserializeEntries(es)
    case _ => []
  }

  /** A time block as handed to the serialiser. */
  function AsBlock(tb: TimeBlock): Block {
    Block(tb.assistant, tb.date, Some(tb.reason), Clock(tb.start), Clock(tb.end))
  }

  /** Its fields are already in their stored form. */
  predicate Normalised(tb: TimeBlock) {
    |tb.assistant| > 0 && IsTrimmed(tb.assistant) && NoLower(tb.assistant)
    && |tb.date| > 0 && IsTrimmed(tb.date)
    && |tb.reason| > 0 && IsTrimmed(tb.reason)
  }

  /** One normalised block survives serialising and deserialising. */
  lemma {:induction false} BlockRoundTrip(tb: TimeBlock)
    requires Normalised(tb)
    ensures DeserializeEntry(Object(SerializeBlock(AsBlock(tb)))) == Some(tb)
  {
    TrimOfTrimmed(tb.assistant);
    UpperOfNoLower(tb.assistant);
    TrimOfTrimmed(tb.date);
    TrimOfTrimmed(tb.reason);
    var sb := SerializeBlock(AsBlock(tb));
    assert sb.assistant == tb.assistant;
    KeyOfKey(tb.assistant);
    TrimIdempotent(tb.date);
    HhmmRoundTrip(tb.start);
    HhmmRoundTrip(tb.end);
  }

  /** Normalised blocks survive `serialize_time_blocks` followed by
      `deserialize_time_blocks` of the list. */
  lemma {:induction false} TimeBlocksRoundTrip(bs: seq<TimeBlock>)
    requires forall i :: 0 <= i < |bs| ==> Normalised(bs[i])
    ensures DeserializeTimeBlocks(Listed(StoredEntries(bs))) == bs
  {
    EntriesRoundTrip(bs);
  }

  /** The list stored for some time blocks. */
  function StoredEntries(bs: seq<TimeBlock>): (r: seq<Entry>)
    ensures |r| == |bs|
    ensures forall i :: 0 <= i < |bs| ==> r[i] == Object(SerializeBlock(AsBlock(bs[i])))
  {
    var ser := SerializeTimeBlocks(seq(|bs|, i requires 0 <= i < |bs| => AsBlock(bs[i])));
    seq(|ser|, i requires 0 <= i < |ser| => Object(ser[i]))
  }

  lemma {:induction false} EntriesRoundTrip(bs: seq<TimeBlock>)
    requires forall i :: 0 <= i < |bs| ==> Normalised(bs[i])
    ensures DeserializeEntries(StoredEntries(bs)) == bs
  {
    var es := StoredEntries(bs);
    forall i | 0 <= i < |es| ensures DeserializeEntry(es[i]) == Some(bs[i]) {
      BlockRoundTrip(bs[i]);
    }
    Seqs.FilterMapAllSome(es, DeserializeEntry, bs);
  }
}

=== FILE: calendar.dfy ===
/**
 * Calendar dates as Python's `datetime.date` has them: the proleptic
 * Gregorian calendar over years 1 to 9999, day ordinals counted from
 * 0001-01-01 (ordinal 1, a Monday), weekdays from Monday = 0, and the
 * `"%Y-%m-%d"` reading of `datetime.strptime`.
 */
module Calendar {
  import opened Wrappers
  import opened Strings

  datatype Date = Date(year: int, month: int, day: int)

  predicate IsLeap(y: int) {
    y % 4 == 0 && (y % 100 != 0 || y % 400 == 0)
  }

  function DaysInMonth(y: int, m: int): (r: nat)
    requires 1 <= m <= 12
    ensures 28 <= r <= 31
  {
    if m == 2 then (if IsLeap(y) then 29 else 28)
    else if m == 4 || m == 6 || m == 9 || m == 11 then 30
    else 31
  }

  function DaysInYear(y: int): nat {
    if IsLeap(y) then 366 else 365
  }

  /** A date `datetime.date` accepts. */
  predicate Valid(d: Date) {
    1 <= d.year <= 9999 && 1 <= d.month <= 12 && 1 <= d.day <= DaysInMonth(d.year, d.month)
  }

  type ValidDate = d: Date | Valid(d) witness Date(1, 1, 1)

  /** The days of the years before `y`. */
  function DaysBeforeYear(y: int): nat
    requires y >= 1
  {
    var p := y - 1;
    p * 365 + p / 4 - p / 100 + p / 400
  }

  /** The days of the months of year `y` before month `m`. */
  function DaysBeforeMonth(y: int, m: int): nat
    requires 1 <= m <= 12
  {
    if m == 1 then 0 else DaysBeforeMonth(y, m - 1) + DaysInMonth(y, m - 1)
  }

  /** `date.toordinal()`. */
  function Ordinal(d: ValidDate): (r: int)
    ensures r >= 1
  {
    DaysBeforeYear(d.year) + DaysBeforeMonth(d.year, d.month) + d.day
  }

  /** `date.weekday()`: Monday is 0. */
  function Weekday(d: ValidDate): (r: nat)
    ensures r < 7
  {
    (Ordinal(d) + 6) % 7
  }

  /** Python's date order: by year, then month, then day. */
  predicate Before(a: Date, b: Date) {
    a.year < b.year || (a.year == b.year && (a.month < b.month || (a.month == b.month && a.day < b.day)))
  }

  // ---------------------------------------------------------------------------
  // Ordinals
  // ---------------------------------------------------------------------------

  lemma DaysBeforeYearStep(y: int)
    requires y >= 1
    ensures DaysBeforeYear(y + 1) == DaysBeforeYear(y) + DaysInYear(y)
  {
    var p := y - 1;
    assert y / 4 == p / 4 + (if y % 4 == 0 then 1 else 0);
    assert y / 100 == p / 100 + (if y % 100 == 0 then 1 else 0);
    assert y / 400 == p / 400 + (if y % 400 == 0 then 1 else 0);
  }

  lemma {:induction false} DaysBeforeYearGrows(y: int, z: int)
    requires 1 <= y < z
    ensures DaysBeforeYear(z) >= DaysBeforeYear(y) + DaysInYear(y)
    decreases z - y
  {
    DaysBeforeYearStep(y);
    if y + 1 < z {
      DaysBeforeYearGrows(y + 1, z);
    }
  }

  lemma {:induction false} DaysBeforeMonthGrows(y: int, m: int, n: int)
    requires 1 <= m < n <= 12
    ensures DaysBeforeMonth(y, n) >= DaysBeforeMonth(y, m) + DaysInMonth(y, m)
    decreases n - m
  {
    if m + 1 < n {
      DaysBeforeMonthGrows(y, m + 1, n);
    }
  }

  /** The months of a year add up to the year. */
  lemma YearOfMonths(y: int)
    ensures DaysBeforeMonth(y, 12) + DaysInMonth(y, 12) == DaysInYear(y)
  {
    assert DaysBeforeMonth(y, 12) == DaysBeforeMonth(y, 11) + 30;
    assert DaysBeforeMonth(y, 11) == DaysBeforeMonth(y, 10) + 31;
    assert DaysBeforeMonth(y, 10) == DaysBeforeMonth(y, 9) + 30;
    assert DaysBeforeMonth(y, 9) == DaysBeforeMonth(y, 8) + 31;
    assert DaysBeforeMonth(y, 8) == DaysBeforeMonth(y, 7) + 31;
    assert DaysBeforeMonth(y, 7) == DaysBeforeMonth(y, 6) + 30;
    assert DaysBeforeMonth(y, 6) == DaysBeforeMonth(y, 5) + 31;
    assert DaysBeforeMonth(y, 5) == DaysBeforeMonth(y, 4) + 30;
    assert DaysBeforeMonth(y, 4) == DaysBeforeMonth(y, 3) + 31;
    assert DaysBeforeMonth(y, 3) == DaysBeforeMonth(y, 2) + DaysInMonth(y, 2);
    assert DaysBeforeMonth(y, 2) == 31;
  }

  /** A date's ordinal stays inside its year's. */
  lemma OrdinalInYear(d: ValidDate)
    ensures Ordinal(d) <= DaysBeforeYear(d.year) + DaysInYear(d.year)
  {
    YearOfMonths(d.year);
    if d.month < 12 {
      DaysBeforeMonthGrows(d.year, d.month, 12);
    }
  }

  lemma {:induction false} BeforeHasSmallerOrdinal(a: ValidDate, b: ValidDate)
    requires Before(a, b)
    ensures Ordinal(a) < Ordinal(b)
  {
    if a.year < b.year {
      OrdinalInYear(a);
      DaysBeforeYearGrows(a.year, b.year);
    } else if a.month < b.month {
      DaysBeforeMonthGrows(a.year, a.month, b.month);
    }
  }

  /** Python's date order is the order of the ordinals. */
  lemma OrdinalOrder(a: ValidDate, b: ValidDate)
    ensures Before(a, b) <==> Ordinal(a) < Ordinal(b)
    ensures a == b <==> Ordinal(a) == Ordinal(b)
  {
    if Before(a, b) {
      BeforeHasSmallerOrdinal(a, b);
    } else if Before(b, a) {
      BeforeHasSmallerOrdinal(b, a);
    }
  }

  // ---------------------------------------------------------------------------
  // Day arithmetic
  // ---------------------------------------------------------------------------

  /** `d - timedelta(days=1)`. */
  function PrevDay(d: ValidDate): (r: ValidDate)
    requires Ordinal(d) > 1
    ensures Ordinal(r) == Ordinal(d) - 1
  {
    if d.day > 1 then Date(d.year, d.month, d.day - 1)
    else if d.month > 1 then
      var r := Date(d.year, d.month - 1, DaysInMonth(d.year, d.month - 1));
      r
    else
      assert d.year > 1;
      var r := Date(d.year - 1, 12, 31);
      YearOfMonths(d.year - 1);
      DaysBeforeYearStep(d.year - 1);
      r
  }

  /** `d - timedelta(days=k)`. */
  function SubDays(d: ValidDate, k: nat): (r: ValidDate)
    requires Ordinal(d) > k
    ensures Ordinal(r) == Ordinal(d) - k
    decreases k
  {
    if k == 0 then d else SubDays(PrevDay(d), k - 1)
  }

  /** `today - timedelta(days=today.weekday())`: the Monday of the week. */
  function WeekStart(today: ValidDate): (r: ValidDate)
    ensures Ordinal(r) == Ordinal(today) - Weekday(today)
    ensures Weekday(r) == 0
  {
    var r := SubDays(today, Weekday(today));
    BackToMonday(Ordinal(today), Ordinal(r));
    r
  }

  /** Going back by the weekday of ordinal `n` lands on a Monday. */
  lemma BackToMonday(n: int, m: int)
    requires m == n - (n + 6) % 7
    ensures (m + 6) % 7 == 0
  {
    assert n + 6 == 7 * ((n + 6) / 7) + (n + 6) % 7;
  }

  /** `today.replace(day=1)`. */
  function MonthStart(today: ValidDate): (r: ValidDate)
    ensures r.year == today.year && r.month == today.month && r.day == 1
  {
    Date(today.year, today.month, 1)
  }

  /** The dates on or after the start of the month are those of this month
      and later months. */
  lemma MonthStartOrder(today: ValidDate, d: ValidDate)
    ensures !Before(d, MonthStart(today)) <==>
      (d.year > today.year || (d.year == today.year && d.month >= today.month))
  {
  }

  // ---------------------------------------------------------------------------
  // `datetime.strptime(text, "%Y-%m-%d")`
  // ---------------------------------------------------------------------------

  function Digit(s: string, i: int): (r: int)
    requires 0 <= i < |s| && IsDigit(s[i])
    ensures 0 <= r < 10
  {
    DigitValue(s[i])
  }

  predicate DigitAt(s: string, i: int) {
    0 <= i < |s| && IsDigit(s[i])
  }

  predicate CharAt(s: string, i: int, c: char) {
    0 <= i < |s| && s[i] == c
  }

  predicate NonZeroAt(s: string, i: int) {
    DigitAt(s, i) && s[i] != '0'
  }

  /** The `%m` alternatives at `i`, in the order the pattern tries them
      (`1[0-2]`, `0[1-9]`, `[1-9]`), as (value, end) pairs. */
  function MonthChoices(s: string, i: nat): (r: seq<(int, nat)>)
    ensures forall k :: 0 <= k < |r| ==> 1 <= r[k].0 <= 12 && i < r[k].1 <= i + 2
  {
    (if CharAt(s, i, '1') && DigitAt(s, i + 1) && Digit(s, i + 1) <= 2 then [(10 + Digit(s, i + 1), i + 2)] else [])
    + (if CharAt(s, i, '0') && NonZeroAt(s, i + 1) then [(Digit(s, i + 1), i + 2)] else [])
    + (if NonZeroAt(s, i) then [(Digit(s, i), i + 1)] else [])
  }

  /** The first `%d` alternative matching at `i` (`3[01]`, `[12]\d`,
      `0[1-9]`, `[1-9]`, ` [1-9]`), as (value, end). */
  function DayMatch(s: string, i: nat): (r: Option<(int, nat)>)
    ensures r.Some? ==> 1 <= r.value.0 <= 31 && i < r.value.1 <= i + 2
  {
    if CharAt(s, i, '3') && DigitAt(s, i + 1) && Digit(s, i + 1) <= 1 then Some((30 + Digit(s, i + 1), i + 2))
    else if (CharAt(s, i, '1') || CharAt(s, i, '2')) && DigitAt(s, i + 1) then Some((Digit(s, i) * 10 + Digit(s, i + 1), i + 2))
    else if CharAt(s, i, '0') && NonZeroAt(s, i + 1) then Some((Digit(s, i + 1), i + 2))
    else if NonZeroAt(s, i) then Some((Digit(s, i), i + 1))
    else if CharAt(s, i, ' ') && NonZeroAt(s, i + 1) then Some((Digit(s, i + 1), i + 2))
    else None
  }

  /** The month alternative the regular expression settles on: the first one
      followed by `-` and a day. */
  function FirstMonth(s: string, ms: seq<(int, nat)>): (r: Option<(int, nat)>)
    ensures r.Some? ==> r.value in ms && CharAt(s, r.value.1, '-') && DayMatch(s, r.value.1 + 1).Some?
    ensures r.None? <==> forall k :: 0 <= k < |ms| ==> !(CharAt(s, ms[k].1, '-') && DayMatch(s, ms[k].1 + 1).Some?)
  {
    if |ms| == 0 then None
    else if CharAt(s, ms[0].1, '-') && DayMatch(s, ms[0].1 + 1).Some? then Some(ms[0])
    else FirstMonth(s, ms[1..])
  }

  /** `%Y-%m-%d` matched at the start of `s`, the whole text consumed, and
      the date valid; anything else raises, modelled as `None`. */
  function ParseIsoDate(s: string): (r: Option<ValidDate>)
    ensures r.Some? ==> 8 <= |s| <= 10 && CharAt(s, 4, '-')
  {
    if !(DigitAt(s, 0) && DigitAt(s, 1) && DigitAt(s, 2) && DigitAt(s, 3) && CharAt(s, 4, '-')) then None
    else
      var y := Digit(s, 0) * 1000 + Digit(s, 1) * 100 + Digit(s, 2) * 10 + Digit(s, 3);
      match FirstMonth(s, MonthChoices(s, 5))
      case None => None
      case Some(m) =>
        var d := DayMatch(s, m.1 + 1).value;
        if d.1 != |s| then None
        else if 1 <= y && 1 <= m.0 <= 12 && d.0 <= DaysInMonth(y, m.0) then Some(Date(y, m.0, d.0))
        else None
  }

  // ---------------------------------------------------------------------------
  // ISO rendering and its reading
  // ---------------------------------------------------------------------------

  /** `date.isoformat()`: `YYYY-MM-DD`, zero-padded. */
  function IsoText(d: ValidDate): (r: string)
    ensures |r| == 10
  {
    [DigitChar(d.year / 1000), DigitChar(d.year / 100 % 10), DigitChar(d.year / 10 % 10), DigitChar(d.year % 10), '-',
     DigitChar(d.month / 10), DigitChar(d.month % 10), '-',
     DigitChar(d.day / 10), DigitChar(d.day % 10)]
  }

  lemma FourDigits(y: int)
    requires 0 <= y <= 9999
    ensures y / 1000 < 10
    ensures (y / 1000) * 1000 + (y / 100 % 10) * 100 + (y / 10 % 10) * 10 + y % 10 == y
  {
    var a, b, c := y / 1000, y % 1000 / 100, y % 100 / 10;
    assert y == 1000 * a + y % 1000;
    assert y % 1000 == 100 * b + y % 100;
    assert y % 100 == 10 * c + y % 10;
    assert y / 100 == 10 * a + b;
    assert y / 10 == 100 * a + 10 * b + c;
    assert y / 100 % 10 == b;
    assert y / 10 % 10 == c;
  }

  lemma TwoDigits(n: int)
    requires 0 <= n < 100
    ensures n / 10 < 10 && (n / 10) * 10 + n % 10 == n
  {
  }

  /** Reading the ISO text of a date gives the date back. */
  lemma ParseIsoText(d: ValidDate)
    ensures ParseIsoDate(IsoText(d)) == Some(d)
  {
    var s := IsoText(d);
    FourDigits(d.year);
    TwoDigits(d.month);
    TwoDigits(d.day);
    assert Digit(s, 0) * 1000 + Digit(s, 1) * 100 + Digit(s, 2) * 10 + Digit(s, 3) == d.year;
    assert Digit(s, 5) * 10 + Digit(s, 6) == d.month;
    assert Digit(s, 8) * 10 + Digit(s, 9) == d.day;
    assert DayMatch(s, 8) == Some((d.day, 10));
    var mc := MonthChoices(s, 5);
    assert mc[0] == (d.month, 7);
    assert FirstMonth(s, mc) == Some((d.month, 7));
  }
}

=== FILE: constants.dfy ===
/** The fixed vocabularies of the clinic scheduler: appointment statuses, the
    schedule's column set, weekday names, departments and the navigation tree. */
module Constants {

  /** Every status an appointment row may carry, in display order. */
  const StatusOptions: seq<string> := [
    "PENDING", "WAITING", "ARRIVING", "ARRIVED",
    "ON GOING", "DONE", "COMPLETED", "CANCELLED", "SHIFTED", "LATE"
  ]

  /** Statuses after which an appointment no longer occupies anybody. */
  const TerminalStatuses: set<string> := {"DONE", "COMPLETED", "CANCELLED", "SHIFTED"}

  /** The columns every schedule frame is completed to. */
  const ScheduleColumns: seq<string> := [
    "DATE", "Patient ID", "Patient Name", "In Time", "Out Time", "Procedure", "DR.",
    "FIRST", "SECOND", "Third", "CASE PAPER", "OP",
    "SUCTION", "CLEANING", "STATUS", "REMINDER_ROW_ID",
    "REMINDER_SNOOZE_UNTIL", "REMINDER_DISMISSED",
    "STATUS_CHANGED_AT", "ACTUAL_START_AT", "ACTUAL_END_AT", "STATUS_LOG"
  ]

  /** The three assistant slots of an appointment, in priority order. */
  const SlotColumns: seq<string> := ["FIRST", "SECOND", "Third"]

  const WeekdayNames: seq<string> := ["Monday", "Tuesday", "Wednesday", "Thursday", "Friday", "Saturday", "Sunday"]

  /** The keys of the fallback department table, in declaration order. */
  const DefaultDepartments: seq<string> := ["PROSTHO", "ENDO"]

  /** An ordered mapping from a navigation category to its views. */
  type Nav = seq<(string, seq<string>)>

  const NavStructure: Nav := [
    ("Scheduling", ["Full Schedule", "Schedule by OP", "Ongoing", "Upcoming"]),
    ("Assistants", ["Manage Profiles", "Availability", "Auto-Allocation", "Workload", "Attendance"]),
    ("Doctors", ["Manage Profiles", "Overview", "Summary", "Per-Doctor Schedule"]),
    ("Admin/Settings", ["User Management", "Storage & Backup", "Notifications", "Duties Manager"])
  ]

  /** The navigation each built-in role is shown by default. */
  const RoleNav: map<string, Nav> := map[
    "admin" := NavStructure,
    "frontdesk" := [
      ("Scheduling", ["Full Schedule", "Schedule by OP", "Ongoing", "Upcoming"]),
      ("Assistants", ["Attendance"])
    ],
    "assistant" := [
      ("Scheduling", ["Full Schedule", "Ongoing", "Upcoming"]),
      ("Assistants", ["Attendance"])
    ]
  ]
}

=== FILE: duty.dfy ===
/**
 * The duty service: which weekly and monthly duty assignments are still
 * pending given the recorded duty runs, and the countdown text of a running
 * duty timer.
 */
module DutyService {
  import opened Wrappers
  import opened Strings
  import opened Utils
  import opened Calendar
  import Seqs

  /** What a run's `date` field holds: nothing, a `date`, or a value read
      through its `str()` text. */
  datatype DateValue = NoDate | DateObj(d: ValidDate) | DateText(s: string)

  /** A duty run: its `str(status)` text, its date and its duty id. */
  datatype Run<Id> = Run(status: string, date: DateValue, dutyId: Id)

  /** A duty assignment: its `str(frequency)` text and its duty id. */
  datatype Assignment<Id> = Assignment(frequency: string, dutyId: Id)

  /** The result dict, which has exactly the keys `WEEKLY` and `MONTHLY`. */
  datatype Pending<Id> = Pending(weekly: seq<Assignment<Id>>, monthly: seq<Assignment<Id>>)

  /** `_parse_date`: a date is itself; any other value is read with
      `%Y-%m-%d` from the first ten characters of its stripped text. */
  function ParseDate(v: DateValue): (r: Option<ValidDate>)
    ensures v.NoDate? ==> r.None?
    ensures v.DateObj? ==> r == Some(v.d)
    ensures v.DateText? && r.Some? ==> 8 <= |Trim(v.s)|
  {
    match v
    case NoDate => None
    case DateObj(d) => Some(d)
    case DateText(s) =>
      var t := Trim(s);
      ParseIsoDate(if |t| <= 10 then t else t[..10])
  }

  /** The date part of a stored timestamp (`2024-05-06T09:30:00`, say) reads
      as that date. */
  lemma ParseDateOfStamp(d: ValidDate, rest: string)
    requires IsTrimmed(IsoText(d) + rest)
    ensures ParseDate(DateText(IsoText(d) + rest)) == Some(d)
  {
    var s := IsoText(d) + rest;
    TrimOfTrimmed(s);
    var u := if |s| <= 10 then s else s[..10];
    assert u == IsoText(d);
    ParseIsoText(d);
    assert ParseDate(DateText(s)) == ParseIsoDate(u);
  }

  /** A run counts when its status is `DONE` in any case and its date parses. */
  predicate Counted<Id>(r: Run<Id>) {
    Upper(r.status) == "DONE" && ParseDate(r.date).Some?
  }

  /** The loop over the runs: the ids done on or after `weekStart`, and those
      done on or after `monthStart`. */
  function DoneSets<Id(==,!new)>(runs: seq<Run<Id>>, weekStart: ValidDate, monthStart: ValidDate): (r: (set<Id>, set<Id>))
    ensures forall id :: id in r.0 <==> exists i :: 0 <= i < |runs| && DoneOnOrAfter(runs[i], id, weekStart)
    ensures forall id :: id in r.1 <==> exists i :: 0 <= i < |runs| && DoneOnOrAfter(runs[i], id, monthStart)
    decreases |runs|
  {
    if |runs| == 0 then ({}, {})
    else
      var prev := DoneSets(Seqs.Init(runs), weekStart, monthStart);
      var run := Seqs.Last(runs);
      assert forall i :: 0 <= i < |runs| - 1 ==> Seqs.Init(runs)[i] == runs[i];
      if !Counted(run) then prev
      else
        var d := ParseDate(run.date).value;
        (if !Before(d, weekStart) then prev.0 + {run.dutyId} else prev.0,
         if !Before(d, monthStart) then prev.1 + {run.dutyId} else prev.1)
  }

  predicate DoneOnOrAfter<Id(==)>(r: Run<Id>, id: Id, start: ValidDate) {
    Counted(r) && r.dutyId == id && !Before(ParseDate(r.date).value, start)
  }

  predicate WeeklyPending<Id(==)>(done: set<Id>, a: Assignment<Id>) {
    Upper(a.frequency) == "WEEKLY" && a.dutyId !in done
  }

  predicate MonthlyPending<Id(==)>(done: set<Id>, a: Assignment<Id>) {
    Upper(a.frequency) == "MONTHLY" && a.dutyId !in done
  }

  /** A counted run of `id` dated within today's week, Monday to today. */
  predicate DoneThisWeek<Id(==)>(runs: seq<Run<Id>>, id: Id, today: ValidDate) {
    exists i :: 0 <= i < |runs| && Counted(runs[i]) && runs[i].dutyId == id
      && Ordinal(ParseDate(runs[i].date).value) >= Ordinal(today) - Weekday(today)
  }

  /** A counted run of `id` dated in today's month or later. */
  predicate DoneThisMonth<Id(==)>(runs: seq<Run<Id>>, id: Id, today: ValidDate) {
    exists i :: 0 <= i < |runs| && Counted(runs[i]) && runs[i].dutyId == id
      && (ParseDate(runs[i].date).value.year > today.year
          || (ParseDate(runs[i].date).value.year == today.year && ParseDate(runs[i].date).value.month >= today.month))
  }

  /** `compute_pending_duties`: the weekly assignments without a counted run
      this week and the monthly ones without a counted run this month, each
      in assignment order with repeats kept. */
  function ComputePendingDuties<Id(==,!new)>(assignments: seq<Assignment<Id>>, runs: seq<Run<Id>>, today: ValidDate): (r: Pending<Id>)
    ensures Seqs.IsSubseq(r.weekly, assignments) && Seqs.IsSubseq(r.monthly, assignments)
    ensures forall a :: (multiset(r.weekly)[a] ==
      if Upper(a.frequency) == "WEEKLY" && !DoneThisWeek(runs, a.dutyId, today) then multiset(assignments)[a] else 0)
    ensures forall a :: (multiset(r.monthly)[a] ==
      if Upper(a.frequency) == "MONTHLY" && !DoneThisMonth(runs, a.dutyId, today) then multiset(assignments)[a] else 0)
  {
    var done := DoneSets(runs, WeekStart(today), MonthStart(today));
    DoneSetsMeaning(runs, today);
    Pending(Seqs.Filter(assignments, a => WeeklyPending(done.0, a)),
            Seqs.Filter(assignments, a => MonthlyPending(done.1, a)))
  }

  /** The done sets hold exactly the ids done this week and this month. */
  lemma DoneSetsMeaning<Id(!new)>(runs: seq<Run<Id>>, today: ValidDate)
    ensures forall id :: id in DoneSets(runs, WeekStart(today), MonthStart(today)).0 <==> DoneThisWeek(runs, id, today)
    ensures forall id :: id in DoneSets(runs, WeekStart(today), MonthStart(today)).1 <==> DoneThisMonth(runs, id, today)
  {
    var ws, ms := WeekStart(today), MonthStart(today);
    forall i | 0 <= i < |runs| && Counted(runs[i])
      ensures !Before(ParseDate(runs[i].date).value, ws) <==> Ordinal(ParseDate(runs[i].date).value) >= Ordinal(today) - Weekday(today)
      ensures !Before(ParseDate(runs[i].date).value, ms) <==>
        (ParseDate(runs[i].date).value.year > today.year
         || (ParseDate(runs[i].date).value.year == today.year && ParseDate(runs[i].date).value.month >= today.month))
    {
      OrdinalOrder(ParseDate(runs[i].date).value, ws);
      MonthStartOrder(today, ParseDate(runs[i].date).value);
    }
  }

  /** No assignment is pending in both lists. */
  lemma PendingDisjoint<Id(!new)>(assignments: seq<Assignment<Id>>, runs: seq<Run<Id>>, today: ValidDate, a: Assignment<Id>)
    ensures !(a in ComputePendingDuties(assignments, runs, today).weekly && a in ComputePendingDuties(assignments, runs, today).monthly)
  {
    var r := ComputePendingDuties(assignments, runs, today);
    if a in r.weekly {
      assert multiset(r.weekly)[a] > 0;
      assert multiset(r.monthly)[a] == 0;
    }
  }

  /** A run marked done today clears its duty from both lists. */
  lemma DoneTodayClears<Id(!new)>(assignments: seq<Assignment<Id>>, runs: seq<Run<Id>>, today: ValidDate, status: string, a: Assignment<Id>)
    requires Upper(status) == "DONE"
    requires Run(status, DateObj(today), a.dutyId) in runs
    ensures a !in ComputePendingDuties(assignments, runs, today).weekly
    ensures a !in ComputePendingDuties(assignments, runs, today).monthly
  {
    var i :| 0 <= i < |runs| && runs[i] == Run(status, DateObj(today), a.dutyId);
    assert Counted(runs[i]);
    assert DoneThisWeek(runs, a.dutyId, today);
    assert DoneThisMonth(runs, a.dutyId, today);
    var r := ComputePendingDuties(assignments, runs, today);
    assert multiset(r.weekly)[a] == 0 && multiset(r.monthly)[a] == 0;
  }

  /** Recording more runs never makes an assignment pending: each list
      after is a subsequence of the list before. */
  lemma MoreRunsFewerPending<Id(!new)>(assignments: seq<Assignment<Id>>, runs: seq<Run<Id>>, more: seq<Run<Id>>, today: ValidDate)
    ensures Seqs.IsSubseq(ComputePendingDuties(assignments, runs + more, today).weekly,
                          ComputePendingDuties(assignments, runs, today).weekly)
    ensures Seqs.IsSubseq(ComputePendingDuties(assignments, runs + more, today).monthly,
                          ComputePendingDuties(assignments, runs, today).monthly)
  {
    var ws, ms := WeekStart(today), MonthStart(today);
    var before, after := DoneSets(runs, ws, ms), DoneSets(runs + more, ws, ms);
    forall id | id in before.0 ensures id in after.0 {
      var i :| 0 <= i < |runs| && DoneOnOrAfter(runs[i], id, ws);
      assert (runs + more)[i] == runs[i];
    }
    forall id | id in before.1 ensures id in after.1 {
      var i :| 0 <= i < |runs| && DoneOnOrAfter(runs[i], id, ms);
      assert (runs + more)[i] == runs[i];
    }
    Seqs.FilterStronger(assignments, a => WeeklyPending(before.0, a), a => WeeklyPending(after.0, a));
    Seqs.FilterStronger(assignments, a => MonthlyPending(before.1, a), a => MonthlyPending(after.1, a));
  }

  // ---------------------------------------------------------------------------
  // The duty timer
  // ---------------------------------------------------------------------------

  /** `format_remaining_time` at instant `now`: nothing for a missing, empty
      or unreadable due time, `00:00` once it has passed, else the whole
      minutes and seconds left, each at least two digits. */
  function FormatRemainingTime(dueAt: Option<string>, now: Instant, fromIso: string -> Option<Instant>): (r: string)
    ensures dueAt.None? || dueAt == Some("") ==> r == ""
    ensures dueAt.Some? && ParseIsoTs(fromIso, dueAt.value).None? ==> r == ""
    ensures dueAt.Some? && ParseIsoTs(fromIso, dueAt.value).Some? && ParseIsoTs(fromIso, dueAt.value).value <= now ==> r == "00:00"
  {
    if dueAt.None? || dueAt.value == "" then ""
    else match ParseIsoTs(fromIso, dueAt.value)
      case None => ""
      case Some(due) =>
        var total := due - now;
        if total <= 0 then "00:00" else Pad2(total / 60) + ":" + Pad2(total % 60)
  }

  /** Before the due time the text is `MM:SS`: split at the colon, the two
      digit runs give back the seconds left, the second one below 60. */
  lemma RemainingTimeParts(dueAt: string, now: Instant, fromIso: string -> Option<Instant>)
    requires ParseIsoTs(fromIso, dueAt).Some? && ParseIsoTs(fromIso, dueAt).value > now
    ensures var parts := Split(FormatRemainingTime(Some(dueAt), now, fromIso), ':');
      |parts| == 2 && |parts[0]| >= 2 && |parts[1]| == 2 && AllDigits(parts[0]) && AllDigits(parts[1])
      && DigitsValue(parts[1]) < 60
      && 60 * DigitsValue(parts[0]) + DigitsValue(parts[1]) == ParseIsoTs(fromIso, dueAt).value - now
  {
    var total := ParseIsoTs(fromIso, dueAt).value - now;
    var m, s := Pad2(total / 60), Pad2(total % 60);
    assert FormatRemainingTime(Some(dueAt), now, fromIso) == Join([m, s], [':']);
    assert ':' !in m && ':' !in s;
    SplitJoin([m, s], ':');
  }
}

=== FILE: frames.dfy ===
/**
 * The tabular data the services work on.  A frame is an ordered list of
 * column names and a list of rows; a row maps column names to the text
 * rendering of its cells (`str(value)`: a missing value reads as `"None"`
 * or `"nan"`, as pandas renders it).
 */
module Frames {
  import opened Strings
  import opened Utils
  import Seqs

  type Row = map<string, string>

  datatype Frame = Frame(columns: seq<string>, rows: seq<Row>)

  /** Every row has exactly the frame's columns, which are distinct. */
  ghost predicate WellFormed(f: Frame) {
    Seqs.NoDup(f.columns)
    && forall i :: 0 <= i < |f.rows| ==> forall c :: c in f.rows[i] <==> c in f.columns
  }

  /** `row.get(col, "")` on the text rendering. */
  function Get(row: Row, c: string): string {
    if c in row then row[c] else ""
  }

  /** `row.get(col)` handed to a time coercion: a missing cell is `None`. */
  function TimeCell(row: Row, c: string): TimeInput {
    if c in row then Text(row[c]) else Null
  }

  /** `df.empty`: no rows or no columns. */
  predicate IsEmpty(f: Frame) {
    |f.rows| == 0 || |f.columns| == 0
  }

  /** `df[col] = fill` for a column the frame lacks. */
  function AddColumn(f: Frame, c: string, fill: string): (r: Frame)
    requires c !in f.columns
    ensures r.columns == f.columns + [c] && |r.rows| == |f.rows|
    ensures forall i :: 0 <= i < |f.rows| ==> r.rows[i] == f.rows[i][c := fill]
    ensures WellFormed(f) ==> WellFormed(r)
  {
    Frame(f.columns + [c], seq(|f.rows|, i requires 0 <= i < |f.rows| => f.rows[i][c := fill]))
  }

  /** `df[c] = fill` for each of `added`, columns the frame lacks. */
  function Extend(f: Frame, added: seq<string>, fill: string): (r: Frame)
    requires Seqs.NoDup(added)
    requires forall c :: c in added ==> c !in f.columns
    ensures r.columns == f.columns + added && |r.rows| == |f.rows|
    ensures forall i, c :: 0 <= i < |f.rows| ==> (c in r.rows[i] <==> c in f.rows[i] || c in added)
    ensures forall i, c :: 0 <= i < |f.rows| && c in r.rows[i] ==>
      r.rows[i][c] == if c in added then fill else f.rows[i][c]
    ensures added == [] ==> r == f
    ensures WellFormed(f) ==> WellFormed(r)
  {
    var cells := map c | c in added :: fill;
    if added == [] then
      assert forall i :: 0 <= i < |f.rows| ==> f.rows[i] + cells == f.rows[i];
      f
    else
      assert WellFormed(f) ==> Seqs.NoDup(f.columns + added) by {
        if WellFormed(f) { Seqs.NoDupAppend(f.columns, added); }
      }
      Frame(f.columns + added, seq(|f.rows|, i requires 0 <= i < |f.rows| => f.rows[i] + cells))
  }

  /** The columns of `cols` the frame lacks, in order and once each. */
  function Lacking(f: Frame, cols: seq<string>): (r: seq<string>)
    ensures Seqs.NoDup(r)
    ensures forall c :: c in r <==> c in cols && c !in f.columns
    ensures (forall c :: c in cols ==> c in f.columns) ==> r == []
  {
    var r := Seqs.Dedup(Seqs.Filter(cols, (c: string) => c !in f.columns));
    assert (forall c :: c in cols ==> c in f.columns) ==> r == [] by {
      if |r| > 0 { assert r[0] in r; }
    }
    r
  }

  /** `df.loc[mask, c] = writes[c]` for each column `c` of `order` in turn,
      for a mask that does not read the written columns: the selected rows
      take the written cells, and a column the frame lacked is appended with
      the missing value `"nan"` in the other rows. */
  function SetManyWhere(f: Frame, sel: Row -> bool, writes: map<string, string>, order: seq<string>): (r: Frame)
    requires forall c :: c in writes <==> c in order
    ensures r.columns == f.columns + Lacking(f, order) && |r.rows| == |f.rows|
    ensures forall i, c :: 0 <= i < |f.rows| && sel(f.rows[i]) ==>
      (c in r.rows[i] <==> c in f.rows[i] || c in writes)
      && (c in r.rows[i] ==> r.rows[i][c] == if c in writes then writes[c] else f.rows[i][c])
    ensures forall i, c :: 0 <= i < |f.rows| && !sel(f.rows[i]) ==>
      (c in r.rows[i] <==> c in f.rows[i] || c in Lacking(f, order))
      && (c in r.rows[i] ==> r.rows[i][c] == if c in Lacking(f, order) then "nan" else f.rows[i][c])
    ensures WellFormed(f) ==> WellFormed(r)
  {
    var added := Lacking(f, order);
    var missing := map c | c in added :: "nan";
    assert WellFormed(f) ==> Seqs.NoDup(f.columns + added) by {
      if WellFormed(f) { Seqs.NoDupAppend(f.columns, added); }
    }
    Frame(f.columns + added, seq(|f.rows|, i requires 0 <= i < |f.rows| =>
      if sel(f.rows[i]) then f.rows[i] + writes else f.rows[i] + missing))
  }

  /** `df.loc[mask, col] = v`: the selected rows get `v`; a column the frame
      lacks is appended and the other rows get the missing value `"nan"`. */
  function SetWhere(f: Frame, sel: Row -> bool, c: string, v: string): (r: Frame)
    ensures |r.rows| == |f.rows|
    ensures r.columns == if c in f.columns then f.columns else f.columns + [c]
    ensures forall i :: 0 <= i < |f.rows| && sel(f.rows[i]) ==> r.rows[i] == f.rows[i][c := v]
    ensures forall i :: 0 <= i < |f.rows| && !sel(f.rows[i]) ==>
      r.rows[i] == if c in f.columns then f.rows[i] else f.rows[i][c := "nan"]
    ensures WellFormed(f) ==> WellFormed(r)
  {
    var rows := seq(|f.rows|, i requires 0 <= i < |f.rows| =>
      if sel(f.rows[i]) then f.rows[i][c := v]
      else if c in f.columns then f.rows[i] else f.rows[i][c := "nan"]);
    Frame(if c in f.columns then f.columns else f.columns + [c], rows)
  }

  /** `df[mask]`: the rows passing the test, in order and each as often as
      in `f`, all columns kept. */
  function Select(f: Frame, keep: Row -> bool): (r: Frame)
    ensures r.columns == f.columns
    ensures Seqs.IsSubseq(r.rows, f.rows)
    ensures forall row :: row in r.rows <==> row in f.rows && keep(row)
    ensures forall row :: multiset(r.rows)[row] == if keep(row) then multiset(f.rows)[row] else 0
    ensures WellFormed(f) ==> WellFormed(r)
  {
    var rows := Seqs.Filter(f.rows, keep);
    Seqs.SubseqMembers(rows, f.rows);
    assert forall k :: 0 <= k < |rows| ==> rows[k] in f.rows by {
      forall k | 0 <= k < |rows| ensures rows[k] in f.rows {
        assert rows[k] in rows;
      }
    }
    Frame(f.columns, rows)
  }
}

=== FILE: json.dfy ===
/**
 * The values `json.load` returns for the allocation rules file, and the few
 * Python operations the services apply to them: truthiness, `dict.get`,
 * `dict.items()`, iteration with `for x in v` and `str(v)`.
 */
module Json {
  import opened Wrappers
  import opened Strings
  import Seqs

  /** A JSON value.  Numbers are whole numbers; an object keeps its members
      in file order. */
  datatype Value =
    | JNull
    | JBool(b: bool)
    | JInt(n: int)
    | JStr(s: string)
    | JList(items: seq<Value>)
    | JObject(members: seq<(string, Value)>)

  /** `bool(v)`. */
  predicate Truthy(v: Value) {
    match v
    case JNull => false
    case JBool(b) => b
    case JInt(n) => n != 0
    case JStr(s) => s != ""
    case JList(xs) => |xs| > 0
    case JObject(ms) => |ms| > 0
  }

  /** The members of a dict, `[]` for any other value. */
  function Members(v: Value): seq<(string, Value)> {
    if v.JObject? then v.members else []
  }

  function KeyIs(key: string): ((string, Value)) -> bool {
    (m: (string, Value)) => m.0 == key
  }

  /** `v[key]` when `v` is a dict holding `key`. */
  function Member(v: Value, key: string): (r: Option<Value>)
    ensures r.Some? <==> exists i :: 0 <= i < |Members(v)| && Members(v)[i].0 == key
    ensures r.Some? ==> (key, r.value) in Members(v)
  {
    var ms := Members(v);
    var k := Seqs.FirstIndex(ms, KeyIs(key));
    if k < |ms| then Some(ms[k].1) else None
  }

  /** A dict's member is its first entry under the key. */
  lemma MemberAt(ms: seq<(string, Value)>, i: nat, key: string)
    requires i < |ms| && ms[i].0 == key
    requires forall j :: 0 <= j < i ==> ms[j].0 != key
    ensures Member(JObject(ms), key) == Some(ms[i].1)
  {
    assert KeyIs(key)(ms[i]);
  }

  /** `v.get(key, default)` on a dict. */
  function GetOr(v: Value, key: string, default: Value): (r: Value)
    ensures Member(v, key).None? ==> r == default
    ensures Member(v, key).Some? ==> r == Member(v, key).value
  {
    match Member(v, key)
    case Some(x) => x
    case None => default
  }

  /** `v or default`. */
  function OrElse(v: Value, default: Value): (r: Value)
    ensures Truthy(v) ==> r == v
    ensures !Truthy(v) ==> r == default
  {
    if Truthy(v) then v else default
  }

  /** What `for x in v` visits: a list's items, a string's characters, a
      dict's keys; `None` where Python raises `TypeError`. */
  function Iterate(v: Value): (r: Option<seq<Value>>)
    ensures r.None? <==> (v.JNull? || v.JBool? || v.JInt?)
    ensures v.JList? ==> r == Some(v.items)
  {
    match v
    case JList(xs) => Some(xs)
    case JStr(s) => Some(seq(|s|, i requires 0 <= i < |s| => JStr([s[i]])))
    case JObject(ms) => Some(seq(|ms|, i requires 0 <= i < |ms| => JStr(ms[i].0)))
    case _ => None
  }

  /** `str(n)` for a whole number. */
  function IntText(n: int): (r: string)
    ensures n >= 0 ==> r == Decimal(n)
    ensures n < 0 ==> r == "-" + Decimal(-n)
  {
    if n >= 0 then Decimal(n) else "-" + Decimal(-n)
  }

  /** `str(v)` for the scalar values; a list or dict renders as a bracketed
      marker that is never blank. */
  function Render(v: Value): (r: string)
    ensures v.JStr? ==> r == v.s
    ensures v.JNull? ==> r == "None"
    ensures v.JList? || v.JObject? ==> |r| > 0 && r[0] in {'[', '{'}
  {
    match v
    case JNull => "None"
    case JBool(b) => if b then "True" else "False"
    case JInt(n) => IntText(n)
    case JStr(s) => s
    case JList(_) => "[...]"
    case JObject(_) => "{...}"
  }

  /** `json.load` followed by `data if isinstance(data, dict) else {}`: a
      missing or unreadable file, like a non-object document, gives `{}`. */
  function LoadConfig(file: Option<Value>): (r: Value)
    ensures r.JObject?
    ensures file.Some? && file.value.JObject? ==> r == file.value
  {
    if file.Some? && file.value.JObject? then file.value else JObject([])
  }
}

=== FILE: profile_form.dfy ===
/**
 * The helpers behind the assistant and doctor profile forms: matching a
 * stored value against a list of options, reading the weekly-off text, and
 * building the profile row a form saves.
 */
module ProfileForm {
  import opened Wrappers
  import opened Strings
  import opened Constants
  import Seqs

  // ---------------------------------------------------------------------------
  // `_idx_of`
  // ---------------------------------------------------------------------------

  /** `_idx_of(value, options)`: the position of the first option equal to
      the value up to case and surrounding whitespace, else 0. */
  function IdxOf(value: string, options: seq<string>): (r: nat)
    ensures |options| == 0 ==> r == 0
    ensures |options| > 0 ==> r < |options|
    ensures (exists i :: 0 <= i < |options| && Key(options[i]) == Key(value)) ==>
      (Key(options[r]) == Key(value) && forall j :: 0 <= j < r ==> Key(options[j]) != Key(value))
    ensures (forall i :: 0 <= i < |options| ==> Key(options[i]) != Key(value)) ==> r == 0
  {
    var same := (o: string) => Key(o) == Key(value);
    var k := Seqs.FirstIndex(options, same);
    assert forall i :: 0 <= i < |options| ==> (same(options[i]) <==> Key(options[i]) == Key(value));
    if k < |options| then k else 0
  }

  // ---------------------------------------------------------------------------
  // `str.title` facts
  // ---------------------------------------------------------------------------

  /** `t` has a letter exactly where `s` has one and `s`'s other characters. */
  predicate SameShape(s: string, t: string) {
    |s| == |t| && forall i :: 0 <= i < |s| ==> (IsLetter(s[i]) <==> IsLetter(t[i])) && (!IsLetter(s[i]) ==> t[i] == s[i])
  }

  /** Title-casing only changes the case of letters. */
  lemma {:induction false} TitleShape(s: string, prev: bool)
    ensures SameShape(s, TitleFrom(s, prev))
    decreases |s|
  {
    if |s| > 0 {
      var cased := IsLetter(s[0]);
      var rest := TitleFrom(s[1..], cased);
      TitleShape(s[1..], cased);
      var r := TitleFrom(s, prev);
      assert r == [r[0]] + rest;
      forall i | 1 <= i < |s|
        ensures (IsLetter(s[i]) <==> IsLetter(r[i])) && (!IsLetter(s[i]) ==> r[i] == s[i])
      {
        assert r[i] == rest[i - 1] && s[i] == s[1..][i - 1];
      }
    }
  }

  /** Title-casing twice is title-casing once. */
  lemma {:induction false} TitleTwice(s: string, prev: bool)
    ensures TitleFrom(TitleFrom(s, prev), prev) == TitleFrom(s, prev)
    decreases |s|
  {
    if |s| > 0 {
      var r := TitleFrom(s, prev);
      var cased := IsLetter(s[0]);
      TitleShape(s, prev);
      assert r[1..] == TitleFrom(s[1..], cased);
      TitleTwice(s[1..], cased);
      assert IsLetter(r[0]) == cased;
    }
  }

  // ---------------------------------------------------------------------------
  // `_parse_weekly_off_list`
  // ---------------------------------------------------------------------------

  /** One entry of a parsed weekly-off list: non-empty, stripped, free of
      both separators and already title-cased. */
  predicate OffToken(p: string) {
    |p| > 0 && IsTrimmed(p) && ';' !in p && ',' !in p && Title(p) == p
  }

  /** The comprehension's body for one part: stripped and title-cased, or
      dropped when blank. */
  function DayToken(p: string): Option<string> {
    if Trim(p) != "" then Some(Title(Trim(p))) else None
  }

  /** `_parse_weekly_off_list(raw)`; `None` is the missing value. */
  function ParseWeeklyOffList(raw: Option<string>): (r: seq<string>)
    ensures raw.None? || Trim(raw.value) == "" || Trim(raw.value) == "nan" ==> r == []
    ensures forall k :: 0 <= k < |r| ==> OffToken(r[k])
  {
    if raw.None? || raw.value == "" || Trim(raw.value) in {"", "nan"} then []
    else
      var text := Replace(raw.value, ";", ",");
      ReplaceDropsSemicolon(raw.value);
      var parts := Split(text, ',');
      SplitKeepsAbsent(text, ',', ';');
      var r := Seqs.FilterMap(parts, DayToken);
      forall k | 0 <= k < |r| ensures OffToken(r[k]) {
        Seqs.FilterMapMembers(parts, DayToken, r[k]);
        var i :| 0 <= i < |parts| && DayToken(parts[i]) == Some(r[k]);
        TokenOf(parts[i]);
      }
      r
  }

  /** A non-blank part without separators yields a well-formed entry. */
  lemma TokenOf(p: string)
    requires ';' !in p && ',' !in p && Trim(p) != ""
    ensures OffToken(Title(Trim(p)))
  {
    var t := Trim(p);
    TrimIsSlice(p);
    assert ';' !in t && ',' !in t by {
      forall j | 0 <= j < |t| ensures t[j] != ';' && t[j] != ',' {
        assert t[j] == p[TrimStart(p) + j];
      }
    }
    var u := Title(t);
    TitleShape(t, false);
    TitleTwice(t, false);
    assert ';' !in u && ',' !in u by {
      forall j | 0 <= j < |u| ensures u[j] != ';' && u[j] != ',' {
        if !IsLetter(t[j]) {
          assert u[j] == t[j];
        }
      }
    }
    assert IsTrimmed(u) by {
      if !IsLetter(t[0]) {
        assert u[0] == t[0];
      }
      if !IsLetter(t[|t| - 1]) {
        assert u[|u| - 1] == t[|t| - 1];
      }
    }
  }

  lemma {:induction false} ReplaceDropsSemicolon(s: string)
    ensures ';' !in Replace(s, ";", ",")
    decreases |s|
  {
    if |s| >= 1 {
      if s[..1] == ";" {
        ReplaceDropsSemicolon(s[1..]);
      } else {
        ReplaceDropsSemicolon(s[1..]);
        assert s[0] != ';';
      }
    }
  }

  lemma {:induction false} ReplaceSemicolonAbsent(s: string)
    requires ';' !in s
    ensures Replace(s, ";", ",") == s
    decreases |s|
  {
    if |s| >= 1 {
      assert s[0] in s;
      assert s[..1] == [s[0]] && s[..1] != ";";
      assert ';' !in s[1..] by {
        forall j | 0 <= j < |s| - 1 ensures s[1..][j] != ';' {
          assert s[1..][j] == s[j + 1];
        }
      }
      ReplaceSemicolonAbsent(s[1..]);
      assert [s[0]] + s[1..] == s;
    }
  }

  lemma {:induction false} ReplaceSemicolonPrefix(p: string, rest: string)
    requires ';' !in p
    ensures Replace(p + ";" + rest, ";", ",") == p + "," + Replace(rest, ";", ",")
    decreases |p|
  {
    var s := p + ";" + rest;
    if |p| == 0 {
      assert s == ";" + rest && s[..1] == ";" && s[1..] == rest;
    } else {
      assert s[..1] == [p[0]] && s[..1] != ";";
      assert s[1..] == p[1..] + ";" + rest;
      ReplaceSemicolonPrefix(p[1..], rest);
      assert [p[0]] + p[1..] == p;
    }
  }

  /** Turning the `;` of a `;`-join into `,` gives the `,`-join. */
  lemma {:induction false} ReplaceJoin(parts: seq<string>)
    requires forall i :: 0 <= i < |parts| ==> ';' !in parts[i]
    ensures Replace(Join(parts, ";"), ";", ",") == Join(parts, ",")
    decreases |parts|
  {
    if |parts| == 1 {
      ReplaceSemicolonAbsent(parts[0]);
    } else if |parts| > 1 {
      ReplaceJoin(parts[1..]);
      ReplaceSemicolonPrefix(parts[0], Join(parts[1..], ";"));
    }
  }

  /** Splitting keeps out of every part a character the text lacks. */
  lemma {:induction false} SplitKeepsAbsent(s: string, sep: char, c: char)
    requires c !in s
    ensures forall i :: 0 <= i < |Split(s, sep)| ==> c !in Split(s, sep)[i]
    decreases |s|
  {
    if |s| > 0 {
      assert c !in s[1..] by {
        forall j | 0 <= j < |s| - 1 ensures s[1..][j] != c {
          assert s[1..][j] == s[j + 1];
        }
      }
      SplitKeepsAbsent(s[1..], sep, c);
      assert s[0] != c;
    }
  }

  /** `Title("nan")` is `"Nan"`, so a parsed entry is never the missing
      marker. */
  lemma NanIsNotTitled()
    ensures Title("nan") != "nan"
  {
    assert Title("nan")[0] == UpperChar('n');
  }

  /** The `;`-join of well-formed entries is stripped, neither blank nor the
      missing marker, and splits back into the entries at `,` once its `;`
      become `,`. */
  lemma JoinOfTokens(parts: seq<string>)
    requires |parts| > 0 && forall i :: 0 <= i < |parts| ==> OffToken(parts[i])
    ensures Trim(Join(parts, ";")) == Join(parts, ";")
    ensures Join(parts, ";") != "" && Join(parts, ";") != "nan"
    ensures Split(Replace(Join(parts, ";"), ";", ","), ',') == parts
  {
    var raw := Join(parts, ";");
    JoinEnds(parts, ";");
    assert !IsSpace(raw[0]) && !IsSpace(raw[|raw| - 1]);
    TrimOfTrimmed(raw);
    ReplaceJoin(parts);
    SplitJoin(parts, ',');
    if raw == "nan" {
      ReplaceSemicolonAbsent("nan");
      SplitOfPlain("nan", ',');
      NanIsNotTitled();
      assert false;
    }
  }

  /** Each well-formed entry is its own day token. */
  lemma TokensReadBack(parts: seq<string>)
    requires forall i :: 0 <= i < |parts| ==> OffToken(parts[i])
    ensures Seqs.FilterMap(parts, DayToken) == parts
  {
    forall i | 0 <= i < |parts| ensures DayToken(parts[i]) == Some(parts[i]) {
      TrimOfTrimmed(parts[i]);
    }
    Seqs.FilterMapAllSome(parts, DayToken, parts);
  }

  /** Reading back a `;`-join of well-formed entries gives the entries. */
  lemma ParseJoin(parts: seq<string>)
    requires forall i :: 0 <= i < |parts| ==> OffToken(parts[i])
    ensures ParseWeeklyOffList(Some(Join(parts, ";"))) == parts
  {
    if |parts| > 0 {
      JoinOfTokens(parts);
      TokensReadBack(parts);
    }
  }

  /** A character in no part and not the separator is not in the join. */
  lemma {:induction false} JoinKeepsAbsent(parts: seq<string>, sep: string, c: char)
    requires c !in sep && forall i :: 0 <= i < |parts| ==> c !in parts[i]
    ensures c !in Join(parts, sep)
    decreases |parts|
  {
    if |parts| > 1 {
      JoinKeepsAbsent(parts[1..], sep, c);
    }
  }

  /** Both `;` and `,` separate: text made of parts free of either, joined by
      either, reads as its non-blank parts, each stripped and title-cased, in
      order; blank parts are dropped. */
  lemma ParseSeparators(parts: seq<string>, sep: string)
    requires sep == ";" || sep == ","
    requires forall i :: 0 <= i < |parts| ==> ';' !in parts[i] && ',' !in parts[i]
    requires Trim(Join(parts, sep)) != "nan"
    ensures ParseWeeklyOffList(Some(Join(parts, sep))) == Seqs.FilterMap(parts, DayToken)
  {
    if |parts| > 0 {
      var raw := Join(parts, sep);
      if sep == ";" {
        ReplaceJoin(parts);
      } else {
        JoinKeepsAbsent(parts, sep, ';');
        ReplaceSemicolonAbsent(raw);
      }
      assert Replace(raw, ";", ",") == Join(parts, [',']);
      SplitJoin(parts, ',');
      if |parts| > 1 {
        assert raw[|parts[0]|] == sep[0];
        TrimEmpty(raw);
      } else if Trim(raw) == "" {
        assert DayToken(parts[0]) == None;
        assert Seqs.Init(parts) == [] && Seqs.Last(parts) == parts[0];
      }
    }
  }

  /** Parsing the `;`-join of a parsed list gives the list again, so a form
      that loads and saves the weekly-off field unchanged keeps it. */
  lemma ParseIdempotent(raw: Option<string>)
    ensures ParseWeeklyOffList(Some(Join(ParseWeeklyOffList(raw), ";"))) == ParseWeeklyOffList(raw)
  {
    ParseJoin(ParseWeeklyOffList(raw));
  }

  /** A capitalised word: an upper-case letter, then lower-case letters. */
  predicate Capitalised(w: string) {
    |w| > 0 && IsUpperLetter(w[0]) && forall i :: 1 <= i < |w| ==> IsLowerLetter(w[i])
  }

  lemma {:induction false} LowerRunTitled(s: string)
    requires forall i :: 0 <= i < |s| ==> IsLowerLetter(s[i])
    ensures TitleFrom(s, true) == s
    decreases |s|
  {
    if |s| > 0 {
      LowerRunTitled(s[1..]);
      assert [s[0]] + s[1..] == s;
    }
  }

  lemma CapitalisedToken(w: string)
    requires Capitalised(w)
    ensures OffToken(w)
  {
    LowerRunTitled(w[1..]);
    assert [w[0]] + w[1..] == w;
    assert ';' !in w && ',' !in w by {
      forall j | 0 <= j < |w| ensures w[j] != ';' && w[j] != ',' {
        assert IsLetter(w[j]);
      }
    }
  }

  lemma WeekdayNamesCapitalised(d: nat)
    requires d < |WeekdayNames|
    ensures Capitalised(WeekdayNames[d])
  {
    var w := WeekdayNames[d];
    forall i | 1 <= i < |w| ensures IsLowerLetter(w[i]) {
      if d == 0 { assert w == "Monday"; }
      else if d == 1 { assert w == "Tuesday"; }
      else if d == 2 { assert w == "Wednesday"; }
      else if d == 3 { assert w == "Thursday"; }
      else if d == 4 { assert w == "Friday"; }
      else if d == 5 { assert w == "Saturday"; }
      else { assert w == "Sunday"; }
    }
  }

  lemma WeekdayToken(w: string)
    requires w in WeekdayNames
    ensures OffToken(w)
  {
    var d :| 0 <= d < |WeekdayNames| && WeekdayNames[d] == w;
    WeekdayNamesCapitalised(d);
    CapitalisedToken(w);
  }

  /** Any list of weekday names survives the form's `;`-join and the parse
      that reads it back. */
  lemma WeekdaysRoundTrip(days: seq<string>)
    requires forall i :: 0 <= i < |days| ==> days[i] in WeekdayNames
    ensures ParseWeeklyOffList(Some(Join(days, ";"))) == days
  {
    forall i | 0 <= i < |days| ensures OffToken(days[i]) {
      WeekdayToken(days[i]);
    }
    ParseJoin(days);
  }

  // ---------------------------------------------------------------------------
  // Row builders
  // ---------------------------------------------------------------------------

  /** A profile row as the forms build it. */
  datatype ProfileRow = ProfileRow(
    profileId: string,
    kind: string,
    name: string,
    role: string,
    department: string,
    phone: string,
    email: string,
    experience: int,
    weeklyOff: string,
    notes: string,
    isActive: bool,
    specialisation: string,
    regNumber: string,
    canFirst: bool,
    canSecond: bool,
    canThird: bool)

  /** `profile_id or str(uuid.uuid4())`: a supplied non-empty id is kept;
      otherwise the newly generated id `newId` is used. */
  function PickId(profileId: Option<string>, newId: string): (r: string)
    ensures profileId.Some? && profileId.value != "" ==> r == profileId.value
    ensures profileId.None? || profileId.value == "" ==> r == newId
  {
    if profileId.Some? && profileId.value != "" then profileId.value else newId
  }

  /** `_build_assistant_row`: an assistant who may take any of the three
      slots, with no doctor fields, whose weekly-off text reads back as the
      chosen days. */
  function BuildAssistantRow(name: string, role: string, department: string, phone: string, email: string,
                             experience: int, weeklyOff: seq<string>, notes: string, isActive: bool,
                             profileId: Option<string>, newId: string): (r: ProfileRow)
    ensures r.kind == "Assistants" && r.canFirst && r.canSecond && r.canThird
    ensures r.specialisation == "" && r.regNumber == ""
    ensures r.profileId == PickId(profileId, newId)
    ensures r.name == name && r.role == role && r.department == department && r.phone == phone
      && r.email == email && r.experience == experience && r.notes == notes && r.isActive == isActive
    ensures (forall i :: 0 <= i < |weeklyOff| ==> OffToken(weeklyOff[i])) ==>
      ParseWeeklyOffList(Some(r.weeklyOff)) == weeklyOff
  {
    var row := ProfileRow(PickId(profileId, newId), "Assistants", name, role, department, phone, email,
                          experience, Join(weeklyOff, ";"), notes, isActive, "", "", true, true, true);
    if forall i :: 0 <= i < |weeklyOff| ==> OffToken(weeklyOff[i]) then
      ParseJoin(weeklyOff);
      row
    else row
  }

  /** `_build_doctor_row`: a doctor who takes no assistant slot, with no
      experience and no weekly-off days. */
  function BuildDoctorRow(name: string, specialisation: string, department: string, phone: string, email: string,
                          regNumber: string, notes: string, isActive: bool,
                          profileId: Option<string>, newId: string): (r: ProfileRow)
    ensures r.kind == "Doctors" && r.role == "Doctor"
    ensures !r.canFirst && !r.canSecond && !r.canThird
    ensures r.experience == 0 && ParseWeeklyOffList(Some(r.weeklyOff)) == []
    ensures r.profileId == PickId(profileId, newId)
    ensures r.name == name && r.specialisation == specialisation && r.department == department
      && r.phone == phone && r.email == email && r.regNumber == regNumber && r.notes == notes
      && r.isActive == isActive
  {
    ProfileRow(PickId(profileId, newId), "Doctors", name, "Doctor", department, phone, email,
               0, "", notes, isActive, specialisation, regNumber, false, false, false)
  }
}

=== FILE: profiles_cache.dfy ===
/**
 * The profiles cache: lookup maps derived from the assistant and doctor
 * profile tables and the departments section of the allocation rules file
 * -- the active names, each name's department with its fallback chain, the
 * assistants of each department, assistant slot preferences and the
 * assistants off on each weekday.
 */
module ProfilesCache {
  import opened Wrappers
  import opened Strings
  import opened Utils
  import opened Constants
  import opened Frames
  import opened Json
  import Seqs

  // ---------------------------------------------------------------------------
  // Weekly off days
  // ---------------------------------------------------------------------------

  /** Day names and abbreviations, upper-cased, with Monday as 0. */
  const WeekdayIndex: map<string, int> := map[
    "MON" := 0, "MONDAY" := 0,
    "TUE" := 1, "TUESDAY" := 1,
    "WED" := 2, "WEDNESDAY" := 2,
    "THU" := 3, "THURSDAY" := 3,
    "FRI" := 4, "FRIDAY" := 4,
    "SAT" := 5, "SATURDAY" := 5,
    "SUN" := 6, "SUNDAY" := 6]

  /** The weekday one comma-separated part stands for: a day name or
      abbreviation in any case, or a whole number from 0 to 6. */
  function DayOf(part: string): (r: Option<int>)
    ensures r.Some? ==> 0 <= r.value <= 6
    ensures Key(part) in WeekdayIndex ==> r == Some(WeekdayIndex[Key(part)])
    ensures Key(part) !in WeekdayIndex && ParseInt(Key(part)).Some? && 0 <= ParseInt(Key(part)).value <= 6 ==>
      r == ParseInt(Key(part))
  {
    var p := Key(part);
    if p == "" then None
    else if p in WeekdayIndex then Some(WeekdayIndex[p])
    else match ParseInt(p)
      case Some(i) => if 0 <= i <= 6 then Some(i) else None
      case None => None
  }

  /** `_parse_weekly_off_days` on a cell's text: the weekdays its
      comma-separated parts name, in order, ignoring the parts that name
      none; nothing for a blank cell. */
  function ParseWeeklyOffDays(value: string): (r: seq<int>)
    ensures IsBlank(value) ==> r == []
    ensures forall k :: 0 <= k < |r| ==> 0 <= r[k] <= 6
    ensures !IsBlank(value) ==> forall d :: d in r <==> exists p :: p in Split(Trim(value), ',') && DayOf(p) == Some(d)
  {
    if IsBlank(value) then []
    else
      var parts := Split(Trim(value), ',');
      var r := Seqs.FilterMap(parts, DayOf);
      assert forall d :: d in r <==> exists p :: p in parts && DayOf(p) == Some(d) by {
        forall d ensures d in r <==> exists p :: p in parts && DayOf(p) == Some(d) {
          Seqs.FilterMapMembers(parts, DayOf, d);
        }
      }
      assert forall k :: 0 <= k < |r| ==> 0 <= r[k] <= 6 by {
        forall k | 0 <= k < |r| ensures 0 <= r[k] <= 6 {
          assert r[k] in r;
        }
      }
      r
  }

  /** Every weekday name reads back as its index. */
  lemma DayOfName(d: nat)
    requires d < 7
    ensures DayOf(WeekdayNames[d]) == Some(d)
    ensures |WeekdayNames[d]| >= 6 && IsTrimmed(WeekdayNames[d]) && ',' !in WeekdayNames[d]
  {
    if d < 3 { EarlyDayName(d); }
    else if d < 5 { MidDayName(d); }
    else { LateDayName(d); }
  }

  lemma EarlyDayName(d: nat)
    requires d < 3
    ensures DayOf(WeekdayNames[d]) == Some(d)
    ensures |WeekdayNames[d]| >= 6 && IsTrimmed(WeekdayNames[d]) && ',' !in WeekdayNames[d]
  {
    if d == 0 { NameAt(d, "Monday", "MONDAY"); }
    else if d == 1 { NameAt(d, "Tuesday", "TUESDAY"); }
    else { NameAt(d, "Wednesday", "WEDNESDAY"); }
  }

  lemma MidDayName(d: nat)
    requires 3 <= d < 5
    ensures DayOf(WeekdayNames[d]) == Some(d)
    ensures |WeekdayNames[d]| >= 6 && IsTrimmed(WeekdayNames[d]) && ',' !in WeekdayNames[d]
  {
    if d == 3 { NameAt(d, "Thursday", "THURSDAY"); }
    else { NameAt(d, "Friday", "FRIDAY"); }
  }

  lemma LateDayName(d: nat)
    requires 5 <= d < 7
    ensures DayOf(WeekdayNames[d]) == Some(d)
    ensures |WeekdayNames[d]| >= 6 && IsTrimmed(WeekdayNames[d]) && ',' !in WeekdayNames[d]
  {
    if d == 5 { NameAt(d, "Saturday", "SATURDAY"); }
    else { NameAt(d, "Sunday", "SUNDAY"); }
  }

  /** A day whose name is made of letters and upper-cases to its key. */
  lemma NameAt(d: nat, n: string, u: string)
    requires d < 7 && WeekdayNames[d] == n && |n| >= 6
    requires Upper(n) == u && u in WeekdayIndex && WeekdayIndex[u] == d
    requires forall i :: 0 <= i < |n| ==> 'A' <= n[i] <= 'z'
    ensures DayOf(WeekdayNames[d]) == Some(d)
    ensures |WeekdayNames[d]| >= 6 && IsTrimmed(WeekdayNames[d]) && ',' !in WeekdayNames[d]
  {
    assert IsTrimmed(n);
    TrimOfTrimmed(n);
  }

  function NamesOfDays(ds: seq<int>): (r: seq<string>)
    requires forall k :: 0 <= k < |ds| ==> 0 <= ds[k] <= 6
    ensures |r| == |ds|
    ensures forall k :: 0 <= k < |ds| ==> r[k] == WeekdayNames[ds[k]]
  {
    seq(|ds|, k requires 0 <= k < |ds| => WeekdayNames[ds[k]])
  }

  /** Writing weekdays as their names joined by commas and parsing the text
      gives the same weekdays back, in order. */
  lemma WeeklyOffRoundTrip(ds: seq<int>)
    requires |ds| > 0 && forall k :: 0 <= k < |ds| ==> 0 <= ds[k] <= 6
    ensures ParseWeeklyOffDays(Join(NamesOfDays(ds), ",")) == ds
  {
    var ns := NamesOfDays(ds);
    forall k | 0 <= k < |ns| ensures |ns[k]| >= 6 && IsTrimmed(ns[k]) && ',' !in ns[k] {
      DayOfName(ds[k]);
    }
    var text := Join(ns, ",");
    JoinEnds(ns, ",");
    assert IsTrimmed(text);
    TrimOfTrimmed(text);
    assert !IsBlank(text) by {
      assert |LowKey(text)| >= 6;
    }
    SplitJoin(ns, ',');
    forall k | 0 <= k < |ns| ensures DayOf(ns[k]) == Some(ds[k]) {
      DayOfName(ds[k]);
    }
    Seqs.FilterMapAllSome(ns, DayOf, ds);
  }

  // ---------------------------------------------------------------------------
  // The departments section of the rules file
  // ---------------------------------------------------------------------------

  /** `data.get(field, []) or []` as iterated by `for name in ...`. */
  function ListedNames(data: Value, field: string): seq<Value> {
    match Iterate(OrElse(GetOr(data, field, JList([])), JList([])))
    case Some(xs) => xs
    case None => []
  }

  /** `norm_name(name)` on a name from the file: `str(name or "")` first. */
  function NameKey(name: Value): string {
    NormName(if Truthy(name) then Render(name) else "")
  }

  /** The name keys a department's data lists under `field`. */
  function ListedKeys(field: string): Value -> seq<string> {
    (data: Value) =>
      var names := ListedNames(data, field);
      seq(|names|, i requires 0 <= i < |names| => NameKey(names[i]))
  }

  /** The department entry `e` is a dict listing the non-blank key `k`. */
  predicate Lists(e: (string, Value), keysOf: Value -> seq<string>, k: string) {
    e.1.JObject? && k != "" && k in keysOf(e.1)
  }

  /** Records `dept` for every non-blank key of `keys` not mapped yet. */
  function MapFirst(m: map<string, string>, keys: seq<string>, dept: string): (r: map<string, string>)
    ensures forall k :: k in m ==> k in r && r[k] == m[k]
    ensures forall k :: k in r <==> k in m || (k != "" && k in keys)
    ensures forall k :: k in r && k !in m ==> r[k] == dept
    decreases |keys|
  {
    if |keys| == 0 then m
    else
      var k := keys[0];
      var m' := if k != "" && k !in m then m[k := dept] else m;
      var r := MapFirst(m', keys[1..], dept);
      assert forall x :: x in keys <==> x == k || x in keys[1..];
      r
  }

  /** The config name map (`config_doctor_map` or `config_assistant_map`):
      each name key a department entry lists, mapped to the upper-cased
      department of the first entry listing it. */
  function ConfigNameMap(es: seq<(string, Value)>, keysOf: Value -> seq<string>): (r: map<string, string>)
    decreases |es|
  {
    if |es| == 0 then map[]
    else
      var e := Seqs.Last(es);
      var m := ConfigNameMap(Seqs.Init(es), keysOf);
      if e.1.JObject? then MapFirst(m, keysOf(e.1), Key(e.0)) else m
  }

  /** A key is in the config map exactly when some entry lists it. */
  lemma {:induction false} ConfigNameMapKeys(es: seq<(string, Value)>, keysOf: Value -> seq<string>, k: string)
    ensures k in ConfigNameMap(es, keysOf) <==> exists i :: 0 <= i < |es| && Lists(es[i], keysOf, k)
    decreases |es|
  {
    if |es| > 0 {
      var init := Seqs.Init(es);
      ConfigNameMapKeys(init, keysOf, k);
      assert forall i :: 0 <= i < |init| ==> init[i] == es[i];
      assert Seqs.Last(es) == es[|es| - 1];
    }
  }

  /** The first entry listing a key decides its department. */
  lemma {:induction false} ConfigNameMapFirst(es: seq<(string, Value)>, keysOf: Value -> seq<string>, i: nat, k: string)
    requires i < |es| && Lists(es[i], keysOf, k)
    requires forall j :: 0 <= j < i ==> !Lists(es[j], keysOf, k)
    ensures k in ConfigNameMap(es, keysOf) && ConfigNameMap(es, keysOf)[k] == Key(es[i].0)
    decreases |es|
  {
    var init := Seqs.Init(es);
    assert forall j :: 0 <= j < |init| ==> init[j] == es[j];
    if i == |es| - 1 {
      ConfigNameMapKeys(init, keysOf, k);
    } else {
      ConfigNameMapFirst(init, keysOf, i, k);
    }
  }

  /** `dept_list` before the fallback: the upper-cased department names of
      the entries, blanks left out, each once, in first-seen order. */
  function DeptList(es: seq<(string, Value)>): (r: seq<string>)
    ensures Seqs.NoDup(r)
    ensures forall d :: d in r <==> Listed(es, d)
    decreases |es|
  {
    if |es| == 0 then []
    else
      var init := Seqs.Init(es);
      var r := DeptList(init);
      var d := Key(Seqs.Last(es).0);
      ListedSnoc(es);
      DeptSnoc(r, d)
  }

  /** Some entry's upper-cased key is `d`, and `d` is not blank. */
  predicate Listed(es: seq<(string, Value)>, d: string)
  {
    d != "" && exists i :: 0 <= i < |es| && Key(es[i].0) == d
  }

  lemma ListedSnoc(es: seq<(string, Value)>)
    requires |es| > 0
    ensures forall x :: Listed(es, x) <==> Listed(Seqs.Init(es), x) || (x == Key(Seqs.Last(es).0) && x != "")
  {
    var init := Seqs.Init(es);
    forall x ensures Listed(es, x) <==> Listed(init, x) || (x == Key(Seqs.Last(es).0) && x != "") {
      if Listed(es, x) {
        var i :| 0 <= i < |es| && Key(es[i].0) == x;
        if i < |init| {
          assert init[i] == es[i];
        }
      }
      if Listed(init, x) {
        var i :| 0 <= i < |init| && Key(init[i].0) == x;
        assert init[i] == es[i];
      }
    }
  }

  function DeptKeys(es: seq<(string, Value)>): (r: seq<string>)
    ensures |r| == |es| && forall i :: 0 <= i < |es| ==> r[i] == Key(es[i].0)
  {
    seq(|es|, i requires 0 <= i < |es| => Key(es[i].0))
  }

  function NonBlank(s: string): bool { s != "" }

  /** The department list is the de-duplicated non-blank keys, in order. */
  lemma {:induction false} DeptListIsDedup(es: seq<(string, Value)>)
    ensures DeptList(es) == Seqs.Dedup(Seqs.Filter(DeptKeys(es), NonBlank))
    decreases |es|
  {
    if |es| > 0 {
      var init := Seqs.Init(es);
      DeptListIsDedup(init);
      var d := Key(Seqs.Last(es).0);
      DeptStep(es);
      Seqs.DedupFilterSnoc(DeptKeys(init), NonBlank, d);
    }
  }

  lemma DeptStep(es: seq<(string, Value)>)
    requires |es| > 0
    ensures DeptKeys(es) == DeptKeys(Seqs.Init(es)) + [Key(Seqs.Last(es).0)]
    ensures DeptList(es) == DeptSnoc(DeptList(Seqs.Init(es)), Key(Seqs.Last(es).0))
  {
    DeptKeysStep(es);
  }

  lemma DeptKeysStep(es: seq<(string, Value)>)
    requires |es| > 0
    ensures DeptKeys(es) == DeptKeys(Seqs.Init(es)) + [Key(Seqs.Last(es).0)]
  {
    var a, b := DeptKeys(es), DeptKeys(Seqs.Init(es)) + [Key(Seqs.Last(es).0)];
    assert |a| == |b|;
    forall i | 0 <= i < |a| ensures a[i] == b[i] {
      if i < |es| - 1 {
        assert Seqs.Init(es)[i] == es[i];
      }
    }
  }

  /** One more department name: kept when non-blank and new. */
  function DeptSnoc(prev: seq<string>, d: string): (r: seq<string>)
    ensures Seqs.NoDup(prev) ==> Seqs.NoDup(r)
    ensures forall x :: x in r <==> x in prev || (x == d && d != "")
  {
    if d != "" && d !in prev then
      assert forall x :: x in [d] ==> x !in prev;
      if Seqs.NoDup(prev) then
        Seqs.NoDupAppend(prev, [d]);
        prev + [d]
      else prev + [d]
    else prev
  }

  /** `DEFAULT_DEPARTMENTS`' keys upper-cased, each once. */
  function DefaultDeptList(): (r: seq<string>)
    ensures r == DefaultDepartments
  {
    var ups := seq(|DefaultDepartments|, i requires 0 <= i < |DefaultDepartments| => Upper(DefaultDepartments[i]));
    assert Upper("PROSTHO") == "PROSTHO";
    assert Upper("ENDO") == "ENDO";
    assert ups == ["PROSTHO", "ENDO"];
    assert Seqs.Init(ups) == ["PROSTHO"];
    assert Seqs.Init(["PROSTHO"]) == [];
    Seqs.Dedup(ups)
  }

  /** The department entries of the rules file. */
  function DeptEntries(config: Value): seq<(string, Value)> {
    Members(GetOr(config, "departments", JObject([])))
  }

  // ---------------------------------------------------------------------------
  // Profile rows
  // ---------------------------------------------------------------------------

  /** `str(row.get("name", "")).strip().upper()`. */
  function RowName(row: Row): string {
    Key(Get(row, "name"))
  }

  function RowKey(row: Row): string {
    NormName(RowName(row))
  }

  /** A profile row takes part: a non-blank name and a blank or `ACTIVE`
      status. */
  predicate Kept(row: Row) {
    RowName(row) != "" && (Key(Get(row, "status")) == "" || Key(Get(row, "status")) == "ACTIVE")
  }

  /** An assistant's department: the row's own, else the config map's, else
      `"SHARED"`. */
  function AssistantDept(cfg: map<string, string>): Row -> string {
    (row: Row) =>
      var own := Key(Get(row, "department"));
      if own != "" then own
      else
        var c := if RowKey(row) in cfg then cfg[RowKey(row)] else "SHARED";
        if c != "" then c else "SHARED"
  }

  /** A doctor's department: the row's own, else the config map's, else `""`. */
  function DoctorDept(cfg: map<string, string>): Row -> string {
    (row: Row) =>
      var own := Key(Get(row, "department"));
      if own != "" then own else if RowKey(row) in cfg then cfg[RowKey(row)] else ""
  }

  /** The fallback chains, stated case by case. */
  lemma DeptFallbacks(cfg: map<string, string>, row: Row)
    ensures AssistantDept(cfg)(row) != ""
    ensures Key(Get(row, "department")) != "" ==>
      AssistantDept(cfg)(row) == Key(Get(row, "department")) && DoctorDept(cfg)(row) == Key(Get(row, "department"))
    ensures Key(Get(row, "department")) == "" && RowKey(row) in cfg && cfg[RowKey(row)] != "" ==>
      AssistantDept(cfg)(row) == cfg[RowKey(row)] && DoctorDept(cfg)(row) == cfg[RowKey(row)]
    ensures Key(Get(row, "department")) == "" && (RowKey(row) !in cfg || cfg[RowKey(row)] == "") ==>
      AssistantDept(cfg)(row) == "SHARED" && DoctorDept(cfg)(row) == ""
  {
  }

  function KeptName(row: Row): Option<string> {
    if Kept(row) then Some(RowName(row)) else None
  }

  /** `assistants_list` / `doctors_list`: the names of the kept rows in order. */
  function NameList(rows: seq<Row>): (r: seq<string>)
    ensures forall n :: n in r <==> exists i :: 0 <= i < |rows| && Kept(rows[i]) && RowName(rows[i]) == n
    ensures forall k :: 0 <= k < |r| ==> r[k] != ""
  {
    var r := Seqs.FilterMap(rows, KeptName);
    assert forall n :: n in r <==> exists i :: 0 <= i < |rows| && KeptName(rows[i]) == Some(n) by {
      forall n ensures n in r <==> exists i :: 0 <= i < |rows| && KeptName(rows[i]) == Some(n) {
        Seqs.FilterMapMembers(rows, KeptName, n);
      }
    }
    assert forall k :: 0 <= k < |r| ==> r[k] != "" by {
      forall k | 0 <= k < |r| ensures r[k] != "" {
        assert r[k] in r;
      }
    }
    r
  }

  // The folds below are written over any row type with the row test, name,
  // key and value as parameters, the way the loop body reads them.

  /** Some kept row has key `k`. */
  ghost predicate KeyKept<T>(xs: seq<T>, keep: T -> bool, key: T -> string, k: string) {
    exists i :: 0 <= i < |xs| && keep(xs[i]) && key(xs[i]) == k
  }

  /** No later kept row shares the key of row `i`. */
  ghost predicate LastWithKey<T>(xs: seq<T>, keep: T -> bool, key: T -> string, i: nat) {
    forall j :: i < j < |xs| && keep(xs[j]) ==> key(xs[j]) != key(xs[i])
  }

  /** A map over the kept rows written row by row (`m[key(row)] = value(row)`),
      so the last row of a key decides its value. */
  function KeyedMap<T, V>(xs: seq<T>, keep: T -> bool, key: T -> string, value: T -> V): (r: map<string, V>)
    decreases |xs|
  {
    if |xs| == 0 then map[]
    else
      var x := Seqs.Last(xs);
      var m := KeyedMap(Seqs.Init(xs), keep, key, value);
      if keep(x) then m[key(x) := value(x)] else m
  }

  /** The keys are exactly those of the kept rows. */
  lemma {:induction false} KeyedMapKeys<T, V>(xs: seq<T>, keep: T -> bool, key: T -> string, value: T -> V, k: string)
    ensures k in KeyedMap(xs, keep, key, value) <==> KeyKept(xs, keep, key, k)
    decreases |xs|
  {
    if |xs| > 0 {
      var init := Seqs.Init(xs);
      KeyedMapKeys(init, keep, key, value, k);
      assert forall i :: 0 <= i < |init| ==> init[i] == xs[i];
      assert Seqs.Last(xs) == xs[|xs| - 1];
      if KeyKept(xs, keep, key, k) && !KeyKept(init, keep, key, k) {
        var i :| 0 <= i < |xs| && keep(xs[i]) && key(xs[i]) == k;
        assert i == |xs| - 1;
      }
    }
  }

  /** The last kept row of a key decides its value. */
  lemma {:induction false} KeyedMapLast<T, V>(xs: seq<T>, keep: T -> bool, key: T -> string, value: T -> V, i: nat)
    requires i < |xs| && keep(xs[i]) && LastWithKey(xs, keep, key, i)
    ensures key(xs[i]) in KeyedMap(xs, keep, key, value) && KeyedMap(xs, keep, key, value)[key(xs[i])] == value(xs[i])
    decreases |xs|
  {
    var init := Seqs.Init(xs);
    if i < |xs| - 1 {
      assert forall j :: 0 <= j < |init| ==> init[j] == xs[j];
      assert keep(xs[|xs| - 1]) ==> key(xs[|xs| - 1]) != key(xs[i]);
      KeyedMapLast(init, keep, key, value, i);
    }
  }

  /** `assistants_by_dept`: each department's kept names, each once, in order
      (`setdefault(dept, [])`, then append when absent). */
  function ByDept<T>(xs: seq<T>, keep: T -> bool, name: T -> string, dept: T -> string): (r: map<string, seq<string>>)
    decreases |xs|
  {
    if |xs| == 0 then map[]
    else
      var x := Seqs.Last(xs);
      var m := ByDept(Seqs.Init(xs), keep, name, dept);
      if keep(x) then
        var d := dept(x);
        var members := if d in m then m[d] else [];
        m[d := if name(x) in members then members else members + [name(x)]]
      else
        m
  }

  /** Some kept row has department `d`, and name `n`. */
  ghost predicate NameInDept<T>(xs: seq<T>, keep: T -> bool, name: T -> string, dept: T -> string, d: string, n: string) {
    exists i :: 0 <= i < |xs| && keep(xs[i]) && dept(xs[i]) == d && name(xs[i]) == n
  }

  ghost predicate DeptKept<T>(xs: seq<T>, keep: T -> bool, dept: T -> string, d: string) {
    exists i :: 0 <= i < |xs| && keep(xs[i]) && dept(xs[i]) == d
  }

  /** The departments of the map are those of the kept rows, each list holds
      exactly the names of that department's kept rows, and holds each once. */
  lemma {:induction false} ByDeptMembers<T>(xs: seq<T>, keep: T -> bool, name: T -> string, dept: T -> string, d: string, n: string)
    ensures d in ByDept(xs, keep, name, dept) <==> DeptKept(xs, keep, dept, d)
    ensures d in ByDept(xs, keep, name, dept) ==> Seqs.NoDup(ByDept(xs, keep, name, dept)[d])
    ensures d in ByDept(xs, keep, name, dept) ==>
      (n in ByDept(xs, keep, name, dept)[d] <==> NameInDept(xs, keep, name, dept, d, n))
    decreases |xs|
  {
    if |xs| > 0 {
      var init := Seqs.Init(xs);
      ByDeptMembers(init, keep, name, dept, d, n);
      assert forall i :: 0 <= i < |init| ==> init[i] == xs[i];
      assert Seqs.Last(xs) == xs[|xs| - 1];
      if DeptKept(xs, keep, dept, d) && !DeptKept(init, keep, dept, d) {
        var i :| 0 <= i < |xs| && keep(xs[i]) && dept(xs[i]) == d;
        assert i == |xs| - 1;
      }
      if NameInDept(xs, keep, name, dept, d, n) && !NameInDept(init, keep, name, dept, d, n) {
        var i :| 0 <= i < |xs| && keep(xs[i]) && dept(xs[i]) == d && name(xs[i]) == n;
        assert i == |xs| - 1;
      }
    }
  }

  /** The weekday table with no one off. */
  const NoOffDays: map<int, seq<string>> := map i | 0 <= i <= 6 :: []

  ghost predicate WeekKeys(wo: map<int, seq<string>>) {
    forall i :: i in wo <==> 0 <= i <= 6
  }

  predicate Weekdays(days: seq<int>) {
    forall k :: 0 <= k < |days| ==> 0 <= days[k] <= 6
  }

  /** `weekly_off_map[idx].append(name)` for each day in turn. */
  function AddOff(wo: map<int, seq<string>>, days: seq<int>, name: string): (r: map<int, seq<string>>)
    requires WeekKeys(wo) && Weekdays(days)
    ensures WeekKeys(r)
    ensures forall i, n :: i in r ==> (n in r[i] <==> n in wo[i] || (n == name && i in days))
    decreases |days|
  {
    if |days| == 0 then wo
    else
      var d := days[0];
      var r := AddOff(wo[d := wo[d] + [name]], days[1..], name);
      assert forall i :: i in days <==> i == d || i in days[1..];
      r
  }

  /** The weekdays a profile row names in its weekly-off cell. */
  function OffDays(row: Row): (r: seq<int>)
    ensures Weekdays(r)
  {
    ParseWeeklyOffDays(Get(row, "weekly_off"))
  }

  /** `weekly_off_map`: the weekdays 0 to 6, each with the kept names off on it. */
  function OffMap<T>(xs: seq<T>, keep: T -> bool, name: T -> string, days: T -> seq<int>): (r: map<int, seq<string>>)
    requires forall i :: 0 <= i < |xs| ==> Weekdays(days(xs[i]))
    ensures WeekKeys(r)
    decreases |xs|
  {
    if |xs| == 0 then NoOffDays
    else
      var x := Seqs.Last(xs);
      var m := OffMap(Seqs.Init(xs), keep, name, days);
      if keep(x) then AddOff(m, days(x), name(x)) else m
  }

  ghost predicate OffKept<T>(xs: seq<T>, keep: T -> bool, name: T -> string, days: T -> seq<int>, d: int, n: string) {
    exists i :: 0 <= i < |xs| && keep(xs[i]) && d in days(xs[i]) && name(xs[i]) == n
  }

  /** A name is listed under a weekday exactly when a kept row of that name
      names the weekday. */
  lemma {:induction false} OffMapMembers<T>(xs: seq<T>, keep: T -> bool, name: T -> string, days: T -> seq<int>, d: int, n: string)
    requires forall i :: 0 <= i < |xs| ==> Weekdays(days(xs[i]))
    requires 0 <= d <= 6
    ensures n in OffMap(xs, keep, name, days)[d] <==> OffKept(xs, keep, name, days, d, n)
    decreases |xs|
  {
    if |xs| > 0 {
      var init := Seqs.Init(xs);
      assert forall i :: 0 <= i < |init| ==> init[i] == xs[i];
      OffMapMembers(init, keep, name, days, d, n);
      assert Seqs.Last(xs) == xs[|xs| - 1];
      if OffKept(xs, keep, name, days, d, n) && !OffKept(init, keep, name, days, d, n) {
        var i :| 0 <= i < |xs| && keep(xs[i]) && d in days(xs[i]) && name(xs[i]) == n;
        assert i == |xs| - 1;
      }
    }
  }

  // ---------------------------------------------------------------------------
  // The cache
  // ---------------------------------------------------------------------------

  /** The three slot preferences of an assistant, as the row holds them. */
  datatype Prefs = Prefs(first: string, second: string, third: string)

  function PrefsOf(row: Row): Prefs {
    Prefs(Get(row, "pref_first"), Get(row, "pref_second"), Get(row, "pref_third"))
  }

  datatype Cache = Cache(
    assistantsList: seq<string>,
    doctorsList: seq<string>,
    assistantDeptMap: map<string, string>,
    doctorDeptMap: map<string, string>,
    assistantPrefs: map<string, Prefs>,
    assistantsByDept: map<string, seq<string>>,
    weeklyOffMap: map<int, seq<string>>,
    allDepartments: seq<string>)

  /** The rows of a profile table, none when it is missing or empty. */
  function RowsOf(table: Option<Frame>): seq<Row> {
    if table.Some? && !IsEmpty(table.value) then table.value.rows else []
  }

  /** The department of an assistant row under the rules file. */
  function AssistantDeptIn(rulesFile: Option<Value>): Row -> string {
    AssistantDept(ConfigNameMap(DeptEntries(LoadConfig(rulesFile)), ListedKeys("assistants")))
  }

  function DoctorDeptIn(rulesFile: Option<Value>): Row -> string {
    DoctorDept(ConfigNameMap(DeptEntries(LoadConfig(rulesFile)), ListedKeys("doctors")))
  }

  /** `build_profiles_cache` over the two profile tables and the rules file;
      the department list falls back to `DEFAULT_DEPARTMENTS` when the file
      names none. */
  function BuildProfilesCache(assistants: Option<Frame>, doctors: Option<Frame>, rulesFile: Option<Value>): (c: Cache)
    ensures WeekKeys(c.weeklyOffMap)
    ensures Seqs.NoDup(c.allDepartments) && |c.allDepartments| > 0
    ensures DeptList(DeptEntries(LoadConfig(rulesFile))) != [] ==> c.allDepartments == DeptList(DeptEntries(LoadConfig(rulesFile)))
    ensures DeptList(DeptEntries(LoadConfig(rulesFile))) == [] ==> c.allDepartments == DefaultDepartments
  {
    var listed := DeptList(DeptEntries(LoadConfig(rulesFile)));
    var deptList := if listed != [] then listed else DefaultDeptList();
    var arows := RowsOf(assistants);
    var drows := RowsOf(doctors);
    assert Seqs.NoDup(DefaultDepartments) by {
      assert DefaultDepartments[0] != DefaultDepartments[1];
    }
    Cache(
      NameList(arows),
      NameList(drows),
      KeyedMap(arows, Kept, RowKey, AssistantDeptIn(rulesFile)),
      KeyedMap(drows, Kept, RowKey, DoctorDeptIn(rulesFile)),
      KeyedMap(arows, Kept, RowKey, PrefsOf),
      ByDept(arows, Kept, RowName, AssistantDeptIn(rulesFile)),
      OffMap(arows, Kept, RowName, OffDays),
      if deptList != [] then deptList else DefaultDepartments)
  }

  /** The name lists hold exactly the names of the kept rows, none blank. */
  lemma CacheNames(assistants: Option<Frame>, doctors: Option<Frame>, rulesFile: Option<Value>, n: string)
    ensures var c := BuildProfilesCache(assistants, doctors, rulesFile);
      n in c.assistantsList <==>
        exists i :: 0 <= i < |RowsOf(assistants)| && Kept(RowsOf(assistants)[i]) && RowName(RowsOf(assistants)[i]) == n
    ensures var c := BuildProfilesCache(assistants, doctors, rulesFile);
      n in c.doctorsList <==>
        exists i :: 0 <= i < |RowsOf(doctors)| && Kept(RowsOf(doctors)[i]) && RowName(RowsOf(doctors)[i]) == n
    ensures n == "" ==> n !in BuildProfilesCache(assistants, doctors, rulesFile).assistantsList
  {
  }

  /** Rows excluded by a blank name or an inactive status leave no trace:
      every key of the department and preference maps is a kept row's. */
  lemma ExcludedRowsIgnored(assistants: Option<Frame>, doctors: Option<Frame>, rulesFile: Option<Value>, k: string)
    ensures k in BuildProfilesCache(assistants, doctors, rulesFile).assistantDeptMap <==> KeyKept(RowsOf(assistants), Kept, RowKey, k)
    ensures k in BuildProfilesCache(assistants, doctors, rulesFile).assistantPrefs <==> KeyKept(RowsOf(assistants), Kept, RowKey, k)
    ensures k in BuildProfilesCache(assistants, doctors, rulesFile).doctorDeptMap <==> KeyKept(RowsOf(doctors), Kept, RowKey, k)
  {
    KeyedMapKeys(RowsOf(assistants), Kept, RowKey, AssistantDeptIn(rulesFile), k);
    KeyedMapKeys(RowsOf(assistants), Kept, RowKey, PrefsOf, k);
    KeyedMapKeys(RowsOf(doctors), Kept, RowKey, DoctorDeptIn(rulesFile), k);
  }

  /** The department recorded for an assistant is the fallback chain applied
      to the last kept row of that name key, and so are its preferences. */
  lemma AssistantDeptFromRow(assistants: Option<Frame>, doctors: Option<Frame>, rulesFile: Option<Value>, i: nat)
    requires i < |RowsOf(assistants)| && Kept(RowsOf(assistants)[i]) && LastWithKey(RowsOf(assistants), Kept, RowKey, i)
    ensures var c := BuildProfilesCache(assistants, doctors, rulesFile);
      var row := RowsOf(assistants)[i];
      RowKey(row) in c.assistantDeptMap && c.assistantDeptMap[RowKey(row)] == AssistantDeptIn(rulesFile)(row)
      && RowKey(row) in c.assistantPrefs && c.assistantPrefs[RowKey(row)] == PrefsOf(row)
  {
    KeyedMapLast(RowsOf(assistants), Kept, RowKey, AssistantDeptIn(rulesFile), i);
    KeyedMapLast(RowsOf(assistants), Kept, RowKey, PrefsOf, i);
  }

  lemma DoctorDeptFromRow(assistants: Option<Frame>, doctors: Option<Frame>, rulesFile: Option<Value>, i: nat)
    requires i < |RowsOf(doctors)| && Kept(RowsOf(doctors)[i]) && LastWithKey(RowsOf(doctors), Kept, RowKey, i)
    ensures var c := BuildProfilesCache(assistants, doctors, rulesFile);
      var row := RowsOf(doctors)[i];
      RowKey(row) in c.doctorDeptMap && c.doctorDeptMap[RowKey(row)] == DoctorDeptIn(rulesFile)(row)
  {
    KeyedMapLast(RowsOf(doctors), Kept, RowKey, DoctorDeptIn(rulesFile), i);
  }

  /** Each department list is duplicate-free and holds kept assistants only. */
  lemma ByDeptSound(assistants: Option<Frame>, doctors: Option<Frame>, rulesFile: Option<Value>, d: string, n: string)
    requires d in BuildProfilesCache(assistants, doctors, rulesFile).assistantsByDept
    ensures var c := BuildProfilesCache(assistants, doctors, rulesFile);
      Seqs.NoDup(c.assistantsByDept[d]) && (n in c.assistantsByDept[d] ==> n in c.assistantsList)
  {
    ByDeptMembers(RowsOf(assistants), Kept, RowName, AssistantDeptIn(rulesFile), d, n);
  }

  /** The weekly-off table lists kept assistants only, under the weekdays
      their rows name. */
  lemma WeeklyOffSound(assistants: Option<Frame>, doctors: Option<Frame>, rulesFile: Option<Value>, d: int, n: string)
    requires 0 <= d <= 6
    ensures var c := BuildProfilesCache(assistants, doctors, rulesFile);
      n in c.weeklyOffMap[d] <==> OffKept(RowsOf(assistants), Kept, RowName, OffDays, d, n)
    ensures var c := BuildProfilesCache(assistants, doctors, rulesFile);
      n in c.weeklyOffMap[d] ==> n in c.assistantsList
  {
    OffMapMembers(RowsOf(assistants), Kept, RowName, OffDays, d, n);
  }

  // ---------------------------------------------------------------------------
  // Lookups
  // ---------------------------------------------------------------------------

  /** `get_department_for_assistant`: the recorded department of the name's
      key, `"SHARED"` for an unknown name. */
  function GetDepartmentForAssistant(c: Cache, name: string): (r: string)
    ensures NormName(name) !in c.assistantDeptMap ==> r == "SHARED"
    ensures NormName(name) in c.assistantDeptMap ==> r == c.assistantDeptMap[NormName(name)]
  {
    if NormName(name) in c.assistantDeptMap then c.assistantDeptMap[NormName(name)] else "SHARED"
  }

  /** `get_department_for_doctor`: `""` for an unknown name. */
  function GetDepartmentForDoctor(c: Cache, name: string): (r: string)
    ensures NormName(name) !in c.doctorDeptMap ==> r == ""
    ensures NormName(name) in c.doctorDeptMap ==> r == c.doctorDeptMap[NormName(name)]
  {
    if NormName(name) in c.doctorDeptMap then c.doctorDeptMap[NormName(name)] else ""
  }

  /** A name whose key no kept row has is in department `"SHARED"` as an
      assistant and `""` as a doctor; one whose key a kept row has gets that
      row's department through the fallback chain. */
  lemma UnknownNames(assistants: Option<Frame>, doctors: Option<Frame>, rulesFile: Option<Value>, name: string)
    ensures var c := BuildProfilesCache(assistants, doctors, rulesFile);
      !KeyKept(RowsOf(assistants), Kept, RowKey, NormName(name)) ==> GetDepartmentForAssistant(c, name) == "SHARED"
    ensures var c := BuildProfilesCache(assistants, doctors, rulesFile);
      !KeyKept(RowsOf(doctors), Kept, RowKey, NormName(name)) ==> GetDepartmentForDoctor(c, name) == ""
  {
    ExcludedRowsIgnored(assistants, doctors, rulesFile, NormName(name));
  }

  /** The department entry the fallback of `get_assistants_for_department`
      stops at: its key matches and it is a dict with truthy `assistants`. */
  function ConfigEntryFor(dept: string): ((string, Value)) -> bool {
    (e: (string, Value)) => Key(e.0) == dept && e.1.JObject? && Truthy(GetOr(e.1, "assistants", JList([])))
  }

  /** The names a rules-file entry lists, as `str()` texts. */
  function RenderAll(names: seq<Value>): (r: seq<string>)
    ensures |r| == |names| && forall i :: 0 <= i < |names| ==> r[i] == Render(names[i])
  {
    seq(|names|, i requires 0 <= i < |names| => Render(names[i]))
  }

  /** `get_assistants_for_department`: the cached department list when it is
      non-empty; else the names the first matching rules-file entry lists,
      de-duplicated; else every assistant.  A departments value that is not
      a dict, like a names value that cannot be iterated, raises inside the
      `try` and so also ends at every assistant. */
  function GetAssistantsForDepartment(c: Cache, rulesFile: Option<Value>, department: string): (r: seq<string>)
    ensures var d := Key(department);
      d in c.assistantsByDept && c.assistantsByDept[d] != [] ==> r == c.assistantsByDept[d]
    ensures var d := Key(department);
      !(d in c.assistantsByDept && c.assistantsByDept[d] != []) && !GetOr(LoadConfig(rulesFile), "departments", JObject([])).JObject? ==>
      r == c.assistantsList
    ensures var d := Key(department); var es := DeptEntries(LoadConfig(rulesFile));
      !(d in c.assistantsByDept && c.assistantsByDept[d] != []) && Seqs.FirstIndex(es, ConfigEntryFor(d)) == |es| ==>
      r == c.assistantsList
    ensures var d := Key(department); var es := DeptEntries(LoadConfig(rulesFile)); var k := Seqs.FirstIndex(es, ConfigEntryFor(d));
      !(d in c.assistantsByDept && c.assistantsByDept[d] != []) && k < |es|
      && Iterate(GetOr(es[k].1, "assistants", JList([]))).Some? ==>
      r == UniquePreserveOrder(RenderAll(Iterate(GetOr(es[k].1, "assistants", JList([]))).value))
  {
    var d := Key(department);
    var listed := if d in c.assistantsByDept then c.assistantsByDept[d] else [];
    if listed != [] then listed
    else
      var depts := GetOr(LoadConfig(rulesFile), "departments", JObject([]));
      if !depts.JObject? then c.assistantsList
      else
        var es := depts.members;
        var k := Seqs.FirstIndex(es, ConfigEntryFor(d));
        if k == |es| then c.assistantsList
        else match Iterate(GetOr(es[k].1, "assistants", JList([])))
          case None => c.assistantsList
          case Some(names) => UniquePreserveOrder(RenderAll(names))
  }

  /** When a department has kept assistants, the lookup gives exactly the
      names of those assistants, whatever the rules file says. */
  lemma DepartmentWithAssistants(assistants: Option<Frame>, doctors: Option<Frame>, rulesFile: Option<Value>,
                                 department: string, i: nat)
    requires i < |RowsOf(assistants)| && Kept(RowsOf(assistants)[i])
    requires AssistantDeptIn(rulesFile)(RowsOf(assistants)[i]) == Key(department)
    ensures var c := BuildProfilesCache(assistants, doctors, rulesFile);
      forall n :: n in GetAssistantsForDepartment(c, rulesFile, department) <==>
        NameInDept(RowsOf(assistants), Kept, RowName, AssistantDeptIn(rulesFile), Key(department), n)
  {
    var c := BuildProfilesCache(assistants, doctors, rulesFile);
    var rows := RowsOf(assistants);
    var dept := AssistantDeptIn(rulesFile);
    var d := Key(department);
    ByDeptMembers(rows, Kept, RowName, dept, d, RowName(rows[i]));
    assert RowName(rows[i]) in c.assistantsByDept[d];
    forall n ensures n in GetAssistantsForDepartment(c, rulesFile, department) <==> NameInDept(rows, Kept, RowName, dept, d, n) {
      ByDeptMembers(rows, Kept, RowName, dept, d, n);
    }
  }
}

=== FILE: rbac.dfy ===
/**
 * Role-based function access: the catalog of function ids (one per
 * navigation view plus the registered actions), per-role defaults, stored
 * role and user configurations, the effective permission set of a session
 * and the access and navigation checks built on it.
 *
 * Function ids are strings; a set the source returns is modelled as a
 * `set<string>` and, where the source sorts it, through a listing of it
 * passed to `Seqs.SortedOf` (whose result depends only on the members).
 */
module Rbac {
  import opened Wrappers
  import opened Strings
  import Seqs
  import opened Constants
  import Repo = RbacRepo

  // ---------------------------------------------------------------------------
  // Function ids and the catalog
  // ---------------------------------------------------------------------------

  /** `function_id_for_page`: `"page::<category>::<view>"`, both stripped. */
  function FunctionIdForPage(category: string, view: string): (r: string)
    ensures |r| >= 6 && r[..6] == "page::"
    ensures IsTrimmed(r)
  {
    var r := "page::" + Trim(category) + "::" + Trim(view);
    assert r[0] == 'p';
    assert |Trim(view)| > 0 ==> r[|r| - 1] == Trim(view)[|Trim(view)| - 1];
    r
  }

  /** A page id names its view: for categories without a colon, equal ids
      come from equal stripped category and view. */
  lemma {:induction false} PageIdInjective(c1: string, v1: string, c2: string, v2: string)
    requires ':' !in Trim(c1) && ':' !in Trim(c2)
    requires FunctionIdForPage(c1, v1) == FunctionIdForPage(c2, v2)
    ensures Trim(c1) == Trim(c2) && Trim(v1) == Trim(v2)
  {
    var a, b := Trim(c1), Trim(c2);
    var x, y := Trim(v1), Trim(v2);
    var id1 := "page::" + a + "::" + x;
    var id2 := "page::" + b + "::" + y;
    assert id1 == id2;
    ColonAfterCategory(a, x);
    ColonAfterCategory(b, y);
    if |a| != |b| {
      assert false;
    }
    assert a == id1[6..6 + |a|] && b == id2[6..6 + |b|];
    assert x == id1[8 + |a|..] && y == id2[8 + |b|..];
  }

  lemma {:induction false} ColonAfterCategory(a: string, x: string)
    ensures ("page::" + a + "::" + x)[6 + |a|] == ':'
  {
  }

  /** The actions gated by permission, with their labels. */
  const ActionFunctions: seq<(string, string)> := [
    ("action::schedule::add_appointment", "Add Appointment"),
    ("action::schedule::edit_appointment", "Edit Appointment"),
    ("action::schedule::delete_appointment", "Delete Appointment"),
    ("action::schedule::update_status", "Update Appointment Status"),
    ("action::schedule::auto_allocate", "Auto-Allocate Assistants"),
    ("action::schedule::time_blocks", "Manage Time Blocks"),
    ("action::operations::punch", "Punch In/Out"),
    ("action::operations::duties", "Manage Duties"),
    ("action::operations::reminders", "Manage Reminders"),
    ("action::admin::save_controls", "Save/Conflict Controls"),
    ("action::admin::user_management", "Manage Users"),
    ("action::admin::permissions", "Function Access Control")
  ]

  datatype Kind = Page | Action

  /** One catalog entry: `{"id", "label", "kind", "group"}`. */
  datatype CatalogItem = CatalogItem(id: string, caption: string, kind: Kind, group: string)

  function PageItem(category: string, view: string): CatalogItem {
    CatalogItem(FunctionIdForPage(category, view), category + " → " + view, Page, category)
  }

  function ViewItems(category: string, views: seq<string>): (r: seq<CatalogItem>)
    ensures |r| == |views|
  {
    seq(|views|, j requires 0 <= j < |views| => PageItem(category, views[j]))
  }

  /** One page entry per view, category by category, in navigation order. */
  function PageItems(nav: Nav): (r: seq<CatalogItem>)
    decreases |nav|
  {
    if |nav| == 0 then []
    else PageItems(Seqs.Init(nav)) + ViewItems(Seqs.Last(nav).0, Seqs.Last(nav).1)
  }

  /** Every view of the navigation has its page entry. */
  lemma {:induction false} PageItemsComplete(nav: Nav, i: nat, j: nat)
    requires i < |nav| && j < |nav[i].1|
    ensures PageItem(nav[i].0, nav[i].1[j]) in PageItems(nav)
    decreases |nav|
  {
    var init := Seqs.Init(nav);
    var vs := ViewItems(Seqs.Last(nav).0, Seqs.Last(nav).1);
    if i < |init| {
      assert init[i] == nav[i];
      PageItemsComplete(init, i, j);
      assert PageItems(nav) == PageItems(init) + vs;
    } else {
      assert vs[j] == PageItem(nav[i].0, nav[i].1[j]);
      assert PageItems(nav) == PageItems(init) + vs;
    }
  }

  /** Every page entry comes from a view of the navigation. */
  lemma {:induction false} PageItemsSound(nav: Nav, e: CatalogItem)
    requires e in PageItems(nav)
    ensures exists i, j :: 0 <= i < |nav| && 0 <= j < |nav[i].1| && e == PageItem(nav[i].0, nav[i].1[j])
    decreases |nav|
  {
    var init := Seqs.Init(nav);
    var vs := ViewItems(Seqs.Last(nav).0, Seqs.Last(nav).1);
    assert PageItems(nav) == PageItems(init) + vs;
    if e in PageItems(init) {
      PageItemsSound(init, e);
      var i, j :| 0 <= i < |init| && 0 <= j < |init[i].1| && e == PageItem(init[i].0, init[i].1[j]);
      assert init[i] == nav[i];
    } else {
      var j :| 0 <= j < |vs| && vs[j] == e;
      assert e == PageItem(nav[|nav| - 1].0, nav[|nav| - 1].1[j]);
    }
  }

  function ActionItem(a: (string, string)): CatalogItem {
    CatalogItem(a.0, a.1, Action, "Actions")
  }

  function ActionItems(actions: seq<(string, string)>): (r: seq<CatalogItem>)
    ensures |r| == |actions|
  {
    seq(|actions|, k requires 0 <= k < |actions| => ActionItem(actions[k]))
  }

  /** The key the catalog de-duplicates on; no id counts as blank. */
  function ItemKey(e: CatalogItem): Option<string> {
    Some(e.id)
  }

  /** `get_function_catalog` over a navigation and an action registry: page
      entries, then action entries, each id kept at its first occurrence. */
  function CatalogOf(nav: Nav, actions: seq<(string, string)>): (r: seq<CatalogItem>)
    ensures Seqs.IsSubseq(r, PageItems(nav) + ActionItems(actions))
    ensures forall k, l :: 0 <= k < l < |r| ==> r[k].id != r[l].id
  {
    var c := Seqs.FirstPerKey(PageItems(nav) + ActionItems(actions), ItemKey, None);
    assert forall k, l :: 0 <= k < l < |c| ==> ItemKey(c[k]) != ItemKey(c[l]);
    c
  }

  /** The ids of a list of entries, in order. */
  function Ids(items: seq<CatalogItem>): (r: seq<string>)
    ensures |r| == |items|
  {
    seq(|items|, k requires 0 <= k < |items| => items[k].id)
  }

  /** The id set of a catalog. */
  function IdSet(nav: Nav, actions: seq<(string, string)>): set<string> {
    set e | e in CatalogOf(nav, actions) :: e.id
  }

  /** Every view of the navigation has its page id in the catalog. */
  lemma {:induction false} CatalogHasPage(nav: Nav, actions: seq<(string, string)>, i: nat, j: nat)
    requires i < |nav| && j < |nav[i].1|
    ensures FunctionIdForPage(nav[i].0, nav[i].1[j]) in IdSet(nav, actions)
  {
    var raw := PageItems(nav) + ActionItems(actions);
    PageItemsComplete(nav, i, j);
    var p :| 0 <= p < |PageItems(nav)| && PageItems(nav)[p] == PageItem(nav[i].0, nav[i].1[j]);
    assert raw[p] == PageItems(nav)[p];
    CatalogHasKey(raw, CatalogOf(nav, actions), p);
  }

  /** Every registered action has its id in the catalog. */
  lemma {:induction false} CatalogHasAction(nav: Nav, actions: seq<(string, string)>, k: nat)
    requires k < |actions|
    ensures actions[k].0 in IdSet(nav, actions)
  {
    var raw := PageItems(nav) + ActionItems(actions);
    var p := |PageItems(nav)| + k;
    assert raw[p] == ActionItem(actions[k]);
    CatalogHasKey(raw, CatalogOf(nav, actions), p);
  }

  /** The catalog holds no other id than those of views and actions. */
  lemma {:induction false} CatalogSound(nav: Nav, actions: seq<(string, string)>, x: string)
    requires x in IdSet(nav, actions)
    ensures (exists i, j :: 0 <= i < |nav| && 0 <= j < |nav[i].1| && x == FunctionIdForPage(nav[i].0, nav[i].1[j]))
      || (exists k :: 0 <= k < |actions| && x == actions[k].0)
  {
    var raw := PageItems(nav) + ActionItems(actions);
    var c := CatalogOf(nav, actions);
    var e :| e in c && e.id == x;
    Seqs.SubseqMembers(c, raw);
    if e in PageItems(nav) {
      PageItemsSound(nav, e);
    } else {
      var k :| 0 <= k < |ActionItems(actions)| && ActionItems(actions)[k] == e;
      assert x == actions[k].0;
    }
  }

  /** The de-duplicated catalog still carries the id of every raw entry. */
  lemma {:induction false} CatalogHasKey(raw: seq<CatalogItem>, c: seq<CatalogItem>, p: nat)
    requires c == Seqs.FirstPerKey(raw, ItemKey, None)
    requires p < |raw|
    ensures exists e :: e in c && e.id == raw[p].id
  {
    assert ItemKey(raw[p]) != None;
    assert Seqs.KeyIn(c, ItemKey, ItemKey(raw[p]));
    var q :| 0 <= q < |c| && ItemKey(c[q]) == ItemKey(raw[p]);
    assert c[q] in c && c[q].id == raw[p].id;
  }

  /** The application's catalog. */
  function Catalog(): seq<CatalogItem> {
    CatalogOf(NavStructure, ActionFunctions)
  }

  /** `get_all_function_ids`. */
  function AllFunctionIds(): set<string> {
    IdSet(NavStructure, ActionFunctions)
  }

  /** The ids of the catalog in catalog order: a listing of `AllFunctionIds`. */
  function AllIdList(): (r: seq<string>)
    ensures forall x :: x in r <==> x in AllFunctionIds()
  {
    IdsListIdSet(NavStructure, ActionFunctions);
    Ids(Catalog())
  }

  /** Listing a catalog's ids in order covers exactly its id set. */
  lemma IdsListIdSet(nav: Nav, actions: seq<(string, string)>)
    ensures forall x :: x in Ids(CatalogOf(nav, actions)) <==> x in IdSet(nav, actions)
  {
    var c := CatalogOf(nav, actions);
    var r := Ids(c);
    forall x | x in r ensures x in IdSet(nav, actions) {
      var k :| 0 <= k < |r| && r[k] == x;
      assert c[k] in c;
    }
    forall x | x in IdSet(nav, actions) ensures x in r {
      var e :| e in c && e.id == x;
      var k :| 0 <= k < |c| && c[k] == e;
      assert r[k] == x;
    }
  }

  // ---------------------------------------------------------------------------
  // Normalising permission lists
  // ---------------------------------------------------------------------------

  /** Each entry stripped. */
  function Trims(values: seq<string>): (r: seq<string>)
    ensures |r| == |values|
  {
    seq(|values|, i requires 0 <= i < |values| => Trim(values[i]))
  }

  /** The test an entry must pass to be kept: non-empty and a known id. */
  function KnownTest(known: set<string>): string -> bool {
    x => |x| > 0 && x in known
  }

  /** `_normalize_allowed` against a set of known ids: stripped entries that
      are known, each once, in first-occurrence order. */
  function Normalize(values: seq<string>, known: set<string>): (r: seq<string>)
    ensures Seqs.NoDup(r)
    ensures forall x :: x in r ==> x in known && |x| > 0 && IsTrimmed(x)
    ensures forall x :: x in r <==> |x| > 0 && x in known && x in Trims(values)
  {
    var t := Trims(values);
    var f := Seqs.Filter(t, KnownTest(known));
    var d := Seqs.Dedup(f);
    assert forall x :: x in t ==> IsTrimmed(x);
    d
  }

  /** The first-occurrence order: normalising a concatenation adds to the
      first part's result only what it does not already hold. */
  lemma {:induction false} NormalizeAppend(a: seq<string>, b: seq<string>, known: set<string>)
    ensures Normalize(a + b, known) ==
      Normalize(a, known) + Seqs.Dedup(Seqs.Filter(Seqs.Filter(Trims(b), KnownTest(known)),
                                                    Seqs.NotIn(Seqs.Filter(Trims(a), KnownTest(known)))))
  {
    var p := KnownTest(known);
    assert Trims(a + b) == Trims(a) + Trims(b);
    Seqs.FilterAppend(Trims(a), Trims(b), p);
    Seqs.DedupAppend(Seqs.Filter(Trims(a), p), Seqs.Filter(Trims(b), p));
  }

  /** Normalising a normalised list changes nothing. */
  lemma {:induction false} NormalizeIdempotent(values: seq<string>, known: set<string>)
    ensures Normalize(Normalize(values, known), known) == Normalize(values, known)
  {
    var d := Normalize(values, known);
    forall i | 0 <= i < |d| ensures Trim(d[i]) == d[i] {
      TrimOfTrimmed(d[i]);
    }
    assert Trims(d) == d;
    Seqs.FilterAll(d, KnownTest(known));
    Seqs.DedupOfNoDup(d);
  }

  /** `_normalize_allowed` against the application's catalog. */
  function NormalizeAllowed(values: seq<string>): (r: seq<string>)
    ensures Seqs.NoDup(r)
    ensures forall x :: x in r ==> x in AllFunctionIds() && |x| > 0 && IsTrimmed(x)
    ensures forall x :: x in r <==> |x| > 0 && x in AllFunctionIds() && x in Trims(values)
  {
    Normalize(values, AllFunctionIds())
  }

  // ---------------------------------------------------------------------------
  // Role defaults
  // ---------------------------------------------------------------------------

  /** The page ids of a navigation, as a listing. */
  function PageIdList(nav: Nav): seq<string> {
    Ids(PageItems(nav))
  }

  /** The page ids of a navigation: `_page_ids_from_role_nav`. */
  function PageIds(nav: Nav): set<string> {
    set i, j | 0 <= i < |nav| && 0 <= j < |nav[i].1| :: FunctionIdForPage(nav[i].0, nav[i].1[j])
  }

  /** The listing holds exactly the page ids. */
  lemma {:induction false} PageIdListMembers(nav: Nav, x: string)
    ensures x in PageIdList(nav) <==> x in PageIds(nav)
  {
    var items := PageItems(nav);
    if x in PageIdList(nav) {
      var k :| 0 <= k < |items| && Ids(items)[k] == x;
      assert items[k] in items;
      PageItemsSound(nav, items[k]);
    }
    if x in PageIds(nav) {
      var i, j :| 0 <= i < |nav| && 0 <= j < |nav[i].1| && x == FunctionIdForPage(nav[i].0, nav[i].1[j]);
      PageItemsComplete(nav, i, j);
      var k :| 0 <= k < |items| && items[k] == PageItem(nav[i].0, nav[i].1[j]);
      assert Ids(items)[k] == x;
    }
  }

  lemma PageIdListSet(nav: Nav)
    ensures SetOf(PageIdList(nav)) == PageIds(nav)
  {
    forall x ensures x in PageIdList(nav) <==> x in PageIds(nav) {
      PageIdListMembers(nav, x);
    }
  }

  /** The actions granted to assistants on top of their pages. */
  const AssistantActions: seq<string> := [
    "action::operations::punch",
    "action::operations::duties",
    "action::operations::reminders",
    "action::schedule::update_status"
  ]

  /** The actions granted to the front desk on top of its pages. */
  const FrontdeskActions: seq<string> := [
    "action::operations::punch",
    "action::operations::duties",
    "action::operations::reminders",
    "action::schedule::add_appointment",
    "action::schedule::edit_appointment",
    "action::schedule::delete_appointment",
    "action::schedule::update_status"
  ]

  /** `str(role or "").strip().lower()`. */
  function RoleNorm(role: string): string {
    LowKey(role)
  }

  function SetOf(xs: seq<string>): (r: set<string>)
    ensures forall x :: x in r <==> x in xs
  {
    set x | x in xs
  }

  /** A listing of the defaults of an already normalised role. */
  function DefaultList(roleNorm: string): seq<string> {
    if roleNorm == "admin" then AllIdList()
    else
      var nav := if roleNorm in RoleNav then RoleNav[roleNorm] else [];
      PageIdList(nav)
        + (if roleNorm == "assistant" then AssistantActions
           else if roleNorm == "frontdesk" then FrontdeskActions
           else [])
  }

  /** `get_default_role_permissions` once the role is normalised: the whole
      catalog for admin, otherwise the pages of the role's navigation plus the
      role's extra actions; a role without a navigation has none. */
  function DefaultsFor(rn: string): (r: set<string>)
    ensures rn == "admin" ==> r == AllFunctionIds()
    ensures rn !in RoleNav ==> r == {}
    ensures rn == "assistant" ==> r == PageIds(RoleNav["assistant"]) + SetOf(AssistantActions)
    ensures rn == "frontdesk" ==> r == PageIds(RoleNav["frontdesk"]) + SetOf(FrontdeskActions)
  {
    DefaultListCases(rn);
    SetOf(DefaultList(rn))
  }

  lemma {:induction false} SetOfAppend(a: seq<string>, b: seq<string>)
    ensures SetOf(a + b) == SetOf(a) + SetOf(b)
  {
  }

  /** The listing of the defaults, case by case. */
  lemma {:induction false} DefaultListCases(rn: string)
    ensures rn == "admin" ==> SetOf(DefaultList(rn)) == AllFunctionIds()
    ensures rn !in RoleNav ==> |DefaultList(rn)| == 0
    ensures rn == "assistant" ==> SetOf(DefaultList(rn)) == PageIds(RoleNav["assistant"]) + SetOf(AssistantActions)
    ensures rn == "frontdesk" ==> SetOf(DefaultList(rn)) == PageIds(RoleNav["frontdesk"]) + SetOf(FrontdeskActions)
  {
    if rn == "admin" {
      assert SetOf(AllIdList()) == AllFunctionIds();
    } else if rn == "assistant" || rn == "frontdesk" {
      var nav := RoleNav[rn];
      var extra := if rn == "assistant" then AssistantActions else FrontdeskActions;
      assert DefaultList(rn) == PageIdList(nav) + extra;
      PageIdListSet(nav);
      SetOfAppend(PageIdList(nav), extra);
    } else if rn !in RoleNav {
      assert PageIdList([]) == [];
    }
  }

  /** `get_default_role_permissions`: the role is stripped and lower-cased
      first. */
  function DefaultRolePermissions(role: string): set<string> {
    DefaultsFor(RoleNorm(role))
  }

  /** Every view a built-in role is shown is a view of the full navigation. */
  lemma {:induction false} RoleNavWithin(rn: string, i: nat, j: nat)
    requires rn in RoleNav && i < |RoleNav[rn]| && j < |RoleNav[rn][i].1|
    ensures exists i', j' ::
      (0 <= i' < |NavStructure| && 0 <= j' < |NavStructure[i'].1|
       && RoleNav[rn][i].0 == NavStructure[i'].0 && RoleNav[rn][i].1[j] == NavStructure[i'].1[j'])
  {
    var nav := RoleNav[rn];
    if rn == "admin" {
      assert nav[i].0 == NavStructure[i].0 && nav[i].1[j] == NavStructure[i].1[j];
    } else if i == 0 {
      var j' := if rn == "assistant" && j > 0 then j + 1 else j;
      assert nav[i].0 == NavStructure[0].0 && nav[i].1[j] == NavStructure[0].1[j'];
    } else {
      assert nav[i].0 == NavStructure[1].0 && nav[i].1[j] == NavStructure[1].1[4];
    }
  }

  /** Every extra action of a role is a registered action. */
  lemma {:induction false} RoleActionsRegistered(x: string)
    requires x in AssistantActions || x in FrontdeskActions
    ensures exists k :: 0 <= k < |ActionFunctions| && ActionFunctions[k].0 == x
  {
    var k := if x == "action::operations::punch" then 6
      else if x == "action::operations::duties" then 7
      else if x == "action::operations::reminders" then 8
      else if x == "action::schedule::update_status" then 3
      else if x == "action::schedule::add_appointment" then 0
      else if x == "action::schedule::edit_appointment" then 1
      else 2;
    assert ActionFunctions[k].0 == x;
  }

  /** The defaults of every role lie within the catalog. */
  lemma {:induction false} DefaultsWithinCatalog(rn: string)
    ensures DefaultsFor(rn) <= AllFunctionIds()
  {
    if rn != "admin" && rn in RoleNav {
      var nav := RoleNav[rn];
      forall x | x in DefaultsFor(rn) ensures x in AllFunctionIds() {
        if x in PageIds(nav) {
          var i, j :| 0 <= i < |nav| && 0 <= j < |nav[i].1| && x == FunctionIdForPage(nav[i].0, nav[i].1[j]);
          RoleNavWithin(rn, i, j);
          var i', j' :| (0 <= i' < |NavStructure| && 0 <= j' < |NavStructure[i'].1|
            && nav[i].0 == NavStructure[i'].0 && nav[i].1[j] == NavStructure[i'].1[j']);
          CatalogHasPage(NavStructure, ActionFunctions, i', j');
        } else {
          RoleActionsRegistered(x);
          var k :| 0 <= k < |ActionFunctions| && ActionFunctions[k].0 == x;
          CatalogHasAction(NavStructure, ActionFunctions, k);
        }
      }
    }
  }

  /** Every registered action id starts and ends with a letter. */
  lemma {:induction false} ActionIdClean(k: nat)
    requires k < |ActionFunctions|
    ensures |ActionFunctions[k].0| > 0 && IsTrimmed(ActionFunctions[k].0)
  {
    var id := ActionFunctions[k].0;
    assert id[0] == 'a';
    assert 'a' <= id[|id| - 1] <= 'z';
  }

  /** Every catalog id is non-empty and stripped. */
  lemma {:induction false} CatalogIdsClean(x: string)
    requires x in AllFunctionIds()
    ensures |x| > 0 && IsTrimmed(x)
  {
    CatalogSound(NavStructure, ActionFunctions, x);
    if !exists i, j :: 0 <= i < |NavStructure| && 0 <= j < |NavStructure[i].1| && x == FunctionIdForPage(NavStructure[i].0, NavStructure[i].1[j]) {
      var k :| 0 <= k < |ActionFunctions| && x == ActionFunctions[k].0;
      ActionIdClean(k);
    }
  }

  // ---------------------------------------------------------------------------
  // Stored configurations
  // ---------------------------------------------------------------------------

  /** `get_role_permissions_config` once the role is normalised: admin always
      has the whole catalog, a role without a usable stored row its defaults,
      otherwise the stored list normalised; sorted in every case.  (The source
      normalises the role once more before taking the defaults, which leaves a
      normalised role unchanged: `Strings.LowKeyOfLowKey`.) */
  function ConfigFor(st: Repo.Store, rn: string): (r: seq<string>)
    ensures Seqs.StrictlySorted(r)
    ensures rn == "admin" ==> forall x :: x in r <==> x in AllFunctionIds()
    ensures rn != "admin" && Repo.GetRolePermissions(st, rn).None? ==>
      forall x :: x in r <==> x in DefaultsFor(rn)
    ensures forall x :: x in r ==> x in AllFunctionIds()
  {
    DefaultsWithinCatalog(rn);
    if rn == "admin" then Seqs.SortedOf(AllIdList())
    else match Repo.GetRolePermissions(st, rn)
      case None => Seqs.SortedOf(DefaultList(rn))
      case Some(stored) => Seqs.SortedOf(NormalizeAllowed(stored))
  }

  /** `get_role_permissions_config`. */
  function RolePermissionsConfig(st: Repo.Store, role: string): seq<string> {
    ConfigFor(st, RoleNorm(role))
  }

  /** `save_role_permissions_config` once the role is normalised: a blank role
      is refused; otherwise the normalised list is stored under it. */
  function SaveConfigFor(st: Repo.Store, rn: string, allowed: seq<string>): (r: (Repo.Store, bool))
    ensures r.1 <==> |rn| > 0 && st.hasClient && st.reachable
    ensures !r.1 ==> r.0 == st
    ensures r.0.users == st.users
  {
    if |rn| == 0 then (st, false)
    else Repo.SetRolePermissions(st, rn, NormalizeAllowed(allowed))
  }

  /** `save_role_permissions_config`. */
  function SaveRolePermissionsConfig(st: Repo.Store, role: string, allowed: seq<string>): (Repo.Store, bool) {
    SaveConfigFor(st, RoleNorm(role), allowed)
  }

  /** A normalised list is stored unchanged by the repository's coercion. */
  lemma {:induction false} NormalizedIsClean(values: seq<string>)
    ensures Repo.Clean(NormalizeAllowed(values)) == NormalizeAllowed(values)
  {
    var n := NormalizeAllowed(values);
    assert forall i :: 0 <= i < |n| ==> n[i] in n;
    Repo.CleanOfClean(n);
  }

  /** After a successful save the row reads back as the normalised list. */
  lemma {:induction false} SavedRoleReads(st: Repo.Store, rn: string, allowed: seq<string>)
    requires SaveConfigFor(st, rn, allowed).1
    ensures Repo.GetRolePermissions(SaveConfigFor(st, rn, allowed).0, rn) == Some(NormalizeAllowed(allowed))
  {
    var n := NormalizeAllowed(allowed);
    Repo.RoleReadAfterWrite(st, rn, n);
    NormalizedIsClean(allowed);
  }

  /** A non-admin role with a stored list is configured by that list. */
  lemma {:induction false} StoredConfig(st: Repo.Store, rn: string, stored: seq<string>)
    requires rn != "admin"
    requires Repo.GetRolePermissions(st, rn) == Some(stored)
    ensures ConfigFor(st, rn) == Seqs.SortedOf(NormalizeAllowed(stored))
  {
    var g := Repo.GetRolePermissions(st, rn);
    assert g.value == stored;
    assert ConfigFor(st, rn) == match g
      case None => Seqs.SortedOf(DefaultList(rn))
      case Some(s) => Seqs.SortedOf(NormalizeAllowed(s));
  }

  /** Saving a non-admin role's list and reading the configuration back gives
      that list normalised and sorted. */
  lemma {:induction false} RoleConfigRoundTrip(st: Repo.Store, rn: string, allowed: seq<string>)
    requires rn != "admin"
    requires SaveConfigFor(st, rn, allowed).1
    ensures ConfigFor(SaveConfigFor(st, rn, allowed).0, rn) == Seqs.SortedOf(NormalizeAllowed(allowed))
  {
    var n := NormalizeAllowed(allowed);
    SavedRoleReads(st, rn, allowed);
    StoredConfig(SaveConfigFor(st, rn, allowed).0, rn, n);
    NormalizeIdempotent(allowed, AllFunctionIds());
  }

  /** The admin configuration ignores whatever is stored. */
  lemma {:induction false} AdminConfigFixed(st: Repo.Store, st': Repo.Store)
    ensures ConfigFor(st, "admin") == ConfigFor(st', "admin")
  {
    Seqs.SortedUnique(ConfigFor(st, "admin"), ConfigFor(st', "admin"));
  }

  /** The role's spelling does not matter: surrounding space and letter case
      are normalised away. */
  lemma {:induction false} RoleSpellingIrrelevant(st: Repo.Store, role: string)
    ensures RolePermissionsConfig(st, role) == RolePermissionsConfig(st, RoleNorm(role))
    ensures DefaultRolePermissions(role) == DefaultRolePermissions(RoleNorm(role))
  {
    LowKeyOfLowKey(role);
  }

  /** `get_user_override_config`: the stored flag and the stored list,
      normalised and sorted. */
  function UserOverrideConfig(st: Repo.Store, userId: string): (r: (bool, seq<string>))
    ensures Seqs.StrictlySorted(r.1)
    ensures forall x :: x in r.1 ==> x in AllFunctionIds()
    ensures r.0 <==> Repo.GetUserOverride(st, userId).enabled
    ensures forall x :: x in r.1 <==> x in AllFunctionIds() && x in Repo.GetUserOverride(st, userId).allowed
  {
    var o := Repo.GetUserOverride(st, userId);
    forall x | x in AllFunctionIds() ensures |x| > 0 {
      CatalogIdsClean(x);
    }
    CleanListNormalized(o.allowed, AllFunctionIds());
    (o.enabled, Seqs.SortedOf(NormalizeAllowed(o.allowed)))
  }

  /** A stored list is already stripped, so normalising it keeps exactly the
      known ids it holds. */
  lemma CleanListNormalized(allowed: seq<string>, known: set<string>)
    requires Repo.AllClean(allowed)
    requires forall x :: x in known ==> |x| > 0
    ensures forall x :: x in Seqs.SortedOf(Normalize(allowed, known)) <==> x in known && x in allowed
  {
    forall x | x in known && x in allowed ensures x in Trims(allowed) {
      var k :| 0 <= k < |allowed| && allowed[k] == x;
      TrimOfTrimmed(x);
      assert Trims(allowed)[k] == x;
    }
    forall x | x in Trims(allowed) ensures x in allowed {
      var k :| 0 <= k < |allowed| && Trims(allowed)[k] == x;
      TrimOfTrimmed(allowed[k]);
    }
  }

  /** `save_user_override_config`: stores the flag and the normalised list. */
  function SaveUserOverrideConfig(st: Repo.Store, userId: string, enabled: bool, allowed: seq<string>): (r: (Repo.Store, bool))
    ensures r.1 <==> st.hasClient && st.reachable
    ensures !r.1 ==> r.0 == st
    ensures r.0.roles == st.roles
  {
    Repo.SetUserOverride(st, userId, enabled, NormalizeAllowed(allowed))
  }

  /** Saving an override and reading it back gives the flag and the list
      normalised and sorted. */
  lemma {:induction false} UserConfigRoundTrip(st: Repo.Store, userId: string, enabled: bool, allowed: seq<string>)
    requires SaveUserOverrideConfig(st, userId, enabled, allowed).1
    ensures UserOverrideConfig(SaveUserOverrideConfig(st, userId, enabled, allowed).0, userId)
      == (enabled, Seqs.SortedOf(NormalizeAllowed(allowed)))
  {
    var n := NormalizeAllowed(allowed);
    Repo.UserReadAfterWrite(st, userId, enabled, n);
    NormalizedIsClean(allowed);
    NormalizeIdempotent(allowed, AllFunctionIds());
  }
  // ---------------------------------------------------------------------------
  // Effective permissions and the session
  // ---------------------------------------------------------------------------

  /** A listing of the effective permissions of a normalised role and a user
      id (`""` standing for no user). */
  function EffectiveList(st: Repo.Store, rn: string, userId: string): seq<string> {
    if rn == "admin" then AllIdList()
    else if |userId| == 0 then ConfigFor(st, rn)
    else
      var (enabled, userAllowed) := UserOverrideConfig(st, userId);
      if enabled then userAllowed else ConfigFor(st, rn)
  }

  /** `resolve_effective_permissions` once the role is normalised: admin has
      the whole catalog; an enabled override of a given user replaces the
      role's configuration; otherwise the role's configuration applies. */
  function ResolveFor(st: Repo.Store, rn: string, userId: string): (r: set<string>)
    ensures r <= AllFunctionIds()
    ensures rn == "admin" ==> r == AllFunctionIds()
    ensures rn != "admin" && (|userId| == 0 || !Repo.GetUserOverride(st, userId).enabled) ==>
      r == SetOf(ConfigFor(st, rn))
    ensures rn != "admin" && |userId| > 0 && Repo.GetUserOverride(st, userId).enabled ==>
      forall x :: x in r <==> x in AllFunctionIds() && x in Repo.GetUserOverride(st, userId).allowed
  {
    var l := EffectiveList(st, rn, userId);
    if rn == "admin" then
      assert l == AllIdList();
      SetOf(l)
    else if |userId| == 0 || !Repo.GetUserOverride(st, userId).enabled then
      assert l == ConfigFor(st, rn);
      SetOf(l)
    else
      assert l == UserOverrideConfig(st, userId).1;
      SetOf(l)
  }

  /** `resolve_effective_permissions`. */
  function ResolveEffectivePermissions(st: Repo.Store, role: string, userId: string): set<string> {
    ResolveFor(st, RoleNorm(role), userId)
  }

  /** An enabled override decides alone: the role it is combined with is
      irrelevant unless that role is admin. */
  lemma {:induction false} OverrideIgnoresRole(st: Repo.Store, rn1: string, rn2: string, userId: string)
    requires rn1 != "admin" && rn2 != "admin"
    requires |userId| > 0 && Repo.GetUserOverride(st, userId).enabled
    ensures ResolveFor(st, rn1, userId) == ResolveFor(st, rn2, userId)
  {
  }

  /** A disabled or absent override leaves the role's permissions in force. */
  lemma {:induction false} DisabledOverrideFallsBack(st: Repo.Store, rn: string, userId: string)
    requires !Repo.GetUserOverride(st, userId).enabled
    ensures ResolveFor(st, rn, userId) == ResolveFor(st, rn, "")
  {
  }

  /** The session state the permission code reads and writes. */
  datatype Session = Session(userRole: string, allowedFunctions: seq<string>, loadedFor: string)

  /** The marker recording for whom the permissions were loaded. */
  function LoadMarker(role: string, userId: string): string {
    RoleNorm(role) + ":" + Trim(userId)
  }

  /** The marker names the role and the user: for roles without a colon,
      equal markers come from equal normalised roles and stripped ids. */
  lemma {:induction false} LoadMarkerInjective(r1: string, u1: string, r2: string, u2: string)
    requires ':' !in RoleNorm(r1) && ':' !in RoleNorm(r2)
    requires LoadMarker(r1, u1) == LoadMarker(r2, u2)
    ensures RoleNorm(r1) == RoleNorm(r2) && Trim(u1) == Trim(u2)
  {
    var a, b := RoleNorm(r1), RoleNorm(r2);
    var m1, m2 := a + ":" + Trim(u1), b + ":" + Trim(u2);
    assert m1 == m2;
    if |a| < |b| {
      NoColonBefore(b, Trim(u2), |a|);
      assert false;
    } else if |b| < |a| {
      NoColonBefore(a, Trim(u1), |b|);
      assert false;
    }
    assert a == m1[..|a|] && b == m2[..|b|];
    assert Trim(u1) == m1[|a| + 1..] && Trim(u2) == m2[|b| + 1..];
  }

  lemma {:induction false} NoColonBefore(a: string, x: string, i: nat)
    requires ':' !in a && i < |a|
    ensures (a + ":" + x)[i] != ':'
  {
    assert (a + ":" + x)[i] == a[i];
  }

  /** `load_permissions_for_session`: resolves the permissions, stores them
      sorted in the session with the marker, and returns them. */
  function LoadPermissionsForSession(st: Repo.Store, sess: Session, role: string, userId: string): (r: (Session, set<string>))
    ensures r.1 <= AllFunctionIds()
    ensures Seqs.StrictlySorted(r.0.allowedFunctions)
    ensures forall x :: x in r.0.allowedFunctions <==> x in r.1
    ensures r.0.userRole == sess.userRole && r.0.loadedFor == LoadMarker(role, userId)
  {
    var perms := ResolveEffectivePermissions(st, role, userId);
    (sess.(allowedFunctions := Seqs.SortedOf(EffectiveList(st, RoleNorm(role), userId)),
           loadedFor := LoadMarker(role, userId)),
     perms)
  }

  // ---------------------------------------------------------------------------
  // Access checks and navigation
  // ---------------------------------------------------------------------------

  /** The session's user is an admin. */
  predicate SessionIsAdmin(sess: Session) {
    LowKey(sess.userRole) == "admin"
  }

  /** The list an access check consults: the one given, else the session's. */
  function AccessList(sess: Session, allowed: Option<seq<string>>): seq<string> {
    allowed.GetOr(sess.allowedFunctions)
  }

  /** `has_access`: admin sessions and blank ids always pass; otherwise the
      stripped id must equal a stripped entry of the list consulted. */
  function HasAccess(sess: Session, functionId: string, allowed: Option<seq<string>>): (r: bool)
    ensures r <==> (SessionIsAdmin(sess) || |Trim(functionId)| == 0
      || exists i :: 0 <= i < |AccessList(sess, allowed)| && Trim(AccessList(sess, allowed)[i]) == Trim(functionId))
  {
    var fid := Trim(functionId);
    Repo.CleanMembers(AccessList(sess, allowed), fid);
    SessionIsAdmin(sess) || |fid| == 0 || fid in Repo.Clean(AccessList(sess, allowed))
  }

  /** Against a list of stripped ids, access is plain membership. */
  lemma {:induction false} AccessOfCleanList(sess: Session, functionId: string, allowed: Option<seq<string>>)
    requires Repo.AllClean(AccessList(sess, allowed))
    ensures HasAccess(sess, functionId, allowed) <==>
      SessionIsAdmin(sess) || |Trim(functionId)| == 0 || Trim(functionId) in AccessList(sess, allowed)
  {
    Repo.CleanOfClean(AccessList(sess, allowed));
  }

  /** After loading, the session grants exactly the resolved permissions (to
      a non-admin session user, for a non-blank id). */
  lemma {:induction false} SessionAccess(st: Repo.Store, sess: Session, role: string, userId: string, functionId: string)
    ensures HasAccess(LoadPermissionsForSession(st, sess, role, userId).0, functionId, None) <==>
      SessionIsAdmin(sess) || |Trim(functionId)| == 0
      || Trim(functionId) in LoadPermissionsForSession(st, sess, role, userId).1
  {
    var loaded := LoadPermissionsForSession(st, sess, role, userId);
    var s, perms := loaded.0, loaded.1;
    var l := s.allowedFunctions;
    assert AccessList(s, None) == l;
    forall i | 0 <= i < |l| ensures |l[i]| > 0 && IsTrimmed(l[i]) {
      assert l[i] in perms;
      CatalogIdsClean(l[i]);
    }
    AccessOfCleanList(s, functionId, None);
    assert SessionIsAdmin(s) == SessionIsAdmin(sess);
  }

  /** The views of one category that a test lets through. */
  function ViewTest(ok: (string, string) -> bool, category: string): string -> bool {
    v => ok(category, v)
  }

  /** The categories of a navigation in order, each with the views `ok`
      accepts; categories left without a view are dropped. */
  function FilterNav(nav: Nav, ok: (string, string) -> bool): (r: Nav)
    ensures forall k :: 0 <= k < |r| ==> |r[k].1| > 0
    decreases |nav|
  {
    if |nav| == 0 then []
    else
      var c := Seqs.Last(nav).0;
      var kept := Seqs.Filter(Seqs.Last(nav).1, ViewTest(ok, c));
      FilterNav(Seqs.Init(nav), ok) + (if |kept| > 0 then [(c, kept)] else [])
  }

  /** The navigation lists view `v` under category `c`. */
  predicate Shows(nav: Nav, c: string, v: string) {
    exists k :: 0 <= k < |nav| && nav[k].0 == c && v in nav[k].1
  }

  lemma {:induction false} ShowsAppend(a: Nav, b: Nav, c: string, v: string)
    ensures Shows(a + b, c, v) <==> Shows(a, c, v) || Shows(b, c, v)
  {
    if Shows(a + b, c, v) {
      var k :| 0 <= k < |a + b| && (a + b)[k].0 == c && v in (a + b)[k].1;
      if k >= |a| {
        assert b[k - |a|] == (a + b)[k];
      }
    }
    if Shows(a, c, v) {
      var k :| 0 <= k < |a| && a[k].0 == c && v in a[k].1;
      assert (a + b)[k] == a[k];
    }
    if Shows(b, c, v) {
      var k :| 0 <= k < |b| && b[k].0 == c && v in b[k].1;
      assert (a + b)[|a| + k] == b[k];
    }
  }

  lemma ShowsSnoc(nav: Nav, c: string, v: string)
    requires |nav| > 0
    ensures Shows(nav, c, v) <==> Shows(Seqs.Init(nav), c, v) || (Seqs.Last(nav).0 == c && v in Seqs.Last(nav).1)
  {
    var init := Seqs.Init(nav);
    if Shows(nav, c, v) {
      var k :| 0 <= k < |nav| && nav[k].0 == c && v in nav[k].1;
      if k < |init| {
        assert init[k] == nav[k];
      }
    }
    if Shows(init, c, v) {
      var k :| 0 <= k < |init| && init[k].0 == c && v in init[k].1;
      assert nav[k] == init[k];
    }
  }

  /** A view is listed under a category exactly when the navigation has it
      there and the test accepts it. */
  lemma {:induction false} FilterNavMembers(nav: Nav, ok: (string, string) -> bool, c: string, v: string)
    ensures Shows(FilterNav(nav, ok), c, v) <==> Shows(nav, c, v) && ok(c, v)
    decreases |nav|
  {
    if |nav| > 0 {
      var init, last := Seqs.Init(nav), Seqs.Last(nav);
      var kept := Seqs.Filter(last.1, ViewTest(ok, last.0));
      var tail: Nav := if |kept| > 0 then [(last.0, kept)] else [];
      assert FilterNav(nav, ok) == FilterNav(init, ok) + tail;
      FilterNavMembers(init, ok, c, v);
      ShowsSnoc(nav, c, v);
      ShowsAppend(FilterNav(init, ok), tail, c, v);
      assert Shows(tail, c, v) <==> last.0 == c && v in kept by {
        if Shows(tail, c, v) {
          assert tail[0] == (last.0, kept);
        }
        if last.0 == c && v in kept {
          assert tail[0] == (last.0, kept);
        }
      }
      assert v in kept <==> v in last.1 && ok(last.0, v);
    } else {
      assert !Shows(nav, c, v);
    }
  }

  /** Every category listed comes from the navigation, with its views
      filtered. */
  lemma {:induction false} FilterNavEntries(nav: Nav, ok: (string, string) -> bool, k: nat)
    requires k < |FilterNav(nav, ok)|
    ensures exists i :: 0 <= i < |nav| && FilterNav(nav, ok)[k] == (nav[i].0, Seqs.Filter(nav[i].1, ViewTest(ok, nav[i].0)))
    decreases |nav|
  {
    var init := Seqs.Init(nav);
    var c' := Seqs.Last(nav).0;
    var kept := Seqs.Filter(Seqs.Last(nav).1, ViewTest(ok, c'));
    var rest := FilterNav(init, ok);
    var tail: Nav := if |kept| > 0 then [(c', kept)] else [];
    assert FilterNav(nav, ok) == rest + tail;
    if k < |rest| {
      FilterNavEntries(init, ok, k);
      var i :| 0 <= i < |init| && rest[k] == (init[i].0, Seqs.Filter(init[i].1, ViewTest(ok, init[i].0)));
      assert init[i] == nav[i];
    } else {
      assert FilterNav(nav, ok)[k] == (nav[|nav| - 1].0, Seqs.Filter(nav[|nav| - 1].1, ViewTest(ok, nav[|nav| - 1].0)));
    }
  }

  /** The page test of a session: `has_access` on the page's id. */
  function PageAccess(sess: Session, allowed: Option<seq<string>>): (string, string) -> bool {
    (c, v) => HasAccess(sess, FunctionIdForPage(c, v), allowed)
  }

  /** `get_allowed_navigation` once the role is normalised: admin sees the
      whole navigation; anyone else sees the views they have access to. */
  function NavigationFor(sess: Session, rn: string, allowed: Option<seq<string>>): (r: Nav)
    ensures rn == "admin" ==> r == NavStructure
    ensures rn != "admin" ==> forall k :: 0 <= k < |r| ==> |r[k].1| > 0
  {
    if rn == "admin" then NavStructure else FilterNav(NavStructure, PageAccess(sess, allowed))
  }

  /** `get_allowed_navigation`. */
  function AllowedNavigation(sess: Session, role: string, allowed: Option<seq<string>>): Nav {
    NavigationFor(sess, RoleNorm(role), allowed)
  }

  /** For a non-admin role, a view is shown exactly when it is a view of the
      navigation and the session has access to its page. */
  lemma {:induction false} NavigationShowsAccessible(sess: Session, rn: string, allowed: Option<seq<string>>, c: string, v: string)
    requires rn != "admin"
    ensures Shows(NavigationFor(sess, rn, allowed), c, v) <==>
      Shows(NavStructure, c, v) && HasAccess(sess, FunctionIdForPage(c, v), allowed)
  {
    FilterNavMembers(NavStructure, PageAccess(sess, allowed), c, v);
  }
}

=== FILE: rbac_repo.dfy ===
/**
 * The persistence of function permissions: one table of role rows keyed by
 * role and one of user rows keyed by user id.  The database client is an
 * abstract store: whether a client is configured, whether its calls
 * succeed, and the two tables as maps.  Every list read back or written is
 * coerced to its stripped, non-blank entries.
 */
module RbacRepo {
  import opened Wrappers
  import opened Strings
  import Seqs

  /** The stored `allowed_functions` value: a JSON list (its entries by their
      text rendering) or anything else, a missing field included. */
  datatype Raw = List(items: seq<string>) | NotAList

  /** A row of `rbac_role_permissions`. */
  datatype RoleRow = RoleRow(allowed: Raw)

  /** A row of `rbac_user_permissions`; `Malformed` is a row that is not an
      object.  `enabled` is the truth value of the stored `override_enabled`. */
  datatype UserRow = UserRecord(enabled: bool, allowed: Raw) | Malformed

  /** The database as the permission code sees it.  `hasClient` is false when
      no URL or key is configured; `reachable` is false when every call
      raises. */
  datatype Store = Store(
    hasClient: bool,
    reachable: bool,
    roles: map<string, RoleRow>,
    users: map<string, UserRow>)

  /** A user override as read back: `(override_enabled, allowed_functions)`. */
  datatype Override = Override(enabled: bool, allowed: seq<string>)

  /** Every entry is stripped and non-empty. */
  predicate AllClean(xs: seq<string>) {
    forall i :: 0 <= i < |xs| ==> |xs[i]| > 0 && IsTrimmed(xs[i])
  }

  /** `[str(x).strip() for x in raw if str(x).strip()]`. */
  function Clean(xs: seq<string>): (r: seq<string>)
    ensures AllClean(r)
    ensures |r| <= |xs|
    decreases |xs|
  {
    if |xs| == 0 then []
    else
      var t := Trim(Seqs.Last(xs));
      Clean(Seqs.Init(xs)) + (if |t| > 0 then [t] else [])
  }

  /** The coercion works entry by entry: it distributes over concatenation. */
  lemma {:induction false} CleanAppend(a: seq<string>, b: seq<string>)
    ensures Clean(a + b) == Clean(a) + Clean(b)
    decreases |b|
  {
    if |b| == 0 {
      assert a + b == a;
    } else {
      assert Seqs.Init(a + b) == a + Seqs.Init(b);
      assert Seqs.Last(a + b) == Seqs.Last(b);
      CleanAppend(a, Seqs.Init(b));
    }
  }

  /** A list that is already clean is kept as it is. */
  lemma {:induction false} CleanOfClean(xs: seq<string>)
    requires AllClean(xs)
    ensures Clean(xs) == xs
    decreases |xs|
  {
    if |xs| > 0 {
      CleanOfClean(Seqs.Init(xs));
      TrimOfTrimmed(Seqs.Last(xs));
      assert xs == Seqs.Init(xs) + [Seqs.Last(xs)];
    }
  }

  /** Coercing twice is coercing once. */
  lemma {:induction false} CleanIdempotent(xs: seq<string>)
    ensures Clean(Clean(xs)) == Clean(xs)
  {
    CleanOfClean(Clean(xs));
  }

  /** The entries kept are exactly the non-blank stripped inputs. */
  lemma {:induction false} CleanMembers(xs: seq<string>, y: string)
    ensures y in Clean(xs) <==> |y| > 0 && exists i :: 0 <= i < |xs| && Trim(xs[i]) == y
    decreases |xs|
  {
    if |xs| > 0 {
      var init := Seqs.Init(xs);
      var t := Trim(Seqs.Last(xs));
      CleanMembers(init, y);
      assert forall i :: 0 <= i < |init| ==> init[i] == xs[i];
      if y == t && |t| > 0 {
        assert Trim(xs[|xs| - 1]) == y;
      }
      if |y| > 0 && y !in Clean(init) {
        assert forall i :: 0 <= i < |init| ==> Trim(xs[i]) != y;
      }
    }
  }

  // ---------------------------------------------------------------------------
  // Role rows
  // ---------------------------------------------------------------------------

  /** `get_role_permissions`: the stored list of the stripped role, or `None`
      when there is no client, the call fails, there is no row or the field
      is not a list. */
  function GetRolePermissions(st: Store, role: string): (r: Option<seq<string>>)
    ensures r.Some? <==>
      st.hasClient && st.reachable && Trim(role) in st.roles && st.roles[Trim(role)].allowed.List?
    ensures r.Some? ==> r.value == Clean(st.roles[Trim(role)].allowed.items)
  {
    if !st.hasClient || !st.reachable then None
    else
      var key := Trim(role);
      if key !in st.roles then None
      else match st.roles[key].allowed
        case NotAList => None
        case List(items) => Some(Clean(items))
  }

  /** `set_role_permissions`: upserts the cleaned list under the stripped role
      and reports success; without a working client nothing is written. */
  function SetRolePermissions(st: Store, role: string, allowed: seq<string>): (r: (Store, bool))
    ensures r.1 <==> st.hasClient && st.reachable
    ensures !r.1 ==> r.0 == st
    ensures r.1 ==> r.0.roles == st.roles[Trim(role) := RoleRow(List(Clean(allowed)))]
    ensures r.0.users == st.users && r.0.hasClient == st.hasClient && r.0.reachable == st.reachable
  {
    if !st.hasClient || !st.reachable then (st, false)
    else (st.(roles := st.roles[Trim(role) := RoleRow(List(Clean(allowed)))]), true)
  }

  /** Reading a role after a successful write returns the cleaned list written. */
  lemma {:induction false} RoleReadAfterWrite(st: Store, role: string, allowed: seq<string>)
    requires SetRolePermissions(st, role, allowed).1
    ensures GetRolePermissions(SetRolePermissions(st, role, allowed).0, role) == Some(Clean(allowed))
  {
    CleanIdempotent(allowed);
  }

  /** A write to one role leaves the reading of every other role unchanged. */
  lemma {:induction false} RoleWriteIsolated(st: Store, role: string, allowed: seq<string>, other: string)
    requires Trim(other) != Trim(role)
    ensures GetRolePermissions(SetRolePermissions(st, role, allowed).0, other) == GetRolePermissions(st, other)
  {
  }

  // ---------------------------------------------------------------------------
  // User rows
  // ---------------------------------------------------------------------------

  /** A working client finds an object row for the user whose
      `allowed_functions` is a list. */
  predicate StoredUserList(st: Store, userId: string) {
    st.hasClient && st.reachable && Trim(userId) in st.users
    && st.users[Trim(userId)].UserRecord? && st.users[Trim(userId)].allowed.List?
  }

  /** `get_user_permissions_override`: `(False, [])` without a working client
      or a row; a row that is not an object reads as empty; a non-list field
      reads as `[]`. */
  function GetUserOverride(st: Store, userId: string): (r: Override)
    ensures StoredUserList(st, userId) ==> r.allowed == Clean(st.users[Trim(userId)].allowed.items)
    ensures !StoredUserList(st, userId) ==> r.allowed == []
    ensures r.enabled <==>
      st.hasClient && st.reachable && Trim(userId) in st.users
      && st.users[Trim(userId)].UserRecord? && st.users[Trim(userId)].enabled
    ensures AllClean(r.allowed)
  {
    if !st.hasClient || !st.reachable then Override(false, [])
    else
      var key := Trim(userId);
      if key !in st.users then Override(false, [])
      else match st.users[key]
        case Malformed => Override(false, [])
        case UserRecord(enabled, raw) =>
          Override(enabled, match raw case List(items) => Clean(items) case NotAList => [])
  }

  /** `set_user_permissions_override`: upserts the flag and the cleaned list
      under the stripped user id. */
  function SetUserOverride(st: Store, userId: string, enabled: bool, allowed: seq<string>): (r: (Store, bool))
    ensures r.1 <==> st.hasClient && st.reachable
    ensures !r.1 ==> r.0 == st
    ensures r.1 ==> r.0.users == st.users[Trim(userId) := UserRecord(enabled, List(Clean(allowed)))]
    ensures r.0.roles == st.roles && r.0.hasClient == st.hasClient && r.0.reachable == st.reachable
  {
    if !st.hasClient || !st.reachable then (st, false)
    else (st.(users := st.users[Trim(userId) := UserRecord(enabled, List(Clean(allowed)))]), true)
  }

  /** Reading a user after a successful write returns the flag and the cleaned
      list written. */
  lemma {:induction false} UserReadAfterWrite(st: Store, userId: string, enabled: bool, allowed: seq<string>)
    requires SetUserOverride(st, userId, enabled, allowed).1
    ensures GetUserOverride(SetUserOverride(st, userId, enabled, allowed).0, userId)
      == Override(enabled, Clean(allowed))
  {
    CleanIdempotent(allowed);
  }

  lemma {:induction false} UserWriteIsolated(st: Store, userId: string, enabled: bool, allowed: seq<string>, other: string)
    requires Trim(other) != Trim(userId)
    ensures GetUserOverride(SetUserOverride(st, userId, enabled, allowed).0, other) == GetUserOverride(st, other)
  {
  }
}

=== FILE: reminders.dfy ===
/**
 * The 15-minute appointment reminders: which schedule rows are due for a
 * reminder at a given instant, and the dismiss and snooze actions that
 * silence a row.
 */
module Reminders {
  import opened Wrappers
  import opened Strings
  import opened Utils
  import opened Constants
  import opened Frames
  import Seqs
  import ScheduleOps

  /** How many minutes ahead of its start an appointment is announced. */
  const ReminderAdvanceMinutes: int := 15

  /** The dismissed-flag texts (stripped and lower-cased) that silence a row. */
  const DismissedWords: set<string> := {"1", "true", "yes"}

  const DismissedColumn: string := "REMINDER_DISMISSED"
  const SnoozeColumn: string := "REMINDER_SNOOZE_UNTIL"

  /** One entry of the due list. */
  datatype Reminder = Reminder(
    rowId: string,
    patient: string,
    inTime: TimeInput,
    doctor: string,
    op: string,
    minutesUntil: int,
    status: string)

  predicate IsTerminal(row: Row) {
    Key(Get(row, "STATUS")) in TerminalStatuses
  }

  predicate IsDismissed(row: Row) {
    LowKey(Get(row, DismissedColumn)) in DismissedWords
  }

  /** The row carries a snooze time that parses and lies after `now`. */
  predicate IsSnoozed(row: Row, now: Instant, fromIso: string -> Option<Instant>) {
    var until := Trim(Get(row, SnoozeColumn));
    until != "" && ParseIsoTs(fromIso, until).Some? && ParseIsoTs(fromIso, until).value > now
  }

  /** Minutes from the IST clock time of `now` to the row's start, when the
      start time parses. */
  function MinutesUntil(row: Row, now: Instant): Option<int> {
    match CoerceToTime(TimeCell(row, "In Time"))
    case None => None
    case Some(t) => Some(MinutesOf(t) - MinutesOf(IstClock(now)))
  }

  /** The loop body of `get_due_reminders` for one row. */
  function DueOf(now: Instant, fromIso: string -> Option<Instant>): Row -> Option<Reminder> {
    (row: Row) =>
      if IsTerminal(row) || IsDismissed(row) || IsSnoozed(row, now, fromIso) then None
      else match MinutesUntil(row, now)
        case None => None
        case Some(m) =>
          if 0 <= m <= ReminderAdvanceMinutes then
            Some(Reminder(Trim(Get(row, ScheduleOps.RowIdColumn)),
                          if "Patient Name" in row then row["Patient Name"] else "Unknown",
                          TimeCell(row, "In Time"), Get(row, "DR."), Get(row, "OP"),
                          m, Key(Get(row, "STATUS"))))
          else None
  }

  /** A row is due exactly when it is live (not terminal, dismissed or
      snoozed) and starts within the next 15 minutes by the IST clock. */
  lemma DueIff(row: Row, now: Instant, fromIso: string -> Option<Instant>)
    ensures DueOf(now, fromIso)(row).Some? <==>
      (!IsTerminal(row) && !IsDismissed(row) && !IsSnoozed(row, now, fromIso)
       && MinutesUntil(row, now).Some? && 0 <= MinutesUntil(row, now).value <= ReminderAdvanceMinutes)
    ensures DueOf(now, fromIso)(row).Some? ==>
      (DueOf(now, fromIso)(row).value.minutesUntil == MinutesUntil(row, now).value
       && DueOf(now, fromIso)(row).value.rowId == Trim(Get(row, ScheduleOps.RowIdColumn))
       && DueOf(now, fromIso)(row).value.status !in TerminalStatuses)
  {
  }

  /** `get_due_reminders` at instant `now`: the due rows in schedule order,
      none for an empty frame. */
  function GetDueReminders(f: Frame, now: Instant, fromIso: string -> Option<Instant>): (r: seq<Reminder>)
    ensures IsEmpty(f) ==> r == []
    ensures |r| <= |f.rows|
    ensures forall k :: 0 <= k < |r| ==> 0 <= r[k].minutesUntil <= ReminderAdvanceMinutes
    ensures forall k :: 0 <= k < |r| ==> r[k].status !in TerminalStatuses
    ensures !IsEmpty(f) ==> forall e :: e in r <==> exists i :: 0 <= i < |f.rows| && DueOf(now, fromIso)(f.rows[i]) == Some(e)
  {
    if IsEmpty(f) then []
    else
      var due := DueOf(now, fromIso);
      var r := Seqs.FilterMap(f.rows, due);
      assert forall e :: e in r <==> exists i :: 0 <= i < |f.rows| && due(f.rows[i]) == Some(e) by {
        forall e ensures e in r <==> exists i :: 0 <= i < |f.rows| && due(f.rows[i]) == Some(e) {
          Seqs.FilterMapMembers(f.rows, due, e);
        }
      }
      assert forall k :: 0 <= k < |r| ==> 0 <= r[k].minutesUntil <= ReminderAdvanceMinutes && r[k].status !in TerminalStatuses by {
        forall k | 0 <= k < |r| ensures 0 <= r[k].minutesUntil <= ReminderAdvanceMinutes && r[k].status !in TerminalStatuses {
          assert r[k] in r;
          var i :| 0 <= i < |f.rows| && due(f.rows[i]) == Some(r[k]);
          DueIff(f.rows[i], now, fromIso);
        }
      }
      r
  }

  /** The positions of the due rows, in schedule order. */
  function DueRows(f: Frame, now: Instant, fromIso: string -> Option<Instant>): (r: seq<nat>)
    ensures forall k :: 0 <= k < |r| ==> r[k] < |f.rows|
    ensures forall k, l :: 0 <= k < l < |r| ==> r[k] < r[l]
  {
    Seqs.Positions(f.rows, DueOf(now, fromIso))
  }

  /** One reminder per due row and in schedule order: the `k`-th reminder is
      the reading of the `k`-th due row, and every due row is among them. */
  lemma {:induction false} DueRemindersInOrder(f: Frame, now: Instant, fromIso: string -> Option<Instant>)
    ensures !IsEmpty(f) ==> |GetDueReminders(f, now, fromIso)| == |DueRows(f, now, fromIso)|
    ensures !IsEmpty(f) ==> forall k :: 0 <= k < |DueRows(f, now, fromIso)| ==>
      DueOf(now, fromIso)(f.rows[DueRows(f, now, fromIso)[k]]) == Some(GetDueReminders(f, now, fromIso)[k])
    ensures forall i :: 0 <= i < |f.rows| ==>
      (i in DueRows(f, now, fromIso) <==> DueOf(now, fromIso)(f.rows[i]).Some?)
  {
    Seqs.FilterMapPositions(f.rows, DueOf(now, fromIso));
  }

  // ---------------------------------------------------------------------------
  // Dismiss and snooze
  // ---------------------------------------------------------------------------

  /** Sets `col` to `v` on the rows whose id equals `rowId` exactly; nothing
      changes without an id column. */
  function MarkRows(f: Frame, rowId: string, col: string, v: string): (r: Frame)
    ensures RowIdColumnAbsent(f) ==> r == f
    ensures |r.rows| == |f.rows|
    ensures forall i :: 0 <= i < |f.rows| && ScheduleOps.Matches(f, rowId, i) ==>
      r.rows[i] == f.rows[i][col := v]
    ensures forall i :: 0 <= i < |f.rows| && !RowIdColumnAbsent(f) && !ScheduleOps.Matches(f, rowId, i) ==>
      r.rows[i] == if col in f.columns then f.rows[i] else f.rows[i][col := "nan"]
    ensures WellFormed(f) ==> WellFormed(r)
  {
    if RowIdColumnAbsent(f) then f
    else
      var sel := ScheduleOps.IdIs(rowId);
      assert forall i :: 0 <= i < |f.rows| ==> (sel(f.rows[i]) <==> ScheduleOps.Matches(f, rowId, i));
      SetWhere(f, sel, col, v)
  }

  predicate RowIdColumnAbsent(f: Frame) {
    ScheduleOps.RowIdColumn !in f.columns
  }

  /** `dismiss_reminder`: the matching rows get the dismissed flag `"1"`. */
  function DismissReminder(f: Frame, rowId: string): (r: Frame)
    ensures RowIdColumnAbsent(f) ==> r == f
    ensures |r.rows| == |f.rows|
    ensures forall i :: 0 <= i < |f.rows| && ScheduleOps.Matches(f, rowId, i) ==> Get(r.rows[i], DismissedColumn) == "1"
    ensures forall i, c :: 0 <= i < |f.rows| && c in f.rows[i] && (c != DismissedColumn || !ScheduleOps.Matches(f, rowId, i)) && c in f.columns ==>
      c in r.rows[i] && r.rows[i][c] == f.rows[i][c]
  {
    MarkRows(f, rowId, DismissedColumn, "1")
  }

  /** A dismissed row is never due again, at any instant. */
  lemma DismissedNeverDue(f: Frame, rowId: string, i: nat, now: Instant, fromIso: string -> Option<Instant>)
    requires i < |f.rows| && ScheduleOps.Matches(f, rowId, i)
    ensures DueOf(now, fromIso)(DismissReminder(f, rowId).rows[i]).None?
  {
    TrimOfTrimmed("1");
    assert Lower("1") == "1";
    assert IsDismissed(DismissReminder(f, rowId).rows[i]);
  }

  /** A row without a dismissed flag is due as before once the flag column
      is added with the missing value. */
  lemma MissingFlagKeepsDue(row: Row, now: Instant, fromIso: string -> Option<Instant>)
    requires DismissedColumn !in row
    ensures DueOf(now, fromIso)(row[DismissedColumn := "nan"]) == DueOf(now, fromIso)(row)
  {
    var row' := row[DismissedColumn := "nan"];
    assert Get(row, DismissedColumn) == "";
    assert LowKey("") == "" by { TrimOfTrimmed(""); }
    assert LowKey("nan") == "nan" by { TrimOfTrimmed("nan"); }
    assert !IsDismissed(row) && !IsDismissed(row');
    assert IsTerminal(row') == IsTerminal(row);
    assert IsSnoozed(row', now, fromIso) == IsSnoozed(row, now, fromIso);
    assert TimeCell(row', "In Time") == TimeCell(row, "In Time");
    SameStart(row', row, now);
    DueReads(row', row, now, fromIso);
  }

  /** Whether a row is due, and the reminder it gives, depend only on these
      facts about it. */
  lemma DueReads(a: Row, b: Row, now: Instant, fromIso: string -> Option<Instant>)
    requires IsTerminal(a) == IsTerminal(b) && IsDismissed(a) == IsDismissed(b)
    requires IsSnoozed(a, now, fromIso) == IsSnoozed(b, now, fromIso)
    requires MinutesUntil(a, now) == MinutesUntil(b, now) && TimeCell(a, "In Time") == TimeCell(b, "In Time")
    requires Get(a, ScheduleOps.RowIdColumn) == Get(b, ScheduleOps.RowIdColumn)
    requires Get(a, "DR.") == Get(b, "DR.") && Get(a, "OP") == Get(b, "OP") && Get(a, "STATUS") == Get(b, "STATUS")
    requires ("Patient Name" in a) == ("Patient Name" in b)
    requires "Patient Name" in a ==> a["Patient Name"] == b["Patient Name"]
    ensures DueOf(now, fromIso)(a) == DueOf(now, fromIso)(b)
  {
  }

  /** Rows with the same start cell are the same number of minutes away. */
  lemma SameStart(a: Row, b: Row, now: Instant)
    requires TimeCell(a, "In Time") == TimeCell(b, "In Time")
    ensures MinutesUntil(a, now) == MinutesUntil(b, now)
  {
  }

  /** Dismissing one row leaves whether every other row is due unchanged. */
  lemma DismissKeepsOthers(f: Frame, rowId: string, i: nat, now: Instant, fromIso: string -> Option<Instant>)
    requires WellFormed(f)
    requires i < |f.rows| && !ScheduleOps.Matches(f, rowId, i)
    ensures DueOf(now, fromIso)(DismissReminder(f, rowId).rows[i]) == DueOf(now, fromIso)(f.rows[i])
  {
    var r := MarkRows(f, rowId, DismissedColumn, "1");
    if !RowIdColumnAbsent(f) && DismissedColumn !in f.columns {
      assert DismissedColumn !in f.rows[i];
      MissingFlagKeepsDue(f.rows[i], now, fromIso);
    }
  }

  /** `snooze_reminder` at instant `now`: the matching rows get the snooze
      time `now + minutes`, rendered by `toIso` (`isoformat`). */
  function SnoozeReminder(f: Frame, rowId: string, minutes: int, now: Instant, toIso: Instant -> string): (r: Frame)
    ensures RowIdColumnAbsent(f) ==> r == f
    ensures |r.rows| == |f.rows|
    ensures forall i :: 0 <= i < |f.rows| && ScheduleOps.Matches(f, rowId, i) ==>
      Get(r.rows[i], SnoozeColumn) == toIso(now + 60 * minutes)
    ensures forall i, c :: 0 <= i < |f.rows| && c in f.rows[i] && (c != SnoozeColumn || !ScheduleOps.Matches(f, rowId, i)) && c in f.columns ==>
      c in r.rows[i] && r.rows[i][c] == f.rows[i][c]
  {
    MarkRows(f, rowId, SnoozeColumn, toIso(now + 60 * minutes))
  }

  /** When the rendered snooze time reads back as the same instant, a
      snoozed row is not due at any instant before it. */
  lemma SnoozedNotDueBefore(f: Frame, rowId: string, minutes: int, now: Instant, toIso: Instant -> string,
                            fromIso: string -> Option<Instant>, i: nat, at: Instant)
    requires i < |f.rows| && ScheduleOps.Matches(f, rowId, i)
    requires Trim(toIso(now + 60 * minutes)) != ""
    requires fromIso(Trim(Trim(toIso(now + 60 * minutes)))) == Some(now + 60 * minutes)
    requires at < now + 60 * minutes
    ensures DueOf(at, fromIso)(SnoozeReminder(f, rowId, minutes, now, toIso).rows[i]).None?
  {
    assert IsSnoozed(SnoozeReminder(f, rowId, minutes, now, toIso).rows[i], at, fromIso);
  }
}

=== FILE: save.dfy ===
/**
 * Saving the schedule: the session's save state, the version counter that
 * detects a newer remote copy, the content hash that skips saves of
 * unchanged data, and the unsaved-changes queue.  The session is an explicit
 * record and every call returns the record it leaves behind; the store is
 * described by what its calls return.
 */
module SaveManager {
  import opened Wrappers
  import opened Strings
  import Json

  /** A session or metadata value as the code reads it: absent or `None`,
      a whole number, or anything else through its `str()` text. */
  datatype Val = VNone | VInt(n: int) | VText(s: string)

  /** The frame's `attrs["meta"]` dict; a missing or non-dict entry reads as
      the empty dict. */
  type Meta = map<string, Val>

  /** A schedule frame `F` with its metadata. */
  datatype Doc<F> = Doc(frame: F, meta: Meta)

  /** The `save_conflict` record. */
  datatype Conflict = Conflict(localVersion: Val, remoteVersion: Val, detectedAt: string)

  /** The session keys the save logic reads and writes, with their
      defaults where a key is absent. */
  datatype Session<F> = Session(
    isSaving: bool,                   // is_saving, default False
    loadedSaveVersion: Val,           // loaded_save_version
    loadedSaveAt: Option<string>,     // loaded_save_at
    lastSavedHash: Option<string>,    // last_saved_hash
    lastSaveAt: int,                  // last_save_at, whole seconds
    saveConflict: Option<Conflict>,   // save_conflict
    enableConflictChecks: bool,       // enable_conflict_checks, default True
    autoSaveEnabled: bool,            // auto_save_enabled, default False
    timeBlocks: Val,                  // serialize_time_blocks(time_blocks)
    unsavedDf: Option<Doc<F>>,        // unsaved_df
    unsavedDfVersion: int,            // unsaved_df_version, default 0
    pendingChanges: bool,             // pending_changes
    pendingChangesReason: string)     // pending_changes_reason

  /** What the outside world answers during one save: whether the store is
      the database (`USE_SUPABASE`), the version it reports, the content hash
      of a frame, what `save_schedule` returns (`None` when it raises), and
      the clocks (`datetime.now(IST).isoformat()`, `time.time()`). */
  datatype Env<!F> = Env(
    useSupabase: bool,
    remoteVersion: Val,
    hashOf: F -> string,
    stored: Option<bool>,
    nowIso: string,
    clock: int)

  /** What a save call returns, the session it leaves, the frame as the
      caller holds it afterwards (its metadata is updated in place), and the
      frame handed to `save_schedule`, if it was called. */
  datatype Outcome<F> = Outcome(ok: bool, session: Session<F>, doc: Doc<F>, written: Option<Doc<F>>)

  // ---------------------------------------------------------------------------
  // `_safe_int`
  // ---------------------------------------------------------------------------

  /** `int(float(t))` for a stripped decimal text: an optional sign, digits,
      an optional point and fraction, at least one digit; the fraction is
      dropped toward zero. */
  function WholeOfDecimal(t: string): (r: Option<int>)
    ensures r.Some? ==> |t| > 0
  {
    var signed := |t| > 0 && (t[0] == '+' || t[0] == '-');
    var u := UnsignedDecimal(if signed then t[1..] else t);
    if u.None? then None
    else if signed && t[0] == '-' then Some(-(u.value as int))
    else Some(u.value as int)
  }

  /** The whole part of unsigned decimal text `ip[.fp]`. */
  function UnsignedDecimal(body: string): (r: Option<nat>)
    ensures r.Some? ==> |body| > 0
  {
    var parts := Split(body, '.');
    if |parts| > 2 then None
    else
      var ip := parts[0];
      var fp := if |parts| == 2 then parts[1] else "";
      if !(AllDigits(ip) && AllDigits(fp) && |ip| + |fp| >= 1) then None
      else if |ip| == 0 then Some(0)
      else Some(DigitsValue(ip))
  }

  /** `_safe_int(value, default)`. */
  function SafeInt(v: Val, default: int): (r: int)
    ensures v.VNone? ==> r == default
    ensures v.VInt? ==> r == v.n
  {
    match v
    case VNone => default
    case VInt(n) => n
    case VText(s) =>
      match WholeOfDecimal(Trim(s))
      case Some(n) => n
      case None => default
  }

  /** `_safe_int(value, None)`. */
  function SafeIntOpt(v: Val): (r: Option<int>)
    ensures v.VNone? ==> r.None?
    ensures forall d :: r.Some? ==> SafeInt(v, d) == r.value
    ensures forall d :: r.None? ==> SafeInt(v, d) == d
  {
    match v
    case VNone => None
    case VInt(n) => Some(n)
    case VText(s) => WholeOfDecimal(Trim(s))
  }

  lemma NoPointInDigits(digits: string)
    requires AllDigits(digits)
    ensures Split(digits, '.') == [digits]
  {
    assert '.' !in digits by {
      forall i | 0 <= i < |digits| ensures digits[i] != '.' {
        assert IsDigit(digits[i]);
      }
    }
    SplitOfPlain(digits, '.');
  }

  lemma UnsignedOfDigits(digits: string)
    requires |digits| > 0 && AllDigits(digits)
    ensures UnsignedDecimal(digits) == Some(DigitsValue(digits))
  {
    NoPointInDigits(digits);
  }

  lemma WholeOfDigits(digits: string)
    requires |digits| > 0 && AllDigits(digits)
    ensures WholeOfDecimal(digits) == Some(DigitsValue(digits) as int)
  {
    UnsignedOfDigits(digits);
    assert IsDigit(digits[0]);
  }

  lemma WholeOfNegative(t: string)
    requires |t| > 1 && t[0] == '-' && AllDigits(t[1..])
    ensures WholeOfDecimal(t) == Some(-(DigitsValue(t[1..]) as int))
  {
    UnsignedOfDigits(t[1..]);
  }

  /** A whole number written out as text reads back as itself. */
  lemma SafeIntOfText(n: int, default: int)
    ensures SafeInt(VText(Json.IntText(n)), default) == n
  {
    var t := Json.IntText(n);
    var m: nat := if n >= 0 then n else -n;
    var digits := Decimal(m);
    if n >= 0 {
      WholeOfDigits(digits);
    } else {
      assert t[1..] == digits;
      WholeOfNegative(t);
    }
    assert IsTrimmed(t) by {
      assert IsDigit(t[|t| - 1]) && (IsDigit(t[0]) || t[0] == '-');
    }
    TrimOfTrimmed(t);
  }

  lemma UnsignedOfFraction(d: string, f: string)
    requires |d| > 0 && AllDigits(d) && AllDigits(f)
    ensures UnsignedDecimal(d + "." + f) == Some(DigitsValue(d))
  {
    assert '.' !in d && '.' !in f by {
      forall i | 0 <= i < |d| ensures d[i] != '.' { assert IsDigit(d[i]); }
      forall i | 0 <= i < |f| ensures f[i] != '.' { assert IsDigit(f[i]); }
    }
    SplitOfPlain(f, '.');
    SplitPrefix(d, f, '.');
    assert d + ['.'] + f == d + "." + f;
  }

  lemma WholeOfUnsigned(t: string, v: nat)
    requires UnsignedDecimal(t) == Some(v) && IsDigit(t[0])
    ensures WholeOfDecimal(t) == Some(v as int)
    ensures WholeOfDecimal(['-'] + t) == Some(-(v as int))
  {
    assert (['-'] + t)[1..] == t;
  }

  lemma TrimmedNumber(t: string)
    requires |t| > 0 && IsDigit(t[0]) && (IsDigit(t[|t| - 1]) || t[|t| - 1] == '.')
    ensures IsTrimmed(t) && IsTrimmed(['-'] + t)
  {
    assert (['-'] + t)[|t|] == t[|t| - 1];
  }

  /** In general the fraction of `d.f` is dropped toward zero, on either
      side of zero: `_safe_int` reads `d.f` as `d` and `-d.f` as `-d`. */
  lemma SafeIntCutsFraction(d: string, f: string, default: int)
    requires |d| > 0 && AllDigits(d) && AllDigits(f)
    ensures SafeInt(VText(d + "." + f), default) == DigitsValue(d) as int
    ensures SafeInt(VText("-" + (d + "." + f)), default) == -(DigitsValue(d) as int)
  {
    var t := d + "." + f;
    UnsignedOfFraction(d, f);
    assert t[0] == d[0] && IsDigit(d[0]);
    WholeOfUnsigned(t, DigitsValue(d));
    if |f| > 0 {
      assert t[|t| - 1] == f[|f| - 1] && IsDigit(f[|f| - 1]);
    } else {
      assert t[|t| - 1] == '.';
    }
    TrimmedNumber(t);
    TrimOfTrimmed(t);
    TrimOfTrimmed(['-'] + t);
  }

  /** An illustration of `SafeIntCutsFraction`: `_safe_int("-3.7")` is -3. */
  lemma SafeIntTruncates()
    ensures SafeInt(VText("-3.7"), 0) == -3
  {
    SafeIntCutsFraction("3", "7", 0);
    assert "-" + ("3" + "." + "7") == "-3.7";
  }

  /** An illustration of `SafeIntCutsFraction`: a stored `12.0` reads as
      version 12. */
  lemma SafeIntOfWholeFloat()
    ensures SafeInt(VText("12.0"), 0) == 12
  {
    SafeIntCutsFraction("12", "0", 0);
    assert "12" + "." + "0" == "12.0";
    assert DigitsValue("12") == 12 by {
      assert "12"[..1] == "1";
    }
  }

  // ---------------------------------------------------------------------------
  // The version counter
  // ---------------------------------------------------------------------------

  /** The version a save writes: one past the largest of the loaded, remote
      and local versions. */
  function NextVersion(loaded: int, remote: int, local: int): (r: int)
    ensures r > loaded && r > remote && r > local
    ensures r - 1 == loaded || r - 1 == remote || r - 1 == local
  {
    var m := if loaded >= remote then loaded else remote;
    (if m >= local then m else local) + 1
  }

  function MetaGet(meta: Meta, key: string): Val {
    if key in meta then meta[key] else VNone
  }

  /** The local version: the frame's own `save_version`, else the loaded
      version when one is known. */
  function LocalVersion(meta: Meta, loaded: Val): (r: Option<int>)
    ensures SafeIntOpt(MetaGet(meta, "save_version")).Some? ==> r == SafeIntOpt(MetaGet(meta, "save_version"))
    ensures SafeIntOpt(MetaGet(meta, "save_version")).None? && loaded.VNone? ==> r.None?
    ensures SafeIntOpt(MetaGet(meta, "save_version")).None? && !loaded.VNone? ==> r == Some(SafeInt(loaded, 0))
  {
    var own := SafeIntOpt(MetaGet(meta, "save_version"));
    if own.None? && !loaded.VNone? then Some(SafeInt(loaded, 0)) else own
  }

  /** The conflict checks run: enabled in the session, not overridden, and
      the store is the database. */
  predicate ChecksRun<F>(s: Session<F>, ignoreConflict: bool, env: Env<F>) {
    s.enableConflictChecks && !ignoreConflict && env.useSupabase
  }

  /** The remote and loaded versions are both known and read differently. */
  predicate VersionsDisagree(remote: Val, loaded: Val) {
    !remote.VNone? && !loaded.VNone? && SafeInt(remote, -1) != SafeInt(loaded, -1)
  }

  // ---------------------------------------------------------------------------
  // `save_now`
  // ---------------------------------------------------------------------------

  /** `save_now(df, ignore_conflict=ignoreConflict)` on session `s`. */
  function SaveNow<F>(s: Session<F>, doc: Doc<F>, ignoreConflict: bool, env: Env<F>): (o: Outcome<F>)
    // A save already in progress: refused, nothing written, nothing changed.
    ensures s.isSaving ==> o == Outcome(false, s, doc, None)
    // Every other return passes through the `finally` that clears the flag.
    ensures !s.isSaving ==> !o.session.isSaving
    // Nothing but a successful store call touches the save bookkeeping.
    ensures !o.ok || o.written.None? ==>
      o.session.lastSavedHash == s.lastSavedHash && o.session.loadedSaveVersion == s.loadedSaveVersion
    ensures o.written.None? ==> o.doc == doc
    ensures o.written.Some? ==> o.written.value == o.doc && o.doc.frame == doc.frame
  {
    if s.isSaving then Outcome(false, s, doc, None)
    else
      var meta := doc.meta["time_blocks" := s.timeBlocks];
      var loaded := s.loadedSaveVersion;
      var local := LocalVersion(meta, loaded);
      var remote := if ChecksRun(s, ignoreConflict, env) then env.remoteVersion else VNone;
      var done := s.(isSaving := false);
      if ChecksRun(s, ignoreConflict, env) && VersionsDisagree(remote, loaded) then
        Outcome(false, done.(saveConflict := Some(Conflict(loaded, remote, env.nowIso))), doc, None)
      else
        var hash := env.hashOf(doc.frame);
        if Some(hash) == s.lastSavedHash then Outcome(true, done, doc, None)
        else
          var version := NextVersion(SafeInt(loaded, 0), SafeInt(remote, 0), if local.Some? then local.value else 0);
          var doc' := doc.(meta := meta["save_version" := VInt(version)]["saved_at" := VText(env.nowIso)]);
          if env.stored == Some(true) then
            Outcome(true, done.(lastSavedHash := Some(hash), loadedSaveVersion := VInt(version),
                                loadedSaveAt := Some(env.nowIso), saveConflict := None, lastSaveAt := env.clock),
                    doc', Some(doc'))
          else Outcome(false, done, doc', Some(doc'))
  }

  /** The version `save_now` stamps on a frame it writes. */
  function WrittenVersion<F>(o: Outcome<F>): Val
    requires o.written.Some?
  {
    MetaGet(o.written.value.meta, "save_version")
  }

  /** With the checks running and both versions known and different, the
      save is blocked: it fails, records the conflict and writes nothing. */
  lemma ConflictBlocks<F>(s: Session<F>, doc: Doc<F>, ignoreConflict: bool, env: Env<F>)
    requires !s.isSaving && ChecksRun(s, ignoreConflict, env)
    requires VersionsDisagree(env.remoteVersion, s.loadedSaveVersion)
    ensures var o := SaveNow(s, doc, ignoreConflict, env);
      !o.ok && o.written.None?
      && o.session.saveConflict == Some(Conflict(s.loadedSaveVersion, env.remoteVersion, env.nowIso))
  {
  }

  /** A frame whose hash is the last saved one is reported saved without a
      write and without a new version, unless a conflict blocks it first. */
  lemma UnchangedSkips<F>(s: Session<F>, doc: Doc<F>, ignoreConflict: bool, env: Env<F>)
    requires !s.isSaving && s.lastSavedHash == Some(env.hashOf(doc.frame))
    requires !(ChecksRun(s, ignoreConflict, env) && VersionsDisagree(env.remoteVersion, s.loadedSaveVersion))
    ensures var o := SaveNow(s, doc, ignoreConflict, env);
      o.ok && o.written.None? && o.session.loadedSaveVersion == s.loadedSaveVersion
  {
  }

  /** A frame that reaches the store carries a version above the loaded,
      the remote (when checked) and the local one, and one past the largest
      of them. */
  lemma WrittenVersionAbove<F>(s: Session<F>, doc: Doc<F>, ignoreConflict: bool, env: Env<F>)
    requires SaveNow(s, doc, ignoreConflict, env).written.Some?
    ensures var o := SaveNow(s, doc, ignoreConflict, env);
      var v := WrittenVersion(o);
      var remote := if ChecksRun(s, ignoreConflict, env) then SafeInt(env.remoteVersion, 0) else 0;
      var local := LocalVersion(doc.meta["time_blocks" := s.timeBlocks], s.loadedSaveVersion);
      v.VInt? && v.n > SafeInt(s.loadedSaveVersion, 0) && v.n > remote
      && (local.Some? ==> v.n > local.value)
      && (v.n - 1 == SafeInt(s.loadedSaveVersion, 0) || v.n - 1 == remote || v.n - 1 == (if local.Some? then local.value else 0))
  {
  }

  /** A successful write records the hash and the version it wrote and
      clears the conflict; a failed one changes none of these. */
  lemma WriteBookkeeping<F>(s: Session<F>, doc: Doc<F>, ignoreConflict: bool, env: Env<F>)
    requires SaveNow(s, doc, ignoreConflict, env).written.Some?
    ensures var o := SaveNow(s, doc, ignoreConflict, env);
      (o.ok <==> env.stored == Some(true))
      && (o.ok ==> o.session.lastSavedHash == Some(env.hashOf(doc.frame))
                   && o.session.loadedSaveVersion == WrittenVersion(o)
                   && o.session.saveConflict.None?)
      && (!o.ok ==> o.session.lastSavedHash == s.lastSavedHash
                    && o.session.loadedSaveVersion == s.loadedSaveVersion
                    && o.session.saveConflict == s.saveConflict)
  {
  }

  /** Every successful write raises the loaded version. */
  lemma {:induction false} VersionsIncrease<F>(s: Session<F>, doc: Doc<F>, ignoreConflict: bool, env: Env<F>)
    requires SaveNow(s, doc, ignoreConflict, env).written.Some? && SaveNow(s, doc, ignoreConflict, env).ok
    ensures SafeInt(SaveNow(s, doc, ignoreConflict, env).session.loadedSaveVersion, 0) > SafeInt(s.loadedSaveVersion, 0)
  {
    WrittenVersionAbove(s, doc, ignoreConflict, env);
    WriteBookkeeping(s, doc, ignoreConflict, env);
  }

  /** Saving the same frame again right after a successful write, with the
      store reporting the version just written, succeeds without writing. */
  lemma {:induction false} SecondSaveIsNoop<F>(s: Session<F>, doc: Doc<F>, ignoreConflict: bool, env: Env<F>, env2: Env<F>)
    requires SaveNow(s, doc, ignoreConflict, env).written.Some? && SaveNow(s, doc, ignoreConflict, env).ok
    requires env2.hashOf == env.hashOf
    requires env2.remoteVersion == WrittenVersion(SaveNow(s, doc, ignoreConflict, env))
    ensures var o := SaveNow(s, doc, ignoreConflict, env);
      var o2 := SaveNow(o.session, o.doc, ignoreConflict, env2);
      o2.ok && o2.written.None? && o2.session.loadedSaveVersion == o.session.loadedSaveVersion
  {
    var o := SaveNow(s, doc, ignoreConflict, env);
    WrittenVersionAbove(s, doc, ignoreConflict, env);
    WriteBookkeeping(s, doc, ignoreConflict, env);
    assert !VersionsDisagree(env2.remoteVersion, o.session.loadedSaveVersion);
    UnchangedSkips(o.session, o.doc, ignoreConflict, env2);
  }

  // ---------------------------------------------------------------------------
  // The unsaved queue and `maybe_save`
  // ---------------------------------------------------------------------------

  /** `queue_unsaved(df, reason)`. */
  function QueueUnsaved<F>(s: Session<F>, doc: Doc<F>, reason: string): (r: Session<F>)
    ensures r.unsavedDf == Some(doc) && r.unsavedDfVersion == s.unsavedDfVersion + 1
    ensures r.pendingChanges && r.pendingChangesReason == reason
    ensures r.(unsavedDf := s.unsavedDf, unsavedDfVersion := s.unsavedDfVersion,
               pendingChanges := s.pendingChanges, pendingChangesReason := s.pendingChangesReason) == s
  {
    s.(unsavedDf := Some(doc), unsavedDfVersion := s.unsavedDfVersion + 1,
       pendingChanges := true, pendingChangesReason := reason)
  }

  /** `maybe_save(df, message=message, force=force,
      ignore_conflict=ignoreConflict)`; `withinDebounce` says whether the
      auto-save debounce window (`time.time() - last_save_at <
      save_debounce_seconds`, a positive debounce) is still open. */
  function MaybeSave<F>(s: Session<F>, doc: Doc<F>, message: string, force: bool, ignoreConflict: bool,
                        withinDebounce: bool, env: Env<F>): (o: Outcome<F>)
    // Queued and reported saved while another save runs, and whenever
    // auto-save is off or still inside its debounce window and the save is
    // not forced.
    ensures s.isSaving || (!force && (!s.autoSaveEnabled || withinDebounce)) ==>
      o.ok && o.written.None? && o.session.unsavedDf == Some(doc) && o.session.pendingChanges
    // A failed save stays queued, with the frame as the caller now holds it.
    ensures !o.ok ==> o.session.unsavedDf == Some(o.doc) && o.session.pendingChanges
    // A save that was run and succeeded, written or skipped as unchanged,
    // empties the queue; a forced one also clears the reason.
    ensures !s.isSaving && (force || (s.autoSaveEnabled && !withinDebounce)) && o.ok ==>
      o.session.unsavedDf.None? && !o.session.pendingChanges
    ensures !s.isSaving && force && o.ok ==> o.session.pendingChangesReason == ""
    ensures !s.isSaving && (force || s.autoSaveEnabled) ==> !o.session.isSaving
  {
    if s.isSaving then Outcome(true, QueueUnsaved(s, doc, message), doc, None)
    else if force then
      var o := SaveNow(s, doc, ignoreConflict, env);
      if o.ok then o.(session := o.session.(unsavedDf := None, pendingChanges := false, pendingChangesReason := ""))
      else o.(session := QueueUnsaved(o.session, o.doc, message))
    else if s.autoSaveEnabled then
      if withinDebounce then Outcome(true, QueueUnsaved(s, doc, message), doc, None)
      else
        var o := SaveNow(s, doc, ignoreConflict, env);
        if o.ok then o.(session := o.session.(unsavedDf := None, pendingChanges := false))
        else o.(session := QueueUnsaved(o.session, o.doc, message))
    else Outcome(true, QueueUnsaved(s, doc, message), doc, None)
  }

  /** `maybe_save` succeeds exactly when the `save_now` it runs does, or
      when it only queues the frame. */
  lemma MaybeSaveAgrees<F>(s: Session<F>, doc: Doc<F>, message: string, force: bool, ignoreConflict: bool,
                           withinDebounce: bool, env: Env<F>)
    requires !s.isSaving && (force || (s.autoSaveEnabled && !withinDebounce))
    ensures var o := MaybeSave(s, doc, message, force, ignoreConflict, withinDebounce, env);
      var n := SaveNow(s, doc, ignoreConflict, env);
      o.ok == n.ok && o.written == n.written && o.doc == n.doc
      && o.session.loadedSaveVersion == n.session.loadedSaveVersion
      && o.session.lastSavedHash == n.session.lastSavedHash
  {
  }
}

=== FILE: schedule_ops.dfy ===
/**
 * Business rules on the schedule frame: completing its columns, giving rows
 * their stable ids, the filters of the dashboard, status transitions with
 * their timestamps, assistant loads, removing an assistant from every slot
 * and the per-assistant workload table.
 */
module ScheduleOps {
  import opened Wrappers
  import opened Strings
  import opened Utils
  import opened Constants
  import opened Frames
  import Seqs

  /** The column holding a row's stable id. */
  const RowIdColumn: string := "REMINDER_ROW_ID"

  // ---------------------------------------------------------------------------
  // Column completion
  // ---------------------------------------------------------------------------

  /** `r` is `f` completed with the columns `cols`: the old columns first
      and in order, the missing ones appended, every old cell kept and every
      new cell `""`. */
  ghost predicate Completes(f: Frame, r: Frame, cols: seq<string>) {
    |r.rows| == |f.rows|
    && |f.columns| <= |r.columns| && r.columns[..|f.columns|] == f.columns
    && (forall c :: c in r.columns <==> c in f.columns || c in cols)
    && (forall i, c :: 0 <= i < |f.rows| && c in f.columns && c in f.rows[i] ==>
          c in r.rows[i] && r.rows[i][c] == f.rows[i][c])
    && (forall i, c :: 0 <= i < |f.rows| && c in r.columns && c !in f.columns ==>
          c in r.rows[i] && r.rows[i][c] == "")
    && (WellFormed(f) ==> WellFormed(r))
  }

  /** Appends each of `cols` the frame lacks, in order and once, filled
      with `""` (`df[col] = ""` for every missing column). */
  function AddMissing(f: Frame, cols: seq<string>): (r: Frame)
    ensures Completes(f, r, cols)
    ensures (forall c :: c in cols ==> c in f.columns) ==> r == f
  {
    ExtendCompletes(f, cols);
    Extend(f, Lacking(f, cols), "")
  }

  lemma ExtendCompletes(f: Frame, cols: seq<string>)
    ensures Completes(f, Extend(f, Lacking(f, cols), ""), cols)
  {
    var added := Lacking(f, cols);
    var r := Extend(f, added, "");
    assert r.columns[..|f.columns|] == f.columns;
    forall c ensures c in r.columns <==> c in f.columns || c in cols {
      assert c in added <==> c in cols && c !in f.columns;
    }
    forall i, c | 0 <= i < |f.rows| && c in r.columns && c !in f.columns
      ensures c in r.rows[i] && r.rows[i][c] == ""
    {
      assert c in added;
    }
    forall i, c | 0 <= i < |f.rows| && c in f.columns && c in f.rows[i]
      ensures c in r.rows[i] && r.rows[i][c] == f.rows[i][c]
    {
      assert c !in added;
    }
  }

  /** `ensure_schedule_columns`: every schedule column is present; the
      existing columns keep their order and their cells. */
  function EnsureScheduleColumns(f: Frame): (r: Frame)
    ensures Completes(f, r, ScheduleColumns)
  {
    AddMissing(f, ScheduleColumns)
  }

  /** Completing the columns twice is completing them once. */
  lemma EnsureColumnsIdempotent(f: Frame)
    ensures EnsureScheduleColumns(EnsureScheduleColumns(f)) == EnsureScheduleColumns(f)
  {
  }

  // ---------------------------------------------------------------------------
  // Row ids
  // ---------------------------------------------------------------------------

  /** The id texts `ensure_row_ids` treats as missing, compared exactly after
      stripping. */
  const IdBlankWords: set<string> := {"", "nan", "none", "NaT"}

  predicate IdBlankAsWritten(s: string) {
    Trim(s) in IdBlankWords
  }

  /** Gives the rows selected by `missing` the next unused supply id, in row
      order (`df.loc[mask, col] = [uuid, ...]`). */
  function AssignIds(rows: seq<Row>, missing: Row -> bool, supply: seq<string>): (r: seq<Row>)
    requires |rows| <= |supply|
    ensures |r| == |rows|
    ensures forall i :: 0 <= i < |rows| ==>
      r[i] == if missing(rows[i]) then rows[i][RowIdColumn := supply[Seqs.Count(rows[..i], missing)]] else rows[i]
    decreases |rows|
  {
    if |rows| == 0 then []
    else
      var init := Seqs.Init(rows);
      var rest := AssignIds(init, missing, supply);
      assert init == rows[..|rows| - 1];
      assert forall i :: 0 <= i < |init| ==> init[..i] == rows[..i];
      var last := Seqs.Last(rows);
      rest + [if missing(last) then last[RowIdColumn := supply[Seqs.Count(init, missing)]] else last]
  }

  /** A later selected row has a later position among the selected rows. */
  lemma SlotsInRange(rows: seq<Row>, missing: Row -> bool)
    ensures forall i, j :: 0 <= i < j < |rows| && missing(rows[i]) ==>
      Seqs.Count(rows[..i], missing) < Seqs.Count(rows[..j], missing)
  {
    forall i, j | 0 <= i < j < |rows| && missing(rows[i])
      ensures Seqs.Count(rows[..i], missing) < Seqs.Count(rows[..j], missing)
    {
      Seqs.CountStep(rows, missing, i);
      Seqs.CountPrefixMonotone(rows, missing, i + 1, j);
    }
  }

  /** A row whose id cell reads as missing under `blank`. */
  function IdMissing(blank: string -> bool): Row -> bool {
    (row: Row) => blank(Get(row, RowIdColumn))
  }

  /** Whether row `i` of `f` receives a supply id: the id column is new, or
      its cell reads as missing. */
  predicate Replaced(f: Frame, blank: string -> bool, i: nat)
    requires i < |f.rows|
  {
    RowIdColumn !in f.columns || blank(Get(f.rows[i], RowIdColumn))
  }

  /** The frame with the id column present (`df[col] = ""` when absent). */
  function WithIdColumn(f: Frame): (g: Frame)
    ensures g.columns == if RowIdColumn in f.columns then f.columns else f.columns + [RowIdColumn]
    ensures |g.rows| == |f.rows|
    ensures forall i :: 0 <= i < |f.rows| ==>
      g.rows[i] == if RowIdColumn in f.columns then f.rows[i] else f.rows[i][RowIdColumn := ""]
    ensures WellFormed(f) ==> WellFormed(g)
  {
    if RowIdColumn in f.columns then f else AddColumn(f, RowIdColumn, "")
  }

  /** `ensure_row_ids` with the missing-id test as a parameter.  `supply`
      stands for the `uuid4()` values drawn, in order. */
  function EnsureRowIdsWith(f: Frame, blank: string -> bool, supply: seq<string>): (r: Frame)
    requires |supply| >= |f.rows|
    ensures r.columns == if RowIdColumn in f.columns then f.columns else f.columns + [RowIdColumn]
    ensures |r.rows| == |f.rows|
  {
    var g := WithIdColumn(f);
    Frame(g.columns, AssignIds(g.rows, IdMissing(blank), supply))
  }

  /** Row `i` is selected by the mask exactly when it is replaced. */
  lemma MaskIsReplaced(f: Frame, blank: string -> bool, i: nat)
    requires blank("") && i < |f.rows|
    ensures IdMissing(blank)(WithIdColumn(f).rows[i]) <==> Replaced(f, blank, i)
  {
    if RowIdColumn !in f.columns {
      assert Get(WithIdColumn(f).rows[i], RowIdColumn) == "";
    }
  }

  /** After the assignment no id reads as missing; kept rows are unchanged
      and replaced rows take an id from the supply. */
  lemma RowIdsFilled(f: Frame, blank: string -> bool, supply: seq<string>)
    requires |supply| >= |f.rows| && blank("")
    requires forall k :: 0 <= k < |supply| ==> !blank(supply[k])
    ensures var r := EnsureRowIdsWith(f, blank, supply);
      (forall i :: 0 <= i < |r.rows| ==> !blank(Get(r.rows[i], RowIdColumn)))
      && (forall i :: 0 <= i < |f.rows| && !Replaced(f, blank, i) ==> r.rows[i] == f.rows[i])
      && (forall i :: 0 <= i < |f.rows| && Replaced(f, blank, i) ==> Get(r.rows[i], RowIdColumn) in supply)
  {
    forall i | 0 <= i < |f.rows| { MaskIsReplaced(f, blank, i); }
  }

  /** The assignment touches no cell but the id. */
  lemma RowIdsKeepCells(f: Frame, blank: string -> bool, supply: seq<string>)
    requires |supply| >= |f.rows|
    ensures var r := EnsureRowIdsWith(f, blank, supply);
      (forall i, c :: 0 <= i < |f.rows| && c in f.rows[i] && c != RowIdColumn ==>
         c in r.rows[i] && r.rows[i][c] == f.rows[i][c])
      && (WellFormed(f) ==> WellFormed(r))
  {
  }

  /** Distinct supply ids make the replaced ids pairwise distinct. */
  lemma RowIdsDistinct(f: Frame, blank: string -> bool, supply: seq<string>)
    requires |supply| >= |f.rows| && blank("")
    requires Seqs.NoDup(supply)
    ensures var r := EnsureRowIdsWith(f, blank, supply);
      forall i, j :: (0 <= i < j < |f.rows| && Replaced(f, blank, i) && Replaced(f, blank, j)) ==>
        Get(r.rows[i], RowIdColumn) != Get(r.rows[j], RowIdColumn)
  {
    var g := WithIdColumn(f);
    forall i | 0 <= i < |f.rows| { MaskIsReplaced(f, blank, i); }
    SlotsInRange(g.rows, IdMissing(blank));
  }

  /** `ensure_row_ids` as written: an id that strips to `""`, `"nan"`,
      `"none"` or `"NaT"` is replaced. */
  function EnsureRowIds(f: Frame, supply: seq<string>): (r: Frame)
    requires |supply| >= |f.rows|
    requires forall k :: 0 <= k < |supply| ==> !IdBlankAsWritten(supply[k])
    ensures RowIdColumn in r.columns && |r.rows| == |f.rows|
    ensures forall i :: 0 <= i < |r.rows| ==> !IdBlankAsWritten(Get(r.rows[i], RowIdColumn))
    ensures forall i :: 0 <= i < |f.rows| && !Replaced(f, IdBlankAsWritten, i) ==> r.rows[i] == f.rows[i]
    ensures Seqs.NoDup(supply) ==> forall i, j ::
      (0 <= i < j < |f.rows| && Replaced(f, IdBlankAsWritten, i) && Replaced(f, IdBlankAsWritten, j)) ==>
      Get(r.rows[i], RowIdColumn) != Get(r.rows[j], RowIdColumn)
  {
    assert Trim("") == "";
    RowIdsFilled(f, IdBlankAsWritten, supply);
    if Seqs.NoDup(supply) then
      RowIdsDistinct(f, IdBlankAsWritten, supply);
      EnsureRowIdsWith(f, IdBlankAsWritten, supply)
    else EnsureRowIdsWith(f, IdBlankAsWritten, supply)
  }

  /** An id cell holding `None` renders as `"None"`, which the exact test
      above does not recognise: the row keeps a missing id. */
  lemma NoneIdSurvives()
    ensures var f := Frame([RowIdColumn], [map[RowIdColumn := "None"]]);
      var r := EnsureRowIds(f, ["id-1"]);
      Get(r.rows[0], RowIdColumn) == "None" && IsBlank(Get(r.rows[0], RowIdColumn))
  {
    var f := Frame([RowIdColumn], [map[RowIdColumn := "None"]]);
    TrimOfTrimmed("None");
    assert !IdBlankAsWritten("None");
    TrimOfTrimmed("id-1");
    assert !IdBlankAsWritten("id-1");
    assert !Replaced(f, IdBlankAsWritten, 0);
    BlankCases("None");
  }

  /** `ensure_row_ids` with the shared blank test `is_blank`: every row ends
      with an id that is not blank in any spelling. */
  function EnsureRowIdsIntended(f: Frame, supply: seq<string>): (r: Frame)
    requires |supply| >= |f.rows|
    requires forall k :: 0 <= k < |supply| ==> !IsBlank(supply[k])
    ensures RowIdColumn in r.columns && |r.rows| == |f.rows|
    ensures forall i :: 0 <= i < |r.rows| ==> !IsBlank(Get(r.rows[i], RowIdColumn))
    ensures forall i :: 0 <= i < |f.rows| && !Replaced(f, IsBlank, i) ==> r.rows[i] == f.rows[i]
    ensures Seqs.NoDup(supply) ==> forall i, j ::
      (0 <= i < j < |f.rows| && Replaced(f, IsBlank, i) && Replaced(f, IsBlank, j)) ==>
      Get(r.rows[i], RowIdColumn) != Get(r.rows[j], RowIdColumn)
  {
    BlankCases("");
    RowIdsFilled(f, IsBlank, supply);
    if Seqs.NoDup(supply) then
      RowIdsDistinct(f, IsBlank, supply);
      EnsureRowIdsWith(f, IsBlank, supply)
    else EnsureRowIdsWith(f, IsBlank, supply)
  }

  // ---------------------------------------------------------------------------
  // Filters
  // ---------------------------------------------------------------------------

  /** The rows whose `col` cell, stripped and upper-cased, equals `want`'s;
      an empty frame with the same columns when `col` is absent. */
  function FilterByColumn(f: Frame, col: string, want: string): (r: Frame)
    ensures r.columns == f.columns
    ensures Seqs.IsSubseq(r.rows, f.rows)
    ensures forall row :: row in r.rows <==> col in f.columns && row in f.rows && Key(Get(row, col)) == Key(want)
    ensures forall row ::
      multiset(r.rows)[row] == if col in f.columns && Key(Get(row, col)) == Key(want)
        then multiset(f.rows)[row] else 0
    ensures WellFormed(f) ==> WellFormed(r)
  {
    if col !in f.columns then Frame(f.columns, [])
    else Select(f, (row: Row) => Key(Get(row, col)) == Key(want))
  }

  /** `filter_by_op`. */
  function FilterByOp(f: Frame, op: string): (r: Frame)
    ensures r.columns == f.columns && Seqs.IsSubseq(r.rows, f.rows)
    ensures forall row :: row in r.rows <==> "OP" in f.columns && row in f.rows && Key(Get(row, "OP")) == Key(op)
    ensures forall row ::
      multiset(r.rows)[row] == if "OP" in f.columns && Key(Get(row, "OP")) == Key(op)
        then multiset(f.rows)[row] else 0
  {
    FilterByColumn(f, "OP", op)
  }

  /** The doctor column: `"DR."` when present, else `"Doctor"`. */
  function DoctorColumn(f: Frame): string {
    if "DR." in f.columns then "DR." else "Doctor"
  }

  /** `filter_by_doctor`. */
  function FilterByDoctor(f: Frame, doctor: string): (r: Frame)
    ensures r.columns == f.columns && Seqs.IsSubseq(r.rows, f.rows)
    ensures "DR." in f.columns ==>
      forall row :: row in r.rows <==> row in f.rows && Key(Get(row, "DR.")) == Key(doctor)
    ensures "DR." !in f.columns ==>
      forall row :: row in r.rows <==> "Doctor" in f.columns && row in f.rows && Key(Get(row, "Doctor")) == Key(doctor)
    ensures forall row ::
      multiset(r.rows)[row] == if DoctorColumn(f) in f.columns && Key(Get(row, DoctorColumn(f))) == Key(doctor)
        then multiset(f.rows)[row] else 0
  {
    FilterByColumn(f, DoctorColumn(f), doctor)
  }

  /** Filtering a filtered frame by the same value changes nothing. */
  lemma {:induction false} FilterByColumnIdempotent(f: Frame, col: string, want: string)
    ensures FilterByColumn(FilterByColumn(f, col, want), col, want) == FilterByColumn(f, col, want)
  {
    var g := FilterByColumn(f, col, want);
    if col in f.columns {
      var keep := (row: Row) => Key(Get(row, col)) == Key(want);
      assert g.rows == Seqs.Filter(f.rows, keep);
      forall i | 0 <= i < |g.rows| ensures keep(g.rows[i]) {
        assert g.rows[i] in g.rows;
      }
      Seqs.FilterAll(g.rows, keep);
    }
  }

  /** The `In_min`/`Out_min` computed value of a time cell: none for a blank
      cell, else the cell's minutes since midnight. */
  function CellMinutes(row: Row, c: string): Option<nat> {
    if IsBlank(Get(row, c)) then None else TimeToMinutes(Text(Get(row, c)))
  }

  /** `Is_Ongoing`: both times known and the current minute between them. */
  predicate IsOngoingAt(row: Row, cur: nat) {
    CellMinutes(row, "In Time").Some? && CellMinutes(row, "Out Time").Some?
    && CellMinutes(row, "In Time").value <= cur <= CellMinutes(row, "Out Time").value
  }

  /** The status says the appointment is running. */
  predicate StatusSaysOngoing(row: Row) {
    Contains(Upper(Get(row, "STATUS")), "ON GOING") || Contains(Upper(Get(row, "STATUS")), "ONGOING")
  }

  /** `filter_ongoing` at clock time `now`.  A frame without a `STATUS`
      column contributes no status matches. */
  function FilterOngoing(f: Frame, now: Time): (r: Frame)
    requires "In Time" in f.columns && "Out Time" in f.columns
    ensures r.columns == f.columns && Seqs.IsSubseq(r.rows, f.rows)
    ensures forall row :: row in r.rows <==>
      (row in f.rows && (IsOngoingAt(row, MinutesOf(now)) || ("STATUS" in f.columns && StatusSaysOngoing(row))))
    ensures forall row ::
      multiset(r.rows)[row] == if IsOngoingAt(row, MinutesOf(now)) || ("STATUS" in f.columns && StatusSaysOngoing(row))
        then multiset(f.rows)[row] else 0
  {
    var cur := MinutesOf(now);
    Select(f, (row: Row) => IsOngoingAt(row, cur) || ("STATUS" in f.columns && StatusSaysOngoing(row)))
  }

  /** The appointment starts within the next `ahead` minutes after `cur`. */
  predicate StartsWithin(row: Row, cur: nat, ahead: int) {
    CellMinutes(row, "In Time").Some?
    && cur < CellMinutes(row, "In Time").value <= cur + ahead
  }

  /** `filter_upcoming` at clock time `now`: starting within the window and
      not in a terminal status (the status is upper-cased, not stripped).
      Without a `STATUS` column no row passes, the empty status series
      aligning to false. */
  function FilterUpcoming(f: Frame, now: Time, ahead: int): (r: Frame)
    requires "In Time" in f.columns && "Out Time" in f.columns
    ensures r.columns == f.columns && Seqs.IsSubseq(r.rows, f.rows)
    ensures forall row :: row in r.rows <==>
      (row in f.rows && StartsWithin(row, MinutesOf(now), ahead)
       && "STATUS" in f.columns && Upper(Get(row, "STATUS")) !in TerminalStatuses)
    ensures forall row ::
      multiset(r.rows)[row] == if StartsWithin(row, MinutesOf(now), ahead) && "STATUS" in f.columns
        && Upper(Get(row, "STATUS")) !in TerminalStatuses
        then multiset(f.rows)[row] else 0
    ensures "STATUS" !in f.columns ==> r.rows == []
  {
    var cur := MinutesOf(now);
    if "STATUS" !in f.columns then Frame(f.columns, [])
    else Select(f, (row: Row) => StartsWithin(row, cur, ahead) && Upper(Get(row, "STATUS")) !in TerminalStatuses)
  }

  /** No upcoming appointment is running by its times at the same minute. */
  lemma UpcomingNotOngoingByTime(f: Frame, now: Time, ahead: int, row: Row)
    requires "In Time" in f.columns && "Out Time" in f.columns
    requires row in FilterUpcoming(f, now, ahead).rows
    ensures !IsOngoingAt(row, MinutesOf(now))
  {
  }

  // ---------------------------------------------------------------------------
  // Status transitions
  // ---------------------------------------------------------------------------

  /** Statuses that stamp the actual start. */
  const StartStatuses: set<string> := {"ON GOING", "ARRIVED"}

  /** The columns a transition to `status` writes, in the order written. */
  function TouchedColumns(status: string): (r: seq<string>)
    ensures Seqs.NoDup(r)
  {
    ["STATUS", "STATUS_CHANGED_AT"]
    + (if status in StartStatuses then ["ACTUAL_START_AT"]
       else if status in TerminalStatuses then ["ACTUAL_END_AT"] else [])
  }

  /** The cells a transition to `status` at `stamp` writes. */
  function Writes(status: string, stamp: string): (w: map<string, string>)
    ensures forall c :: c in w <==> c in TouchedColumns(status)
    ensures "STATUS" in w && w["STATUS"] == status
    ensures "STATUS_CHANGED_AT" in w && w["STATUS_CHANGED_AT"] == stamp
    ensures status in StartStatuses ==> "ACTUAL_START_AT" in w && w["ACTUAL_START_AT"] == stamp
    ensures status in TerminalStatuses ==> "ACTUAL_END_AT" in w && w["ACTUAL_END_AT"] == stamp
  {
    var w := map["STATUS" := status, "STATUS_CHANGED_AT" := stamp];
    if status in StartStatuses then w["ACTUAL_START_AT" := stamp]
    else if status in TerminalStatuses then w["ACTUAL_END_AT" := stamp]
    else w
  }

  function IdIs(rowId: string): Row -> bool {
    (row: Row) => Get(row, RowIdColumn) == rowId
  }

  /** The row with id `rowId` (compared exactly). */
  predicate Matches(f: Frame, rowId: string, i: nat)
    requires i < |f.rows|
  {
    RowIdColumn in f.columns && Get(f.rows[i], RowIdColumn) == rowId
  }

  /** `update_status` with the clock text `stamp`: the matching rows get the
      status and the change time, and the actual start or end time when the
      status is a start or terminal status.  Nothing changes when there is no
      id column or no matching row. */
  function UpdateStatus(f: Frame, rowId: string, status: string, stamp: string): (r: Frame)
    ensures |r.rows| == |f.rows|
    ensures (forall i :: 0 <= i < |f.rows| ==> !Matches(f, rowId, i)) ==> r == f
    ensures forall c :: c in f.columns ==> c in r.columns
    ensures forall i :: 0 <= i < |f.rows| && Matches(f, rowId, i) ==>
      (Get(r.rows[i], "STATUS") == status && Get(r.rows[i], "STATUS_CHANGED_AT") == stamp
       && (status in StartStatuses ==> Get(r.rows[i], "ACTUAL_START_AT") == stamp)
       && (status in TerminalStatuses ==> Get(r.rows[i], "ACTUAL_END_AT") == stamp))
    ensures forall i, c :: (0 <= i < |f.rows| && c in f.columns && c in f.rows[i]
      && (!Matches(f, rowId, i) || c !in TouchedColumns(status))) ==>
      c in r.rows[i] && r.rows[i][c] == f.rows[i][c]
    ensures WellFormed(f) ==> WellFormed(r)
  {
    if RowIdColumn !in f.columns then f
    else if forall i :: 0 <= i < |f.rows| ==> !Matches(f, rowId, i) then f
    else
      var touched := TouchedColumns(status);
      var writes := Writes(status, stamp);
      var sel := IdIs(rowId);
      assert forall i :: 0 <= i < |f.rows| ==> (sel(f.rows[i]) <==> Matches(f, rowId, i));
      var r := SetManyWhere(f, sel, writes, touched);
      assert forall i :: 0 <= i < |f.rows| && Matches(f, rowId, i) ==>
        (Get(r.rows[i], "STATUS") == status && Get(r.rows[i], "STATUS_CHANGED_AT") == stamp
         && (status in StartStatuses ==> Get(r.rows[i], "ACTUAL_START_AT") == stamp)
         && (status in TerminalStatuses ==> Get(r.rows[i], "ACTUAL_END_AT") == stamp)) by {
        forall i | 0 <= i < |f.rows| && Matches(f, rowId, i)
          ensures Get(r.rows[i], "STATUS") == status && Get(r.rows[i], "STATUS_CHANGED_AT") == stamp
          ensures status in StartStatuses ==> Get(r.rows[i], "ACTUAL_START_AT") == stamp
          ensures status in TerminalStatuses ==> Get(r.rows[i], "ACTUAL_END_AT") == stamp
        {
          assert sel(f.rows[i]);
          assert "STATUS" in r.rows[i] && "STATUS_CHANGED_AT" in r.rows[i];
          if status in StartStatuses {
            assert "ACTUAL_START_AT" in writes && "ACTUAL_START_AT" in r.rows[i];
          }
          if status in TerminalStatuses {
            assert "ACTUAL_END_AT" in writes && "ACTUAL_END_AT" in r.rows[i];
          }
        }
      }
      r
  }

  // ---------------------------------------------------------------------------
  // Assistant loads
  // ---------------------------------------------------------------------------

  /** A row that counts towards the loads: not the excluded row (ids compared
      stripped, only when an exclusion is given) and not in a terminal status
      (stripped and upper-cased). */
  predicate Counted(row: Row, exclude: string) {
    !(|exclude| > 0 && Trim(Get(row, RowIdColumn)) == Trim(exclude))
    && Key(Get(row, "STATUS")) !in TerminalStatuses
  }

  /** The key of slot `c` of a row, when the row has the slot and it is not
      empty. */
  function SlotKey(row: Row, c: string): seq<string> {
    if c in row && Key(row[c]) != "" then [Key(row[c])] else []
  }

  function RowSlotKeys(row: Row): (r: seq<string>)
    ensures forall k :: k in r ==> k != ""
  {
    SlotKey(row, "FIRST") + SlotKey(row, "SECOND") + SlotKey(row, "Third")
  }

  /** Every assistant key filling a slot of a counted row, row by row. */
  function LoadKeys(rows: seq<Row>, exclude: string): (r: seq<string>)
    ensures forall k :: k in r ==> k != ""
    decreases |rows|
  {
    if |rows| == 0 then []
    else
      var rest := LoadKeys(Seqs.Init(rows), exclude);
      var row := Seqs.Last(rows);
      rest + (if Counted(row, exclude) then RowSlotKeys(row) else [])
  }

  /** `get_assistant_loads`: for every assistant key, the number of slots of
      counted rows it fills. */
  function GetAssistantLoads(f: Frame, exclude: string): (r: map<string, nat>)
    ensures IsEmpty(f) ==> r == map[]
    ensures forall k :: k in r ==> k != "" && r[k] > 0
    ensures !IsEmpty(f) ==> forall k ::
      (k in r <==> k in LoadKeys(f.rows, exclude))
      && (k in r ==> r[k] == multiset(LoadKeys(f.rows, exclude))[k])
  {
    if IsEmpty(f) then map[] else Seqs.Tally(LoadKeys(f.rows, exclude))
  }

  /** A key that fills no slot of any row never appears among the loads. */
  lemma {:induction false} AbsentKeyNotLoaded(rows: seq<Row>, exclude: string, who: string)
    requires forall i, c :: 0 <= i < |rows| && c in SlotColumns && c in rows[i] ==> Key(rows[i][c]) != who
    ensures who !in LoadKeys(rows, exclude)
    decreases |rows|
  {
    if |rows| > 0 {
      AbsentKeyNotLoaded(Seqs.Init(rows), exclude, who);
      var row := Seqs.Last(rows);
      assert row == rows[|rows| - 1];
      forall k | 0 <= k < |SlotColumns| ensures who !in SlotKey(row, SlotColumns[k]) {
        assert SlotColumns[k] in SlotColumns;
      }
      assert SlotColumns[0] == "FIRST" && SlotColumns[1] == "SECOND" && SlotColumns[2] == "Third";
      assert who !in SlotKey(row, SlotColumns[0]) + SlotKey(row, SlotColumns[1]) + SlotKey(row, SlotColumns[2]);
    }
  }

  // ---------------------------------------------------------------------------
  // Removing an assistant
  // ---------------------------------------------------------------------------

  /** Slot `c` of the row holds `who` and the frame has that column. */
  predicate Holds(f: Frame, row: Row, c: string, who: string) {
    c in f.columns && Key(Get(row, c)) == who
  }

  /** The row with every slot holding `who` emptied. */
  function ClearRow(f: Frame, row: Row, who: string): (r: Row)
    ensures forall c :: c in row ==> c in r
    ensures forall c :: c in r <==> c in row || (c in SlotColumns && Holds(f, row, c, who))
    ensures forall c :: c in r ==>
      r[c] == if c in SlotColumns && Holds(f, row, c, who) then "" else row[c]
  {
    row + map c | c in SlotColumns && Holds(f, row, c, who) :: ""
  }

  /** Whether some slot of some row holds `who`. */
  predicate AnyHeld(f: Frame, who: string) {
    exists i, k :: 0 <= i < |f.rows| && 0 <= k < |SlotColumns| && Holds(f, f.rows[i], SlotColumns[k], who)
  }

  /** `remove_assistant_from_schedule`: every slot holding the assistant
      (stripped and upper-cased) is emptied; none when the frame is empty
      or no slot changed. */
  function RemoveAssistantFromSchedule(f: Frame, name: string): (r: Option<Frame>)
    ensures r.None? <==> IsEmpty(f) || !AnyHeld(f, Key(name))
    ensures r.Some? ==> r.value.columns == f.columns && |r.value.rows| == |f.rows|
    ensures r.Some? ==> forall i, c :: 0 <= i < |f.rows| && c in f.rows[i] ==>
      (c in r.value.rows[i]
       && r.value.rows[i][c] == if c in SlotColumns && Holds(f, f.rows[i], c, Key(name)) then "" else f.rows[i][c])
    ensures r.Some? && Key(name) != "" ==> forall i, c :: 0 <= i < |f.rows| && c in SlotColumns && c in f.columns ==>
      Key(Get(r.value.rows[i], c)) != Key(name)
    ensures r.Some? ==> (WellFormed(f) ==> WellFormed(r.value))
  {
    if IsEmpty(f) then None
    else
      var who := Key(name);
      if !AnyHeld(f, who) then None
      else
        var rows := seq(|f.rows|, i requires 0 <= i < |f.rows| => ClearRow(f, f.rows[i], who));
        assert Key("") == "" by { TrimOfTrimmed(""); }
        Some(Frame(f.columns, rows))
  }

  /** After an assistant is removed nobody counts them in the loads. */
  lemma RemovedNotLoaded(f: Frame, name: string, exclude: string)
    requires WellFormed(f) && Key(name) != ""
    requires RemoveAssistantFromSchedule(f, name).Some?
    ensures Key(name) !in GetAssistantLoads(RemoveAssistantFromSchedule(f, name).value, exclude)
  {
    var g := RemoveAssistantFromSchedule(f, name).value;
    forall i, c | 0 <= i < |g.rows| && c in SlotColumns && c in g.rows[i]
      ensures Key(g.rows[i][c]) != Key(name)
    {
      assert Get(g.rows[i], c) == g.rows[i][c];
    }
    AbsentKeyNotLoaded(g.rows, exclude, Key(name));
  }

  // ---------------------------------------------------------------------------
  // Workload summary
  // ---------------------------------------------------------------------------

  datatype Workload = Workload(assistant: string, total: nat, asFirst: nat, asSecond: nat, asThird: nat)

  /** A row that occupies somebody: its status upper-cased (not stripped) is
      not terminal. */
  predicate Active(row: Row) {
    Upper(Get(row, "STATUS")) !in TerminalStatuses
  }

  /** Some slot of the row names `who`. */
  predicate Names(row: Row, who: string) {
    Key(Get(row, "FIRST")) == who || Key(Get(row, "SECOND")) == who || Key(Get(row, "Third")) == who
  }

  /** The loop of `compute_workload_summary` for one assistant key: an
      active row counts once, for the first slot naming the assistant. */
  function CountWork(rows: seq<Row>, who: string): (w: (nat, nat, nat, nat))
    ensures w.0 == w.1 + w.2 + w.3 && w.0 <= |rows|
    decreases |rows|
  {
    if |rows| == 0 then (0, 0, 0, 0)
    else
      var w := CountWork(Seqs.Init(rows), who);
      var row := Seqs.Last(rows);
      if !Active(row) then w
      else if Key(Get(row, "FIRST")) == who then (w.0 + 1, w.1 + 1, w.2, w.3)
      else if Key(Get(row, "SECOND")) == who then (w.0 + 1, w.1, w.2 + 1, w.3)
      else if Key(Get(row, "Third")) == who then (w.0 + 1, w.1, w.2, w.3 + 1)
      else w
  }

  function NamesActive(who: string): Row -> bool {
    (row: Row) => Active(row) && Names(row, who)
  }

  /** The total is the number of active rows naming the assistant in any
      slot: a row is never counted twice. */
  lemma {:induction false} TotalCountsRows(rows: seq<Row>, who: string)
    ensures CountWork(rows, who).0 == Seqs.Count(rows, NamesActive(who))
    decreases |rows|
  {
    if |rows| > 0 {
      TotalCountsRows(Seqs.Init(rows), who);
    }
  }

  /** `compute_workload_summary`: one entry per listed assistant, in order. */
  function ComputeWorkloadSummary(f: Frame, assistants: seq<string>): (r: seq<Workload>)
    ensures |r| == |assistants|
    ensures forall i :: 0 <= i < |r| ==>
      (r[i].assistant == assistants[i]
       && r[i].total == r[i].asFirst + r[i].asSecond + r[i].asThird
       && r[i].total <= |f.rows|)
  {
    seq(|assistants|, i requires 0 <= i < |assistants| =>
      var w := CountWork(f.rows, Key(assistants[i]));
      Workload(assistants[i], w.0, w.1, w.2, w.3))
  }

  /** Each summary total counts the active rows naming that assistant. */
  lemma SummaryTotals(f: Frame, assistants: seq<string>, i: nat)
    requires i < |assistants|
    ensures ComputeWorkloadSummary(f, assistants)[i].total == Seqs.Count(f.rows, NamesActive(Key(assistants[i])))
  {
    TotalCountsRows(f.rows, Key(assistants[i]));
  }
}

=== FILE: seqs.dfy ===
/**
 * Sequence vocabulary shared by the model: subsequences, filtering,
 * first-occurrence de-duplication (`list(dict.fromkeys(xs))`), the code-point
 * order Python uses for `sorted()` on strings, and a stable sort by an
 * integer key (`list.sort(key=...)`).
 */
module Seqs {
  import opened Wrappers

  predicate NoDup<T(==)>(xs: seq<T>) {
    forall i, j :: 0 <= i < j < |xs| ==> xs[i] != xs[j]
  }

  function Last<T>(xs: seq<T>): T
    requires |xs| > 0
  {
    xs[|xs| - 1]
  }

  function Init<T>(xs: seq<T>): seq<T>
    requires |xs| > 0
  {
    xs[..|xs| - 1]
  }

  // ---------------------------------------------------------------------------
  // Subsequences
  // ---------------------------------------------------------------------------

  /** `a` is `b` with some elements left out and the rest in their order. */
  predicate IsSubseq<T(==)>(a: seq<T>, b: seq<T>)
    decreases |b|
  {
    if |a| == 0 then true
    else if |b| == 0 then false
    else if Last(a) == Last(b) then IsSubseq(Init(a), Init(b))
    else IsSubseq(a, Init(b))
  }

  lemma {:induction false} SubseqSnoc<T>(a: seq<T>, b: seq<T>, x: T)
    requires IsSubseq(a, b)
    ensures IsSubseq(a, b + [x])
    decreases |b|, 1
  {
    assert Init(b + [x]) == b;
    if |a| > 0 && Last(a) == x {
      SubseqInit(a, b);
    }
  }

  lemma {:induction false} SubseqInit<T>(a: seq<T>, b: seq<T>)
    requires |a| > 0 && IsSubseq(a, b)
    ensures IsSubseq(Init(a), b)
    decreases |b|, 0
  {
    if Last(a) == Last(b) {
      SubseqSnoc(Init(a), Init(b), Last(b));
      assert Init(b) + [Last(b)] == b;
    } else {
      SubseqInit(a, Init(b));
      SubseqSnoc(Init(a), Init(b), Last(b));
      assert Init(b) + [Last(b)] == b;
    }
  }

  lemma {:induction false} SubseqBoth<T>(a: seq<T>, b: seq<T>, x: T)
    requires IsSubseq(a, b)
    ensures IsSubseq(a + [x], b + [x])
  {
    assert Init(a + [x]) == a;
    assert Init(b + [x]) == b;
  }

  lemma {:induction false} SubseqRefl<T>(a: seq<T>)
    ensures IsSubseq(a, a)
    decreases |a|
  {
    if |a| > 0 {
      SubseqRefl(Init(a));
    }
  }

  /** Every element of a subsequence is an element of the whole. */
  lemma {:induction false} SubseqMembers<T>(a: seq<T>, b: seq<T>)
    requires IsSubseq(a, b)
    ensures forall x :: x in a ==> x in b
    decreases |b|
  {
    if |a| > 0 {
      if Last(a) == Last(b) {
        SubseqMembers(Init(a), Init(b));
        assert a == Init(a) + [Last(a)];
        assert b == Init(b) + [Last(b)];
      } else {
        SubseqMembers(a, Init(b));
        assert b == Init(b) + [Last(b)];
      }
    }
  }

  lemma {:induction false} SubseqLength<T>(a: seq<T>, b: seq<T>)
    requires IsSubseq(a, b)
    ensures |a| <= |b|
    decreases |b|
  {
    if |a| > 0 {
      if Last(a) == Last(b) {
        SubseqLength(Init(a), Init(b));
      } else {
        SubseqLength(a, Init(b));
      }
    }
  }

  // ---------------------------------------------------------------------------
  // Filtering
  // ---------------------------------------------------------------------------

  /** The elements of `xs` that satisfy `p`, in order and with multiplicity. */
  function Filter<T(==,!new)>(xs: seq<T>, p: T -> bool): (r: seq<T>)
    ensures IsSubseq(r, xs)
    ensures forall x :: x in r <==> x in xs && p(x)
    ensures forall x :: multiset(r)[x] == if p(x) then multiset(xs)[x] else 0
    decreases |xs|
  {
    if |xs| == 0 then []
    else
      var rest := Filter(Init(xs), p);
      assert xs == Init(xs) + [Last(xs)];
      if p(Last(xs)) then
        SubseqBoth(rest, Init(xs), Last(xs));
        rest + [Last(xs)]
      else
        SubseqSnoc(rest, Init(xs), Last(xs));
        rest
  }

  lemma {:induction false} FilterAppend<T(!new)>(a: seq<T>, b: seq<T>, p: T -> bool)
    ensures Filter(a + b, p) == Filter(a, p) + Filter(b, p)
    decreases |b|
  {
    if |b| > 0 {
      assert Init(a + b) == a + Init(b);
      assert Last(a + b) == Last(b);
      FilterAppend(a, Init(b), p);
    } else {
      assert a + b == a;
    }
  }

  lemma {:induction false} FilterAll<T(!new)>(xs: seq<T>, p: T -> bool)
    requires forall i :: 0 <= i < |xs| ==> p(xs[i])
    ensures Filter(xs, p) == xs
    decreases |xs|
  {
    if |xs| > 0 {
      FilterAll(Init(xs), p);
      assert xs == Init(xs) + [Last(xs)];
    }
  }

  /** Filtering by a stronger predicate keeps a subsequence of what the
      weaker one keeps. */
  lemma {:induction false} FilterStronger<T(!new)>(xs: seq<T>, p: T -> bool, q: T -> bool)
    requires forall x :: q(x) ==> p(x)
    ensures IsSubseq(Filter(xs, q), Filter(xs, p))
    decreases |xs|
  {
    if |xs| > 0 {
      FilterStronger(Init(xs), p, q);
      var a, b := Filter(Init(xs), q), Filter(Init(xs), p);
      if q(Last(xs)) {
        SubseqBoth(a, b, Last(xs));
      } else if p(Last(xs)) {
        SubseqSnoc(a, b, Last(xs));
      }
    }
  }

  // ---------------------------------------------------------------------------
  // First-occurrence de-duplication
  // ---------------------------------------------------------------------------

  /** `list(dict.fromkeys(xs))`: each distinct element once, where it first occurs. */
  function Dedup<T(==,!new)>(xs: seq<T>): (r: seq<T>)
    ensures NoDup(r)
    ensures forall x :: x in r <==> x in xs
    ensures IsSubseq(r, xs)
    decreases |xs|
  {
    if |xs| == 0 then []
    else
      var d := Dedup(Init(xs));
      assert xs == Init(xs) + [Last(xs)];
      if Last(xs) in d then
        SubseqSnoc(d, Init(xs), Last(xs));
        d
      else
        SubseqBoth(d, Init(xs), Last(xs));
        d + [Last(xs)]
  }

  lemma AppendAssoc<T>(x: seq<T>, y: seq<T>, z: seq<T>)
    ensures x + (y + z) == (x + y) + z
  {
  }

  function NotIn<T(==)>(a: seq<T>): T -> bool {
    x => x !in a
  }

  /** De-duplication is first-occurrence order: the later part contributes only
      what the earlier part lacks. */
  lemma {:induction false} DedupAppend<T(!new)>(a: seq<T>, b: seq<T>)
    ensures Dedup(a + b) == Dedup(a) + Dedup(Filter(b, NotIn(a)))
    decreases |b|
  {
    if |b| == 0 {
      assert a + b == a;
    } else {
      var p := NotIn(a);
      var L := Last(b);
      assert Init(a + b) == a + Init(b);
      assert Last(a + b) == L;
      DedupAppend(a, Init(b));
      var d := Dedup(a + Init(b));
      var fb := Filter(Init(b), p);
      assert d == Dedup(a) + Dedup(fb);
      assert Dedup(a + b) == if L in d then d else d + [L];
      if p(L) {
        assert Filter(b, p) == fb + [L];
        assert Init(fb + [L]) == fb;
        assert Last(fb + [L]) == L;
        assert Dedup(fb + [L]) == if L in Dedup(fb) then Dedup(fb) else Dedup(fb) + [L];
        assert L in d <==> L in Dedup(fb);
        if L in Dedup(fb) {
          assert Dedup(a + b) == Dedup(a) + Dedup(Filter(b, p));
        } else {
          AppendAssoc(Dedup(a), Dedup(fb), [L]);
          assert Dedup(a + b) == Dedup(a) + Dedup(Filter(b, p));
        }
      } else {
        assert Filter(b, p) == fb;
        assert L in Dedup(a);
        assert L in d;
        assert Dedup(a + b) == Dedup(a) + Dedup(Filter(b, p));
      }
    }
  }

  /** Filtering and de-duplicating one more element. */
  lemma DedupFilterSnoc<T(!new)>(xs: seq<T>, p: T -> bool, x: T)
    ensures Dedup(Filter(xs + [x], p)) ==
      var d := Dedup(Filter(xs, p));
      if p(x) && x !in d then d + [x] else d
  {
    var ys := xs + [x];
    assert Init(ys) == xs && Last(ys) == x;
    var f := Filter(xs, p);
    if p(x) {
      assert Filter(ys, p) == f + [x];
      assert Init(f + [x]) == f && Last(f + [x]) == x;
    } else {
      assert Filter(ys, p) == f;
    }
  }

  lemma {:induction false} DedupOfNoDup<T(!new)>(xs: seq<T>)
    requires NoDup(xs)
    ensures Dedup(xs) == xs
    decreases |xs|
  {
    if |xs| > 0 {
      DedupOfNoDup(Init(xs));
      assert xs == Init(xs) + [Last(xs)];
    }
  }

  lemma DedupIdempotent<T(!new)>(xs: seq<T>)
    ensures Dedup(Dedup(xs)) == Dedup(xs)
  {
    DedupOfNoDup(Dedup(xs));
  }

  // ---------------------------------------------------------------------------
  // First item per key
  // ---------------------------------------------------------------------------

  /** Some element of `xs` has key `k`. */
  predicate KeyIn<T, K(==)>(xs: seq<T>, key: T -> K, k: K) {
    exists i :: 0 <= i < |xs| && key(xs[i]) == k
  }

  /** The items of `xs` whose key is not `blank` and differs from the keys of
      all earlier items: the loop `if k and k not in seen: seen.add(k); out.append(x)`. */
  function FirstPerKey<T(==), K(==)>(xs: seq<T>, key: T -> K, blank: K): (r: seq<T>)
    ensures IsSubseq(r, xs)
    ensures forall i :: 0 <= i < |r| ==> key(r[i]) != blank
    ensures forall i, j :: 0 <= i < j < |r| ==> key(r[i]) != key(r[j])
    ensures forall i :: 0 <= i < |xs| && key(xs[i]) != blank ==> KeyIn(r, key, key(xs[i]))
    decreases |xs|
  {
    if |xs| == 0 then []
    else
      var r := FirstPerKey(Init(xs), key, blank);
      var x := Last(xs);
      assert xs == Init(xs) + [x];
      if key(x) != blank && !KeyIn(r, key, key(x)) then
        SubseqBoth(r, Init(xs), x);
        var r' := r + [x];
        assert forall i :: 0 <= i < |r| ==> r'[i] == r[i];
        assert forall i :: 0 <= i < |Init(xs)| && key(xs[i]) != blank ==> KeyIn(r', key, key(xs[i])) by {
          forall i | 0 <= i < |Init(xs)| && key(xs[i]) != blank ensures KeyIn(r', key, key(xs[i])) {
            assert xs[i] == Init(xs)[i];
            var j :| 0 <= j < |r| && key(r[j]) == key(xs[i]);
            assert r'[j] == r[j];
          }
        }
        assert KeyIn(r', key, key(x)) by { assert r'[|r|] == x; }
        r'
      else
        SubseqSnoc(r, Init(xs), x);
        assert forall i :: 0 <= i < |Init(xs)| ==> xs[i] == Init(xs)[i];
        r
  }

  /** The first item carrying each non-blank key is the one kept. */
  lemma {:induction false} FirstPerKeyKeepsFirst<T, K>(xs: seq<T>, key: T -> K, blank: K, i: nat)
    requires i < |xs| && key(xs[i]) != blank
    requires forall j :: 0 <= j < i ==> key(xs[j]) != key(xs[i])
    ensures xs[i] in FirstPerKey(xs, key, blank)
    decreases |xs|
  {
    var init := Init(xs);
    var r := FirstPerKey(init, key, blank);
    var x := Last(xs);
    assert xs == init + [x];
    if i < |init| {
      assert init[i] == xs[i];
      forall j | 0 <= j < i ensures key(init[j]) != key(init[i]) {
        assert init[j] == xs[j];
      }
      FirstPerKeyKeepsFirst(init, key, blank, i);
      assert FirstPerKey(xs, key, blank) == if key(x) != blank && !KeyIn(r, key, key(x)) then r + [x] else r;
    } else {
      SubseqMembers(r, init);
      assert !KeyIn(r, key, key(xs[i])) by {
        forall k | 0 <= k < |r| ensures key(r[k]) != key(xs[i]) {
          assert r[k] in init;
          var j :| 0 <= j < |init| && init[j] == r[k];
          assert xs[j] == init[j];
        }
      }
      assert xs[i] == x;
      assert FirstPerKey(xs, key, blank) == r + [x];
    }
  }

  // ---------------------------------------------------------------------------
  // Code-point order on strings and sorting of string sets
  // ---------------------------------------------------------------------------

  /** Python's `<` on `str`: lexicographic by code point, a proper prefix first. */
  predicate LexLess(a: string, b: string)
    decreases |a|
  {
    if |a| == 0 then |b| > 0
    else if |b| == 0 then false
    else if a[0] != b[0] then a[0] < b[0]
    else LexLess(a[1..], b[1..])
  }

  lemma {:induction false} LexIrreflexive(a: string)
    ensures !LexLess(a, a)
    decreases |a|
  {
    if |a| > 0 {
      LexIrreflexive(a[1..]);
    }
  }

  lemma {:induction false} LexTransitive(a: string, b: string, c: string)
    requires LexLess(a, b) && LexLess(b, c)
    ensures LexLess(a, c)
    decreases |a|
  {
    if |a| > 0 && a[0] == b[0] && b[0] == c[0] {
      LexTransitive(a[1..], b[1..], c[1..]);
    }
  }

  lemma {:induction false} LexTotal(a: string, b: string)
    requires a != b
    ensures LexLess(a, b) || LexLess(b, a)
    decreases |a|
  {
    if |a| > 0 && |b| > 0 && a[0] == b[0] {
      assert a == [a[0]] + a[1..];
      assert b == [b[0]] + b[1..];
      LexTotal(a[1..], b[1..]);
    }
  }

  lemma {:induction false} LexAsymmetric(a: string, b: string)
    requires LexLess(a, b)
    ensures !LexLess(b, a)
  {
    if LexLess(b, a) {
      LexTransitive(a, b, a);
      LexIrreflexive(a);
    }
  }

  predicate StrictlySorted(xs: seq<string>) {
    forall i, j :: 0 <= i < j < |xs| ==> LexLess(xs[i], xs[j])
  }

  /** Insert `x` into a strictly sorted list unless it is already there. */
  function InsertSorted(x: string, s: seq<string>): (r: seq<string>)
    requires StrictlySorted(s)
    ensures StrictlySorted(r)
    ensures forall y :: y in r <==> y in s || y == x
    decreases |s|
  {
    if |s| == 0 then [x]
    else if x == s[0] then s
    else if LexLess(x, s[0]) then
      forall j | 0 <= j < |s| ensures LexLess(x, s[j]) {
        if j > 0 {
          LexTransitive(x, s[0], s[j]);
        }
      }
      [x] + s
    else
      LexTotal(x, s[0]);
      var rest := InsertSorted(x, s[1..]);
      assert forall y :: y in s[1..] ==> LexLess(s[0], y) by {
        forall y | y in s[1..] ensures LexLess(s[0], y) {
          var k :| 0 <= k < |s[1..]| && s[1..][k] == y;
          assert s[k + 1] == y;
        }
      }
      assert forall y :: y in s <==> y == s[0] || y in s[1..] by {
        assert s == [s[0]] + s[1..];
      }
      [s[0]] + rest
  }

  /** `sorted(set(xs))`: the distinct elements of `xs` in code-point order. */
  function SortedOf(xs: seq<string>): (r: seq<string>)
    ensures StrictlySorted(r)
    ensures forall y :: y in r <==> y in xs
    decreases |xs|
  {
    if |xs| == 0 then []
    else
      assert xs == Init(xs) + [Last(xs)];
      InsertSorted(Last(xs), SortedOf(Init(xs)))
  }

  lemma StrictlySortedNoDup(xs: seq<string>)
    requires StrictlySorted(xs)
    ensures NoDup(xs)
  {
    forall i, j | 0 <= i < j < |xs| ensures xs[i] != xs[j] {
      if xs[i] == xs[j] {
        LexIrreflexive(xs[i]);
      }
    }
  }

  /** A set of strings has exactly one strictly sorted listing, so `sorted()`
      does not depend on the order in which the set is enumerated. */
  lemma {:induction false} SortedUnique(a: seq<string>, b: seq<string>)
    requires StrictlySorted(a) && StrictlySorted(b)
    requires forall y :: y in a <==> y in b
    ensures a == b
    decreases |a|
  {
    if |b| > 0 {
      assert b[0] in b;
    }
    if |a| == 0 {
    } else {
      assert a[0] in a;
      assert |b| > 0;
      assert b[0] in b;
      if a[0] != b[0] {
        var k :| 0 <= k < |b| && b[k] == a[0];
        var m :| 0 <= m < |a| && a[m] == b[0];
        assert LexLess(b[0], a[0]);
        assert LexLess(a[0], b[0]);
        LexAsymmetric(a[0], b[0]);
        assert false;
      }
      StrictlySortedNoDup(a);
      StrictlySortedNoDup(b);
      forall y ensures y in a[1..] <==> y in b[1..] {
        if y in a[1..] {
          var k :| 0 <= k < |a[1..]| && a[1..][k] == y;
          assert a[k + 1] == y && y != a[0];
          assert y in b;
          assert b == [b[0]] + b[1..];
        }
        if y in b[1..] {
          var k :| 0 <= k < |b[1..]| && b[1..][k] == y;
          assert b[k + 1] == y && y != b[0];
          assert y in a;
          assert a == [a[0]] + a[1..];
        }
      }
      SortedUnique(a[1..], b[1..]);
      assert a == [a[0]] + a[1..];
      assert b == [b[0]] + b[1..];
    }
  }

  lemma SortedOfSorted(xs: seq<string>)
    requires StrictlySorted(xs)
    ensures SortedOf(xs) == xs
  {
    SortedUnique(SortedOf(xs), xs);
  }

  // ---------------------------------------------------------------------------
  // Stable sort by an integer key
  // ---------------------------------------------------------------------------

  predicate SortedByKey<T>(xs: seq<T>, key: T -> int) {
    forall i, j :: 0 <= i < j < |xs| ==> key(xs[i]) <= key(xs[j])
  }

  /** Place `x` after every element whose key is not larger than its own. */
  function InsertByKey<T>(x: T, s: seq<T>, key: T -> int): (r: seq<T>)
    requires SortedByKey(s, key)
    ensures SortedByKey(r, key)
    ensures multiset(r) == multiset(s) + multiset{x}
    ensures |r| == |s| + 1
    decreases |s|
  {
    if |s| == 0 || key(Last(s)) <= key(x) then
      assert forall i :: 0 <= i < |s| ==> key(s[i]) <= key(x) by {
        forall i | 0 <= i < |s| ensures key(s[i]) <= key(x) {
          assert key(s[i]) <= key(s[|s| - 1]);
        }
      }
      SortedSnoc(s, x, key);
      s + [x]
    else
      var init, last := Init(s), Last(s);
      assert s == init + [last];
      var r := InsertByKey(x, init, key);
      assert forall y :: y in init ==> key(y) <= key(last) by {
        forall y | y in init ensures key(y) <= key(last) {
          var k :| 0 <= k < |init| && init[k] == y;
          assert s[k] == y;
        }
      }
      BoundedByLast(r, init, x, last, key);
      SortedSnoc(r, last, key);
      r + [last]
  }

  /** Appending an element whose key bounds every key keeps the order. */
  lemma SortedSnoc<T>(s: seq<T>, x: T, key: T -> int)
    requires SortedByKey(s, key)
    requires forall i :: 0 <= i < |s| ==> key(s[i]) <= key(x)
    ensures SortedByKey(s + [x], key)
  {
    forall i, j | 0 <= i < j < |s| + 1 ensures key((s + [x])[i]) <= key((s + [x])[j]) {
      if j == |s| {
        assert key(s[i]) <= key(x);
      } else {
        assert (s + [x])[i] == s[i] && (s + [x])[j] == s[j];
      }
    }
  }

  /** A rearrangement of `init` plus `x` is bounded by what bounds both. */
  lemma BoundedByLast<T>(r: seq<T>, init: seq<T>, x: T, last: T, key: T -> int)
    requires multiset(r) == multiset(init) + multiset{x}
    requires forall y :: y in init ==> key(y) <= key(last)
    requires key(x) <= key(last)
    ensures forall i :: 0 <= i < |r| ==> key(r[i]) <= key(last)
  {
    forall i | 0 <= i < |r| ensures key(r[i]) <= key(last) {
      assert r[i] in multiset(r);
      if r[i] != x {
        assert r[i] in multiset(init);
      }
    }
  }

  /** `list.sort(key=key)`: ordered by key, equal keys in their original order. */
  function SortByKey<T>(xs: seq<T>, key: T -> int): (r: seq<T>)
    ensures SortedByKey(r, key)
    ensures multiset(r) == multiset(xs)
    ensures |r| == |xs|
    decreases |xs|
  {
    if |xs| == 0 then []
    else
      assert xs == Init(xs) + [Last(xs)];
      InsertByKey(Last(xs), SortByKey(Init(xs), key), key)
  }

  /** The first element holding the smallest key. */
  function FirstMin<T>(xs: seq<T>, key: T -> int): (r: T)
    requires |xs| > 0
    ensures r in xs
    ensures forall y :: y in xs ==> key(r) <= key(y)
    decreases |xs|
  {
    if |xs| == 1 then xs[0]
    else
      var m := FirstMin(Init(xs), key);
      assert xs == Init(xs) + [Last(xs)];
      if key(Last(xs)) < key(m) then Last(xs) else m
  }

  lemma {:induction false} InsertByKeyHead<T>(x: T, s: seq<T>, key: T -> int)
    requires SortedByKey(s, key) && |s| > 0
    ensures InsertByKey(x, s, key)[0] == if key(s[0]) <= key(x) then s[0] else x
    decreases |s|
  {
    if key(Last(s)) > key(x) && |s| > 1 {
      InsertByKeyHead(x, Init(s), key);
    }
  }

  /** Stability at the front: the sort puts first the earliest element among
      those with the smallest key. */
  lemma {:induction false} SortByKeyHead<T>(xs: seq<T>, key: T -> int)
    requires |xs| > 0
    ensures SortByKey(xs, key)[0] == FirstMin(xs, key)
    decreases |xs|
  {
    if |xs| > 1 {
      SortByKeyHead(Init(xs), key);
      InsertByKeyHead(Last(xs), SortByKey(Init(xs), key), key);
    }
  }

  // ---------------------------------------------------------------------------
  // First match
  // ---------------------------------------------------------------------------

  /** The position of the first element passing `p`, or `|xs|` when none does. */
  function FirstIndex<T>(xs: seq<T>, p: T -> bool): (k: nat)
    ensures k <= |xs|
    ensures forall j :: 0 <= j < k ==> !p(xs[j])
    ensures k < |xs| ==> p(xs[k])
  {
    if |xs| == 0 then 0
    else if p(xs[0]) then 0
    else 1 + FirstIndex(xs[1..], p)
  }

  /** The values `f` yields over `xs`, in order, skipping the elements it
      yields nothing for. */
  function FilterMap<T, U>(xs: seq<T>, f: T -> Option<U>): (r: seq<U>)
    ensures |r| <= |xs|
    decreases |xs|
  {
    if |xs| == 0 then []
    else FilterMap(Init(xs), f) + match f(Last(xs)) case Some(y) => [y] case None => []
  }

  lemma {:induction false} FilterMapMembers<T, U>(xs: seq<T>, f: T -> Option<U>, y: U)
    ensures y in FilterMap(xs, f) <==> exists i :: 0 <= i < |xs| && f(xs[i]) == Some(y)
    decreases |xs|
  {
    if |xs| > 0 {
      var init := Init(xs);
      FilterMapMembers(init, f, y);
      assert forall i :: 0 <= i < |init| ==> init[i] == xs[i];
      if exists i :: 0 <= i < |xs| && f(xs[i]) == Some(y) {
        var i :| 0 <= i < |xs| && f(xs[i]) == Some(y);
        if i == |xs| - 1 {
          assert f(Last(xs)) == Some(y);
        }
      }
    }
  }

  /** `FilterMap` works element by element: it distributes over concatenation. */
  lemma {:induction false} FilterMapAppend<T, U>(a: seq<T>, b: seq<T>, f: T -> Option<U>)
    ensures FilterMap(a + b, f) == FilterMap(a, f) + FilterMap(b, f)
    decreases |b|
  {
    if |b| == 0 {
      assert a + b == a;
    } else {
      assert Init(a + b) == a + Init(b);
      assert Last(a + b) == Last(b);
      FilterMapAppend(a, Init(b), f);
    }
  }

  /** The positions of the elements `f` yields a value for, in increasing order. */
  function Positions<T, U>(xs: seq<T>, f: T -> Option<U>): (r: seq<nat>)
    ensures forall k :: 0 <= k < |r| ==> r[k] < |xs|
    ensures forall k, l :: 0 <= k < l < |r| ==> r[k] < r[l]
    decreases |xs|
  {
    if |xs| == 0 then []
    else Positions(Init(xs), f) + (if f(Last(xs)).Some? then [|xs| - 1] else [])
  }

  /** `FilterMap` lists, one for one and in order, the values at exactly the
      positions where `f` yields one. */
  lemma {:induction false} FilterMapPositions<T, U>(xs: seq<T>, f: T -> Option<U>)
    ensures |Positions(xs, f)| == |FilterMap(xs, f)|
    ensures forall k :: 0 <= k < |Positions(xs, f)| ==>
      f(xs[Positions(xs, f)[k]]) == Some(FilterMap(xs, f)[k])
    ensures forall i :: 0 <= i < |xs| ==> (i in Positions(xs, f) <==> f(xs[i]).Some?)
    decreases |xs|
  {
    if |xs| > 0 {
      var init := Init(xs);
      FilterMapPositions(init, f);
      assert forall i :: 0 <= i < |init| ==> init[i] == xs[i];
      var p, q := Positions(init, f), FilterMap(init, f);
      assert forall k :: 0 <= k < |p| ==> Positions(xs, f)[k] == p[k] && FilterMap(xs, f)[k] == q[k];
    }
  }

  /** When `f` yields a value for every element, the results are those values. */
  lemma {:induction false} FilterMapAllSome<T, U>(xs: seq<T>, f: T -> Option<U>, ys: seq<U>)
    requires |xs| == |ys| && forall i :: 0 <= i < |xs| ==> f(xs[i]) == Some(ys[i])
    ensures FilterMap(xs, f) == ys
    decreases |xs|
  {
    if |xs| > 0 {
      FilterMapAllSome(Init(xs), f, Init(ys));
      assert f(Last(xs)) == Some(Last(ys));
      assert ys == Init(ys) + [Last(ys)];
    }
  }

  // ---------------------------------------------------------------------------
  // Counting
  // ---------------------------------------------------------------------------

  /** The number of occurrences of each key: `counts[k] = counts.get(k, 0) + 1`
      over the keys in order. */
  function Tally<K(!new)>(keys: seq<K>): (r: map<K, nat>)
    ensures forall k :: k in r <==> k in keys
    ensures forall k :: k in r ==> r[k] == multiset(keys)[k]
    decreases |keys|
  {
    if |keys| == 0 then map[]
    else
      var m := Tally(Init(keys));
      var k := Last(keys);
      assert keys == Init(keys) + [k];
      assert multiset(keys) == multiset(Init(keys)) + multiset{k};
      m[k := (if k in m then m[k] else 0) + 1]
  }

  /** The sum of `w` over the first `n` pairs of `xs` and `ys`, taken
      position by position. */
  function SumPairs<T>(xs: seq<T>, ys: seq<T>, n: nat, w: (T, T) -> nat): nat
    requires n <= |xs| && n <= |ys|
  {
    if n == 0 then 0 else SumPairs(xs, ys, n - 1, w) + w(xs[n - 1], ys[n - 1])
  }

  /** The sum over a prefix reads only that prefix. */
  lemma {:induction false} SumPairsPrefix<T>(xs: seq<T>, ys: seq<T>, zs: seq<T>, n: nat, w: (T, T) -> nat)
    requires n <= |xs| && n <= |ys| && n <= |zs|
    requires forall i :: 0 <= i < n ==> ys[i] == zs[i]
    ensures SumPairs(xs, ys, n, w) == SumPairs(xs, zs, n, w)
  {
    if n > 0 {
      SumPairsPrefix(xs, ys, zs, n - 1, w);
    }
  }

  /** The number of elements satisfying `p` (`mask.sum()`). */
  function Count<T>(xs: seq<T>, p: T -> bool): (n: nat)
    ensures n <= |xs|
    decreases |xs|
  {
    if |xs| == 0 then 0 else Count(Init(xs), p) + (if p(Last(xs)) then 1 else 0)
  }

  lemma CountStep<T>(xs: seq<T>, p: T -> bool, i: nat)
    requires i < |xs|
    ensures Count(xs[..i + 1], p) == Count(xs[..i], p) + (if p(xs[i]) then 1 else 0)
  {
    assert Init(xs[..i + 1]) == xs[..i];
  }

  lemma {:induction false} CountPrefixMonotone<T>(xs: seq<T>, p: T -> bool, i: nat, j: nat)
    requires i <= j <= |xs|
    ensures Count(xs[..i], p) <= Count(xs[..j], p)
    decreases j - i
  {
    if i < j {
      CountPrefixMonotone(xs, p, i, j - 1);
      CountStep(xs, p, j - 1);
    }
  }

  lemma NoDupAppend<T>(a: seq<T>, b: seq<T>)
    requires NoDup(a) && NoDup(b)
    requires forall x :: x in b ==> x !in a
    ensures NoDup(a + b)
  {
    forall i, j | 0 <= i < j < |a + b| ensures (a + b)[i] != (a + b)[j] {
      if i < |a| && j >= |a| {
        assert (a + b)[j] == b[j - |a|];
        assert b[j - |a|] in b;
      }
    }
  }
}

=== FILE: strings.dfy ===
/**
 * Text primitives of the Python runtime the system relies on: `str.strip`,
 * `str.upper`/`str.lower`/`str.title` (ASCII letters), `str.split` on one
 * character, `str.join`, substring tests, `str.replace`, `int()` on text and
 * decimal rendering with `{:02d}` padding.
 */
module Strings {
  import opened Wrappers

  // ---------------------------------------------------------------------------
  // Whitespace and trimming
  // ---------------------------------------------------------------------------

  /** The characters `str.strip()` removes: ASCII whitespace, the separators
      U+001C..U+001F, NEL and NO-BREAK SPACE. */
  predicate IsSpace(c: char) {
    c == ' ' || ('\t' <= c <= '\r') || ('\U{1C}' <= c <= '\U{1F}') || c == '\U{85}' || c == '\U{A0}'
  }

  predicate IsTrimmed(s: string) {
    |s| == 0 || (!IsSpace(s[0]) && !IsSpace(s[|s| - 1]))
  }

  predicate AllSpace(s: string) {
    forall i :: 0 <= i < |s| ==> IsSpace(s[i])
  }

  /** `s.lstrip()`. */
  function TrimLeft(s: string): (r: string)
    decreases |s|
  {
    if |s| > 0 && IsSpace(s[0]) then TrimLeft(s[1..]) else s
  }

  /** `s.rstrip()`. */
  function TrimRight(s: string): (r: string)
    decreases |s|
  {
    if |s| > 0 && IsSpace(s[|s| - 1]) then TrimRight(s[..|s| - 1]) else s
  }

  /** `lstrip` drops a run of spaces from the front and stops at a non-space. */
  lemma {:induction false} TrimLeftFacts(s: string)
    ensures |TrimLeft(s)| <= |s| && TrimLeft(s) == s[|s| - |TrimLeft(s)|..]
    ensures |TrimLeft(s)| > 0 ==> !IsSpace(TrimLeft(s)[0])
    ensures AllSpace(s[..|s| - |TrimLeft(s)|])
    decreases |s|
  {
    if |s| > 0 && IsSpace(s[0]) {
      TrimLeftFacts(s[1..]);
      var r := TrimLeft(s[1..]);
      assert s[..|s| - |r|] == [s[0]] + s[1..][..|s| - 1 - |r|];
    }
  }

  /** `rstrip` drops a run of spaces from the back and stops at a non-space. */
  lemma {:induction false} TrimRightFacts(s: string)
    ensures |TrimRight(s)| <= |s| && TrimRight(s) == s[..|TrimRight(s)|]
    ensures |TrimRight(s)| > 0 ==> !IsSpace(TrimRight(s)[|TrimRight(s)| - 1])
    ensures AllSpace(s[|TrimRight(s)|..])
    decreases |s|
  {
    if |s| > 0 && IsSpace(s[|s| - 1]) {
      TrimRightFacts(s[..|s| - 1]);
      var r := TrimRight(s[..|s| - 1]);
      assert s[|r|..] == s[..|s| - 1][|r|..] + [s[|s| - 1]];
    }
  }

  /** Python's `s.strip()`. */
  function Trim(s: string): (r: string)
    ensures IsTrimmed(r)
    ensures |r| <= |s|
  {
    TrimLeftFacts(s);
    TrimRightFacts(TrimLeft(s));
    TrimRight(TrimLeft(s))
  }

  /** Where the stripped text starts: the number of leading spaces. */
  function TrimStart(s: string): (a: nat)
    ensures a <= |s|
  {
    TrimLeftFacts(s);
    |s| - |TrimLeft(s)|
  }

  /** The stripped text is a contiguous block of the original. */
  lemma TrimIsSlice(s: string)
    ensures TrimStart(s) + |Trim(s)| <= |s|
    ensures Trim(s) == s[TrimStart(s)..TrimStart(s) + |Trim(s)|]
  {
    var l := TrimLeft(s);
    TrimLeftFacts(s);
    TrimRightFacts(l);
  }

  /** Stripping leaves nothing exactly when the text is all whitespace. */
  lemma TrimEmpty(s: string)
    ensures |Trim(s)| == 0 <==> AllSpace(s)
  {
    var l := TrimLeft(s);
    TrimLeftFacts(s);
    TrimRightFacts(l);
    if |Trim(s)| == 0 {
      assert l[0..] == l;
      assert s == s[..|s| - |l|] + l;
    }
  }

  lemma {:induction false} TrimOfTrimmed(s: string)
    requires IsTrimmed(s)
    ensures Trim(s) == s
  {
    assert TrimLeft(s) == s;
    assert TrimRight(s) == s;
  }

  lemma TrimIdempotent(s: string)
    ensures Trim(Trim(s)) == Trim(s)
  {
    TrimOfTrimmed(Trim(s));
  }

  // ---------------------------------------------------------------------------
  // Letter case (ASCII letters only)
  // ---------------------------------------------------------------------------

  predicate IsLowerLetter(c: char) { 'a' <= c <= 'z' }
  predicate IsUpperLetter(c: char) { 'A' <= c <= 'Z' }
  predicate IsLetter(c: char) { IsLowerLetter(c) || IsUpperLetter(c) }

  function UpperChar(c: char): (r: char)
    ensures !IsLowerLetter(r)
    ensures IsSpace(r) <==> IsSpace(c)
  {
    if IsLowerLetter(c) then (c as int - 32) as char else c
  }

  function LowerChar(c: char): (r: char)
    ensures !IsUpperLetter(r)
    ensures IsSpace(r) <==> IsSpace(c)
  {
    if IsUpperLetter(c) then (c as int + 32) as char else c
  }

  /** `s.upper()`. */
  function Upper(s: string): (r: string)
    ensures |r| == |s|
  {
    seq(|s|, i requires 0 <= i < |s| => UpperChar(s[i]))
  }

  /** `s.lower()`. */
  function Lower(s: string): (r: string)
    ensures |r| == |s|
  {
    seq(|s|, i requires 0 <= i < |s| => LowerChar(s[i]))
  }

  predicate NoLower(s: string) {
    forall i :: 0 <= i < |s| ==> !IsLowerLetter(s[i])
  }

  lemma UpperHasNoLower(s: string)
    ensures NoLower(Upper(s))
  {
  }

  lemma UpperOfNoLower(s: string)
    requires NoLower(s)
    ensures Upper(s) == s
  {
  }

  /** Case mapping keeps spaces where they are, so it commutes with stripping. */
  lemma UpperTrimmed(s: string)
    requires IsTrimmed(s)
    ensures IsTrimmed(Upper(s))
  {
  }

  lemma LowerTrimmed(s: string)
    requires IsTrimmed(s)
    ensures IsTrimmed(Lower(s))
  {
  }

  /** Stripping only removes characters, so a text without lower-case
      letters keeps none. */
  lemma TrimKeepsNoLower(s: string)
    requires NoLower(s)
    ensures NoLower(Trim(s))
  {
    TrimIsSlice(s);
    var a := TrimStart(s);
    forall i | 0 <= i < |Trim(s)| ensures !IsLowerLetter(Trim(s)[i]) {
      assert Trim(s)[i] == s[a + i];
    }
  }

  /** The usual normalised key of the source: `str(x).strip().upper()`. */
  function Key(s: string): (r: string)
    ensures IsTrimmed(r)
    ensures |r| == |Trim(s)|
  {
    UpperTrimmed(Trim(s));
    Upper(Trim(s))
  }

  /** `str(x).strip().lower()`. */
  function LowKey(s: string): (r: string)
    ensures IsTrimmed(r)
    ensures |r| == |Trim(s)|
  {
    LowerTrimmed(Trim(s));
    Lower(Trim(s))
  }

  /** A key holds no lower-case letter, and is empty exactly for blank text. */
  lemma KeyFacts(s: string)
    ensures NoLower(Key(s))
    ensures |Key(s)| == 0 <==> AllSpace(s)
  {
    UpperHasNoLower(Trim(s));
    TrimEmpty(s);
  }

  lemma LowKeyEmpty(s: string)
    ensures |LowKey(s)| == 0 <==> AllSpace(s)
  {
    TrimEmpty(s);
  }

  lemma LowerOfNoUpper(s: string)
    requires forall i :: 0 <= i < |s| ==> !IsUpperLetter(s[i])
    ensures Lower(s) == s
  {
  }

  lemma LowKeyOfLowKey(s: string)
    ensures LowKey(LowKey(s)) == LowKey(s)
  {
    var k := LowKey(s);
    TrimOfTrimmed(k);
    LowerOfNoUpper(k);
  }

  lemma KeyOfKey(s: string)
    ensures Key(Key(s)) == Key(s)
  {
    var k := Key(s);
    KeyFacts(s);
    TrimOfTrimmed(k);
    UpperOfNoLower(k);
  }

  /** `s.title()`: a letter is upper-cased when the character before it is not
      a letter and lower-cased otherwise. */
  function TitleFrom(s: string, prevCased: bool): (r: string)
    ensures |r| == |s|
  {
    if |s| == 0 then ""
    else
      var c := s[0];
      var cased := IsLetter(c);
      [if !cased then c else if prevCased then LowerChar(c) else UpperChar(c)] + TitleFrom(s[1..], cased)
  }

  function Title(s: string): (r: string)
    ensures |r| == |s|
  {
    TitleFrom(s, false)
  }

  // ---------------------------------------------------------------------------
  // Splitting, joining, searching, replacing
  // ---------------------------------------------------------------------------

  /** `s.split(sep)` for a one-character separator: never an empty list. */
  function Split(s: string, sep: char): (r: seq<string>)
    ensures |r| >= 1
    ensures forall i :: 0 <= i < |r| ==> sep !in r[i]
    decreases |s|
  {
    if |s| == 0 then [""]
    else if s[0] == sep then [""] + Split(s[1..], sep)
    else
      var rest := Split(s[1..], sep);
      [[s[0]] + rest[0]] + rest[1..]
  }

  /** `sep.join(parts)`. */
  function Join(parts: seq<string>, sep: string): (r: string)
    decreases |parts|
  {
    if |parts| == 0 then ""
    else if |parts| == 1 then parts[0]
    else parts[0] + sep + Join(parts[1..], sep)
  }

  lemma {:induction false} SplitPrefix(p: string, rest: string, sep: char)
    requires sep !in p
    ensures Split(p + [sep] + rest, sep) == [p] + Split(rest, sep)
    decreases |p|
  {
    if |p| == 0 {
      assert p + [sep] + rest == [sep] + rest;
      assert ([sep] + rest)[1..] == rest;
    } else {
      var s := p + [sep] + rest;
      assert s[0] == p[0];
      assert s[1..] == p[1..] + [sep] + rest;
      SplitPrefix(p[1..], rest, sep);
      assert [p[0]] + p[1..] == p;
    }
  }

  lemma {:induction false} SplitOfPlain(p: string, sep: char)
    requires sep !in p
    ensures Split(p, sep) == [p]
    decreases |p|
  {
    if |p| > 0 {
      SplitOfPlain(p[1..], sep);
      assert [p[0]] + p[1..] == p;
    }
  }

  /** Splitting what was joined with the same separator gives the parts back. */
  lemma {:induction false} SplitJoin(parts: seq<string>, sep: char)
    requires |parts| >= 1
    requires forall i :: 0 <= i < |parts| ==> sep !in parts[i]
    ensures Split(Join(parts, [sep]), sep) == parts
    decreases |parts|
  {
    if |parts| == 1 {
      SplitOfPlain(parts[0], sep);
    } else {
      SplitJoin(parts[1..], sep);
      SplitPrefix(parts[0], Join(parts[1..], [sep]), sep);
      assert [parts[0]] + parts[1..] == parts;
    }
  }

  /** The first character of a join of non-empty parts is the first part's,
      the last the last part's. */
  lemma {:induction false} JoinEnds(parts: seq<string>, sep: string)
    requires |parts| >= 1 && forall i :: 0 <= i < |parts| ==> |parts[i]| > 0
    ensures |Join(parts, sep)| >= |parts[0]|
    ensures Join(parts, sep)[0] == parts[0][0]
    ensures Join(parts, sep)[|Join(parts, sep)| - 1] == parts[|parts| - 1][|parts[|parts| - 1]| - 1]
    decreases |parts|
  {
    if |parts| > 1 {
      JoinEnds(parts[1..], sep);
      assert parts[1..][|parts| - 2] == parts[|parts| - 1];
    }
  }

  /** `t in s` for strings: `t` occurs in `s` as a contiguous block. */
  predicate Contains(s: string, t: string)
    decreases |s|
  {
    |t| <= |s| && (s[..|t|] == t || (|s| > 0 && Contains(s[1..], t)))
  }

  /** `s.replace(pat, rep)`: every non-overlapping occurrence, left to right. */
  function Replace(s: string, pat: string, rep: string): (r: string)
    requires |pat| > 0
    decreases |s|
  {
    if |s| < |pat| then s
    else if s[..|pat|] == pat then rep + Replace(s[|pat|..], pat, rep)
    else [s[0]] + Replace(s[1..], pat, rep)
  }

  lemma {:induction false} ReplaceAbsent(s: string, pat: string, rep: string)
    requires |pat| > 0
    requires !Contains(s, pat)
    ensures Replace(s, pat, rep) == s
    decreases |s|
  {
    if |s| >= |pat| {
      assert s[..|pat|] != pat;
      ReplaceAbsent(s[1..], pat, rep);
      assert [s[0]] + s[1..] == s;
    }
  }

  /** A character that cannot start `pat`, put in front of text free of
      `pat`, leaves the text free of it. */
  lemma ReplaceAbsentAfter(c: char, s: string, pat: string, rep: string)
    requires |pat| > 0 && pat[0] != c
    requires !Contains(s, pat)
    ensures Replace([c] + s, pat, rep) == [c] + s
  {
    var t := [c] + s;
    ReplaceAbsent(s, pat, rep);
    assert t[1..] == s;
    if |t| >= |pat| {
      assert t[..|pat|][0] == c;
    }
  }

  lemma {:induction false} ReplaceKeepsNoLower(s: string, pat: string)
    requires |pat| > 0
    requires NoLower(s)
    ensures NoLower(Replace(s, pat, ""))
    decreases |s|
  {
    if |s| >= |pat| {
      if s[..|pat|] == pat {
        ReplaceKeepsNoLower(s[|pat|..], pat);
      } else {
        ReplaceKeepsNoLower(s[1..], pat);
      }
    }
  }

  // ---------------------------------------------------------------------------
  // Decimal numbers
  // ---------------------------------------------------------------------------

  predicate IsDigit(c: char) { '0' <= c <= '9' }

  predicate AllDigits(s: string) {
    forall i :: 0 <= i < |s| ==> IsDigit(s[i])
  }

  function DigitValue(c: char): (r: nat)
    requires IsDigit(c)
    ensures r < 10
  {
    c as int - '0' as int
  }

  function DigitChar(d: nat): (c: char)
    requires d < 10
    ensures IsDigit(c) && DigitValue(c) == d
  {
    ('0' as int + d) as char
  }

  /** The value of a run of decimal digits, most significant first. */
  function DigitsValue(s: string): (r: nat)
    requires AllDigits(s)
    decreases |s|
  {
    if |s| == 0 then 0 else DigitsValue(s[..|s| - 1]) * 10 + DigitValue(s[|s| - 1])
  }

  /** Python's `int(text)`: surrounding whitespace, an optional sign and at
      least one decimal digit; anything else raises, modelled as `None`. */
  function ParseInt(s: string): Option<int> {
    ParseSigned(Trim(s))
  }

  /** The sign-and-digits grammar of `int()` once the text is stripped. */
  function ParseSigned(t: string): Option<int> {
    if |t| == 0 then None
    else if t[0] == '+' || t[0] == '-' then
      var d := t[1..];
      if |d| > 0 && AllDigits(d) then
        var v: int := DigitsValue(d);
        Some(if t[0] == '-' then -v else v)
      else None
    else if AllDigits(t) then Some(DigitsValue(t))
    else None
  }

  /** The decimal rendering of a natural number, without leading zeros. */
  function Decimal(n: nat): (r: string)
    ensures |r| >= 1 && AllDigits(r)
    ensures DigitsValue(r) == n
    ensures n < 10 <==> |r| == 1
    decreases n
  {
    if n < 10 then [DigitChar(n)]
    else
      var r := Decimal(n / 10) + [DigitChar(n % 10)];
      assert AllDigits(r);
      assert r[..|r| - 1] == Decimal(n / 10);
      assert DigitsValue(r) == DigitsValue(Decimal(n / 10)) * 10 + n % 10;
      assert n == (n / 10) * 10 + n % 10;
      r
  }

  /** `f"{n:02d}"` for a natural number. */
  function Pad2(n: nat): (r: string)
    ensures |r| >= 2 && AllDigits(r)
    ensures DigitsValue(r) == n
    ensures n < 100 ==> |r| == 2
  {
    if n < 10 then
      var r := ['0', DigitChar(n)];
      assert r[..1] == ['0'];
      assert ['0'][..0] == [];
      assert DigitsValue(['0']) == 0;
      r
    else
      assert Decimal(n) == Decimal(n / 10) + [DigitChar(n % 10)];
      Decimal(n)
  }

  lemma DigitsAreTrimmed(s: string)
    requires |s| > 0 && AllDigits(s)
    ensures IsTrimmed(s)
  {
  }

  /** `int()` reads back every digit string. */
  lemma ParseDigits(s: string)
    requires |s| > 0 && AllDigits(s)
    ensures ParseInt(s) == Some(DigitsValue(s))
  {
    DigitsAreTrimmed(s);
    TrimOfTrimmed(s);
  }
}

=== FILE: utils.dfy ===
/**
 * Shared helpers of the services: reading clock times out of loosely typed
 * cells, rendering them, blank tests, staff-name keys and order-preserving
 * de-duplication by name.
 */
module Utils {
  import opened Wrappers
  import opened Strings
  import Seqs

  /** A `datetime.time` at minute resolution. */
  datatype TimeOfDay = TimeOfDay(hour: nat, minute: nat)

  type Time = t: TimeOfDay | t.hour < 24 && t.minute < 60 witness TimeOfDay(0, 0)

  /** What a time-bearing cell may hold. */
  datatype TimeInput =
    | Null                      // None
    | Clock(t: Time)            // a datetime.time
    | Stamp(t: Time)            // a datetime; only its clock time matters
    | Text(s: string)           // a string
    | Whole(n: int)             // an int, or a float with an integral value

  function MinutesOf(t: Time): (r: nat)
    ensures r < 1440
  {
    t.hour * 60 + t.minute
  }

  function FromMinutes(m: nat): (t: Time)
    requires m < 1440
    ensures MinutesOf(t) == m
  {
    TimeOfDay(m / 60, m % 60)
  }

  lemma FromMinutesOf(t: Time)
    ensures FromMinutes(MinutesOf(t)) == t
  {
  }

  /** The `"H:M..."` branch shared by `time_to_minutes` and
      `coerce_to_time_obj`, applied to stripped, non-empty text. */
  function ClockText(st: string): (r: Option<Time>)
  {
    var parts := Split(st, ':');
    if |parts| >= 2 then
      match (ParseInt(parts[0]), ParseInt(parts[1]))
      case (Some(h), Some(m)) =>
        if 0 <= h < 24 && 0 <= m < 60 then Some(TimeOfDay(h, m)) else None
      case _ => None
    else None
  }

  /** `float(value)` followed by the hour/minute reading, for integral values. */
  function WholeMinutes(n: int): (r: Option<nat>)
    ensures r.Some? ==> r.value < 1440
  {
    if 0 <= n < 24 then Some(n * 60)
    else if 0 <= n < 1440 then Some(n)
    else None
  }

  /** The numeric fallback on text: only text `int()` accepts is modelled;
      a colon makes `float()` fail. */
  function TextNumberMinutes(s: string): (r: Option<nat>)
    ensures r.Some? ==> r.value < 1440
  {
    if ':' in s then None
    else match ParseInt(s)
      case Some(n) => WholeMinutes(n)
      case None => None
  }

  /** `time_to_minutes`: minutes since midnight, or `None`. */
  function TimeToMinutes(v: TimeInput): (r: Option<nat>)
    ensures r.Some? ==> r.value < 1440
    ensures v.Null? ==> r.None?
    ensures v.Text? && |Trim(v.s)| == 0 ==> r.None?
  {
    match v
    case Null => None
    case Clock(t) => Some(MinutesOf(t))
    case Stamp(t) => Some(MinutesOf(t))
    case Text(s) =>
      var st := Trim(s);
      if |st| == 0 then None
      else (match ClockText(st)
        case Some(t) => Some(MinutesOf(t))
        case None => TextNumberMinutes(s))
    case Whole(n) => WholeMinutes(n)
  }

  /** `coerce_to_time_obj`: a clock time, or `None`. */
  function CoerceToTime(v: TimeInput): (r: Option<Time>)
    ensures v.Null? ==> r.None?
    ensures v.Text? && |Trim(v.s)| == 0 ==> r.None?
  {
    match v
    case Null => None
    case Clock(t) => Some(t)
    case Stamp(t) => Some(t)
    case Text(s) =>
      var st := Trim(s);
      if |st| == 0 then None
      else (match ClockText(st)
        case Some(t) => Some(t)
        case None =>
          (match TimeToMinutes(v)
           case Some(m) => Some(FromMinutes(m))
           case None => None))
    case Whole(_) =>
      match TimeToMinutes(v)
      case Some(m) => Some(FromMinutes(m))
      case None => None
  }

  /** Both readers agree: a value coerces to a clock time exactly when it has
      a minute count, and then to the time with that many minutes. */
  lemma CoerceAgreesWithMinutes(v: TimeInput)
    ensures CoerceToTime(v).Some? <==> TimeToMinutes(v).Some?
    ensures CoerceToTime(v).Some? ==> MinutesOf(CoerceToTime(v).value) == TimeToMinutes(v).value
  {
  }

  /** Text that is all digits holds no separator. */
  lemma DigitsHaveNoColon(s: string)
    requires AllDigits(s)
    ensures ':' !in s
  {
    forall i | 0 <= i < |s| ensures s[i] != ':' {
      assert IsDigit(s[i]);
    }
  }

  /** The first two `':'` fields of `"H:M..."` are `H` and `M`. */
  lemma {:induction false} SplitClock(hs: string, ms: string, rest: string)
    requires AllDigits(hs) && AllDigits(ms)
    requires |rest| == 0 || rest[0] == ':'
    ensures |Split(hs + ":" + ms + rest, ':')| >= 2
    ensures Split(hs + ":" + ms + rest, ':')[0] == hs
    ensures Split(hs + ":" + ms + rest, ':')[1] == ms
  {
    DigitsHaveNoColon(hs);
    DigitsHaveNoColon(ms);
    assert hs + ":" + ms + rest == hs + [':'] + (ms + rest);
    SplitPrefix(hs, ms + rest, ':');
    if |rest| == 0 {
      assert ms + rest == ms;
      SplitOfPlain(ms, ':');
    } else {
      assert ms + rest == ms + [':'] + rest[1..];
      SplitPrefix(ms, rest[1..], ':');
    }
  }

  lemma {:induction false} ClockTextOf(hs: string, ms: string, rest: string)
    requires |hs| > 0 && AllDigits(hs) && DigitsValue(hs) < 24
    requires |ms| > 0 && AllDigits(ms) && DigitsValue(ms) < 60
    requires |rest| == 0 || rest[0] == ':'
    ensures ClockText(hs + ":" + ms + rest) == Some(TimeOfDay(DigitsValue(hs), DigitsValue(ms)))
  {
    SplitClock(hs, ms, rest);
    ParseDigits(hs);
    ParseDigits(ms);
  }

  lemma {:induction false} ClockTrimmed(hs: string, ms: string, rest: string)
    requires |hs| > 0 && AllDigits(hs) && |ms| > 0 && AllDigits(ms)
    requires |rest| == 0 || !IsSpace(rest[|rest| - 1])
    ensures Trim(hs + ":" + ms + rest) == hs + ":" + ms + rest
  {
    var s := hs + ":" + ms + rest;
    assert s[0] == hs[0];
    if |rest| == 0 {
      assert s[|s| - 1] == ms[|ms| - 1];
    } else {
      assert s[|s| - 1] == rest[|rest| - 1];
    }
    TrimOfTrimmed(s);
  }

  /** Stripped text that reads as a clock time is that time for both readers. */
  lemma {:induction false} TrimmedClockText(s: string, c: Time)
    requires |s| > 0 && Trim(s) == s && ClockText(s) == Some(c)
    ensures TimeToMinutes(Text(s)) == Some(MinutesOf(c))
    ensures CoerceToTime(Text(s)) == Some(c)
  {
  }

  /** `"H:M"` text, with any further `":..."` fields, reads as `H*60+M`. */
  lemma {:induction false} ClockTextMinutes(hs: string, ms: string, rest: string)
    requires |hs| > 0 && AllDigits(hs) && DigitsValue(hs) < 24
    requires |ms| > 0 && AllDigits(ms) && DigitsValue(ms) < 60
    requires |rest| == 0 || (rest[0] == ':' && !IsSpace(rest[|rest| - 1]))
    ensures TimeToMinutes(Text(hs + ":" + ms + rest)) == Some(MinutesOf(TimeOfDay(DigitsValue(hs), DigitsValue(ms))))
  {
    var s := hs + ":" + ms + rest;
    ClockTrimmed(hs, ms, rest);
    ClockTextOf(hs, ms, rest);
    var c: Time := TimeOfDay(DigitsValue(hs), DigitsValue(ms));
    TrimmedClockText(s, c);
  }

  /** The same text coerces to the clock time `H:M`. */
  lemma {:induction false} ClockTextTime(hs: string, ms: string, rest: string)
    requires |hs| > 0 && AllDigits(hs) && DigitsValue(hs) < 24
    requires |ms| > 0 && AllDigits(ms) && DigitsValue(ms) < 60
    requires |rest| == 0 || (rest[0] == ':' && !IsSpace(rest[|rest| - 1]))
    ensures CoerceToTime(Text(hs + ":" + ms + rest)) == Some(TimeOfDay(DigitsValue(hs), DigitsValue(ms)))
  {
    var s := hs + ":" + ms + rest;
    ClockTrimmed(hs, ms, rest);
    ClockTextOf(hs, ms, rest);
    var c: Time := TimeOfDay(DigitsValue(hs), DigitsValue(ms));
    TrimmedClockText(s, c);
    assert CoerceToTime(Text(s)) == Some(c);
  }

  /** `time_to_hhmm`: zero-padded `"HH:MM"`, or `""` for `None`. */
  function TimeToHhmm(t: Option<Time>): (r: string)
    ensures t.None? <==> r == ""
    ensures t.Some? ==> |r| == 5 && r[2] == ':'
  {
    match t
    case None => ""
    case Some(c) => Pad2(c.hour) + ":" + Pad2(c.minute)
  }

  /** Rendering and reading back a time is the identity. */
  lemma HhmmRoundTrip(t: Time)
    ensures CoerceToTime(Text(TimeToHhmm(Some(t)))) == Some(t)
    ensures TimeToMinutes(Text(TimeToHhmm(Some(t)))) == Some(MinutesOf(t))
  {
    ClockTextMinutes(Pad2(t.hour), Pad2(t.minute), "");
    ClockTextTime(Pad2(t.hour), Pad2(t.minute), "");
    assert TimeToHhmm(Some(t)) == Pad2(t.hour) + ":" + Pad2(t.minute) + "";
  }

  /** `time_to_12h`: `"h:MM AM"` / `"h:MM PM"`, or `""` for `None`. */
  function TimeTo12h(t: Option<Time>): (r: string)
    ensures t.None? <==> r == ""
  {
    match t
    case None => ""
    case Some(c) =>
      var period := if c.hour < 12 then "AM" else "PM";
      var h12: nat := if c.hour <= 12 then c.hour else c.hour - 12;
      var shown: nat := if h12 == 0 then 12 else h12;
      Decimal(shown) + ":" + Pad2(c.minute) + " " + period
  }

  /** The four hour ranges of the 12-hour clock. */
  lemma TwelveHourCases(t: Time)
    ensures t.hour == 0 ==> TimeTo12h(Some(t)) == "12:" + Pad2(t.minute) + " AM"
    ensures 1 <= t.hour <= 11 ==> TimeTo12h(Some(t)) == Decimal(t.hour) + ":" + Pad2(t.minute) + " AM"
    ensures t.hour == 12 ==> TimeTo12h(Some(t)) == "12:" + Pad2(t.minute) + " PM"
    ensures 13 <= t.hour ==> TimeTo12h(Some(t)) == Decimal(t.hour - 12) + ":" + Pad2(t.minute) + " PM"
  {
    assert Decimal(12) == Decimal(1) + [DigitChar(2)];
  }

  /** The text forms that mean "no value". */
  const BlankWords: set<string> := {"", "nan", "none", "nat"}

  /** `is_blank` on a cell given by its text rendering (`None` renders as
      `"None"`, NaN as `"nan"`, NaT as `"NaT"`). */
  predicate IsBlank(s: string) {
    LowKey(s) in BlankWords
  }

  lemma BlankCases(s: string)
    ensures AllSpace(s) ==> IsBlank(s)
    ensures IsBlank("None") && IsBlank("nan") && IsBlank("NaT")
    ensures !IsBlank(s) ==> |Trim(s)| > 0
  {
    TrimEmpty(s);
    assert Lower("None") == "none";
    assert Lower("nan") == "nan";
    assert Lower("NaT") == "nat";
    TrimOfTrimmed("None");
    TrimOfTrimmed("nan");
    TrimOfTrimmed("NaT");
  }

  /** `norm_name`: the staff lookup key, upper-cased and stripped, with the
      titles `"DR."` and then `"DR "` removed. */
  function NormName(name: string): (r: string)
    ensures IsTrimmed(r) && NoLower(r)
  {
    var up := Key(name);
    ReplaceKeepsNoLower(up, "DR.");
    ReplaceKeepsNoLower(Replace(up, "DR.", ""), "DR ");
    var stripped := Replace(Replace(up, "DR.", ""), "DR ", "");
    TrimKeepsNoLower(stripped);
    Trim(stripped)
  }

  /** A name that carries no title keeps its plain key. */
  lemma NormNameWithoutTitle(name: string)
    requires !Contains(Key(name), "DR.") && !Contains(Key(name), "DR ")
    ensures NormName(name) == Key(name)
  {
    ReplaceAbsent(Key(name), "DR.", "");
    ReplaceAbsent(Key(name), "DR ", "");
    TrimOfTrimmed(Key(name));
  }

  lemma KeyOfTitled(k: string)
    requires |k| > 0 && IsTrimmed(k) && NoLower(k)
    ensures Key("DR. " + k) == "DR. " + k
  {
    var s := "DR. " + k;
    assert IsTrimmed(s) by { assert s[|s| - 1] == k[|k| - 1]; }
    TrimOfTrimmed(s);
    assert NoLower(s) by {
      forall i | 0 <= i < |s| ensures !IsLowerLetter(s[i]) {
        if i >= 4 { assert s[i] == k[i - 4]; }
      }
    }
    UpperOfNoLower(s);
  }

  /** A `"DR. "` title in front of a title-free key is dropped again. */
  lemma NormNameDropsTitle(name: string)
    requires |Key(name)| > 0
    requires !Contains(Key(name), "DR.") && !Contains(Key(name), "DR ")
    ensures NormName("DR. " + Key(name)) == Key(name)
  {
    var k := Key(name);
    var s := "DR. " + k;
    KeyFacts(name);
    KeyOfTitled(k);
    var sk := [' '] + k;
    assert s[..3] == "DR." && s[3..] == sk;
    ReplaceAbsentAfter(' ', k, "DR.", "");
    ReplaceAbsentAfter(' ', k, "DR ", "");
    assert Replace(s, "DR.", "") == sk;
    assert sk[1..] == k;
    TrimOfTrimmed(k);
    assert TrimLeft(sk) == TrimLeft(k) == k;
  }

  /** `unique_preserve_order`: the first item of every non-blank name key. */
  function UniquePreserveOrder(items: seq<string>): (r: seq<string>)
    ensures Seqs.IsSubseq(r, items)
    ensures forall i :: 0 <= i < |r| ==> Key(r[i]) != ""
    ensures forall i, j :: 0 <= i < j < |r| ==> Key(r[i]) != Key(r[j])
    ensures forall i :: 0 <= i < |items| && Key(items[i]) != "" ==> Seqs.KeyIn(r, Key, Key(items[i]))
  {
    Seqs.FirstPerKey(items, Key, "")
  }

  /** Every first occurrence of a non-blank key is kept. */
  lemma UniqueKeepsFirst(items: seq<string>, i: nat)
    requires i < |items| && Key(items[i]) != ""
    requires forall j :: 0 <= j < i ==> Key(items[j]) != Key(items[i])
    ensures items[i] in UniquePreserveOrder(items)
  {
    Seqs.FirstPerKeyKeepsFirst(items, Key, "", i);
  }

  // ---------------------------------------------------------------------------
  // Instants
  // ---------------------------------------------------------------------------

  /** An aware `datetime`, as whole seconds since the Unix epoch. */
  type Instant = int

  /** India Standard Time is UTC+05:30. */
  const IstOffsetSeconds: int := 19800

  /** The IST wall-clock time of an instant (`now_ist().hour`, `.minute`):
      the minute of the IST day that holds the instant's second. */
  function IstClock(s: Instant): (t: Time)
    ensures 60 * MinutesOf(t) <= (s + IstOffsetSeconds) % 86400 < 60 * MinutesOf(t) + 60
  {
    var m := ((s + IstOffsetSeconds) % 86400) / 60;
    FromMinutes(m)
  }

  /** The same second of the next day reads the same clock. */
  lemma IstClockDaily(s: Instant)
    ensures IstClock(s + 86400) == IstClock(s)
  {
    assert (s + 86400 + IstOffsetSeconds) % 86400 == (s + IstOffsetSeconds) % 86400;
  }

  /** Sixty seconds later the clock shows the next minute, wrapping at
      midnight. */
  lemma IstClockMinuteStep(s: Instant)
    ensures MinutesOf(IstClock(s + 60)) == (MinutesOf(IstClock(s)) + 1) % 1440
  {
    var x := s + IstOffsetSeconds;
    var q, d := x / 86400, x % 86400;
    assert x == 86400 * q + d;
    var d' := if d + 60 < 86400 then d + 60 else d + 60 - 86400;
    ModOfDecomposed(x + 60, if d + 60 < 86400 then q else q + 1, d');
    MinuteOfStep(d, d', MinutesOf(IstClock(s)), MinutesOf(IstClock(s + 60)));
  }

  /** Minute arithmetic behind `IstClockMinuteStep`: a second-of-day that
      moves on by 60 (wrapping at midnight) moves its minute on by one. */
  lemma MinuteOfStep(d: int, d': int, m: int, m': int)
    requires 0 <= d < 86400
    requires d' == if d + 60 < 86400 then d + 60 else d + 60 - 86400
    requires 60 * m <= d < 60 * m + 60 && 60 * m' <= d' < 60 * m' + 60
    ensures m' == (m + 1) % 1440
  {
    if d + 60 < 86400 {
      assert m' == m + 1 && m + 1 < 1440;
    } else {
      assert m == 1439 && m' == 0;
    }
  }

  lemma ModOfDecomposed(x: int, q: int, d: int)
    requires x == 86400 * q + d && 0 <= d < 86400
    ensures x % 86400 == d
  {
  }

  /** UTC midnight is half past five in the morning in IST. */
  lemma IstClockOfUtcMidnight(days: int)
    ensures IstClock(86400 * days) == TimeOfDay(5, 30)
  {
    assert (86400 * days + IstOffsetSeconds) % 86400 == 19800;
  }

  /** `parse_iso_ts` on a text value: nothing for the empty text, else the
      stripped text handed to `fromIso` (`datetime.fromisoformat`, a naive
      result read as IST), which is not part of this model. */
  function ParseIsoTs(fromIso: string -> Option<Instant>, value: string): (r: Option<Instant>)
    ensures value == "" ==> r.None?
    ensures r.Some? ==> exists t :: IsTrimmed(t) && fromIso(t) == r
  {
    if value == "" then None else fromIso(Trim(value))
  }

  /** Surrounding spaces do not matter to a non-blank value. */
  lemma ParseIsoTsStrips(fromIso: string -> Option<Instant>, value: string)
    requires Trim(value) != ""
    ensures ParseIsoTs(fromIso, value) == ParseIsoTs(fromIso, Trim(value))
  {
    TrimIdempotent(value);
  }

  /** Two values that strip alike parse alike, unless one is empty. */
  lemma ParseIsoTsSameStripped(fromIso: string -> Option<Instant>, a: string, b: string)
    requires a != "" && b != "" && Trim(a) == Trim(b)
    ensures ParseIsoTs(fromIso, a) == ParseIsoTs(fromIso, b)
  {
  }

  /** Spaces only are not the empty value: they reach `fromisoformat` as `""`. */
  lemma ParseIsoTsOfSpaces(fromIso: string -> Option<Instant>, value: string)
    requires value != "" && AllSpace(value)
    ensures ParseIsoTs(fromIso, value) == fromIso("")
  {
    TrimEmpty(value);
  }
}

=== FILE: wrappers.dfy ===
/** The failure-compatible Option type used wherever the source returns `None`. */
module Wrappers {

  datatype Option<+T> = None | Some(value: T) {

    predicate IsFailure() {
      None?
    }

    function PropagateFailure<U>(): Option<U>
      requires None?
    {
      None
    }

    function Extract(): T
      requires Some?
    {
      value
    }

    /** The value held, or `default` when there is none. */
    function GetOr(default: T): T {
      match this
      case Some(v) => v
      case None => default
    }
  }
}
